=== FILE: README.md ===
# microbe_masst core, modelled in Dafny

microbeMASST and its sibling MASST searches report where the mass spectra
matching a query were found, on ontology trees: the NCBI taxonomy, a
microbiome sample-type tree, a personal care product tree.  This project
models the deterministic core of that pipeline and proves properties of
it:

- the **tree-enrichment engine** (`OntologyExtender`, `Trees`): per-key
  data attached to the nodes of an ontology, `group_size` and
  `matched_size` rolled up the tree, `occurrence_fraction` and two-slice
  `pie_data` at every node, and the root recomputed from its direct
  children;
- the **enriched and combined trees** (`MasstTree`): the inner join of
  matches with metadata on `file_usi`, grouping by the metadata key, the
  early returns of `create_enriched_masst_tree`, and several ontologies
  merged under a synthetic `root`;
- **count preparation** (`MicrobeResults`, `SampleCounts`): the Taxa_NCBI
  counters by cleaned file path and by USI, and `group_size` recomputed
  from a metadata table, with the rows no node names;
- **offline tree building** (`MicrobiomeTree`, `MicrobiomeMetadata`,
  `PersonalCareTree`): trees from a parent-pointer table and from
  `A > B > C` category paths, and the microbiomeMASST file table;
- **identifiers and strings** (`UsiUtils`, `MasstClient`, `BundleHtml`,
  `Strs`): file-scoped USIs, path-safe names, parameter labels, local
  copies of web resources and first-occurrence placeholder substitution;
- **metadata de-duplication** (`CheckMetadata`): whitespace stripping, the
  duplicates report, and sort-then-keep-first per `file_usi`;
- the **dataset summary** (`DatasetSummary`): the pruned pre-order walk
  with depth levels and the per-file frames;
- the **match table** (`MakeTable`): visible columns, sort-column
  resolution and the link classification of `render`.

JSON documents are `Json.Value`s (null, boolean, integer, real, text,
list, object); an ontology node is `Json.Node(fields, children)`; a table
is a sequence of rows, each a map from column name to cell.  Every pass
returns a new tree rather than mutating dictionaries in place.  An
exception the Python code would raise and not catch is an `Err` of
`Results.Result`; where the code catches it and returns `None` or
`False`, the model returns that value (an `Option`, or an outcome such as
`MasstTree.EnrichOutcome`).  A table carries its column list beside its
rows, so a missing column (`KeyError`) is told apart from a null cell.
Sorting follows pandas: nulls last, numbers before text when a sort on
several columns meets both, and `TypeError` when a sort on one column
does.
Node keys are compared as text, as the source does with `str(...)`.
`occurrence_fraction` is an exact `real`.

Where the calls in `code/masst_tree.py` do not match the functions of
`code/json_ontology_extender.py` they call (keyword arguments that
`add_data_to_ontology_file` does not take, a `set_field_in_all_nodes`
that is not defined, a two-argument `add_pie_data` call), the model
follows the definitions as written: `masst_type` stamping is what the
call site and its comment say it does (`MasstTree.StampType`), and pie
data is added by the recursive one-argument function.

## Model

| member | source | states |
|---|---|---|
| Json.Add | code/json_ontology_extender.py:63 | Python's `+` on numbers: defined exactly for two numbers, their sum, an integer exactly when both are integers or booleans |
| Json.Divide | code/json_ontology_extender.py:153 | Python's `/`: defined exactly for two numbers, a float whose product with the divisor is the dividend |
| Json.OneMinus | code/json_ontology_extender.py:95 | `1.0 - f`: defined exactly for a number, a float adding up to 1 with it |
| Strs.Find | code/usi_utils.py:12 | the first occurrence, none exactly when the text does not contain the pattern |
| Strs.RFind | code/usi_utils.py:12 | the last occurrence, none exactly when the text does not contain the pattern |
| Strs.SplitPartsFree | code/usi_utils.py:14-16 | no piece of `str.split` holds the separator |
| Strs.SplitJoinRoundTrip | code/usi_utils.py:14-16 | joining the pieces with the separator gives the text back |
| Strs.JoinSplitRoundTrip | code/usi_utils.py:7 | splitting a join of pieces free of the separator gives the pieces back |
| Strs.ReplaceAllIsSplitJoin | code/masst_client.py:300 | `str.replace` is the split joined with the replacement |
| Strs.StripShape | code/prepare_check_metadata.py:18 | `str.strip` removes whitespace from both ends only, and leaves none there |
| Strs.StripIdempotent | code/prepare_check_metadata.py:18 | stripping twice strips nothing more |
| Trees.MapFieldsPointwise | code/json_ontology_extender.py:47-50 | a per-node update visits every node in pre-order and keeps the shape |
| Trees.TryMapPrePointwise | code/json_ontology_extender.py:100-103 | a failing per-node step, parents before children, succeeds exactly when every node does, and then updates each node on its own |
| Trees.TryMapPostPointwise | code/json_ontology_extender.py:147-153 | the same with children before their parent |
| Json.FloatText | code/json_ontology_extender.py:38 | `str` gives a float a positional text form exactly when it is whole and below 10^16 in size |
| Json.FloatTextOfInt | code/json_ontology_extender.py:38 | a whole float's text is its integer's text followed by `.0`, so `562` and `562.0` never compare equal as text |
| OntologyExtender.FirstMatch | code/json_ontology_extender.py:38-40 | the first row whose data key is the node's key as text, and none exactly when no row has it |
| OntologyExtender.EnrichFields | code/json_ontology_extender.py:32-46 | a node without a key, or without a matching row, is unchanged; otherwise it gains each cell the first matching row holds, except the data key's, and keeps its other members |
| OntologyExtender.AddDataPointwise | code/json_ontology_extender.py:24-50 | every node of the tree, in pre-order, is enriched on its own, and the shape is unchanged |
| OntologyExtender.Accumulate | code/json_ontology_extender.py:53-65 | fails exactly when an addition meets a non-number; otherwise each node's field is its own value (0 when absent) plus its children's new values, a leaf keeps `get(field, 0)`, nothing else changes, and the returned value is the root's |
| OntologyExtender.AccumulateAll | code/json_ontology_extender.py:61-63 | the loop over the children: each child rolled up, the running value plus the children's new values |
| OntologyExtender.CountMissingAppend | code/json_ontology_extender.py:81-83 | missing counts of two node lists add up |
| OntologyExtender.MissingCount | code/json_ontology_extender.py:74-85 | the number of nodes of the subtree whose field is absent or null |
| OntologyExtender.MissingCountAll | code/json_ontology_extender.py:81-83 | the same for a list of subtrees |
| OntologyExtender.FieldMissing | code/json_ontology_extender.py:68-85 | counts every node lacking the field; only the root, when it lacks it and a replacement is named, gets the replacement's value (or `""`); nothing below changes, as the recursion passes no replacement |
| OntologyExtender.StatsFields | code/json_ontology_extender.py:150-153 | fails exactly when a size is absent or not a number where it is read; otherwise the fraction is 0 for a zero group and matched/group else, and no other member changes |
| OntologyExtender.CalcStatsPointwise | code/json_ontology_extender.py:146-153 | `calc_stats` succeeds exactly when every node does, and then every node has a fraction consistent with its sizes |
| OntologyExtender.FractionBounded | code/json_ontology_extender.py:150-153 | with 0 <= matched <= group the fraction lies in [0, 1] |
| OntologyExtender.FractionUnboundedWithoutPrecondition | code/json_ontology_extender.py:153 | with matched above group the fraction exceeds 1: the bound needs its precondition |
| OntologyExtender.SumSizes | code/json_ontology_extender.py:159-161 | fails exactly when a child lacks a numeric size; otherwise the running sums plus the children's sizes |
| OntologyExtender.Fraction | code/json_ontology_extender.py:163-166 | 0 for a zero group, otherwise the value whose product with the group is the matched size |
| OntologyExtender.CalcRootStats | code/json_ontology_extender.py:156-166 | the root's sizes become the sums over its direct children and its fraction agrees with them; children and other members are untouched |
| OntologyExtender.RootStatsIgnoreOwnValues | code/json_ontology_extender.py:157-158 | the root's previous sizes and fraction do not affect the result |
| OntologyExtender.PieFields | code/json_ontology_extender.py:90-98 | fails exactly when fraction or a size is missing or the fraction is not a number; otherwise two slices, indices 0 and 1, fractions f and 1 - f summing to 1, both copying the sizes |
| OntologyExtender.AddPiePointwise | code/json_ontology_extender.py:88-103 | every node, in pre-order, gets its pie exactly when all nodes can |
| OntologyExtender.AccumulateIfMissing | code/json_ontology_extender.py:125-128 | the tree is unchanged when no node lacks the field, and rolled up otherwise |
| OntologyExtender.StringKeys | code/json_ontology_extender.py:113-115 | `KeyError` exactly when the table has no data-key column; otherwise one row per row, in order, each data-key cell with a text form in the model replaced by that text (`nan` for a null or absent cell), any other data-key cell kept as it is, and every other cell unchanged |
| OntologyExtender.CellText | code/json_ontology_extender.py:115 | `astype(str)` writes a null cell as `nan` and any other cell as `str` writes it; for the model that means text, integers, booleans and whole floats below 10^16, and no text for other floats, lists and objects |
| OntologyExtender.AddDataToOntologyResult | code/json_ontology_extender.py:106-135 | `KeyError` when the table has no data-key column; a successful run keeps the tree's shape, gives every node a consistent fraction and a two-slice pie, and sets the root's sizes to the sums over its children |
| OntologyExtender.RootStatsKeepConsistency | code/json_ontology_extender.py:133 | `calc_root_stats` keeps every node's fraction consistent |
| OntologyExtender.PieKeepsConsistency | code/json_ontology_extender.py:135 | adding pies keeps the fractions and the root's sums |
| OntologyExtender.RolledUpKeepsCount | code/json_ontology_extender.py:126-128 | accumulation keeps the number of nodes |
| OntologyExtender.RolledUpFlatten | code/json_ontology_extender.py:53-65 | accumulation neither adds nor removes nodes |
| OntologyExtender.PieKeepsFraction | code/json_ontology_extender.py:88-98 | `pie_data` is the only member the pie step adds, so a node whose fraction matched its sizes still does |
| OntologyExtender.PieChildrenSums | code/json_ontology_extender.py:100-103 | adding pie data to siblings leaves the sums of their `group_size` and `matched_size` unchanged |
| OntologyExtender.PieRoot | code/json_ontology_extender.py:88-103 | the pie step keeps the root's sizes and the sums over its children |
| SampleCounts.SumDirectAppend | code/prepare_sample_counts_tree.py:25-29 | counting the rows of two id lists one after the other is the sum of the two counts |
| SampleCounts.GetAllIds | code/prepare_sample_counts_tree.py:34-40 | `KeyError` exactly when some node lacks the key; otherwise one id per node, in pre-order, the root's first |
| SampleCounts.GetAllIdsAll | code/prepare_sample_counts_tree.py:37-39 | the same for the children of a node, in order |
| SampleCounts.UpdateGroupSize | code/prepare_sample_counts_tree.py:24-31 | fails exactly when a node lacks the key; otherwise every node's `group_size` is its own matching rows plus its children's sizes, the returned value is the root's size, and no other field or the shape changes |
| SampleCounts.UpdateAll | code/prepare_sample_counts_tree.py:27-29 | each child is updated the same way and the returned sum is the sum of the children's new sizes |
| SampleCounts.GroupSizeIsSumDirect | code/prepare_sample_counts_tree.py:24-31 | the root's size counts every (row, node) pair of the subtree whose keys agree |
| SampleCounts.AllSizesAreSumDirect | code/prepare_sample_counts_tree.py:27-29 | the same for the list of children |
| SampleCounts.LeafCount | code/prepare_sample_counts_tree.py:25 | a leaf's size is the number of rows naming it |
| SampleCounts.CountedKeepsKeys | code/prepare_sample_counts_tree.py:30 | updating sizes keeps every node's key |
| SampleCounts.CountedNonNeg | code/prepare_sample_counts_tree.py:25-30 | every stored size is non-negative |
| SampleCounts.ParentAtLeastChild | code/prepare_sample_counts_tree.py:27-30 | no child's size exceeds its parent's |
| SampleCounts.NotInTree | code/prepare_sample_counts_tree.py:58 | a row is kept exactly when its key cell is not an id of the tree |
| SampleCounts.NotInTreeSize | code/prepare_sample_counts_tree.py:58 | the kept rows and the rows the tree names together are all rows |
| SampleCounts.HitCountDistinct | code/prepare_sample_counts_tree.py:25 | with distinct ids, a row is counted at most once, and once exactly when its key is an id |
| SampleCounts.SumDirectDistinct | code/prepare_sample_counts_tree.py:25-29 | with distinct ids, the total count is the number of rows the tree names |
| SampleCounts.RowsAccountedFor | code/prepare_sample_counts_tree.py:56-58 | with distinct ids, the root's `group_size` plus the not-in-tree rows is the whole table |
| SampleCounts.UpdateMetadataOnTree | code/prepare_sample_counts_tree.py:43-67 | `False` exactly when the table has no data-key column or a node lacks the key; otherwise the tree with counted sizes over the table after `OntologyExtender.StringKeys` has turned its key column into text wherever the model has a text form, and the rows whose key is no id of the tree |
| UsiUtils.Name | code/usi_utils.py:4 | `Path(...).name` is the last non-empty, non-`.` component and never holds `/` |
| UsiUtils.Stem | code/usi_utils.py:4 | the stem is a prefix of the name without `/`; when it differs, it is non-empty and followed in the name by a `.` that is not the name's last character |
| UsiUtils.StemWithoutSuffix | code/usi_utils.py:4 | a name with no dot after its first character and before its last one is its own stem |
| UsiUtils.UsiSplit | code/usi_utils.py:7 | `mzspec:{dataset}:{filename}` splits on `:` back into its three parts when neither part holds a `:` |
| UsiUtils.CreateSimpleFileUsi | code/usi_utils.py:3-7 | an empty stem is `ValueError("Filename is empty")`, checked before an empty dataset (`"Dataset is empty"`); otherwise an `mzspec:` USI that splits back into dataset and stem |
| UsiUtils.BeforeScan | code/usi_utils.py:12-16 | the text before the last `:scan`, a prefix of the USI, or the whole USI when there is none |
| UsiUtils.Elements | code/usi_utils.py:12-16 | the `:`-separated elements, at least one, none holding a `:` |
| UsiUtils.EnsureSimpleFileUsi | code/usi_utils.py:10-17 | `IndexError` exactly when the part before `:scan` has no `:`; otherwise an `mzspec:` USI whose parts are the second and the last element |
| UsiUtils.EnsureResultShape | code/usi_utils.py:17 | the result is `mzspec:` + second element + `:` + last element |
| UsiUtils.EnsureFixpoint | code/usi_utils.py:10-17 | a simple file USI without `:scan` is returned unchanged |
| UsiUtils.EnsureIdempotent | code/usi_utils.py:10-17 | simplifying a simplified USI changes nothing |
| UsiUtils.CreateThenEnsure | code/usi_utils.py:3-17 | a USI made from a file name and a dataset is already simple |
| UsiUtils.UsiCell | code/usi_utils.py:22 | a string cell is simplified; any other cell has no `rfind` on its slice (`AttributeError`) |
| UsiUtils.DatasetText | code/usi_utils.py:7 | what `format` writes for a dataset cell: the string itself, `nan` for a null, and no text for the values the model does not represent |
| UsiUtils.FileCells | code/usi_utils.py:28-29 | a non-string file name is `TypeError` from `Path`; two string cells give `create_simple_file_usi` |
| UsiUtils.MapRows | code/usi_utils.py:22 | the list comprehension: the first failing row is the error; otherwise one result per row, in order |
| UsiUtils.CreateFileUsiColumn | code/usi_utils.py:20-29 | the USI column wins when present; else a missing file name column is reported before a missing dataset column; every value of the new column starts with `mzspec:` |
| MicrobeResults.CleanFilename | code/microbe_masst_results.py:12-13 | a name holding none of `/peak/`, `.mzML`, `.mzXML`, `f.MSV` comes back unchanged |
| MicrobeResults.CleanFilenamePasses | code/microbe_masst_results.py:12-13 | the result is the four replacements applied in the source's order, each one a split on the pattern joined with the replacement |
| MicrobeResults.FirstMsv | code/microbe_masst_results.py:22-25 | the result is the first part starting with `MSV`, and `None` exactly when no part starts with it |
| MicrobeResults.MassiveIdFromPath | code/microbe_masst_results.py:20-25 | after `f.MSV` becomes `MSV`, the result is the first path part starting with `MSV` (or `None` when there is none); it starts with `MSV` and holds no `/` |
| MicrobeResults.UsiMassiveIdFilename | code/microbe_masst_results.py:28-34 | `IndexError` exactly when the USI has fewer than three `:` parts; otherwise the second and third parts, which hold no `:` |
| MicrobeResults.UsiMassiveIdFilenameRoundTrip | code/microbe_masst_results.py:28-34 | `mzspec:D:F` with colon-free D and F gives back exactly `(D, F)` |
| MicrobeResults.CreatedUsiIds | code/microbe_masst_results.py:28-34 | a USI made by `create_simple_file_usi` gives back its dataset and the file's stem |
| MicrobeResults.Increment | code/microbe_masst_results.py:52 | `d[k] = d.get(k, 0) + 1`: k's count grows by one, no other count changes, the key set gains k, and keys keep their insertion order |
| MicrobeResults.CountPathHits | code/microbe_masst_results.py:49-52 | the inner loop adds, under each key, one per metadata row whose cleaned path is the match's file name |
| MicrobeResults.CountByFilename | code/microbe_masst_results.py:47-52 | after the two loops, every key's count is the number of (match row, metadata row) pairs with equal paths and that key; only keys of metadata rows appear |
| MicrobeResults.FileCountAppend | code/microbe_masst_results.py:47-52 | counting two batches of matches adds their counts, so a repeated match row counts twice |
| MicrobeResults.PathHitsOtherKey | code/microbe_masst_results.py:49-52 | a key that no metadata row holds is never counted |
| MicrobeResults.TextColumn | code/microbe_masst_results.py:41-42 | reading an absent column is `KeyError`; a non-text cell fails with the given error; otherwise one text per row, in row order |
| MicrobeResults.CreateCounts | code/microbe_masst_results.py:37-54 | the `Filepath` column's error comes first; on success the counter is valid, holds only `Taxa_NCBI` values of metadata rows, and counts every key as the nested loops over cleaned names do |
| MicrobeResults.UsiPairs | code/microbe_masst_results.py:61 | one (MassIVE id, file name) pair per USI in order, or `IndexError` when some USI is too short |
| MicrobeResults.AddPair | code/microbe_masst_results.py:64-69 | ids stay distinct and in first-seen order; the file name is added under its id, and no other list changes |
| MicrobeResults.GroupByMassive | code/microbe_masst_results.py:63-69 | ids are distinct; every pair is listed under its id, and every listed name comes from a pair with that id |
| MicrobeResults.AddGroupHits | code/microbe_masst_results.py:74-80 | with distinct ids a row lies in at most one group, so adding a group adds exactly its rows |
| MicrobeResults.GroupsTotalOnce | code/microbe_masst_results.py:74-80 | what the group loop adds up is, per key, the rows lying in some group, each counted once |
| MicrobeResults.InGroupsIffNamed | code/microbe_masst_results.py:63-77 | a row lies in some group exactly when some matching USI names its MassIVE id and file name |
| MicrobeResults.GroupsAreUsis | code/microbe_masst_results.py:63-80 | counting rows that lie in some group is counting rows some USI names |
| MicrobeResults.CountGroupHits | code/microbe_masst_results.py:76-80 | the inner loop adds, under each key, one per metadata row of the group |
| MicrobeResults.CountByGroups | code/microbe_masst_results.py:74-80 | after the loops every key's count is the group-by-group total; only keys of metadata rows appear |
| MicrobeResults.CreateCountsFromUsi | code/microbe_masst_results.py:57-82 | `Filepath` errors, then `IndexError` for a short USI, then missing columns once used; on success each key counts the metadata rows some USI names, however many USIs name them |
| MicrobeResults.UsiHitsAtMostRows | code/microbe_masst_results.py:74-80 | a key's count never exceeds the number of metadata rows holding that key |
| MicrobeResults.ExportNcbiCounts | code/microbe_masst_results.py:85-88 | row i holds the i-th key in insertion order as `ncbi` and its count as `matched_size`, and nothing else; keys distinct, every counted key present |
| MasstTree.Merge | code/masst_tree.py:155 | a joined row has the columns of both rows; on a shared column the match's value is kept |
| MasstTree.JoinOne | code/masst_tree.py:155 | one match joins with as many rows as the metadata has with its `file_usi`, each a merge with such a row |
| MasstTree.Join | code/masst_tree.py:155 | the inner join has one row per (match, metadata row) pair with equal `file_usi` |
| MasstTree.JoinMembers | code/masst_tree.py:155 | a row is in the join exactly when it merges a match with a metadata row of the same `file_usi` |
| MasstTree.JoinEmpty | code/masst_tree.py:155-160 | the join is empty exactly when no match shares its `file_usi` with a metadata row |
| MasstTree.RowsWithKey | code/masst_tree.py:164 | a group holds exactly the rows whose key equals the group's key, in table order (a single row is kept exactly when its key matches); null keys belong to no group |
| MasstTree.RowsWithKeyAppend | code/masst_tree.py:164 | grouping keeps table order: the group of two runs of rows is the two runs' groups, one after the other |
| MasstTree.GroupKeys | code/masst_tree.py:164 | the distinct non-null keys, each from some row, and every row's non-null key among them |
| MasstTree.MatchRecords | code/masst_tree.py:166-168 | one record per row of the group, in row order, each an object with exactly the keys `USI`, `Cosine` and `Matching Peaks`, holding that row's cells (null where the row has none) |
| MasstTree.GroupMatches | code/masst_tree.py:163-169 | `KeyError` for a missing key column, then for a missing `USI`, `Cosine` or `Matching Peaks` column; a key column named like an added column cannot be put back by `reset_index`; success exactly otherwise, with one row per distinct key holding the key, the group's size and its match records, keys pairwise different |
| MasstTree.GroupSizePositive | code/masst_tree.py:165 | every group has at least one row |
| MasstTree.HitSumDistinct | code/masst_tree.py:164-165 | with distinct keys a row is counted in at most one group |
| MasstTree.SizeSumSnoc | code/masst_tree.py:165 | one more row adds its hits to the group sizes |
| MasstTree.SizeSumAppend | code/masst_tree.py:165 | one more key adds that group's size |
| MasstTree.NoRowsWithoutKey | code/masst_tree.py:164 | a key no row has gives an empty group |
| MasstTree.GroupSizesSum | code/masst_tree.py:164-165 | the group sizes add up to the number of rows with a non-null key |
| MasstTree.MatchedSizeSumIsSizeSum | code/masst_tree.py:165-169 | the `matched_size` column sums to the group sizes |
| MasstTree.GroupMatchesSizes | code/masst_tree.py:163-169 | every `matched_size` is at least 1 and together they count every joined row with a non-null key |
| MasstTree.CreateEnriched | code/masst_tree.py:16-66 | `False` exactly for no matches; a missing `file_usi` column in either frame is a logged `KeyError`; `None` exactly when no match joins the metadata; a grouping error is logged; otherwise a tree exactly when the enrichment pipeline accepts the grouped join, and then its result |
| MasstTree.StampType | code/masst_tree.py:90-92 | stamping keeps the number of nodes |
| MasstTree.StampTypeAll | code/masst_tree.py:90-92 | every node carries the ontology's root label as `masst_type` and keeps its other members |
| MasstTree.Prepare | code/masst_tree.py:89-94 | the root is renamed to the label and stamped, its children are the stamped children; other members and the node count are kept |
| MasstTree.PreparedStamped | code/masst_tree.py:88-93 | every node of a prepared tree carries the label as `masst_type`, the root is also renamed, and no other member of any node changes |
| MasstTree.PreparedPieReady | code/masst_tree.py:89-106 | the pie pass accepts a prepared tree exactly when it accepts the tree as loaded |
| MasstTree.PreparedSized | code/masst_tree.py:89-105 | preparing a tree leaves its root's sizes alone |
| MasstTree.Present | code/masst_tree.py:84-96 | exactly the entries whose tree loaded, in list order: a single entry is kept exactly when it loaded |
| MasstTree.PresentAppend | code/masst_tree.py:84-96 | the loaded entries of two runs of ontologies are those of each run, one after the other |
| MasstTree.CreateCombined | code/masst_tree.py:69-106 | `False` exactly when there are no matches or at most one tree loaded; an exception exactly when some loaded root lacks numeric sizes or some loaded node lacks what the pie needs; otherwise a root named `root` with a pie, sizes summing the loaded roots' sizes, and one child per loaded tree, in order: child i is loaded tree i, prepared with its label and given its pie |
| MasstTree.RootsSized | code/masst_tree.py:102-105 | `calc_root_stats` on the combined root succeeds exactly when every loaded root has numeric sizes |
| MasstTree.RootsPieReady | code/masst_tree.py:102-106 | the pie pass accepts every node below the combined root exactly when it accepts every loaded tree |
| MasstTree.PieAfterRootStats | code/masst_tree.py:105-106 | after the root statistics the pie pass can fail only below the root |
| MasstTree.CombineSucceeds | code/masst_tree.py:102-106 | the two steps on the combined root succeed exactly when no loaded tree stops them |
| MasstTree.CombinedTreesStamped | code/masst_tree.py:84-106 | every node under the i-th child of the combined root carries the i-th loaded ontology's label |
| MasstTree.SumFieldAgree | code/masst_tree.py:159-161 | lists whose nodes agree on a numeric field have the same sum |
| MasstTree.CombinedFacts | code/masst_tree.py:102-106 | `calc_root_stats` then the pie pass give the combined tree its shape |
| MasstTree.CombinedRootFacts | code/masst_tree.py:105-106 | the combined root has a pie and the loaded trees' summed sizes |
| MasstTree.CombinedChildFacts | code/masst_tree.py:88-106 | child i of the combined root is loaded tree i, prepared with its label and given its pie: named and stamped with the label, with the loaded tree's number of children |
| MasstTree.PreparedChild | code/masst_tree.py:90-93 | a prepared tree keeps its label through the pie pass |
| MasstTree.ChildrenPie | code/json_ontology_extender.py:101-103 | the pie pass over children keeps their number, with each child's fields given their pie |
| CheckMetadata.StripCells | code/prepare_check_metadata.py:18 | one row out per row in, in order, each cell mapped by the strip-if-text rule |
| CheckMetadata.StripCellsEffect | code/prepare_check_metadata.py:18 | text cells lose their surrounding whitespace, other cells and all columns are unchanged, and stripping twice equals stripping once |
| CheckMetadata.StrCmpAntisymmetric | code/prepare_check_metadata.py:46-48 | comparing text the other way round flips the sign |
| CheckMetadata.StrCmpTransitive | code/prepare_check_metadata.py:46-48 | the text order is transitive |
| CheckMetadata.ColCmpAntisymmetric | code/prepare_check_metadata.py:46-48 | one sort column's order (nulls last in either direction, numbers before text) flips sign when its arguments swap |
| CheckMetadata.ColCmpTransitive | code/prepare_check_metadata.py:46-48 | one sort column's order is transitive on cells that can be compared, text and numbers mixed |
| CheckMetadata.RowCmpAntisymmetric | code/prepare_check_metadata.py:46-48 | the row order on several sort columns flips sign when its arguments swap |
| CheckMetadata.RowCmpTransitive | code/prepare_check_metadata.py:46-48 | the row order on several sort columns is transitive on comparable rows |
| CheckMetadata.Insert | code/prepare_check_metadata.py:46-48 | inserting a row adds exactly that row to the multiset of rows |
| CheckMetadata.InsertSorted | code/prepare_check_metadata.py:46-48 | inserting into a sorted sequence keeps it sorted |
| CheckMetadata.Sort | code/prepare_check_metadata.py:46-48 | `sort_values` returns a permutation of the rows |
| CheckMetadata.InsertStable | code/prepare_check_metadata.py:27-30 | an inserted row goes before every row with the same cells in the sort columns |
| CheckMetadata.SortStable | code/prepare_check_metadata.py:27-30 | the sort is stable: rows with the same cells in every sort column come out in table order |
| CheckMetadata.SortSorted | code/prepare_check_metadata.py:46-48 | when every two rows can be compared, the result is sorted |
| CheckMetadata.DropDuplicates | code/prepare_check_metadata.py:49 | every kept row comes from the input with an unseen value, and no two kept rows share a value |
| CheckMetadata.DropDuplicatesKeepsValues | code/prepare_check_metadata.py:49 | every value not already seen keeps a row |
| CheckMetadata.DropDuplicatesFirst | code/prepare_check_metadata.py:49 | a kept row is the first row of the input with its value (`keep='first'`) |
| CheckMetadata.DropDuplicatesSorted | code/prepare_check_metadata.py:46-49 | dropping rows from a sorted sequence leaves it sorted |
| CheckMetadata.UsiCountTwice | code/prepare_check_metadata.py:27 | a value occurs at least twice exactly when two different rows hold it |
| CheckMetadata.UsiCountOnce | code/prepare_check_metadata.py:27 | a value occurs at least once exactly when some row holds it |
| CheckMetadata.Duplicated | code/prepare_check_metadata.py:27 | `duplicated(keep=False)` keeps exactly the rows whose `file_usi` occurs more than once |
| CheckMetadata.CheckColumns | code/prepare_check_metadata.py:27-35 | success exactly when the table has every sort column; otherwise `KeyError` naming a missing one |
| CheckMetadata.SortValues | code/prepare_check_metadata.py:27-35 | success exactly when every sort column exists and the rows are sortable: comparable on every column and, for a one-column sort, not mixing text and numbers; `KeyError` for a missing column, `TypeError` otherwise; the result is a sorted permutation, and a sort on several columns keeps rows equal on every sort column in table order |
| CheckMetadata.MixedUsiSortsOnSeveralColumns | code/prepare_check_metadata.py:46-48 | a `file_usi` column holding text and a number sorts on the three columns, number first |
| CheckMetadata.MixedUsiFailsOnOneColumn | code/prepare_check_metadata.py:32-35 | the same column cannot be sorted on `file_usi` alone (`TypeError`) |
| CheckMetadata.WithFileUsi | code/prepare_check_metadata.py:18-21 | cells are stripped; an existing `file_usi` column is kept, otherwise it is derived row by row as `create_file_usi_column` does |
| CheckMetadata.SortedByUsi | code/prepare_check_metadata.py:46-48 | sorted on the three columns means ascending on `file_usi` |
| CheckMetadata.KeptIsBest | code/prepare_check_metadata.py:46-49 | the row kept for a `file_usi` value sorts no later than any other row with that value |
| CheckMetadata.KeptIsFirst | code/prepare_check_metadata.py:46-49 | `drop_duplicates` after the stable sort keeps, for each value, the first row in table order among those equal to the kept row on the three columns |
| CheckMetadata.DeduplicationFacts | code/prepare_check_metadata.py:46-49 | the output keeps every `file_usi` value exactly once, ascending, with the best-ranked row for each |
| CheckMetadata.BestFirstSortable | code/prepare_check_metadata.py:26-48 | the final sort succeeds exactly when both taxonomy columns exist and the rows compare, and then the duplicates' sort does too; without `Taxa_Assigment` the duplicates' sort is `KeyError` |
| CheckMetadata.PrepareCheckMetadata | code/prepare_check_metadata.py:11-49 | success exactly when `file_usi` can be had, both taxonomy columns exist and the rows compare on the three sort columns; a failed `file_usi` derivation is passed on and a missing `Taxa_Assigment` is `KeyError`; on success the duplicates report is a sorted permutation of the duplicated rows and the table is de-duplicated as above; the duplicates report keeps rows equal on the three columns in table order, and each kept row is the first in table order of the rows equal to it on the three columns |
| DatasetSummary.Qualifies | code/masst_dataset_summary.py:114-115 | the test is `matched_size` (0 when absent) against the minimum; a non-numeric count is `TypeError` |
| DatasetSummary.SummaryRow | code/masst_dataset_summary.py:116-125 | a missing node key is reported before a missing `group_size`; the row exists exactly when both are present |
| DatasetSummary.SummaryRowContents | code/masst_dataset_summary.py:116-125 | the row has the six columns of the literal, with sizes copied, and name, rank, depth and `str` of the key when the key does not clash |
| DatasetSummary.ForAllChildren | code/masst_dataset_summary.py:113-129 | a non-qualifying node adds nothing and its subtree is skipped; a qualifying node's row comes first; at most one row per node; every row is the row of a qualifying node at its depth |
| DatasetSummary.ForEachChild | code/masst_dataset_summary.py:127-129 | the children's rows, each from a qualifying node of their subtrees, at most one per node |
| DatasetSummary.RowsOfAppend | code/masst_dataset_summary.py:127-129 | the rows of two node lists side by side are the two row lists concatenated |
| DatasetSummary.WalkWhenAllQualify | code/masst_dataset_summary.py:113-129 | when every node qualifies nothing is pruned: one row per node, in pre-order, each at its depth |
| DatasetSummary.WalkAllWhenAllQualify | code/masst_dataset_summary.py:127-129 | the same for a list of subtrees |
| DatasetSummary.AnnotatedIsFlatten | code/masst_dataset_summary.py:113-129 | the depth-annotated walk visits the pre-order nodes, the root at the start level and every node at least that deep |
| DatasetSummary.MarkedIsAnnotated | code/masst_dataset_summary.py:113-129 | the reference walk, which marks each node by whether all its ancestors have enough matches, lists every node at its depth in pre-order |
| DatasetSummary.ClosedMarked | code/masst_dataset_summary.py:115-129 | no node below a node with too few matches is reached |
| DatasetSummary.ShownAppend | code/masst_dataset_summary.py:127-129 | the nodes that give rows in two marked runs are those of each run, one after the other |
| DatasetSummary.ForAllChildrenIsPrunedPreorder | code/masst_dataset_summary.py:113-129 | the walk succeeds exactly when every reached node can be read, and then gives exactly the rows of the reached nodes with enough matches, in pre-order, each at its depth |
| DatasetSummary.ForEachChildIsPrunedPreorder | code/masst_dataset_summary.py:127-129 | the same for the walks from a list of siblings, one after another |
| DatasetSummary.JsonToDataFrame | code/masst_dataset_summary.py:132-142 | walks the root's children from level 1; succeeds exactly when the walk does and its rows compare on the sort columns; `None` exactly when the walk gives no rows; otherwise a permutation of the rows, sorted descending on rank, matched size, group size, rows equal on all three in walk order, each from a qualifying node |
| DatasetSummary.RenameColumn | code/masst_dataset_summary.py:59-61 | a ` Peak area` column loses exactly that suffix; any other column is unchanged |
| DatasetSummary.RenameRoundTrip | code/masst_dataset_summary.py:59-61 | renaming `sample + " Peak area"` gives back the sample |
| DatasetSummary.Samples | code/masst_dataset_summary.py:59 | a name is a sample exactly when the header has that name with ` Peak area` appended |
| DatasetSummary.StampRow | code/masst_dataset_summary.py:93-98 | the compound column is 1 in binary mode and the matched size otherwise; `matched_size` is dropped; no other column changes |
| DatasetSummary.PerFileFrame | code/masst_dataset_summary.py:90-98 | no more rows than the file gave, at least one when it gave any, each without `matched_size` and with the compound column |
| DatasetSummary.PerFileFrameRows | code/masst_dataset_summary.py:91-98 | the frame is the first row per node key, stamped |
| DatasetSummary.PerFileFrameDistinct | code/masst_dataset_summary.py:91 | no two rows of a frame share a node key |
| DatasetSummary.PerFileFrameComplete | code/masst_dataset_summary.py:91 | every node key of the file has a row in its frame |
| DatasetSummary.PerFileFrameCounts | code/masst_dataset_summary.py:96 | outside binary mode the compound column holds the matched size of a file row with that key |
| DatasetSummary.FileFrame | code/masst_dataset_summary.py:86-100 | a file contributes exactly when `json_to_dataframe` gave rows, and then its non-empty frame |
| DatasetSummary.Frames | code/masst_dataset_summary.py:84-100 | every frame is non-empty; a single file gives its frame or nothing |
| DatasetSummary.FramesAppend | code/masst_dataset_summary.py:84-100 | file order is kept: the frames of two runs of files are those of each run, one after the other |
| DatasetSummary.FramesEmpty | code/masst_dataset_summary.py:84-104 | there are no frames exactly when no file gave one |
| DatasetSummary.FramesFromFiles | code/masst_dataset_summary.py:84-100 | every frame is the frame of some file |
| DatasetSummary.FramesComplete | code/masst_dataset_summary.py:84-100 | every file that gave a frame has it among the frames |
| DatasetSummary.CompoundIdFrom | code/masst_dataset_summary.py:85 | the search from a start index fails exactly when no match begins there or later, and otherwise gives the group of the first match from there |
| DatasetSummary.CompoundId | code/masst_dataset_summary.py:85 | `AttributeError` exactly when `_`, one or more digits, `_` and the prefix occur nowhere in the name; otherwise the digits of the leftmost such occurrence, a non-empty run of digits |
| DatasetSummary.PatternMaximal | code/masst_dataset_summary.py:85 | a match's group is always the maximal digit run after its `_`: backtracking the greedy `\d+` never yields a match |
| DatasetSummary.MatchesAtIsPattern | code/masst_dataset_summary.py:85 | the computable test at an index holds exactly when the regular expression matches there |
| DatasetSummary.LeftmostUnique | code/masst_dataset_summary.py:85 | two leftmost matches start at the same index and have the same group |
| DatasetSummary.LeftmostMatchIsId | code/masst_dataset_summary.py:85 | a match with no match before it determines the id: `re.search` reports the leftmost match |
| DatasetSummary.CompoundIdOfName | code/masst_dataset_summary.py:85 | a name `base_ID_prefix...`, with no `_` in the base and ID all digits, gives back ID |
| DatasetSummary.NoDigitAfterUnderscore | code/masst_dataset_summary.py:84-85 | a name where no `_` is followed by a digit, such as `out_microbe.json`, which the glob also finds, is an `AttributeError` |
| DatasetSummary.WithIds | code/masst_dataset_summary.py:84-85 | `AttributeError` exactly when some file name has no compound id; otherwise each file is paired with its id, in glob order |
| DatasetSummary.CreateSummaryFile | code/masst_dataset_summary.py:82-105 | `AttributeError` exactly when some file name lacks the compound-id pattern; otherwise `None` exactly when no file contributes; otherwise the frames in file order: only non-empty frames, each the frame of some file, and every contributing file's frame among them |
| MicrobiomeTree.NewTreeNode | trees/microbiome_masst_tree/microbiomeMASST_tree_generation.py:6-12 | a new node is duplicated `Y`, of type `node`, without children |
| MicrobiomeTree.AddChild | trees/microbiome_masst_tree/microbiomeMASST_tree_generation.py:24-25 | the child is appended last and nothing else changes |
| MicrobiomeTree.ToDict | trees/microbiome_masst_tree/microbiomeMASST_tree_generation.py:14-22 | a dict with exactly the five members, the node's values, and one child dict per child |
| MicrobiomeTree.ToDictRoundTrip | trees/microbiome_masst_tree/microbiomeMASST_tree_generation.py:14-22 | the dict can be read back into the same node |
| MicrobiomeTree.ToDictAllRoundTrip | trees/microbiome_masst_tree/microbiomeMASST_tree_generation.py:21 | the same for a list of children |
| MicrobiomeTree.DefaultParents | trees/microbiome_masst_tree/microbiomeMASST_tree_generation.py:31 | a null `Parent_ID` becomes `-1`; nothing else changes |
| MicrobiomeTree.FirstIntervention | trees/microbiome_masst_tree/microbiomeMASST_tree_generation.py:40-44 | the intervention of the first file row with the ID (`drop_duplicates` keeps the first), none when no file has the ID |
| MicrobiomeTree.ChildRows | trees/microbiome_masst_tree/microbiomeMASST_tree_generation.py:49 | exactly the rows whose parent is the ID |
| MicrobiomeTree.GroupSize | trees/microbiome_masst_tree/microbiomeMASST_tree_generation.py:47-55 | an ID without child rows counts its files |
| MicrobiomeTree.SumSizesAtLeast | trees/microbiome_masst_tree/microbiomeMASST_tree_generation.py:54 | the sum over children is at least each child's size |
| MicrobiomeTree.ParentAtLeastChild | trees/microbiome_masst_tree/microbiomeMASST_tree_generation.py:47-55 | no row's size exceeds its parent's |
| MicrobiomeTree.InnerFilesIgnored | trees/microbiome_masst_tree/microbiomeMASST_tree_generation.py:51-55 | a file attached to an ID with child rows changes no group size |
| MicrobiomeTree.InnerFilesIgnoredSum | trees/microbiome_masst_tree/microbiomeMASST_tree_generation.py:54 | the same for a sum over child rows |
| MicrobiomeTree.FillRow | trees/microbiome_masst_tree/microbiomeMASST_tree_generation.py:44-64 | only the interventions and the group size of a row change |
| MicrobiomeTree.FillAll | trees/microbiome_masst_tree/microbiomeMASST_tree_generation.py:58-64 | every row is filled in place, none added or dropped |
| MicrobiomeTree.PrepareTreeDf | trees/microbiome_masst_tree/microbiomeMASST_tree_generation.py:28-69 | one row per input row with its ID and a parent; an ID-less row gets size 0 and no interventions; any other row its group size and first intervention |
| MicrobiomeTree.DefaultParentsRanked | trees/microbiome_masst_tree/microbiomeMASST_tree_generation.py:31 | defaulting the parents keeps every ID of the table |
| MicrobiomeTree.RowFields | trees/microbiome_masst_tree/microbiomeMASST_tree_generation.py:84-93 | the node dict holds the row's ID (`nan` when null), name and group size |
| MicrobiomeTree.BuildTree | trees/microbiome_masst_tree/microbiomeMASST_tree_generation.py:77-96 | one node per child row of the parent |
| MicrobiomeTree.BuildNodes | trees/microbiome_masst_tree/microbiomeMASST_tree_generation.py:82-96 | one node per given child row |
| MicrobiomeTree.BuildNodesFields | trees/microbiome_masst_tree/microbiomeMASST_tree_generation.py:84-92 | the k-th node holds the k-th row's columns |
| MicrobiomeTree.BuildNodesChildren | trees/microbiome_masst_tree/microbiomeMASST_tree_generation.py:93 | the k-th node's children are the tree below the k-th row's ID; an ID-less row has none |
| MicrobiomeTree.BuildTreeJson | trees/microbiome_masst_tree/microbiomeMASST_tree_generation.py:99 | `IndexError` exactly when no row is at the top level; otherwise the first top-level row's node |
| MicrobiomeTree.BuiltSizes | trees/microbiome_masst_tree/microbiomeMASST_tree_generation.py:92 | the built nodes' sizes sum to the rows' sizes |
| MicrobiomeTree.ChildRowsFill | trees/microbiome_masst_tree/microbiomeMASST_tree_generation.py:58-64 | filling and then selecting a parent's rows equals selecting and then filling |
| MicrobiomeTree.FilledSizes | trees/microbiome_masst_tree/microbiomeMASST_tree_generation.py:54-61 | the filled child rows' sizes sum to the parent's computed size |
| MicrobiomeTree.FillKeepsRank | trees/microbiome_masst_tree/microbiomeMASST_tree_generation.py:58-64 | filling keeps the table acyclic |
| MicrobiomeTree.TreeSumsUp | trees/microbiome_masst_tree/microbiomeMASST_tree_generation.py:47-96 | every tree built from the filled table rolls up: an inner node's size is the sum of its children's |
| MicrobiomeTree.InnerSize | trees/microbiome_masst_tree/microbiomeMASST_tree_generation.py:54 | the children built below an inner ID sum to its group size |
| MicrobiomeTree.NodeShape | trees/microbiome_masst_tree/microbiomeMASST_tree_generation.py:83-93 | the k-th node below a parent is the k-th child row, filled, with its subtree |
| MicrobiomeTree.NodeSumsUp | trees/microbiome_masst_tree/microbiomeMASST_tree_generation.py:47-96 | each built node rolls up |
| MicrobiomeTree.PreparedTreeRollsUp | trees/microbiome_masst_tree/microbiomeMASST_tree_generation.py:28-99 | the tree built from `prepare_tree_df`'s table rolls up from the leaves to the root |
| MicrobiomeMetadata.BeforeMzml | trees/microbiome_masst_tree/microbiomeMASST_metadata_table.py:10 | the file name up to its first `.mzML`, a prefix holding no `.mzML`, or the whole name when it has none |
| MicrobiomeMetadata.BeforeMzmlIsSplit | trees/microbiome_masst_tree/microbiomeMASST_metadata_table.py:10 | it is the first piece of splitting on `.mzML` |
| MicrobiomeMetadata.BeforeMzmlIdempotent | trees/microbiome_masst_tree/microbiomeMASST_metadata_table.py:10 | cutting twice cuts nothing more |
| MicrobiomeMetadata.FileUsi | trees/microbiome_masst_tree/microbiomeMASST_metadata_table.py:11 | an `mzspec:` USI that splits back into dataset and file name |
| MicrobiomeMetadata.NodeName | trees/microbiome_masst_tree/microbiomeMASST_metadata_table.py:16 | without interventions the sample type alone (null when it is null); with interventions `SampleType [Interventions]`, and `TypeError` exactly when the sample type is null |
| MicrobiomeMetadata.NodeNameParts | trees/microbiome_masst_tree/microbiomeMASST_metadata_table.py:16 | the interventions can be read back from the name |
| MicrobiomeMetadata.ParentIds | trees/microbiome_masst_tree/microbiomeMASST_metadata_table.py:20-21 | exactly the non-null `Parent_ID`s |
| MicrobiomeMetadata.LastIndexOf | trees/microbiome_masst_tree/microbiomeMASST_metadata_table.py:25 | the last tree row with the ID, none exactly when no row has it |
| MicrobiomeMetadata.NodeIdOf | trees/microbiome_masst_tree/microbiomeMASST_metadata_table.py:25-27 | the name of the last tree row with the ID, since a later key overwrites an earlier one; none when the ID is not in the tree |
| MicrobiomeMetadata.MassiveText | trees/microbiome_masst_tree/microbiomeMASST_metadata_table.py:11 | a null MassIVE cell is formatted as `nan` |
| MicrobiomeMetadata.TableRowOf | trees/microbiome_masst_tree/microbiomeMASST_metadata_table.py:10-11 | the output row: cut file name, its USI (with `nan` for a null MassIVE), and the node name of its ID |
| MicrobiomeMetadata.LeafRows | trees/microbiome_masst_tree/microbiomeMASST_metadata_table.py:7 | the rows of exactly the files with an ID that is no parent, in file order: a single file gives its row exactly when it is a leaf file |
| MicrobiomeMetadata.LeafRowsAppend | trees/microbiome_masst_tree/microbiomeMASST_metadata_table.py:7 | filtering keeps file order: the rows of two runs of files are those of each run, one after the other |
| MicrobiomeMetadata.MetadataTable | trees/microbiome_masst_tree/microbiomeMASST_metadata_table.py:4-29 | errors in line order: `AttributeError` exactly when a file with an ID has a null file name, else `ValueError` exactly when a tree row has a null ID, else `TypeError` exactly when a tree row has interventions but no sample type; otherwise exactly the rows of files whose ID is no node's parent, a single file giving its row exactly when it is such a file |
| MicrobiomeMetadata.MetadataTableAppend | trees/microbiome_masst_tree/microbiomeMASST_metadata_table.py:4-29 | the table of two runs of files is the two runs' tables, one after the other |
| MicrobiomeMetadata.TableHasOnlyLeaves | trees/microbiome_masst_tree/microbiomeMASST_metadata_table.py:18-22 | no row of the table is attached to an ID with children |
| MicrobiomeMetadata.LeafFilesKept | trees/microbiome_masst_tree/microbiomeMASST_metadata_table.py:7-27 | every file with a leaf ID is in the table |
| PersonalCareTree.FilterMris | trees/personalCareProduct_masst_tree/personalCareProduct_tree_generator.py:38-43 | exactly the rows whose USI is a peak file and names no mix, low-nitrogen run, test or wash, in table order: a single row is kept exactly when it qualifies |
| PersonalCareTree.FilterMrisAppend | trees/personalCareProduct_masst_tree/personalCareProduct_tree_generator.py:38-43 | filtering keeps table order: two runs of rows are filtered one after the other |
| PersonalCareTree.MriFilename | trees/personalCareProduct_masst_tree/personalCareProduct_tree_generator.py:46 | the last `/` piece of the USI, holding no `/` |
| PersonalCareTree.MriId | trees/personalCareProduct_masst_tree/personalCareProduct_tree_generator.py:47 | the file name up to its first `.`, a prefix holding no `.` |
| PersonalCareTree.SplitFirstPiece | trees/personalCareProduct_masst_tree/personalCareProduct_tree_generator.py:47 | the first piece of a split is a prefix of the text |
| PersonalCareTree.NodeId | trees/personalCareProduct_masst_tree/personalCareProduct_tree_generator.py:54 | the last name on the category path, holding no ` > `; a one-name path is its own node |
| PersonalCareTree.RewriteUsi | trees/personalCareProduct_masst_tree/personalCareProduct_tree_generator.py:65 | the result starts with the USI's first two `:` fields and a `:` |
| PersonalCareTree.Front | trees/personalCareProduct_masst_tree/personalCareProduct_tree_generator.py:65 | the first two pieces, or all of them when there are fewer |
| PersonalCareTree.RewritePeakUsi | trees/personalCareProduct_masst_tree/personalCareProduct_tree_generator.py:65 | a peak USI `mzspec:D:DIR/NAME` becomes the file USI `mzspec:D:NAME` without `.mzML` |
| PersonalCareTree.PeakUsiFront | trees/personalCareProduct_masst_tree/personalCareProduct_tree_generator.py:65 | the first two fields of such a USI are `mzspec:D` |
| PersonalCareTree.FirstTwoOfThree | trees/personalCareProduct_masst_tree/personalCareProduct_tree_generator.py:65 | joining back the first two of three split fields gives the text before the second separator |
| PersonalCareTree.PeakUsiFilename | trees/personalCareProduct_masst_tree/personalCareProduct_tree_generator.py:46 | the file name of `mzspec:D:DIR/NAME` is `NAME` |
| PersonalCareTree.JoinRow | trees/personalCareProduct_masst_tree/personalCareProduct_tree_generator.py:59-65 | a joined row holds the dataset, the file name, the category, the rewritten USI and the node name |
| PersonalCareTree.MatchesFor | trees/personalCareProduct_masst_tree/personalCareProduct_tree_generator.py:59 | the rows of one MRI: one per association with its id, in association order |
| PersonalCareTree.MatchesForAppend | trees/personalCareProduct_masst_tree/personalCareProduct_tree_generator.py:59 | the matches of one MRI against two runs of associations are those of each run, one after the other |
| PersonalCareTree.Merge | trees/personalCareProduct_masst_tree/personalCareProduct_tree_generator.py:59 | a row is in the inner join exactly when it joins an MRI with an association of the same id; one MRI row gives its matches |
| PersonalCareTree.MergeAppend | trees/personalCareProduct_masst_tree/personalCareProduct_tree_generator.py:59 | the join keeps the order of the MRI rows: two runs join one after the other |
| PersonalCareTree.ProductTable | trees/personalCareProduct_masst_tree/personalCareProduct_tree_generator.py:36-65 | exactly the joins of kept MRIs with the associations of their id; one MRI row gives its matches when kept and nothing otherwise |
| PersonalCareTree.ProductTableAppend | trees/personalCareProduct_masst_tree/personalCareProduct_tree_generator.py:36-65 | the product table of two runs of MRI rows is the two runs' tables, one after the other |
| PersonalCareTree.Categories | trees/personalCareProduct_masst_tree/personalCareProduct_tree_generator.py:81 | the category column, row by row |
| PersonalCareTree.Path | trees/personalCareProduct_masst_tree/personalCareProduct_tree_generator.py:82 | a category path has at least one name |
| PersonalCareTree.Bump | trees/personalCareProduct_masst_tree/personalCareProduct_tree_generator.py:84 | one more for the name, the same for every other name; a new name is appended to the insertion order |
| PersonalCareTree.AppendDistinct | trees/personalCareProduct_masst_tree/personalCareProduct_tree_generator.py:84 | appending a new name keeps the insertion order free of repeats |
| PersonalCareTree.CountParts | trees/personalCareProduct_masst_tree/personalCareProduct_tree_generator.py:83-84 | counting a path keeps the earlier names first |
| PersonalCareTree.CountPartsGet | trees/personalCareProduct_masst_tree/personalCareProduct_tree_generator.py:83-84 | counting a path adds its occurrences of each name |
| PersonalCareTree.CountCategories | trees/personalCareProduct_masst_tree/personalCareProduct_tree_generator.py:81-84 | counting paths keeps the order, the first name of the first path first |
| PersonalCareTree.CountCategoriesGet | trees/personalCareProduct_masst_tree/personalCareProduct_tree_generator.py:81-84 | counting paths adds their occurrences of each name |
| PersonalCareTree.NodeCounts | trees/personalCareProduct_masst_tree/personalCareProduct_tree_generator.py:78-89 | each name's count is its occurrences over all paths, the first name of the first path leads, and the table is empty exactly when there are no paths |
| PersonalCareTree.TotalAtLeastFirst | trees/personalCareProduct_masst_tree/personalCareProduct_tree_generator.py:104 | the first name is counted at least once |
| PersonalCareTree.PathEdges | trees/personalCareProduct_masst_tree/personalCareProduct_tree_generator.py:95-96 | exactly the consecutive pairs of a path |
| PersonalCareTree.AllEdges | trees/personalCareProduct_masst_tree/personalCareProduct_tree_generator.py:92-96 | exactly the edges of some path |
| PersonalCareTree.Dedup | trees/personalCareProduct_masst_tree/personalCareProduct_tree_generator.py:98 | the edges not yet seen, each once |
| PersonalCareTree.EdgeTable | trees/personalCareProduct_masst_tree/personalCareProduct_tree_generator.py:98 | exactly the edges of some path, each once |
| PersonalCareTree.EdgeEndsCounted | trees/personalCareProduct_masst_tree/personalCareProduct_tree_generator.py:121 | both ends of an edge are counted names, so the count lookup finds a row |
| PersonalCareTree.EdgePosition | trees/personalCareProduct_masst_tree/personalCareProduct_tree_generator.py:92-98 | an edge of the table sits between two consecutive names of some path |
| PersonalCareTree.NodeCountsTotal | trees/personalCareProduct_masst_tree/personalCareProduct_tree_generator.py:84 | a name's count is its total occurrences |
| PersonalCareTree.OccOnPath | trees/personalCareProduct_masst_tree/personalCareProduct_tree_generator.py:83-84 | every name of a path occurs on it |
| PersonalCareTree.TotalAtLeastOcc | trees/personalCareProduct_masst_tree/personalCareProduct_tree_generator.py:81-84 | the total counts at least the occurrences on one path |
| PersonalCareTree.Targets | trees/personalCareProduct_masst_tree/personalCareProduct_tree_generator.py:115 | exactly the targets of the edges out of the name |
| PersonalCareTree.NodeFields | trees/personalCareProduct_masst_tree/personalCareProduct_tree_generator.py:105-127 | a node dict holds the ID, the name and the size |
| PersonalCareTree.Children | trees/personalCareProduct_masst_tree/personalCareProduct_tree_generator.py:115-131 | one child node per edge out of the name |
| PersonalCareTree.ChildNodes | trees/personalCareProduct_masst_tree/personalCareProduct_tree_generator.py:119-131 | one node per given target |
| PersonalCareTree.ChildNodesFields | trees/personalCareProduct_masst_tree/personalCareProduct_tree_generator.py:120-127 | the k-th child is named after the k-th target, with ID `parent_target` and the target's count |
| PersonalCareTree.ChildNodesChildren | trees/personalCareProduct_masst_tree/personalCareProduct_tree_generator.py:128 | the k-th child carries the subtree of the k-th target |
| PersonalCareTree.BuildTree | trees/personalCareProduct_masst_tree/personalCareProduct_tree_generator.py:101-134 | `IndexError` exactly when there are no paths; otherwise the root is the first path's first name, ID and name alike, with its count, and its children come from the edges |
| PersonalCareTree.ChildNodeFacts | trees/personalCareProduct_masst_tree/personalCareProduct_tree_generator.py:115-131 | every child is an edge target on some path, sized by its count, which is at least 1 |
| PersonalCareTree.ProductTree | trees/personalCareProduct_masst_tree/personalCareProduct_tree_generator.py:36-134 | fails exactly when the joined table is empty; otherwise rooted at the first row's first category name |
| BundleHtml.ReplaceByLocalFile | code/bundle_to_html.py:13-29 | each of the five shipped resources maps to its copy under `../code/lib/`, checked in the source's order; any other path is returned unchanged |
| BundleHtml.ReplaceByLocalFileIdempotent | code/bundle_to_html.py:13-29 | a local copy maps to itself, so swapping twice changes nothing more |
| BundleHtml.LocalCopiesFixed | code/bundle_to_html.py:19-29 | each of the five local copies is left as it is |
| BundleHtml.ScriptSourceOf | code/bundle_to_html.py:86-93 | a script is downloaded exactly when its path, after the swap, starts with `http`, and then from the original address; a shipped resource is always read locally |
| BundleHtml.DataText | code/bundle_to_html.py:40-44 | the file's text when the data names a readable file, the data itself otherwise |
| BundleHtml.ReplaceDataInFile | code/bundle_to_html.py:32-47 | without the placeholder the text is unchanged; otherwise only its first occurrence becomes the data |
| BundleHtml.ReplaceFirstWithItself | code/bundle_to_html.py:45 | replacing the placeholder by itself gives the text back |
| BundleHtml.ReplaceFirstKeepsRest | code/bundle_to_html.py:45 | the text around the first occurrence is kept, and the length changes by the difference |
| BundleHtml.ReplacePlaceholders | code/bundle_to_html.py:114-119 | no placeholders leave the text unchanged |
| BundleHtml.ReplaceOne | code/bundle_to_html.py:116-119 | a `None` value is replaced as the empty string |
| BundleHtml.ReplacePlaceholdersAppend | code/bundle_to_html.py:115-119 | the loop over two dictionaries in a row is the loop over their concatenation |
| BundleHtml.NoneDeletes | code/bundle_to_html.py:118-119 | a placeholder with value `None` is deleted when the empty path reads as nothing |
| BundleHtml.AbsentPlaceholders | code/bundle_to_html.py:115-119 | placeholders absent from the text leave it unchanged |
| MakeTable.WithoutFiltered | code/lib/makeTable.js:22-26 | exactly the columns not in the filter list, none added |
| MakeTable.ColumnNames | code/lib/makeTable.js:19-27 | no records is a `TypeError`; without a filter the first record's keys; with one, exactly those keys not filtered |
| MakeTable.FilterKeepsOrder | code/lib/makeTable.js:22-26 | the remaining columns keep their order |
| MakeTable.SubsequenceSkip | code/lib/makeTable.js:22-26 | skipping a filtered column keeps the rest a subsequence |
| MakeTable.FilterNothing | code/lib/makeTable.js:22-26 | a filter that names no column keeps them all |
| MakeTable.FilterIdempotent | code/lib/makeTable.js:22-26 | filtering twice removes nothing more |
| MakeTable.MakeSortBy | code/lib/makeTable.js:151-160 | the column name and `asc` exactly when ascending, `desc` otherwise |
| MakeTable.IndexOf | code/lib/makeTable.js:42 | the first position of the name, -1 exactly when it is absent |
| MakeTable.SortOrder | code/lib/makeTable.js:40-44 | no order option without `sort_by`; otherwise one entry with the direction and the index of the column among the shown ones, -1 exactly when it is not shown |
| MakeTable.SortByFilteredColumn | code/lib/makeTable.js:20-44 | sorting by a filtered column asks DataTables for column -1 |
| MakeTable.Kind | code/lib/makeTable.js:61-80 | a `CCMSLIB` value is a library link before anything else; an `mzspec:` value is a mirror for a scan or library accession and a file link otherwise; an `MSV0` value is a dataset link; any other value stays plain |
| MakeTable.Render | code/lib/makeTable.js:58-83 | outside the display type or for a plain value the cell is unchanged; otherwise the link of its kind, the mirror pairing the input USI when it is non-empty |
| MakeTable.AnchorText | code/lib/makeTable.js:62-80 | the anchor's text can be read back before `</a>` |
| MakeTable.AnchorUrl | code/lib/makeTable.js:62-80 | the anchor's address can be read back after `<a href="` |
| MakeTable.LinkShowsValue | code/lib/makeTable.js:61-80 | every link except "Open file" shows the cell's value as its text |
| MakeTable.RenderedAnchor | code/lib/makeTable.js:61-80 | library, mirror and dataset links are anchors around the value itself |
| MakeTable.LibraryFirst | code/lib/makeTable.js:61-63 | a library ID is linked to the library page whatever else it contains |
| MakeTable.UsiNeverDataset | code/lib/makeTable.js:64-78 | a value starting with `mzspec:` is never a dataset link |
| MasstClient.Sanitize | code/masst_client.py:504 | the scan never lengthens the text, and from outside a run gives an empty result only for an empty text |
| MasstClient.PathSafe | code/masst_client.py:503-504 | never longer than the input, and empty exactly when the input is |
| MasstClient.SanitizeAllowed | code/masst_client.py:504 | only characters of the class `[-a-zA-Z0-9_.() ]` come out of the scan |
| MasstClient.PathSafeAllowed | code/masst_client.py:503-504 | the result holds only characters of the class |
| MasstClient.SanitizeKeepsSafe | code/masst_client.py:504 | a text of allowed characters passes the scan unchanged |
| MasstClient.PathSafeKeepsSafe | code/masst_client.py:503-504 | a text that is already safe is returned unchanged |
| MasstClient.PathSafeIdempotent | code/masst_client.py:503-504 | sanitising twice changes nothing more |
| MasstClient.SanitizeAppend | code/masst_client.py:504 | after an allowed character the scan of the rest starts afresh |
| MasstClient.PathSafeAppend | code/masst_client.py:503-504 | a text split after an allowed character is sanitised piece by piece |
| MasstClient.RunDropped | code/masst_client.py:504 | inside a run, further disallowed characters add nothing |
| MasstClient.RunBecomesOne | code/masst_client.py:503-504 | a maximal run of disallowed characters becomes a single `_` |
| MasstClient.CommonBaseFileName | code/masst_client.py:298-302 | the file name alone for a missing or empty compound; otherwise the file name, `_`, and the compound with spaces made `_`; always starting with the file name |
| MasstClient.NoSpacesLeft | code/masst_client.py:300 | no space is left in the compound part |
| MasstClient.SpacesReplacedInPlace | code/masst_client.py:300 | replacing spaces keeps the length and every other character in place |
| MasstClient.CreateParamsLabel | code/masst_client.py:507-525 | the label starts with the five base parameters and is longer exactly for an analog search, which appends the mass window |
| MasstClient.LabelsTellAnalog | code/masst_client.py:516-525 | two searches differing only in the analog flag get different labels |
| MasstClient.ResultsOf | code/masst_client.py:342-350 | an object gives its `results` member, none exactly when absent |
| MasstClient.Len | code/masst_client.py:350 | a list's length; a number, a boolean or a null has no length (`TypeError`) |
| MasstClient.QueryUsiOrId | code/masst_client.py:305-394 | a raised call is `False`; a falsy response or one without `results` is `False`; an empty result list is `True`, since `export_empty_masst_results` swallows any error writing its file; a non-empty list succeeds exactly when its processing does |
| MasstClient.ResultsProcessed | code/masst_client.py:350-391 | a non-empty result list is a success exactly when processing goes through |
| MasstClient.EmptyResultsSucceed | code/masst_client.py:350-354 | an empty result list succeeds whatever processing would have done |

## Left out

- File and network I/O: reading and writing CSV, TSV, JSON and HTML files, the fastMASST HTTP requests and their cache, and logging.  A fastMASST response, a loaded tree, a file's text (`read` in `BundleHtml`) and whether exporting matches succeeded are parameters of the model.
- `json.dumps`, `NpEncoder`, pretty versus compact output, and the formatting of floats in `create_params_label`; parameters are opaque text in `MasstClient.CreateParamsLabel`.
- BeautifulSoup tag inlining, base64 images and `minify_html` in `code/bundle_to_html.py`; only `replace_by_local_file`, `replace_data_in_file` and the placeholder loop are modelled.
- The d3, jQuery and DataTables wiring of `code/lib/makeTable.js` (highlighting, selection, the event dispatcher), and `code/internalized_tables.js`.
- Floating-point quantification in `create_quant_summary` and `import_quantdf` of `code/masst_dataset_summary.py`, and the multi-index frame built for it; only the column renaming of `import_quantdf` is modelled.
- The concurrent batch client and `input_label` of `code/masst_client.py`, the match extraction it calls (`extract_matches_from_masst_results` and friends are not part of this model), and every command-line entry point.
- Pandas dtype and NaN quirks: IDs read from `tree_df_group_size.tsv` without a dtype may be parsed as numbers, so the comparison with `'-1'` could then fail; the model keeps every ID as text.
- Json.PyStr: a fractional or very large float, a list or an object has no text form in the model and, as a node key, matches no data row, because Python's shortest float representation and container representations are not modelled; whole floats below 10^16 are written as Python writes them.
- OntologyExtender.StringKeys, OntologyExtender.CellText and SampleCounts.UpdateMetadataOnTree: for the same reason a data-key cell holding a fractional or very large float, a list or an object keeps its value where `astype(str)` would give its text, so it matches no node key, where Python could match it.
- UsiUtils.DatasetText: a float, list or object dataset cell is a `TypeError` in the model instead of its Python text form, for the same reason.
- Json.Add: `+` on two strings or two lists (concatenation) is a `TypeError` in the model; the engine only adds sizes.
- MasstTree.GroupMatches: groups are listed in first-occurrence order, while `groupby` sorts its keys; keys are distinct, so looking a key up is unaffected.
- MasstTree.Merge: when a match and a metadata row share a column besides `file_usi`, the model keeps the match's value, while `pd.merge` would keep both under `_x` and `_y` suffixes; the joined column list `matchColumns + metadataColumns` then names such a column twice instead of renaming it.
- OntologyExtender.PieFields: the Python code writes part of `pie_data` before a missing size raises `KeyError`; the model returns the error and no partly changed node.
- OntologyExtender.EnrichFields: `add_data_to_node` logs and swallows any exception; the model's enrichment of one node cannot fail, so there is nothing to swallow.  A NaN data cell is a null in the model, so it is copied as null, which the missing-member test then counts: a NaN `group_size` or `matched_size` is rolled up from the children, where Python keeps the NaN (not `None`) and its statistics become NaN.  A cell absent from a row's map is not copied, where a pandas row holds every column.
- DatasetSummary.CreateSummaryFile: the files the glob `*{prefix}.json` finds are given in the order the glob lists them; the prefix is matched literally, and `\d` is read as the ASCII digits, where Python's also matches other Unicode decimal digits.
- MicrobiomeTree.BuildTree and PersonalCareTree.BuildTree: on a table or category paths with a cycle the Python recursion runs until `RecursionError`; the model asks for a rank that falls from parent to child and says nothing about cyclic input.
- MakeTable.SortOrder: when no sort column was set, DataTables falls back to its own default order, which is not modelled.
- OntologyExtender.CalcRootStats: a root without a `children` member raises `KeyError` in Python; a model node always has a (possibly empty) child list, so that error is not modelled.
- DatasetSummary.JsonToDataFrame: likewise a root without `children` raises `KeyError` in Python and is not modelled, since every model node has a child list.
- CheckMetadata.SortValues: for a sort on one column only a sorted permutation is promised, not the order among tied rows, since pandas' default sort on one column is not stable.  For sorts on several columns the promised order among ties covers rows whose sort cells are equal as values; cells that tie without being equal values (an integer and the equal real) are not covered.
- MasstTree.MatchRecords: `to_json(orient="records")` makes each group's `matches_json` a JSON text; the model keeps the records as a list of objects in its place, and the text's float formatting and escaping are not modelled.

=== FILE: bundle_html.dfy ===
/**
 * code/bundle_to_html.py: bundling a page into one HTML file.  Web
 * resources are swapped for local copies where the project ships one, and
 * each placeholder of the page is replaced, first occurrence only, by data
 * read from a file or given as text.  Reading a file is a parameter `read`
 * of the model: `read(p)` is the file's text, or `None` when reading fails.
 */
module BundleHtml {
  import opened Results
  import opened Strs

  // ---------------------------------------------------------------------
  // replace_by_local_file, lines 13-29
  // ---------------------------------------------------------------------

  const LocalLib := "../code/lib/"

  /** The local copy for a web resource the project ships, or the path unchanged. */
  function ReplaceByLocalFile(path: string): (r: string)
    ensures path == "https://d3js.org/d3.v3.min.js" ==> r == LocalLib + "d3.v3.min.js"
    ensures path == "https://d3js.org/d3.v6.min.js" ==> r == LocalLib + "d3.v6.min.js"
    ensures path == "https://code.jquery.com/jquery-3.6.0.min.js" ==> r == LocalLib + "jquery-3.6.0.min.js"
    ensures EndsWith(path, "jquery.dataTables.min.js") ==> r == LocalLib + "jquery.dataTables.min.js"
    ensures !EndsWith(path, "jquery.dataTables.min.js") && EndsWith(path, "jquery.dataTables.min.css") ==>
              r == LocalLib + "jquery.dataTables.min.css"
    ensures r == path || (StartsWith(r, LocalLib) && r[0] == '.')
    ensures IsShipped(path) ==> StartsWith(r, LocalLib) && r[0] == '.'
    ensures !IsShipped(path) ==> r == path
  {
    if path == "https://d3js.org/d3.v3.min.js" then LocalLib + "d3.v3.min.js"
    else if path == "https://d3js.org/d3.v6.min.js" then LocalLib + "d3.v6.min.js"
    else if path == "https://code.jquery.com/jquery-3.6.0.min.js" then LocalLib + "jquery-3.6.0.min.js"
    else if EndsWith(path, "jquery.dataTables.min.js") then LocalLib + "jquery.dataTables.min.js"
    else if EndsWith(path, "jquery.dataTables.min.css") then LocalLib + "jquery.dataTables.min.css"
    else path
  }

  /** The resources that have a local copy. */
  predicate IsShipped(path: string) {
    || path == "https://d3js.org/d3.v3.min.js"
    || path == "https://d3js.org/d3.v6.min.js"
    || path == "https://code.jquery.com/jquery-3.6.0.min.js"
    || EndsWith(path, "jquery.dataTables.min.js")
    || EndsWith(path, "jquery.dataTables.min.css")
  }

  /** A local copy is its own local copy: swapping twice changes nothing more. */
  lemma ReplaceByLocalFileIdempotent(path: string)
    ensures ReplaceByLocalFile(ReplaceByLocalFile(path)) == ReplaceByLocalFile(path)
  {
    var r := ReplaceByLocalFile(path);
    if r != path {
      LocalCopiesFixed();
    }
  }

  /** The five local copies are left as they are. */
  lemma LocalCopiesFixed()
    ensures ReplaceByLocalFile(LocalLib + "d3.v3.min.js") == LocalLib + "d3.v3.min.js"
    ensures ReplaceByLocalFile(LocalLib + "d3.v6.min.js") == LocalLib + "d3.v6.min.js"
    ensures ReplaceByLocalFile(LocalLib + "jquery-3.6.0.min.js") == LocalLib + "jquery-3.6.0.min.js"
    ensures ReplaceByLocalFile(LocalLib + "jquery.dataTables.min.js") == LocalLib + "jquery.dataTables.min.js"
    ensures ReplaceByLocalFile(LocalLib + "jquery.dataTables.min.css") == LocalLib + "jquery.dataTables.min.css"
  {
    var js := "jquery.dataTables.min.js";
    var css := "jquery.dataTables.min.css";
    var d3 := LocalLib + "d3.v3.min.js";
    var d6 := LocalLib + "d3.v6.min.js";
    var jq := LocalLib + "jquery-3.6.0.min.js";
    var c := LocalLib + css;
    assert d3[|d3| - |js|..][0] != js[0];
    assert d6[|d6| - |js|..][0] != js[0];
    assert jq[|jq| - |js|..][6] != js[6];
    assert c[|c| - |js|..][0] != js[0];
    assert !EndsWith(d3, css) && !EndsWith(d6, css) && !EndsWith(jq, css);
    assert (LocalLib + js)[|LocalLib + js| - |js|..] == js;
    assert c[|c| - |css|..] == css;
  }

  /** Lines 88-93: where a script's text comes from once the local copy is chosen. */
  datatype ScriptSource = Download(url: string) | LocalRead(path: string)

  function ScriptSourceOf(src: string): (r: ScriptSource)
    ensures r.Download? <==> StartsWith(ReplaceByLocalFile(src), "http")
    ensures IsShipped(src) ==> r.LocalRead?
    ensures r.Download? ==> r.url == src
  {
    var path := ReplaceByLocalFile(src);
    assert StartsWith(path, "http") ==> path[0] == 'h';
    if StartsWith(path, "http") then
      Download(path)
    else LocalRead(path)
  }

  // ---------------------------------------------------------------------
  // replace_data_in_file, lines 32-47
  // ---------------------------------------------------------------------

  /**
   * The text `data` stands for: the file's text when it names a readable
   * file, the string itself otherwise.
   */
  function DataText(data: string, read: string -> Option<string>): (r: string)
    ensures read(data).Some? ==> r == read(data).value
    ensures read(data).None? ==> r == data
  {
    match read(data)
    case Some(t) => t
    case None => data
  }

  /** The first occurrence of the placeholder, and only it, becomes the data. */
  function ReplaceDataInFile(data: string, text: string, placeholder: string, read: string -> Option<string>): (r: string)
    ensures !Contains(text, placeholder) ==> r == text
    ensures Contains(text, placeholder) ==>
              var i := Find(text, placeholder).value;
              r == text[..i] + DataText(data, read) + text[i + |placeholder|..]
  {
    ReplaceFirst(text, placeholder, DataText(data, read))
  }

  /** Putting the placeholder back in its own place gives the text back. */
  lemma ReplaceFirstWithItself(text: string, placeholder: string)
    ensures ReplaceFirst(text, placeholder, placeholder) == text
  {
    match Find(text, placeholder)
    case None =>
    case Some(i) =>
      assert text[i..i + |placeholder|] == placeholder;
      assert text == text[..i] + text[i..i + |placeholder|] + text[i + |placeholder|..];
  }

  /** The text around the first occurrence of the placeholder is kept as it was. */
  lemma ReplaceFirstKeepsRest(text: string, placeholder: string, data: string)
    requires Contains(text, placeholder)
    ensures var i := Find(text, placeholder).value;
            var r := ReplaceFirst(text, placeholder, data);
            StartsWith(r, text[..i]) && EndsWith(r, text[i + |placeholder|..]) &&
            |r| == |text| - |placeholder| + |data|
  {
  }

  // ---------------------------------------------------------------------
  // The placeholder loop of build_dist_html, lines 114-119
  // ---------------------------------------------------------------------

  /**
   * Each placeholder of `replacements`, in the dictionary's order, gets
   * its value; a `None` value counts as the empty string.
   */
  function ReplacePlaceholders(text: string, replacements: seq<(string, Option<string>)>,
                               read: string -> Option<string>): (r: string)
    ensures |replacements| == 0 ==> r == text
    decreases |replacements|
  {
    if |replacements| == 0 then text
    else ReplacePlaceholders(ReplaceOne(text, replacements[0], read), replacements[1..], read)
  }

  /** One pass of the loop: a `None` value is replaced by `""`. */
  function ReplaceOne(text: string, entry: (string, Option<string>), read: string -> Option<string>): (r: string)
    ensures entry.1.Some? ==> r == ReplaceDataInFile(entry.1.value, text, entry.0, read)
    ensures entry.1.None? ==> r == ReplaceDataInFile("", text, entry.0, read)
  {
    ReplaceDataInFile(if entry.1.Some? then entry.1.value else "", text, entry.0, read)
  }

  /** The loop over two dictionaries in a row is the loop over their concatenation. */
  lemma {:induction false} ReplacePlaceholdersAppend(text: string, a: seq<(string, Option<string>)>, b: seq<(string, Option<string>)>,
                                                     read: string -> Option<string>)
    ensures ReplacePlaceholders(text, a + b, read) == ReplacePlaceholders(ReplacePlaceholders(text, a, read), b, read)
    decreases |a|
  {
    if |a| > 0 {
      ReplacePlaceholdersAppend(ReplaceOne(text, a[0], read), a[1..], b, read);
      assert (a + b)[0] == a[0];
      assert (a + b)[1..] == a[1..] + b;
    } else {
      assert a + b == b;
    }
  }

  /** A placeholder whose value is `None` is deleted, when the empty path reads as nothing. */
  lemma NoneDeletes(text: string, placeholder: string, read: string -> Option<string>)
    requires read("").None?
    ensures ReplacePlaceholders(text, [(placeholder, None)], read) == ReplaceFirst(text, placeholder, "")
  {
  }

  /** Placeholders absent from the text leave it unchanged, whatever their values. */
  lemma {:induction false} AbsentPlaceholders(text: string, replacements: seq<(string, Option<string>)>, read: string -> Option<string>)
    requires forall k :: 0 <= k < |replacements| ==> !Contains(text, replacements[k].0)
    ensures ReplacePlaceholders(text, replacements, read) == text
    decreases |replacements|
  {
    if |replacements| > 0 {
      AbsentPlaceholders(text, replacements[1..], read);
    }
  }
}

=== FILE: check_metadata.dfy ===
/**
 * code/prepare_check_metadata.py: clean a metadata table, report the rows
 * that share a `file_usi`, and keep one row per `file_usi`, chosen by
 * sorting on `file_usi` (ascending), `Taxa_Assigment` and `Taxa_NCBI`
 * (both descending) and keeping the first row of each `file_usi`.
 *
 * Sorting follows `pandas.DataFrame.sort_values`: null cells go last
 * whatever the direction, text compares by code points and numbers by
 * value.  Sorting on several columns ranks every column's values first, and
 * that ranking puts numbers before text, so a column mixing the two still
 * sorts; sorting on one column compares the values directly, and there a
 * column mixing text and numbers cannot be sorted (`TypeError`).
 */
module CheckMetadata {
  import opened Results
  import opened Json
  import opened Strs
  import UsiUtils

  // ---------------------------------------------------------------------
  // Whitespace stripping, line 18
  // ---------------------------------------------------------------------

  function StripCell(v: Value): Value {
    if v.Str? then Str(Strip(v.s)) else v
  }

  function StripRow(r: Row): (o: Row)
    ensures o.Keys == r.Keys
    ensures forall c :: c in r ==> o[c] == StripCell(r[c])
  {
    map c | c in r :: StripCell(r[c])
  }

  /** `df.applymap(lambda x: x.strip() if isinstance(x, str) else x)`. */
  function StripCells(rows: seq<Row>): (r: seq<Row>)
    ensures |r| == |rows|
    ensures forall i :: 0 <= i < |rows| ==> r[i] == StripRow(rows[i])
  {
    seq(|rows|, i requires 0 <= i < |rows| => StripRow(rows[i]))
  }

  /**
   * Every text cell is stripped of surrounding whitespace, every other cell
   * and every column is left alone, and stripping a second time changes
   * nothing.
   */
  lemma StripCellsEffect(rows: seq<Row>)
    ensures forall i, c :: 0 <= i < |rows| && c in rows[i] && rows[i][c].Str? ==>
              StripCells(rows)[i][c] == Str(Strip(rows[i][c].s))
    ensures forall i, c :: 0 <= i < |rows| && c in rows[i] && !rows[i][c].Str? ==>
              StripCells(rows)[i][c] == rows[i][c]
    ensures StripCells(StripCells(rows)) == StripCells(rows)
  {
    var once := StripCells(rows);
    forall i | 0 <= i < |rows|
      ensures StripRow(once[i]) == once[i]
    {
      forall c | c in once[i]
        ensures StripCell(once[i][c]) == once[i][c]
      {
        if rows[i][c].Str? {
          StripIdempotent(rows[i][c].s);
        }
      }
    }
  }

  // ---------------------------------------------------------------------
  // Ordering of cells and rows
  // ---------------------------------------------------------------------

  /** Code-point lexicographic comparison of text: -1, 0 or 1. */
  function StrCmp(a: string, b: string): (r: int)
    ensures -1 <= r <= 1
  {
    if |a| == 0 && |b| == 0 then 0
    else if |a| == 0 then -1
    else if |b| == 0 then 1
    else if a[0] < b[0] then -1
    else if a[0] > b[0] then 1
    else StrCmp(a[1..], b[1..])
  }

  lemma {:induction false} StrCmpAntisymmetric(a: string, b: string)
    ensures StrCmp(a, b) == -StrCmp(b, a)
  {
    if |a| > 0 && |b| > 0 && a[0] == b[0] {
      StrCmpAntisymmetric(a[1..], b[1..]);
    }
  }

  lemma {:induction false} StrCmpTransitive(a: string, b: string, c: string)
    requires StrCmp(a, b) <= 0 && StrCmp(b, c) <= 0
    ensures StrCmp(a, c) <= 0
  {
    if |a| > 0 && |b| > 0 && |c| > 0 && a[0] == b[0] && b[0] == c[0] {
      StrCmpTransitive(a[1..], b[1..], c[1..]);
    }
  }

  function RealCmp(x: real, y: real): int {
    if x < y then -1 else if x > y then 1 else 0
  }

  /** A cell a sort can rank: text or a number. */
  predicate Orderable(v: Value) {
    v.Str? || Numeric(v).Some?
  }

  /** Two cells can be ordered: one is null, or both are text or numbers. */
  predicate Comparable(a: Value, b: Value) {
    a == Null || b == Null || (Orderable(a) && Orderable(b))
  }

  /** The ascending order of two non-null cells: numbers before text, then by value. */
  function BaseCmp(a: Value, b: Value): int {
    if a.Str? && b.Str? then StrCmp(a.s, b.s)
    else if Numeric(a).Some? && Numeric(b).Some? then RealCmp(Numeric(a).value, Numeric(b).value)
    else if Numeric(a).Some? && b.Str? then -1
    else if a.Str? && Numeric(b).Some? then 1
    else 0
  }

  /** The order of two cells in one sort column: nulls last, otherwise in the column's direction. */
  function ColCmp(a: Value, b: Value, asc: bool): (r: int)
    ensures -1 <= r <= 1
  {
    if a == Null && b == Null then 0
    else if a == Null then 1
    else if b == Null then -1
    else if asc then BaseCmp(a, b) else BaseCmp(b, a)
  }

  lemma ColCmpAntisymmetric(a: Value, b: Value, asc: bool)
    ensures ColCmp(a, b, asc) == -ColCmp(b, a, asc)
  {
    if a.Str? && b.Str? {
      StrCmpAntisymmetric(a.s, b.s);
    }
  }

  lemma ColCmpTransitive(a: Value, b: Value, c: Value, asc: bool)
    requires Comparable(a, b) && Comparable(b, c) && Comparable(a, c)
    requires ColCmp(a, b, asc) <= 0 && ColCmp(b, c, asc) <= 0
    ensures ColCmp(a, c, asc) <= 0
  {
    if a != Null && b != Null && c != Null && a.Str? && b.Str? && c.Str? {
      if asc {
        StrCmpTransitive(a.s, b.s, c.s);
      } else {
        StrCmpTransitive(c.s, b.s, a.s);
      }
    }
  }

  /** A sort column: its name and whether it is ascending. */
  datatype SortKey = SortKey(col: string, asc: bool)

  /** Lexicographic order of two rows on the sort columns. */
  function RowCmp(a: Row, b: Row, keys: seq<SortKey>): (r: int)
    ensures -1 <= r <= 1
  {
    if |keys| == 0 then 0
    else
      var c := ColCmp(Cell(a, keys[0].col), Cell(b, keys[0].col), keys[0].asc);
      if c != 0 then c else RowCmp(a, b, keys[1..])
  }

  predicate RowsComparable(a: Row, b: Row, keys: seq<SortKey>) {
    forall k :: 0 <= k < |keys| ==> Comparable(Cell(a, keys[k].col), Cell(b, keys[k].col))
  }

  /** Every two rows can be ordered on every sort column. */
  predicate AllComparable(rows: seq<Row>, keys: seq<SortKey>) {
    forall x, y :: x in rows && y in rows ==> RowsComparable(x, y, keys)
  }

  /** The column holds both text and a number. */
  predicate MixedColumn(rows: seq<Row>, col: string) {
    exists x, y :: x in rows && y in rows && Cell(x, col).Str? && Numeric(Cell(y, col)).Some?
  }

  /**
   * `sort_values` can order the rows on these columns: every two rows are
   * comparable, and a sort on a single column also refuses to mix text and
   * numbers in it.
   */
  predicate SortableBy(rows: seq<Row>, keys: seq<SortKey>) {
    && AllComparable(rows, keys)
    && (|keys| == 1 ==> !MixedColumn(rows, keys[0].col))
  }

  /** Rows taken from a sortable table are sortable. */
  lemma SortableBySubset(sub: seq<Row>, rows: seq<Row>, keys: seq<SortKey>)
    requires forall x :: x in sub ==> x in rows
    ensures SortableBy(rows, keys) ==> SortableBy(sub, keys)
  {
  }

  lemma {:induction false} RowCmpAntisymmetric(a: Row, b: Row, keys: seq<SortKey>)
    ensures RowCmp(a, b, keys) == -RowCmp(b, a, keys)
  {
    if |keys| > 0 {
      ColCmpAntisymmetric(Cell(a, keys[0].col), Cell(b, keys[0].col), keys[0].asc);
      RowCmpAntisymmetric(a, b, keys[1..]);
    }
  }

  lemma {:induction false} RowCmpTransitive(a: Row, b: Row, c: Row, keys: seq<SortKey>)
    requires RowsComparable(a, b, keys) && RowsComparable(b, c, keys) && RowsComparable(a, c, keys)
    requires RowCmp(a, b, keys) <= 0 && RowCmp(b, c, keys) <= 0
    ensures RowCmp(a, c, keys) <= 0
  {
    if |keys| > 0 {
      var k := keys[0];
      var x, y, z := Cell(a, k.col), Cell(b, k.col), Cell(c, k.col);
      assert Comparable(x, y) && Comparable(y, z) && Comparable(x, z) by {
        assert RowsComparable(a, b, keys) && RowsComparable(b, c, keys) && RowsComparable(a, c, keys);
      }
      ColCmpTransitive(x, y, z, k.asc);
      if ColCmp(x, z, k.asc) == 0 {
        // a and c tie on this column, so a, b and c all do.
        ColCmpAntisymmetric(x, z, k.asc);
        ColCmpAntisymmetric(y, z, k.asc);
        ColCmpAntisymmetric(x, y, k.asc);
        ColCmpTransitive(z, x, y, k.asc);
        ColCmpTransitive(y, z, x, k.asc);
        RowCmpTransitive(a, b, c, keys[1..]);
      }
    }
  }

  // ---------------------------------------------------------------------
  // sort_values, as a stable insertion sort
  // ---------------------------------------------------------------------

  predicate Sorted(s: seq<Row>, keys: seq<SortKey>) {
    forall i, j :: 0 <= i < j < |s| ==> RowCmp(s[i], s[j], keys) <= 0
  }

  /** `x` sorts no later than any row of `s`. */
  predicate AtMostAll(x: Row, s: seq<Row>, keys: seq<SortKey>) {
    forall j :: 0 <= j < |s| ==> RowCmp(x, s[j], keys) <= 0
  }

  lemma SortedCons(x: Row, s: seq<Row>, keys: seq<SortKey>)
    requires AtMostAll(x, s, keys) && Sorted(s, keys)
    ensures Sorted([x] + s, keys)
  {
    var r := [x] + s;
    forall i, j | 0 <= i < j < |r|
      ensures RowCmp(r[i], r[j], keys) <= 0
    {
      assert r[j] == s[j - 1];
      if i > 0 {
        assert r[i] == s[i - 1];
      }
    }
  }

  /** Insert `x` before the first row it does not sort after. */
  function Insert(x: Row, s: seq<Row>, keys: seq<SortKey>): (r: seq<Row>)
    ensures multiset(r) == multiset(s) + multiset{x}
    ensures forall y :: y in r <==> y == x || y in s
  {
    if |s| == 0 then [x]
    else if RowCmp(x, s[0], keys) <= 0 then [x] + s
    else
      assert s == [s[0]] + s[1..];
      [s[0]] + Insert(x, s[1..], keys)
  }

  /** A row that sorts no later than every row of `s` and than `x` sorts no later than `Insert(x, s)`. */
  lemma AtMostInsert(y: Row, x: Row, s: seq<Row>, keys: seq<SortKey>)
    requires AtMostAll(y, s, keys) && RowCmp(y, x, keys) <= 0
    ensures AtMostAll(y, Insert(x, s, keys), keys)
  {
    var t := Insert(x, s, keys);
    forall j | 0 <= j < |t|
      ensures RowCmp(y, t[j], keys) <= 0
    {
      assert t[j] in t;
      if t[j] != x {
        var k :| 0 <= k < |s| && s[k] == t[j];
      }
    }
  }

  /** Inserting in front: `x` is at most the head, hence at most every row. */
  lemma InsertFront(x: Row, s: seq<Row>, keys: seq<SortKey>)
    requires Sorted(s, keys) && |s| > 0 && RowCmp(x, s[0], keys) <= 0
    requires AllComparable(s + [x], keys)
    ensures AtMostAll(x, s, keys)
  {
    forall j | 0 <= j < |s|
      ensures RowCmp(x, s[j], keys) <= 0
    {
      if j > 0 {
        assert s[0] in s + [x] && s[j] in s + [x] && x in s + [x];
        RowCmpTransitive(x, s[0], s[j], keys);
      }
    }
  }

  lemma {:induction false} InsertSorted(x: Row, s: seq<Row>, keys: seq<SortKey>)
    requires Sorted(s, keys)
    requires AllComparable(s + [x], keys)
    ensures Sorted(Insert(x, s, keys), keys)
  {
    if |s| == 0 {
    } else if RowCmp(x, s[0], keys) <= 0 {
      InsertFront(x, s, keys);
      SortedCons(x, s, keys);
    } else {
      assert AllComparable(s[1..] + [x], keys) by {
        forall y | y in s[1..] + [x] ensures y in s + [x] {
        }
      }
      assert Sorted(s[1..], keys);
      InsertSorted(x, s[1..], keys);
      RowCmpAntisymmetric(x, s[0], keys);
      assert AtMostAll(s[0], s[1..], keys) by {
        forall j | 0 <= j < |s[1..]| ensures RowCmp(s[0], s[1..][j], keys) <= 0 {
          assert s[1..][j] == s[j + 1];
        }
      }
      AtMostInsert(s[0], x, s[1..], keys);
      SortedCons(s[0], Insert(x, s[1..], keys), keys);
    }
  }

  /** `sort_values`: a sorted rearrangement of the rows, equal rows kept in table order. */
  function Sort(rows: seq<Row>, keys: seq<SortKey>): (r: seq<Row>)
    ensures multiset(r) == multiset(rows)
  {
    if |rows| == 0 then []
    else
      assert rows == [rows[0]] + rows[1..];
      Insert(rows[0], Sort(rows[1..], keys), keys)
  }

  lemma {:induction false} SortSorted(rows: seq<Row>, keys: seq<SortKey>)
    requires AllComparable(rows, keys)
    ensures Sorted(Sort(rows, keys), keys)
  {
    if |rows| > 0 {
      var rest := Sort(rows[1..], keys);
      assert AllComparable(rows[1..], keys) by {
        forall y | y in rows[1..] ensures y in rows {
        }
      }
      SortSorted(rows[1..], keys);
      assert AllComparable(rest + [rows[0]], keys) by {
        forall y | y in rest + [rows[0]] ensures y in rows {
          if y != rows[0] {
            assert y in multiset(rest);
            assert y in multiset(rows[1..]);
          }
        }
      }
      InsertSorted(rows[0], rest, keys);
    }
  }

  // ---------------------------------------------------------------------
  // Stability: rows equal on every sort column keep their table order
  // ---------------------------------------------------------------------

  /** `y` holds the same cell as `x` in every sort column. */
  predicate SameKeys(y: Row, x: Row, keys: seq<SortKey>) {
    forall k :: 0 <= k < |keys| ==> Cell(y, keys[k].col) == Cell(x, keys[k].col)
  }

  /** The rows of `s` that hold `x`'s cells in every sort column, in the order of `s`. */
  function EqualKeys(s: seq<Row>, x: Row, keys: seq<SortKey>): (r: seq<Row>)
    ensures forall y :: y in r <==> y in s && SameKeys(y, x, keys)
  {
    if |s| == 0 then []
    else
      assert forall y :: y in s <==> y == s[0] || y in s[1..];
      (if SameKeys(s[0], x, keys) then [s[0]] else []) + EqualKeys(s[1..], x, keys)
  }

  /** `[a]` when `a` holds `x`'s sort cells, otherwise nothing. */
  function KeyHead(a: Row, x: Row, keys: seq<SortKey>): seq<Row> {
    if SameKeys(a, x, keys) then [a] else []
  }

  lemma EqualKeysCons(a: Row, t: seq<Row>, x: Row, keys: seq<SortKey>)
    ensures EqualKeys([a] + t, x, keys) == KeyHead(a, x, keys) + EqualKeys(t, x, keys)
  {
    assert ([a] + t)[1..] == t;
  }

  /** Rows with the same cells in every sort column tie. */
  lemma {:induction false} SameKeysTie(y: Row, x: Row, keys: seq<SortKey>)
    requires SameKeys(y, x, keys)
    ensures RowCmp(y, x, keys) == 0
  {
    if |keys| > 0 {
      var v := Cell(x, keys[0].col);
      assert Cell(y, keys[0].col) == v;
      ColCmpAntisymmetric(v, v, keys[0].asc);
      assert SameKeys(y, x, keys[1..]) by {
        forall k | 0 <= k < |keys[1..]| ensures Cell(y, keys[1..][k].col) == Cell(x, keys[1..][k].col) {
          assert keys[1..][k] == keys[k + 1];
        }
      }
      SameKeysTie(y, x, keys[1..]);
    }
  }

  /** Two rows with `x`'s sort cells tie with each other. */
  lemma BothSameTie(a: Row, b: Row, x: Row, keys: seq<SortKey>)
    requires SameKeys(a, x, keys) && SameKeys(b, x, keys)
    ensures RowCmp(a, b, keys) == 0
  {
    assert SameKeys(a, b, keys);
    SameKeysTie(a, b, keys);
  }

  /** Inserting `r` in front of `s` puts it before every row of `s` with its sort cells. */
  lemma {:induction false} InsertStable(r: Row, s: seq<Row>, x: Row, keys: seq<SortKey>)
    ensures EqualKeys(Insert(r, s, keys), x, keys) == EqualKeys([r] + s, x, keys)
  {
    if |s| > 0 && RowCmp(r, s[0], keys) > 0 {
      InsertStable(r, s[1..], x, keys);
      InsertStableStep(r, s, x, keys);
    }
  }

  lemma InsertStableStep(r: Row, s: seq<Row>, x: Row, keys: seq<SortKey>)
    requires |s| > 0 && RowCmp(r, s[0], keys) > 0
    requires EqualKeys(Insert(r, s[1..], keys), x, keys) == EqualKeys([r] + s[1..], x, keys)
    ensures EqualKeys(Insert(r, s, keys), x, keys) == EqualKeys([r] + s, x, keys)
  {
    InsertedAfterHead(r, s, x, keys);
    ConsTwo(r, s, x, keys);
    HeadsExclusive(r, s[0], x, keys);
    SwapHeads(KeyHead(r, x, keys), KeyHead(s[0], x, keys), EqualKeys(s[1..], x, keys));
  }

  /** When `r` goes after the head of `s`, the head's entry comes first. */
  lemma InsertedAfterHead(r: Row, s: seq<Row>, x: Row, keys: seq<SortKey>)
    requires |s| > 0 && RowCmp(r, s[0], keys) > 0
    requires EqualKeys(Insert(r, s[1..], keys), x, keys) == EqualKeys([r] + s[1..], x, keys)
    ensures EqualKeys(Insert(r, s, keys), x, keys)
              == KeyHead(s[0], x, keys) + (KeyHead(r, x, keys) + EqualKeys(s[1..], x, keys))
  {
    assert Insert(r, s, keys) == [s[0]] + Insert(r, s[1..], keys);
    EqualKeysCons(s[0], Insert(r, s[1..], keys), x, keys);
    EqualKeysCons(r, s[1..], x, keys);
  }

  lemma ConsTwo(r: Row, s: seq<Row>, x: Row, keys: seq<SortKey>)
    requires |s| > 0
    ensures EqualKeys([r] + s, x, keys) == KeyHead(r, x, keys) + (KeyHead(s[0], x, keys) + EqualKeys(s[1..], x, keys))
  {
    EqualKeysCons(r, s, x, keys);
    assert EqualKeys(s, x, keys) == KeyHead(s[0], x, keys) + EqualKeys(s[1..], x, keys);
  }

  /** Two rows that do not tie cannot both hold `x`'s sort cells. */
  lemma HeadsExclusive(a: Row, b: Row, x: Row, keys: seq<SortKey>)
    requires RowCmp(a, b, keys) != 0
    ensures |KeyHead(a, x, keys)| == 0 || |KeyHead(b, x, keys)| == 0
  {
    if SameKeys(a, x, keys) && SameKeys(b, x, keys) {
      BothSameTie(a, b, x, keys);
    }
  }

  /** At most one of two heads is non-empty, so they commute. */
  lemma SwapHeads<T>(a: seq<T>, b: seq<T>, tail: seq<T>)
    requires |a| == 0 || |b| == 0
    ensures b + (a + tail) == a + (b + tail)
  {
    if |a| == 0 {
      assert a + tail == tail && a + (b + tail) == b + tail;
    } else {
      assert b + (a + tail) == a + tail && b + tail == tail;
    }
  }

  /**
   * The sort is stable: the rows with the same cells in every sort column
   * come out in the order they had in the table.
   */
  lemma {:induction false} SortStable(rows: seq<Row>, x: Row, keys: seq<SortKey>)
    ensures EqualKeys(Sort(rows, keys), x, keys) == EqualKeys(rows, x, keys)
  {
    if |rows| > 0 {
      SortStable(rows[1..], x, keys);
      InsertStable(rows[0], Sort(rows[1..], keys), x, keys);
      EqualKeysCons(rows[0], Sort(rows[1..], keys), x, keys);
      EqualKeysCons(rows[0], rows[1..], x, keys);
      assert rows == [rows[0]] + rows[1..];
    }
  }

  /** Rows equal on every sort column come in the same order in `out` as in `rows`. */
  ghost predicate KeepsEqualOrder(out: seq<Row>, rows: seq<Row>, keys: seq<SortKey>) {
    forall x :: EqualKeys(out, x, keys) == EqualKeys(rows, x, keys)
  }

  lemma SortStableAll(rows: seq<Row>, keys: seq<SortKey>)
    ensures KeepsEqualOrder(Sort(rows, keys), rows, keys)
  {
    forall x ensures EqualKeys(Sort(rows, keys), x, keys) == EqualKeys(rows, x, keys) {
      SortStable(rows, x, keys);
    }
  }

  // ---------------------------------------------------------------------
  // drop_duplicates(["file_usi"]): keep the first row of each value
  // ---------------------------------------------------------------------

  function DropDuplicates(s: seq<Row>, col: string, seen: set<Value>): (r: seq<Row>)
    ensures forall x :: x in r ==> x in s && Cell(x, col) !in seen
    ensures forall i, j :: 0 <= i < j < |r| ==> Cell(r[i], col) != Cell(r[j], col)
  {
    if |s| == 0 then []
    else if Cell(s[0], col) in seen then DropDuplicates(s[1..], col, seen)
    else [s[0]] + DropDuplicates(s[1..], col, seen + {Cell(s[0], col)})
  }

  /** Every value of the column that was not already seen survives. */
  lemma {:induction false} DropDuplicatesKeepsValues(s: seq<Row>, col: string, seen: set<Value>)
    ensures forall y :: y in s && Cell(y, col) !in seen ==>
              exists x :: x in DropDuplicates(s, col, seen) && Cell(x, col) == Cell(y, col)
  {
    if |s| > 0 {
      var r := DropDuplicates(s, col, seen);
      if Cell(s[0], col) in seen {
        DropDuplicatesKeepsValues(s[1..], col, seen);
        assert forall y :: y in s && Cell(y, col) !in seen ==> y in s[1..];
      } else {
        DropDuplicatesKeepsValues(s[1..], col, seen + {Cell(s[0], col)});
        assert r[0] == s[0];
        forall y | y in s && Cell(y, col) !in seen
          ensures exists x :: x in r && Cell(x, col) == Cell(y, col)
        {
          if Cell(y, col) == Cell(s[0], col) {
            assert r[0] in r;
          } else {
            assert y in s[1..];
            var x :| x in DropDuplicates(s[1..], col, seen + {Cell(s[0], col)}) && Cell(x, col) == Cell(y, col);
            assert x in r;
          }
        }
      }
    }
  }

  /** `x` sits at `i` and no earlier row has its value in `col`. */
  predicate FirstWith(s: seq<Row>, col: string, x: Row, i: int) {
    0 <= i < |s| && s[i] == x && forall j :: 0 <= j < i ==> Cell(s[j], col) != Cell(x, col)
  }

  /** A surviving row is the first row of the sequence with its value. */
  lemma {:induction false} DropDuplicatesFirst(s: seq<Row>, col: string, seen: set<Value>, x: Row)
    requires x in DropDuplicates(s, col, seen)
    ensures exists i :: 0 <= i < |s| && s[i] == x && forall j :: 0 <= j < i ==> Cell(s[j], col) != Cell(x, col)
  {
    var i := FirstIndex(s, col, seen, x);
    assert FirstWith(s, col, x, i);
  }

  lemma {:induction false} FirstIndex(s: seq<Row>, col: string, seen: set<Value>, x: Row) returns (i: nat)
    requires x in DropDuplicates(s, col, seen)
    ensures FirstWith(s, col, x, i)
  {
    if Cell(s[0], col) in seen {
      var k := FirstIndex(s[1..], col, seen, x);
      i := k + 1;
      ShiftFirst(s, col, x, k);
    } else if x == s[0] {
      i := 0;
    } else {
      var seen' := seen + {Cell(s[0], col)};
      var k := FirstIndex(s[1..], col, seen', x);
      i := k + 1;
      ShiftFirst(s, col, x, k);
    }
  }

  /** A first position in the tail is a first position in the whole when the head differs. */
  lemma ShiftFirst(s: seq<Row>, col: string, x: Row, k: int)
    requires |s| > 0 && FirstWith(s[1..], col, x, k) && Cell(s[0], col) != Cell(x, col)
    ensures FirstWith(s, col, x, k + 1)
  {
    forall j | 0 <= j < k + 1 ensures Cell(s[j], col) != Cell(x, col) {
      if j > 0 {
        assert s[j] == s[1..][j - 1];
      }
    }
  }

  /** Dropping rows from a sorted sequence keeps it sorted. */
  lemma {:induction false} DropDuplicatesSorted(s: seq<Row>, col: string, seen: set<Value>, keys: seq<SortKey>)
    requires Sorted(s, keys)
    ensures Sorted(DropDuplicates(s, col, seen), keys)
  {
    if |s| > 0 {
      TailSorted(s, keys);
      if Cell(s[0], col) in seen {
        DropDuplicatesSorted(s[1..], col, seen, keys);
      } else {
        var seen' := seen + {Cell(s[0], col)};
        var t := DropDuplicates(s[1..], col, seen');
        DropDuplicatesSorted(s[1..], col, seen', keys);
        HeadAtMostAll(s, t, keys);
        ConsSorted(s[0], t, keys);
      }
    }
  }

  lemma TailSorted(s: seq<Row>, keys: seq<SortKey>)
    requires |s| > 0 && Sorted(s, keys)
    ensures Sorted(s[1..], keys)
  {
    forall i, j | 0 <= i < j < |s| - 1 ensures RowCmp(s[1..][i], s[1..][j], keys) <= 0 {
      assert s[1..][i] == s[i + 1] && s[1..][j] == s[j + 1];
    }
  }

  /** The head of a sorted sequence sorts no later than any row taken from its tail. */
  lemma HeadAtMostAll(s: seq<Row>, t: seq<Row>, keys: seq<SortKey>)
    requires |s| > 0 && Sorted(s, keys) && forall x :: x in t ==> x in s[1..]
    ensures AtMostAll(s[0], t, keys)
  {
    forall j | 0 <= j < |t| ensures RowCmp(s[0], t[j], keys) <= 0 {
      assert t[j] in s[1..];
      var k :| 0 <= k < |s[1..]| && s[1..][k] == t[j];
      assert s[k + 1] == t[j];
    }
  }

  lemma ConsSorted(x: Row, t: seq<Row>, keys: seq<SortKey>)
    requires Sorted(t, keys) && AtMostAll(x, t, keys)
    ensures Sorted([x] + t, keys)
  {
    forall i, j | 0 <= i < j < |t| + 1 ensures RowCmp(([x] + t)[i], ([x] + t)[j], keys) <= 0 {
      assert ([x] + t)[j] == t[j - 1];
      if i > 0 {
        assert ([x] + t)[i] == t[i - 1];
      }
    }
  }

  // ---------------------------------------------------------------------
  // prepare_check_metadata_file, lines 18-49
  // ---------------------------------------------------------------------

  const UsiKey := SortKey("file_usi", true)
  const BestFirst := [UsiKey, SortKey("Taxa_Assigment", false), SortKey("Taxa_NCBI", false)]

  /** How many rows hold `v` in `file_usi`. */
  function UsiCount(rows: seq<Row>, v: Value): nat {
    if |rows| == 0 then 0
    else UsiCount(rows[..|rows| - 1], v) + (if Cell(rows[|rows| - 1], "file_usi") == v then 1 else 0)
  }

  /** A value occurs at least twice exactly when two different positions hold it. */
  lemma {:induction false} UsiCountTwice(rows: seq<Row>, v: Value)
    ensures UsiCount(rows, v) >= 2 <==>
              exists i, j :: 0 <= i < j < |rows| && Cell(rows[i], "file_usi") == v && Cell(rows[j], "file_usi") == v
  {
    if |rows| > 0 {
      var init := rows[..|rows| - 1];
      var n := |rows| - 1;
      UsiCountTwice(init, v);
      UsiCountOnce(init, v);
      if UsiCount(rows, v) >= 2 {
        if UsiCount(init, v) >= 2 {
          var i, j :| 0 <= i < j < |init| && Cell(init[i], "file_usi") == v && Cell(init[j], "file_usi") == v;
          assert rows[i] == init[i] && rows[j] == init[j];
        } else {
          var i :| 0 <= i < |init| && Cell(init[i], "file_usi") == v;
          assert rows[i] == init[i];
          assert Cell(rows[n], "file_usi") == v;
        }
      } else {
        forall i, j | 0 <= i < j < |rows| && Cell(rows[i], "file_usi") == v
          ensures Cell(rows[j], "file_usi") != v
        {
          assert rows[i] == init[i];
          if j < n {
            assert rows[j] == init[j];
          }
        }
      }
    }
  }

  lemma {:induction false} UsiCountOnce(rows: seq<Row>, v: Value)
    ensures UsiCount(rows, v) >= 1 <==> exists i :: 0 <= i < |rows| && Cell(rows[i], "file_usi") == v
  {
    if |rows| > 0 {
      var init := rows[..|rows| - 1];
      UsiCountOnce(init, v);
      if UsiCount(init, v) >= 1 {
        var i :| 0 <= i < |init| && Cell(init[i], "file_usi") == v;
        assert rows[i] == init[i];
      }
      forall i | 0 <= i < |init| ensures rows[i] == init[i] {
      }
    }
  }

  function Filter(rows: seq<Row>, p: Row -> bool): (r: seq<Row>)
    ensures forall x :: x in r <==> x in rows && p(x)
  {
    if |rows| == 0 then []
    else
      assert forall x :: x in rows <==> x == rows[0] || x in rows[1..];
      (if p(rows[0]) then [rows[0]] else []) + Filter(rows[1..], p)
  }

  /** `df.duplicated(["file_usi"], keep=False)`: the rows whose `file_usi` occurs more than once, in table order. */
  function Duplicated(rows: seq<Row>): (r: seq<Row>)
    ensures forall x :: x in r <==> x in rows && UsiCount(rows, Cell(x, "file_usi")) >= 2
  {
    Filter(rows, x => UsiCount(rows, Cell(x, "file_usi")) >= 2)
  }

  /** The first sort column the table lacks is reported as `KeyError`. */
  function CheckColumns(columns: seq<string>, keys: seq<SortKey>): (r: Result<()>)
    ensures r.Ok? <==> forall k :: 0 <= k < |keys| ==> keys[k].col in columns
    ensures r.Err? ==> exists k :: 0 <= k < |keys| && keys[k].col !in columns && r.error == KeyError(keys[k].col)
  {
    if |keys| == 0 then Ok(())
    else if keys[0].col !in columns then Err(KeyError(keys[0].col))
    else
      assert forall k :: 1 <= k < |keys| ==> keys[k] == keys[1..][k - 1];
      CheckColumns(columns, keys[1..])
  }

  /**
   * `sort_values`: the table must have every sort column and the rows must
   * be sortable on them.  A sort on several columns is a stable lexsort, so
   * rows equal on every sort column keep their table order; a sort on one
   * column promises no order among such rows.
   */
  function SortValues(columns: seq<string>, rows: seq<Row>, keys: seq<SortKey>): (r: Result<seq<Row>>)
    ensures r.Ok? <==> (forall k :: 0 <= k < |keys| ==> keys[k].col in columns) && SortableBy(rows, keys)
    ensures r.Err? && (forall k :: 0 <= k < |keys| ==> keys[k].col in columns) ==> r.error == TypeError
    ensures r.Err? && (exists k :: 0 <= k < |keys| && keys[k].col !in columns) ==> r.error.KeyError?
    ensures r.Ok? ==> multiset(r.value) == multiset(rows) && Sorted(r.value, keys)
    ensures r.Ok? && |keys| > 1 ==> KeepsEqualOrder(r.value, rows, keys)
  {
    var _ :- CheckColumns(columns, keys);
    if SortableBy(rows, keys) then
      SortSorted(rows, keys);
      SortStableAll(rows, keys);
      Ok(Sort(rows, keys))
    else Err(TypeError)
  }

  /** Two rows whose `file_usi` is text in the first and a number in the second. */
  const MixedUsiRows: seq<Row> := [map["file_usi" := Str("a")], map["file_usi" := Int(1)]]

  /** The three columns that line 46 sorts on. */
  const SortColumns := ["file_usi", "Taxa_Assigment", "Taxa_NCBI"]

  /** A `file_usi` column holding both a number and text sorts on the three columns of line 46, number first. */
  lemma MixedUsiSortsOnSeveralColumns()
    ensures SortValues(SortColumns, MixedUsiRows, BestFirst) == Ok([MixedUsiRows[1], MixedUsiRows[0]])
  {
    MixedUsiComparable();
    MixedUsiSorted();
    assert CheckColumns(SortColumns, BestFirst).Ok?;
  }

  lemma MixedUsiSorted()
    ensures Sort(MixedUsiRows, BestFirst) == [MixedUsiRows[1], MixedUsiRows[0]]
  {
    var rows := MixedUsiRows;
    assert RowCmp(rows[0], rows[1], BestFirst) == 1 by {
      assert ColCmp(Str("a"), Int(1), true) == 1;
    }
    assert rows[1..] == [rows[1]] && rows[1..][1..] == [];
    assert Sort(rows[1..], BestFirst) == Insert(rows[1], [], BestFirst) == [rows[1]];
  }

  lemma MixedUsiComparable()
    ensures SortableBy(MixedUsiRows, BestFirst)
  {
    forall x, y | x in MixedUsiRows && y in MixedUsiRows ensures RowsComparable(x, y, BestFirst) {
      assert Orderable(Cell(x, "file_usi")) && Orderable(Cell(y, "file_usi"));
    }
  }

  /** The same column does not sort on `file_usi` alone, as lines 32-35 would. */
  lemma MixedUsiFailsOnOneColumn()
    ensures SortValues(SortColumns, MixedUsiRows, [UsiKey]) == Err(TypeError)
  {
    var rows := MixedUsiRows;
    assert MixedColumn(rows, "file_usi") by {
      assert rows[0] in rows && rows[1] in rows;
      assert Cell(rows[0], "file_usi").Str? && Numeric(Cell(rows[1], "file_usi")).Some?;
    }
    assert CheckColumns(SortColumns, [UsiKey]).Ok?;
  }

  /** Lines 18-21: strip every text cell, then derive `file_usi` when the table has no such column. */
  function WithFileUsi(columns: seq<string>, rows: seq<Row>): (r: Result<seq<Row>>)
    ensures "file_usi" in columns ==> r == Ok(StripCells(rows))
    ensures r.Ok? ==> |r.value| == |rows|
    ensures "file_usi" !in columns ==>
              var usis := UsiUtils.CreateFileUsiColumn(columns, StripCells(rows), "USI", "MassIVE", "Filename");
              (r.Ok? <==> usis.Ok?) &&
              (r.Ok? ==> forall i :: 0 <= i < |rows| ==> r.value[i] == StripCells(rows)[i]["file_usi" := Str(usis.value[i])])
  {
    var stripped := StripCells(rows);
    if "file_usi" in columns then Ok(stripped)
    else
      var usis :- UsiUtils.CreateFileUsiColumn(columns, stripped, "USI", "MassIVE", "Filename");
      Ok(seq(|stripped|, i requires 0 <= i < |stripped| => stripped[i]["file_usi" := Str(usis[i])]))
  }

  /**
   * `out` keeps one row of `table` per `file_usi` value: every value
   * survives exactly once, the rows come in ascending `file_usi` order, and
   * the row kept for a value sorts first among that value's rows by
   * `Taxa_Assigment` and `Taxa_NCBI`, both descending.
   */
  ghost predicate DeduplicatedTable(table: seq<Row>, out: seq<Row>) {
    && KeptFrom(table, out)
    && UniqueUsis(out)
    && AllUsisKept(table, out)
    && UsiAscending(out)
    && KeptBest(table, out)
  }

  ghost predicate KeptFrom(table: seq<Row>, out: seq<Row>) {
    forall x :: x in out ==> x in table
  }

  ghost predicate UniqueUsis(out: seq<Row>) {
    forall i, j :: 0 <= i < j < |out| ==> Cell(out[i], "file_usi") != Cell(out[j], "file_usi")
  }

  ghost predicate AllUsisKept(table: seq<Row>, out: seq<Row>) {
    forall y :: y in table ==> exists x :: x in out && Cell(x, "file_usi") == Cell(y, "file_usi")
  }

  ghost predicate UsiAscending(out: seq<Row>) {
    forall i, j :: 0 <= i < j < |out| ==> ColCmp(Cell(out[i], "file_usi"), Cell(out[j], "file_usi"), true) <= 0
  }

  ghost predicate KeptBest(table: seq<Row>, out: seq<Row>) {
    forall x, y :: x in out && y in table && Cell(x, "file_usi") == Cell(y, "file_usi") ==>
      RowCmp(x, y, BestFirst) <= 0
  }

  lemma SameMembers(a: seq<Row>, b: seq<Row>)
    requires multiset(a) == multiset(b)
    ensures forall x :: x in a <==> x in b
  {
    forall x ensures x in a <==> x in b {
      assert x in a <==> x in multiset(a);
      assert x in b <==> x in multiset(b);
    }
  }

  /** Sorted on `BestFirst`, the rows are in ascending `file_usi` order. */
  lemma SortedByUsi(s: seq<Row>)
    requires Sorted(s, BestFirst)
    ensures forall i, j :: 0 <= i < j < |s| ==> ColCmp(Cell(s[i], "file_usi"), Cell(s[j], "file_usi"), true) <= 0
  {
    forall i, j | 0 <= i < j < |s|
      ensures ColCmp(Cell(s[i], "file_usi"), Cell(s[j], "file_usi"), true) <= 0
    {
      assert RowCmp(s[i], s[j], BestFirst) <= 0;
    }
  }

  /** The row kept for a value sorts no later than any row with that value. */
  lemma KeptIsBest(sorted: seq<Row>, x: Row, y: Row)
    requires Sorted(sorted, BestFirst) && AllComparable(sorted, BestFirst)
    requires x in DropDuplicates(sorted, "file_usi", {}) && y in sorted
    requires Cell(x, "file_usi") == Cell(y, "file_usi")
    ensures RowCmp(x, y, BestFirst) <= 0
  {
    DropDuplicatesFirst(sorted, "file_usi", {}, x);
    var i :| 0 <= i < |sorted| && sorted[i] == x && forall j :: 0 <= j < i ==> Cell(sorted[j], "file_usi") != Cell(x, "file_usi");
    var j :| 0 <= j < |sorted| && sorted[j] == y;
    if j == i {
      RowCmpAntisymmetric(x, x, BestFirst);
    }
  }

  /** A row at `i` with no earlier row sharing its first sort cell is the first of its equal-key rows. */
  lemma {:induction false} EqualKeysFirst(s: seq<Row>, x: Row, i: nat, keys: seq<SortKey>)
    requires i < |s| && s[i] == x && |keys| > 0
    requires forall j :: 0 <= j < i ==> Cell(s[j], keys[0].col) != Cell(x, keys[0].col)
    ensures |EqualKeys(s, x, keys)| > 0 && EqualKeys(s, x, keys)[0] == x
  {
    if i > 0 {
      assert !SameKeys(s[0], x, keys);
      EqualKeysFirst(s[1..], x, i - 1, keys);
    }
  }

  /**
   * The row kept for a `file_usi` value is, among the rows with its cells
   * in all three sort columns, the first in table order.
   */
  lemma KeptIsFirst(table: seq<Row>, x: Row)
    requires x in DropDuplicates(Sort(table, BestFirst), "file_usi", {})
    ensures |EqualKeys(table, x, BestFirst)| > 0 && EqualKeys(table, x, BestFirst)[0] == x
  {
    var sorted := Sort(table, BestFirst);
    var i := FirstIndex(sorted, "file_usi", {}, x);
    EqualKeysFirst(sorted, x, i, BestFirst);
    SortStable(table, x, BestFirst);
  }

  /** Every kept row is the first in table order of the rows equal to it on the sort columns. */
  predicate KeptFirst(table: seq<Row>, out: seq<Row>) {
    forall x :: x in out ==> |EqualKeys(table, x, BestFirst)| > 0 && EqualKeys(table, x, BestFirst)[0] == x
  }

  lemma KeptAreFirst(table: seq<Row>)
    ensures KeptFirst(table, DropDuplicates(Sort(table, BestFirst), "file_usi", {}))
  {
    forall x | x in DropDuplicates(Sort(table, BestFirst), "file_usi", {})
      ensures |EqualKeys(table, x, BestFirst)| > 0 && EqualKeys(table, x, BestFirst)[0] == x
    {
      KeptIsFirst(table, x);
    }
  }

  lemma DeduplicationFacts(table: seq<Row>, sorted: seq<Row>)
    requires multiset(sorted) == multiset(table) && Sorted(sorted, BestFirst) && AllComparable(table, BestFirst)
    ensures DeduplicatedTable(table, DropDuplicates(sorted, "file_usi", {}))
  {
    var out := DropDuplicates(sorted, "file_usi", {});
    SameMembers(sorted, table);
    assert KeptFrom(table, out);
    assert UniqueUsis(out);
    assert AllUsisKept(table, out) by {
      DropDuplicatesKeepsValues(sorted, "file_usi", {});
    }
    assert UsiAscending(out) by {
      DropDuplicatesSorted(sorted, "file_usi", {}, BestFirst);
      SortedByUsi(out);
    }
    assert KeptBest(table, out) by {
      assert AllComparable(sorted, BestFirst);
      forall x, y | x in out && y in table && Cell(x, "file_usi") == Cell(y, "file_usi")
        ensures RowCmp(x, y, BestFirst) <= 0
      {
        KeptIsBest(sorted, x, y);
      }
    }
  }

  /**
   * The sorts of lines 27-30 and 46-48 succeed exactly when the table has
   * both taxonomy columns and its rows are comparable on all three.
   */
  lemma BestFirstSortable(cols: seq<string>, table: seq<Row>)
    requires "file_usi" in cols
    ensures SortValues(cols, table, BestFirst).Ok? <==>
              "Taxa_Assigment" in cols && "Taxa_NCBI" in cols && AllComparable(table, BestFirst)
    ensures SortValues(cols, table, BestFirst).Ok? ==> SortValues(cols, Duplicated(table), BestFirst).Ok?
    ensures "Taxa_Assigment" !in cols ==>
              SortValues(cols, Duplicated(table), BestFirst) == Err(KeyError("Taxa_Assigment"))
  {
    SortableBySubset(Duplicated(table), table, BestFirst);
    assert BestFirst[0].col == "file_usi" && BestFirst[1].col == "Taxa_Assigment" && BestFirst[2].col == "Taxa_NCBI";
    if "Taxa_Assigment" !in cols {
      assert CheckColumns(cols, BestFirst[1..]) == Err(KeyError("Taxa_Assigment"));
    }
  }

  /** The report of duplicated `file_usi` values and the de-duplicated table. */
  datatype Prepared = Prepared(duplicates: seq<Row>, table: seq<Row>)

  /**
   * What a successful run makes of `table`: the duplicates report is the
   * duplicated rows sorted best first, rows equal on the three sort columns
   * in table order; the de-duplicated table keeps one best row per
   * `file_usi`, the first in table order of the rows equal to it on the
   * three columns.
   */
  ghost predicate PreparedFrom(table: seq<Row>, p: Prepared) {
    && multiset(p.duplicates) == multiset(Duplicated(table))
    && Sorted(p.duplicates, BestFirst)
    && KeepsEqualOrder(p.duplicates, Duplicated(table), BestFirst)
    && DeduplicatedTable(table, p.table)
    && KeptFirst(table, p.table)
  }

  lemma PreparedFacts(cols: seq<string>, table: seq<Row>, sortedDups: seq<Row>, sorted: seq<Row>)
    requires SortValues(cols, Duplicated(table), BestFirst) == Ok(sortedDups)
    requires SortValues(cols, table, BestFirst) == Ok(sorted)
    ensures PreparedFrom(table, Prepared(sortedDups, DropDuplicates(sorted, "file_usi", {})))
  {
    DeduplicationFacts(table, sorted);
    KeptAreFirst(table);
  }

  /**
   * `prepare_check_metadata_file` without its file I/O.  `columns` are the
   * table's column names.  A table without `Taxa_NCBI` has its duplicates
   * sorted by `file_usi` alone, but the final sort always needs all three
   * columns, so such a table always fails.
   */
  function PrepareCheckMetadata(columns: seq<string>, rows: seq<Row>): (r: Result<Prepared>)
    ensures r.Ok? <==> && WithFileUsi(columns, rows).Ok?
                       && "Taxa_Assigment" in columns && "Taxa_NCBI" in columns
                       && AllComparable(WithFileUsi(columns, rows).value, BestFirst)
    ensures WithFileUsi(columns, rows).Err? ==> r == Err(WithFileUsi(columns, rows).error)
    ensures WithFileUsi(columns, rows).Ok? && "Taxa_NCBI" in columns && "Taxa_Assigment" !in columns ==>
              r == Err(KeyError("Taxa_Assigment"))
    ensures r.Ok? ==> PreparedFrom(WithFileUsi(columns, rows).value, r.value)
  {
    match WithFileUsi(columns, rows)
    case Err(e) => Err(e)
    case Ok(table) =>
      var cols := if "file_usi" in columns then columns else columns + ["file_usi"];
      var dupKeys := if "Taxa_NCBI" in cols then BestFirst else [UsiKey];
      BestFirstSortable(cols, table);
      match SortValues(cols, Duplicated(table), dupKeys)
      case Err(e) => Err(e)
      case Ok(sortedDups) =>
        match SortValues(cols, table, BestFirst)
        case Err(e) => Err(e)
        case Ok(sorted) =>
          assert BestFirst[2].col in cols;
          PreparedFacts(cols, table, sortedDups, sorted);
          Ok(Prepared(sortedDups, DropDuplicates(sorted, "file_usi", {})))
  }
}

=== FILE: dataset_summary.dfy ===
/**
 * code/masst_dataset_summary.py: the table of enriched-tree nodes with
 * enough matches (a pruned pre-order walk that records each node's depth),
 * the renaming of quantification columns, and the per-file frames that a
 * summary over several enriched trees is assembled from.
 */
module DatasetSummary {
  import opened Results
  import opened Json
  import opened Strs
  import CheckMetadata

  // ---------------------------------------------------------------------
  // for_all_children, lines 113-129
  // ---------------------------------------------------------------------

  /** `str(v)` where the model fixes a text form; other values are kept as they are. */
  function TextOf(v: Value): (r: Value)
    ensures PyStr(v).Some? ==> r == Str(PyStr(v).value)
  {
    match PyStr(v)
    case Some(s) => Str(s)
    case None => v
  }

  /**
   * `node.get("matched_size", 0) >= minimum_matches`; a count that is not a
   * number cannot be compared (`TypeError`).
   */
  function Qualifies(fs: Fields, minimum: int): (r: Result<bool>)
    ensures r.Ok? <==> Numeric(GetOr(fs, "matched_size", Int(0))).Some?
    ensures r.Err? ==> r.error == TypeError
    ensures r.Ok? ==> (r.value <==> Numeric(GetOr(fs, "matched_size", Int(0))).value >= minimum as real)
    ensures "matched_size" !in fs ==> r == Ok(0 >= minimum)
  {
    match Numeric(GetOr(fs, "matched_size", Int(0)))
    case Some(m) => Ok(m >= minimum as real)
    case None => Err(TypeError)
  }

  /**
   * The row recorded for a node at depth `level`, its members written in
   * the order of the dict literal (a later key overwrites an equal earlier
   * one).  `node[node_key]` is read before `node["group_size"]`.
   */
  function SummaryRow(fs: Fields, nodeKey: string, level: nat): (r: Result<Row>)
    ensures nodeKey !in fs ==> r == Err(KeyError(nodeKey))
    ensures nodeKey in fs && "group_size" !in fs ==> r == Err(KeyError("group_size"))
    ensures r.Ok? <==> nodeKey in fs && "group_size" in fs
  {
    var key :- Lookup(fs, nodeKey);
    var group :- Lookup(fs, "group_size");
    Ok(map[]["Name" := GetOr(fs, "name", Null)]["Rank" := GetOr(fs, "Rank", Null)]["Level" := Int(level)]
            [nodeKey := TextOf(key)]["group_size" := group]["matched_size" := GetOr(fs, "matched_size", Int(0))])
  }

  /**
   * The row's columns: the six of the dict literal, the group and matched
   * sizes copied, and, for a node key that collides with none of the other
   * names, the name, rank, depth and key as text.
   */
  lemma SummaryRowContents(fs: Fields, nodeKey: string, level: nat)
    requires nodeKey in fs && "group_size" in fs
    ensures var row := SummaryRow(fs, nodeKey, level).value;
      && row.Keys == {"Name", "Rank", "Level", nodeKey, "group_size", "matched_size"}
      && row["group_size"] == fs["group_size"] && row["matched_size"] == GetOr(fs, "matched_size", Int(0))
      && (nodeKey !in {"Name", "Rank", "Level", "group_size", "matched_size"} ==>
            row["Name"] == GetOr(fs, "name", Null) && row["Rank"] == GetOr(fs, "Rank", Null) &&
            row["Level"] == Int(level) && row[nodeKey] == TextOf(fs[nodeKey]))
  {
  }

  /** Every node of a tree paired with its depth, in pre-order, the root at `level`. */
  ghost function Annotated(n: Node, level: nat): (r: seq<(Node, nat)>)
    decreases n, 1
  {
    [(n, level)] + AnnotatedAll(n.children, level + 1)
  }

  ghost function AnnotatedAll(ns: seq<Node>, level: nat): (r: seq<(Node, nat)>)
    decreases ns, 0
  {
    if |ns| == 0 then [] else Annotated(ns[0], level) + AnnotatedAll(ns[1..], level)
  }

  /** `row` is the row of some qualifying node of `ps`, at that node's depth. */
  ghost predicate FromQualifying(row: Row, ps: seq<(Node, nat)>, minimum: int, nodeKey: string) {
    exists p :: p in ps && Qualifies(p.0.fields, minimum) == Ok(true) && SummaryRow(p.0.fields, nodeKey, p.1) == Ok(row)
  }

  lemma FromQualifyingWider(row: Row, ps: seq<(Node, nat)>, qs: seq<(Node, nat)>, minimum: int, nodeKey: string)
    requires forall p :: p in ps ==> p in qs
    requires FromQualifying(row, ps, minimum, nodeKey)
    ensures FromQualifying(row, qs, minimum, nodeKey)
  {
    var p :| p in ps && Qualifies(p.0.fields, minimum) == Ok(true) && SummaryRow(p.0.fields, nodeKey, p.1) == Ok(row);
    assert p in qs;
  }

  /**
   * `for_all_children`: a node whose count is below the minimum adds no
   * row and its subtree is not visited; otherwise its row comes first,
   * then the rows of its children's subtrees, one level deeper.
   */
  function ForAllChildren(n: Node, minimum: int, nodeKey: string, level: nat): (r: Result<seq<Row>>)
    ensures Qualifies(n.fields, minimum).Err? ==> r == Err(TypeError)
    ensures Qualifies(n.fields, minimum) == Ok(false) ==> r == Ok([])
    ensures Qualifies(n.fields, minimum) == Ok(true) && r.Ok? ==>
              |r.value| >= 1 && SummaryRow(n.fields, nodeKey, level) == Ok(r.value[0])
    ensures r.Ok? ==> |r.value| <= Count(n)
    ensures r.Ok? ==> forall row :: row in r.value ==> FromQualifying(row, Annotated(n, level), minimum, nodeKey)
    decreases n, 1
  {
    var q :- Qualifies(n.fields, minimum);
    if !q then Ok([])
    else
      var row :- SummaryRow(n.fields, nodeKey, level);
      var rest :- ForEachChild(n.children, minimum, nodeKey, level + 1);
      var rows := [row] + rest;
      assert FromQualifying(row, Annotated(n, level), minimum, nodeKey) by {
        assert (n, level) in Annotated(n, level);
      }
      forall x | x in rest ensures FromQualifying(x, Annotated(n, level), minimum, nodeKey) {
        FromQualifyingWider(x, AnnotatedAll(n.children, level + 1), Annotated(n, level), minimum, nodeKey);
      }
      Ok(rows)
  }

  /** `for child in node["children"]`: the children's rows, in order. */
  function ForEachChild(ns: seq<Node>, minimum: int, nodeKey: string, level: nat): (r: Result<seq<Row>>)
    ensures r.Ok? ==> |r.value| <= |FlattenAll(ns)|
    ensures r.Ok? ==> forall row :: row in r.value ==> FromQualifying(row, AnnotatedAll(ns, level), minimum, nodeKey)
    decreases ns, 0
  {
    if |ns| == 0 then Ok([])
    else
      var a :- ForAllChildren(ns[0], minimum, nodeKey, level);
      var b :- ForEachChild(ns[1..], minimum, nodeKey, level);
      var rows := a + b;
      var ps, qs := Annotated(ns[0], level), AnnotatedAll(ns[1..], level);
      forall x | x in a ensures FromQualifying(x, AnnotatedAll(ns, level), minimum, nodeKey) {
        FromQualifyingWider(x, ps, ps + qs, minimum, nodeKey);
      }
      forall x | x in b ensures FromQualifying(x, AnnotatedAll(ns, level), minimum, nodeKey) {
        FromQualifyingWider(x, qs, ps + qs, minimum, nodeKey);
      }
      Ok(rows)
  }

  /** The rows of annotated nodes. */
  function RowsOf(ps: seq<(Node, nat)>, nodeKey: string): (r: seq<Row>)
    requires forall p :: p in ps ==> nodeKey in p.0.fields && "group_size" in p.0.fields
    ensures |r| == |ps|
    ensures forall i :: 0 <= i < |ps| ==> SummaryRow(ps[i].0.fields, nodeKey, ps[i].1) == Ok(r[i])
  {
    seq(|ps|, i requires 0 <= i < |ps| => SummaryRow(ps[i].0.fields, nodeKey, ps[i].1).value)
  }

  lemma RowsOfAppend(a: seq<(Node, nat)>, b: seq<(Node, nat)>, nodeKey: string)
    requires forall p :: p in a + b ==> nodeKey in p.0.fields && "group_size" in p.0.fields
    ensures RowsOf(a + b, nodeKey) == RowsOf(a, nodeKey) + RowsOf(b, nodeKey)
  {
    assert forall p :: p in a ==> p in a + b;
    assert forall p :: p in b ==> p in a + b;
    var l, r := RowsOf(a + b, nodeKey), RowsOf(a, nodeKey) + RowsOf(b, nodeKey);
    forall i | 0 <= i < |l| ensures l[i] == r[i] {
      if i >= |a| {
        assert (a + b)[i] == b[i - |a|];
      }
    }
  }

  ghost predicate AllQualify(ps: seq<(Node, nat)>, minimum: int, nodeKey: string) {
    forall p :: p in ps ==> Qualifies(p.0.fields, minimum) == Ok(true) && nodeKey in p.0.fields && "group_size" in p.0.fields
  }

  /** When every node qualifies nothing is pruned: one row per node, in pre-order, at its depth. */
  lemma {:induction false} WalkWhenAllQualify(n: Node, minimum: int, nodeKey: string, level: nat)
    requires AllQualify(Annotated(n, level), minimum, nodeKey)
    ensures ForAllChildren(n, minimum, nodeKey, level) == Ok(RowsOf(Annotated(n, level), nodeKey))
    decreases n, 1
  {
    var tail := AnnotatedAll(n.children, level + 1);
    AllQualifyCons((n, level), tail, minimum, nodeKey);
    WalkAllWhenAllQualify(n.children, minimum, nodeKey, level + 1);
    RowsOfCons((n, level), tail, nodeKey);
  }

  lemma AllQualifyCons(p: (Node, nat), tail: seq<(Node, nat)>, minimum: int, nodeKey: string)
    requires AllQualify([p] + tail, minimum, nodeKey)
    ensures AllQualify(tail, minimum, nodeKey)
    ensures Qualifies(p.0.fields, minimum) == Ok(true) && nodeKey in p.0.fields && "group_size" in p.0.fields
  {
    assert p in [p] + tail;
    forall q | q in tail ensures q in [p] + tail {
    }
  }

  lemma RowsOfCons(p: (Node, nat), tail: seq<(Node, nat)>, nodeKey: string)
    requires nodeKey in p.0.fields && "group_size" in p.0.fields
    requires forall q :: q in tail ==> nodeKey in q.0.fields && "group_size" in q.0.fields
    ensures RowsOf([p] + tail, nodeKey) == [SummaryRow(p.0.fields, nodeKey, p.1).value] + RowsOf(tail, nodeKey)
  {
    var l, r := RowsOf([p] + tail, nodeKey), [SummaryRow(p.0.fields, nodeKey, p.1).value] + RowsOf(tail, nodeKey);
    forall i | 0 <= i < |l| ensures l[i] == r[i] {
      if i > 0 {
        assert ([p] + tail)[i] == tail[i - 1];
      }
    }
  }

  lemma {:induction false} WalkAllWhenAllQualify(ns: seq<Node>, minimum: int, nodeKey: string, level: nat)
    requires AllQualify(AnnotatedAll(ns, level), minimum, nodeKey)
    ensures ForEachChild(ns, minimum, nodeKey, level) == Ok(RowsOf(AnnotatedAll(ns, level), nodeKey))
    decreases ns, 0
  {
    if |ns| > 0 {
      var a, b := Annotated(ns[0], level), AnnotatedAll(ns[1..], level);
      assert AllQualify(a, minimum, nodeKey) && AllQualify(b, minimum, nodeKey) by {
        forall p | p in a ensures p in a + b {
        }
        forall p | p in b ensures p in a + b {
        }
      }
      WalkWhenAllQualify(ns[0], minimum, nodeKey, level);
      WalkAllWhenAllQualify(ns[1..], minimum, nodeKey, level);
      RowsOfAppend(a, b, nodeKey);
    }
  }

  /** The annotated walk lists exactly the pre-order nodes, the root at `level` and each child one deeper. */
  lemma {:induction false} AnnotatedIsFlatten(n: Node, level: nat)
    ensures |Annotated(n, level)| == Count(n)
    ensures forall i :: 0 <= i < Count(n) ==> Annotated(n, level)[i].0 == Flatten(n)[i]
    ensures Annotated(n, level)[0] == (n, level)
    ensures forall i :: 0 <= i < Count(n) ==> Annotated(n, level)[i].1 >= level
    decreases n, 1
  {
    AnnotatedAllIsFlattenAll(n.children, level + 1);
  }

  lemma {:induction false} AnnotatedAllIsFlattenAll(ns: seq<Node>, level: nat)
    ensures |AnnotatedAll(ns, level)| == |FlattenAll(ns)|
    ensures forall i :: 0 <= i < |FlattenAll(ns)| ==> AnnotatedAll(ns, level)[i].0 == FlattenAll(ns)[i]
    ensures forall i :: 0 <= i < |FlattenAll(ns)| ==> AnnotatedAll(ns, level)[i].1 >= level
    decreases ns, 0
  {
    if |ns| > 0 {
      AnnotatedIsFlatten(ns[0], level);
      AnnotatedAllIsFlattenAll(ns[1..], level);
      var a, b := Annotated(ns[0], level), AnnotatedAll(ns[1..], level);
      assert forall i :: |a| <= i < |a| + |b| ==> (a + b)[i] == b[i - |a|];
      assert forall i :: |a| <= i < |a| + |b| ==> (Flatten(ns[0]) + FlattenAll(ns[1..]))[i] == FlattenAll(ns[1..])[i - |a|];
    }
  }

  /**
   * Every node of a tree in pre-order with its depth and whether every
   * proper ancestor of it has enough matches (`open` for the root).
   */
  ghost function Marked(n: Node, minimum: int, level: nat, open: bool): (r: seq<(Node, nat, bool)>)
    decreases n, 1
  {
    [(n, level, open)] + MarkedAll(n.children, minimum, level + 1, open && Qualifies(n.fields, minimum) == Ok(true))
  }

  ghost function MarkedAll(ns: seq<Node>, minimum: int, level: nat, open: bool): (r: seq<(Node, nat, bool)>)
    decreases ns, 0
  {
    if |ns| == 0 then [] else Marked(ns[0], minimum, level, open) + MarkedAll(ns[1..], minimum, level, open)
  }

  /** The walk can read this node: its count is a number, and a node with enough matches has a key and a group size. */
  predicate Readable(fs: Fields, minimum: int, nodeKey: string) {
    && Qualifies(fs, minimum).Ok?
    && (Qualifies(fs, minimum) == Ok(true) ==> nodeKey in fs && "group_size" in fs)
  }

  /** Every node the walk reaches, the ones under open ancestors, is readable. */
  ghost predicate Walkable(ms: seq<(Node, nat, bool)>, minimum: int, nodeKey: string) {
    forall i :: 0 <= i < |ms| && ms[i].2 ==> Readable(ms[i].0.fields, minimum, nodeKey)
  }

  /** The nodes that give a row: reached, and with enough matches themselves, with their depths, in order. */
  ghost function Shown(ms: seq<(Node, nat, bool)>, minimum: int): (r: seq<(Node, nat)>)
  {
    if |ms| == 0 then []
    else
      (if ms[0].2 && Qualifies(ms[0].0.fields, minimum) == Ok(true) then [(ms[0].0, ms[0].1)] else [])
        + Shown(ms[1..], minimum)
  }

  lemma {:induction false} ShownAppend(a: seq<(Node, nat, bool)>, b: seq<(Node, nat, bool)>, minimum: int)
    ensures Shown(a + b, minimum) == Shown(a, minimum) + Shown(b, minimum)
  {
    if |a| > 0 {
      ShownAppend(a[1..], b, minimum);
      assert (a + b)[1..] == a[1..] + b;
    } else {
      assert a + b == b;
    }
  }

  lemma WalkableAppend(a: seq<(Node, nat, bool)>, b: seq<(Node, nat, bool)>, minimum: int, nodeKey: string)
    ensures Walkable(a + b, minimum, nodeKey) <==> Walkable(a, minimum, nodeKey) && Walkable(b, minimum, nodeKey)
  {
    assert forall i :: 0 <= i < |a| ==> (a + b)[i] == a[i];
    assert forall i :: 0 <= i < |b| ==> (a + b)[|a| + i] == b[i];
  }

  /** A shown node is reached, so in a walkable sequence it is readable and has enough matches. */
  lemma {:induction false} ShownReadable(ms: seq<(Node, nat, bool)>, minimum: int, nodeKey: string)
    requires Walkable(ms, minimum, nodeKey)
    ensures forall p :: p in Shown(ms, minimum) ==> nodeKey in p.0.fields && "group_size" in p.0.fields
  {
    if |ms| > 0 {
      WalkableAppend(ms[..1], ms[1..], minimum, nodeKey);
      assert ms == ms[..1] + ms[1..];
      ShownReadable(ms[1..], minimum, nodeKey);
    }
  }

  /** Nothing under a node with too few matches is reached. */
  lemma {:induction false} ClosedMarked(n: Node, minimum: int, level: nat)
    ensures forall i :: 0 <= i < |Marked(n, minimum, level, false)| ==> !Marked(n, minimum, level, false)[i].2
    decreases n, 1
  {
    ClosedMarkedAll(n.children, minimum, level + 1);
  }

  lemma {:induction false} ClosedMarkedAll(ns: seq<Node>, minimum: int, level: nat)
    ensures forall i :: 0 <= i < |MarkedAll(ns, minimum, level, false)| ==> !MarkedAll(ns, minimum, level, false)[i].2
    decreases ns, 0
  {
    if |ns| > 0 {
      ClosedMarked(ns[0], minimum, level);
      ClosedMarkedAll(ns[1..], minimum, level);
      var a, b := Marked(ns[0], minimum, level, false), MarkedAll(ns[1..], minimum, level, false);
      assert forall i :: |a| <= i < |a + b| ==> (a + b)[i] == b[i - |a|];
    }
  }

  lemma {:induction false} ShownNone(ms: seq<(Node, nat, bool)>, minimum: int)
    requires forall i :: 0 <= i < |ms| ==> !ms[i].2
    ensures Shown(ms, minimum) == []
  {
    if |ms| > 0 {
      ShownNone(ms[1..], minimum);
    }
  }

  /** The marked walk visits the annotated nodes: the same nodes at the same depths, in the same order. */
  lemma {:induction false} MarkedIsAnnotated(n: Node, minimum: int, level: nat, open: bool)
    ensures |Marked(n, minimum, level, open)| == |Annotated(n, level)|
    ensures forall i :: 0 <= i < |Annotated(n, level)| ==>
              (Marked(n, minimum, level, open)[i].0, Marked(n, minimum, level, open)[i].1) == Annotated(n, level)[i]
    decreases n, 1
  {
    MarkedAllIsAnnotatedAll(n.children, minimum, level + 1, open && Qualifies(n.fields, minimum) == Ok(true));
  }

  lemma {:induction false} MarkedAllIsAnnotatedAll(ns: seq<Node>, minimum: int, level: nat, open: bool)
    ensures |MarkedAll(ns, minimum, level, open)| == |AnnotatedAll(ns, level)|
    ensures forall i :: 0 <= i < |AnnotatedAll(ns, level)| ==>
              (MarkedAll(ns, minimum, level, open)[i].0, MarkedAll(ns, minimum, level, open)[i].1) == AnnotatedAll(ns, level)[i]
    decreases ns, 0
  {
    if |ns| > 0 {
      MarkedIsAnnotated(ns[0], minimum, level, open);
      MarkedAllIsAnnotatedAll(ns[1..], minimum, level, open);
      var a, b := Marked(ns[0], minimum, level, open), MarkedAll(ns[1..], minimum, level, open);
      var c, d := Annotated(ns[0], level), AnnotatedAll(ns[1..], level);
      assert forall i :: |a| <= i < |a + b| ==> (a + b)[i] == b[i - |a|] && (c + d)[i] == d[i - |c|];
    }
  }

  /** `rows` are the rows of the annotated nodes `ps`, one each, in order. */
  predicate RowsFor(rows: seq<Row>, ps: seq<(Node, nat)>, nodeKey: string) {
    |rows| == |ps| && forall i :: 0 <= i < |ps| ==> SummaryRow(ps[i].0.fields, nodeKey, ps[i].1) == Ok(rows[i])
  }

  lemma RowsForIsRowsOf(rows: seq<Row>, ps: seq<(Node, nat)>, nodeKey: string)
    requires forall p :: p in ps ==> nodeKey in p.0.fields && "group_size" in p.0.fields
    ensures RowsFor(rows, ps, nodeKey) <==> rows == RowsOf(ps, nodeKey)
  {
  }

  /**
   * The walk from a node succeeds exactly when every node it reaches is
   * readable, and then its rows are those of the reached nodes with enough
   * matches, in pre-order, each at its depth.
   */
  lemma {:induction false} ForAllChildrenIsPrunedPreorder(n: Node, minimum: int, nodeKey: string, level: nat)
    ensures var ms := Marked(n, minimum, level, true);
      && (ForAllChildren(n, minimum, nodeKey, level).Ok? <==> Walkable(ms, minimum, nodeKey))
      && (ForAllChildren(n, minimum, nodeKey, level).Ok? ==>
            RowsFor(ForAllChildren(n, minimum, nodeKey, level).value, Shown(ms, minimum), nodeKey))
    decreases n, 1
  {
    var ms := Marked(n, minimum, level, true);
    var q := Qualifies(n.fields, minimum) == Ok(true);
    var rest := MarkedAll(n.children, minimum, level + 1, q);
    var head: seq<(Node, nat, bool)> := [(n, level, true)];
    assert ms == head + rest;
    WalkableAppend(head, rest, minimum, nodeKey);
    ShownAppend(head, rest, minimum);
    assert Shown(head, minimum) == if q then [(n, level)] else [] by {
      assert head[1..] == [];
    }
    if !q {
      ClosedMarkedAll(n.children, minimum, level + 1);
      ShownNone(rest, minimum);
    } else {
      ForEachChildIsPrunedPreorder(n.children, minimum, nodeKey, level + 1);
      if Walkable(ms, minimum, nodeKey) {
        ShownReadable(rest, minimum, nodeKey);
        ShownReadable(ms, minimum, nodeKey);
        RowsForIsRowsOf(ForEachChild(n.children, minimum, nodeKey, level + 1).value, Shown(rest, minimum), nodeKey);
        RowsOfCons((n, level), Shown(rest, minimum), nodeKey);
        RowsForIsRowsOf(ForAllChildren(n, minimum, nodeKey, level).value, Shown(ms, minimum), nodeKey);
      }
    }
  }

  /** The same for the walks from a list of siblings, one after another. */
  lemma {:induction false} ForEachChildIsPrunedPreorder(ns: seq<Node>, minimum: int, nodeKey: string, level: nat)
    ensures var ms := MarkedAll(ns, minimum, level, true);
      && (ForEachChild(ns, minimum, nodeKey, level).Ok? <==> Walkable(ms, minimum, nodeKey))
      && (ForEachChild(ns, minimum, nodeKey, level).Ok? ==>
            RowsFor(ForEachChild(ns, minimum, nodeKey, level).value, Shown(ms, minimum), nodeKey))
    decreases ns, 0
  {
    if |ns| > 0 {
      var a, b := Marked(ns[0], minimum, level, true), MarkedAll(ns[1..], minimum, level, true);
      ForAllChildrenIsPrunedPreorder(ns[0], minimum, nodeKey, level);
      ForEachChildIsPrunedPreorder(ns[1..], minimum, nodeKey, level);
      WalkableAppend(a, b, minimum, nodeKey);
      ShownAppend(a, b, minimum);
      if Walkable(a + b, minimum, nodeKey) {
        ShownReadable(a, minimum, nodeKey);
        ShownReadable(b, minimum, nodeKey);
        ShownReadable(a + b, minimum, nodeKey);
        RowsForIsRowsOf(ForAllChildren(ns[0], minimum, nodeKey, level).value, Shown(a, minimum), nodeKey);
        RowsForIsRowsOf(ForEachChild(ns[1..], minimum, nodeKey, level).value, Shown(b, minimum), nodeKey);
        RowsOfAppend(Shown(a, minimum), Shown(b, minimum), nodeKey);
        RowsForIsRowsOf(ForEachChild(ns, minimum, nodeKey, level).value, Shown(a + b, minimum), nodeKey);
      }
    }
  }

  // ---------------------------------------------------------------------
  // json_to_dataframe, lines 132-142
  // ---------------------------------------------------------------------

  /** `sort_values(["Rank", "matched_size", "group_size"], ascending=False)`. */
  const SummaryOrder := [CheckMetadata.SortKey("Rank", false), CheckMetadata.SortKey("matched_size", false),
                         CheckMetadata.SortKey("group_size", false)]

  /**
   * `json_to_dataframe` on the loaded tree: the rows of the walks from the
   * root's children at level 1 (the root itself is never a row), nothing
   * when no node qualifies, and otherwise the rows sorted by rank, matched
   * size and group size, all descending; rows equal on all three keep
   * the walk's order, as the stable sort on several columns does.
   */
  function JsonToDataFrame(root: Node, nodeKey: string, minimum: int): (r: Result<Option<seq<Row>>>)
    ensures var walk := ForEachChild(root.children, minimum, nodeKey, 1);
      r.Ok? <==> walk.Ok? && (|walk.value| > 0 ==> CheckMetadata.AllComparable(walk.value, SummaryOrder))
    ensures ForEachChild(root.children, minimum, nodeKey, 1).Err? ==> r.Err?
    ensures r == Ok(None) <==> ForEachChild(root.children, minimum, nodeKey, 1) == Ok([])
    ensures r.Ok? && r.value.Some? ==>
              && ForEachChild(root.children, minimum, nodeKey, 1).Ok?
              && |r.value.value| > 0
              && multiset(r.value.value) == multiset(ForEachChild(root.children, minimum, nodeKey, 1).value)
              && CheckMetadata.Sorted(r.value.value, SummaryOrder)
              && CheckMetadata.KeepsEqualOrder(r.value.value, ForEachChild(root.children, minimum, nodeKey, 1).value, SummaryOrder)
    ensures r.Ok? && r.value.Some? ==> forall row :: row in r.value.value ==>
              FromQualifying(row, AnnotatedAll(root.children, 1), minimum, nodeKey)
  {
    var rows :- ForEachChild(root.children, minimum, nodeKey, 1);
    if |rows| == 0 then Ok(None)
    else if CheckMetadata.AllComparable(rows, SummaryOrder) then
      var sorted := CheckMetadata.Sort(rows, SummaryOrder);
      CheckMetadata.SortSorted(rows, SummaryOrder);
      CheckMetadata.SortStableAll(rows, SummaryOrder);
      CheckMetadata.SameMembers(sorted, rows);
      assert |sorted| == |multiset(sorted)| == |multiset(rows)| == |rows|;
      Ok(Some(sorted))
    else Err(TypeError)
  }

  // ---------------------------------------------------------------------
  // import_quantdf, lines 59-62
  // ---------------------------------------------------------------------

  const PeakArea := " Peak area"

  /** `col[:-10]` for a column ending in ` Peak area`, any other column unchanged. */
  function RenameColumn(col: string): (r: string)
    ensures EndsWith(col, PeakArea) ==> r + PeakArea == col
    ensures !EndsWith(col, PeakArea) ==> r == col
  {
    if EndsWith(col, PeakArea) then
      assert col == col[..|col| - 10] + col[|col| - 10..];
      col[..|col| - 10]
    else col
  }

  /** Renaming gives back the sample name a quantification column was made from. */
  lemma RenameRoundTrip(sample: string)
    ensures RenameColumn(sample + PeakArea) == sample
  {
    var col := sample + PeakArea;
    assert col[|col| - 10..] == PeakArea;
    assert col[..|col| - 10] == sample;
  }

  /** The renamed header: only the ` Peak area` columns change. */
  function RenameColumns(cols: seq<string>): (r: seq<string>)
    ensures |r| == |cols| && forall i :: 0 <= i < |cols| ==> r[i] == RenameColumn(cols[i])
  {
    seq(|cols|, i requires 0 <= i < |cols| => RenameColumn(cols[i]))
  }

  /** `samples`: the names of the ` Peak area` columns without the suffix, in header order. */
  function Samples(cols: seq<string>): (r: seq<string>)
    ensures |r| <= |cols|
    ensures forall s :: s in r <==> s + PeakArea in cols
  {
    if |cols| == 0 then []
    else
      var rest := Samples(cols[1..]);
      assert forall c :: c in cols <==> c == cols[0] || c in cols[1..];
      if EndsWith(cols[0], PeakArea) then
        forall s ensures s + PeakArea == cols[0] <==> s == RenameColumn(cols[0]) {
          if s + PeakArea == cols[0] {
            RenameRoundTrip(s);
          }
        }
        [RenameColumn(cols[0])] + rest
      else
        forall s ensures s + PeakArea != cols[0] {
          var c := s + PeakArea;
          assert c[|c| - 10..] == PeakArea;
        }
        rest
  }

  // ---------------------------------------------------------------------
  // create_summary_file, lines 82-105
  // ---------------------------------------------------------------------

  /**
   * One file's frame: the first row per node key, the compound column set
   * to 1 in binary mode and to the matched size otherwise, and
   * `matched_size` dropped.
   */
  function PerFileFrame(rows: seq<Row>, nodeKey: string, compId: string, binary: bool): (r: seq<Row>)
    ensures |r| <= |rows|
    ensures |rows| > 0 ==> |r| > 0
    ensures forall i :: 0 <= i < |r| ==> "matched_size" !in r[i] && (compId != "matched_size" ==> compId in r[i])
    ensures binary && compId != "matched_size" ==> forall i :: 0 <= i < |r| ==> r[i][compId] == Int(1)
  {
    var kept := CheckMetadata.DropDuplicates(rows, nodeKey, {});
    KeptNoLonger(rows, nodeKey, {});
    CheckMetadata.DropDuplicatesKeepsValues(rows, nodeKey, {});
    assert |rows| > 0 ==> rows[0] in rows;
    StampAll(kept, compId, binary)
  }

  /** Line 94 or 96, then line 98: set the compound column and drop `matched_size`. */
  function StampRow(row: Row, compId: string, binary: bool): (o: Row)
    ensures "matched_size" !in o
    ensures compId != "matched_size" ==> compId in o && o[compId] == (if binary then Int(1) else Cell(row, "matched_size"))
    ensures forall c :: c != compId && c != "matched_size" ==> Cell(o, c) == Cell(row, c)
  {
    row[compId := if binary then Int(1) else Cell(row, "matched_size")] - {"matched_size"}
  }

  function StampAll(rows: seq<Row>, compId: string, binary: bool): (r: seq<Row>)
    ensures |r| == |rows| && forall i :: 0 <= i < |rows| ==> r[i] == StampRow(rows[i], compId, binary)
  {
    seq(|rows|, i requires 0 <= i < |rows| => StampRow(rows[i], compId, binary))
  }

  /** The frame's rows are those kept by `drop_duplicates`, stamped. */
  lemma PerFileFrameRows(rows: seq<Row>, nodeKey: string, compId: string, binary: bool)
    requires nodeKey != compId && nodeKey != "matched_size"
    ensures var r := PerFileFrame(rows, nodeKey, compId, binary);
      var kept := CheckMetadata.DropDuplicates(rows, nodeKey, {});
      |r| == |kept| && forall i :: 0 <= i < |r| ==> Cell(r[i], nodeKey) == Cell(kept[i], nodeKey) && r[i] == StampRow(kept[i], compId, binary)
  {
  }

  /** When the node key is neither the compound column nor `matched_size`, no two rows of a frame share a node key. */
  lemma PerFileFrameDistinct(rows: seq<Row>, nodeKey: string, compId: string, binary: bool)
    requires nodeKey != compId && nodeKey != "matched_size"
    ensures var r := PerFileFrame(rows, nodeKey, compId, binary);
      forall i, j :: 0 <= i < j < |r| ==> Cell(r[i], nodeKey) != Cell(r[j], nodeKey)
  {
    PerFileFrameRows(rows, nodeKey, compId, binary);
  }

  /** ... and every node key of the file has a row. */
  lemma PerFileFrameComplete(rows: seq<Row>, nodeKey: string, compId: string, binary: bool)
    requires nodeKey != compId && nodeKey != "matched_size"
    ensures var r := PerFileFrame(rows, nodeKey, compId, binary);
      forall y :: y in rows ==> exists i :: 0 <= i < |r| && Cell(r[i], nodeKey) == Cell(y, nodeKey)
  {
    var kept := CheckMetadata.DropDuplicates(rows, nodeKey, {});
    var r := PerFileFrame(rows, nodeKey, compId, binary);
    PerFileFrameRows(rows, nodeKey, compId, binary);
    CheckMetadata.DropDuplicatesKeepsValues(rows, nodeKey, {});
    forall y | y in rows
      ensures exists i :: 0 <= i < |r| && Cell(r[i], nodeKey) == Cell(y, nodeKey)
    {
      var x :| x in kept && Cell(x, nodeKey) == Cell(y, nodeKey);
      var i :| 0 <= i < |kept| && kept[i] == x;
      assert Cell(r[i], nodeKey) == Cell(y, nodeKey);
    }
  }

  /** Outside binary mode a row's compound column is the matched size of a file row with its key. */
  lemma PerFileFrameCounts(rows: seq<Row>, nodeKey: string, compId: string)
    requires nodeKey != compId && nodeKey != "matched_size" && compId != "matched_size"
    ensures var r := PerFileFrame(rows, nodeKey, compId, false);
      forall i :: 0 <= i < |r| ==>
        exists y :: y in rows && r[i][compId] == Cell(y, "matched_size") && Cell(y, nodeKey) == Cell(r[i], nodeKey)
  {
    var kept := CheckMetadata.DropDuplicates(rows, nodeKey, {});
    var r := PerFileFrame(rows, nodeKey, compId, false);
    PerFileFrameRows(rows, nodeKey, compId, false);
    forall i | 0 <= i < |r|
      ensures exists y :: y in rows && r[i][compId] == Cell(y, "matched_size") && Cell(y, nodeKey) == Cell(r[i], nodeKey)
    {
      assert kept[i] in kept;
    }
  }

  /** One file's contribution: its frame when `json_to_dataframe` gave one and it has rows. */
  function FileFrame(file: (string, Option<seq<Row>>), nodeKey: string, binary: bool): (r: Option<(string, seq<Row>)>)
    ensures r.Some? <==> file.1.Some? && |file.1.value| > 0
    ensures r.Some? ==> r.value == (file.0, PerFileFrame(file.1.value, nodeKey, file.0, binary)) && |r.value.1| > 0
  {
    match file.1
    case Some(rows) =>
      var f := PerFileFrame(rows, nodeKey, file.0, binary);
      if |f| > 0 then Some((file.0, f)) else None
    case None => None
  }

  // ---------------------------------------------------------------------
  // the compound id, line 85: re.search(r"_(\d+)_" + prefix, file).group(1)
  // ---------------------------------------------------------------------

  predicate IsDigit(c: char) {
    '0' <= c <= '9'
  }

  predicate AllDigits(s: string) {
    forall j :: 0 <= j < |s| ==> IsDigit(s[j])
  }

  /** The length of the run of digits `s` starts with. */
  function DigitRun(s: string): (n: nat)
    ensures n <= |s|
    ensures forall j :: 0 <= j < n ==> IsDigit(s[j])
    ensures n < |s| ==> !IsDigit(s[n])
  {
    if |s| > 0 && IsDigit(s[0]) then 1 + DigitRun(s[1..]) else 0
  }

  /**
   * The pattern matches at index `i` with `k` digits in its group: `_`,
   * then `k > 0` digits, then `_` and the prefix.  The prefix is read
   * literally.
   */
  ghost predicate PatternAt(file: string, prefix: string, i: nat, k: nat) {
    && i + 1 + k <= |file|
    && file[i] == '_'
    && k > 0
    && AllDigits(file[i + 1..i + 1 + k])
    && OccursAt(file, "_" + prefix, i + 1 + k)
  }

  /** The pattern matches nowhere from `start` up to, not including, `end`. */
  ghost predicate NoneBetween(file: string, prefix: string, start: nat, end: nat) {
    forall j: nat, k: nat :: start <= j < end ==> !PatternAt(file, prefix, j, k)
  }

  /**
   * The leftmost match at or after `start` is at `i`, and its group is the
   * digits `g`; `re.search` looks from `start` 0.
   */
  ghost predicate GroupFrom(file: string, prefix: string, start: nat, i: nat, g: string) {
    && start <= i
    && PatternAt(file, prefix, i, |g|)
    && file[i + 1..i + 1 + |g|] == g
    && NoneBetween(file, prefix, start, i)
  }

  /** So a match from `start` on is not before `end`. */
  lemma NotBefore(file: string, prefix: string, start: nat, end: nat, j: nat, k: nat)
    requires NoneBetween(file, prefix, start, end) && start <= j && PatternAt(file, prefix, j, k)
    ensures end <= j
  {
  }

  /** The computable test: `_`, the maximal digit run (at least one), then `_` and the prefix. */
  predicate MatchesAt(file: string, prefix: string, i: nat) {
    i < |file| && file[i] == '_' &&
    var n := DigitRun(file[i + 1..]);
    n > 0 && OccursAt(file, "_" + prefix, i + 1 + n)
  }

  /**
   * `\d+` is greedy, and the backtracking it allows never helps: a shorter
   * run would leave a digit where `_` must follow.  So a match uses the
   * maximal run of digits.
   */
  lemma PatternMaximal(file: string, prefix: string, i: nat, k: nat)
    requires PatternAt(file, prefix, i, k)
    ensures k == DigitRun(file[i + 1..])
  {
    var s := file[i + 1..];
    var n := DigitRun(s);
    var p := "_" + prefix;
    var g := file[i + 1..i + 1 + k];
    assert file[i + 1 + k] == '_' by {
      assert file[i + 1 + k..i + 1 + k + |p|][0] == file[i + 1 + k];
    }
    assert s[k] == file[i + 1 + k];
    assert forall j :: 0 <= j < k ==> s[j] == g[j];
  }

  /** ... and the pattern matches at `i` exactly when `MatchesAt` says so. */
  lemma MatchesAtIsPattern(file: string, prefix: string, i: nat, k: nat)
    ensures PatternAt(file, prefix, i, k) ==> MatchesAt(file, prefix, i) && k == DigitRun(file[i + 1..])
    ensures MatchesAt(file, prefix, i) ==> PatternAt(file, prefix, i, DigitRun(file[i + 1..]))
  {
    if PatternAt(file, prefix, i, k) {
      PatternMaximal(file, prefix, i, k);
    }
    if i < |file| {
      var s := file[i + 1..];
      var n := DigitRun(s);
      assert file[i + 1..i + 1 + n] == s[..n];
    }
  }

  /** Stepping past an index where the pattern does not match. */
  lemma NoneBetweenStep(file: string, prefix: string, i: nat, end: nat)
    requires i < end
    requires forall k: nat :: !PatternAt(file, prefix, i, k)
    ensures NoneBetween(file, prefix, i, end) <==> NoneBetween(file, prefix, i + 1, end)
  {
  }

  function CompoundIdFrom(file: string, prefix: string, i: nat): (r: Result<string>)
    ensures r.Err? ==> r == Err(AttributeError)
    ensures r.Err? <==> NoneBetween(file, prefix, i, |file|)
    ensures r.Ok? ==> exists j: nat :: GroupFrom(file, prefix, i, j, r.value)
    decreases |file| - i
  {
    if i >= |file| then
      Err(AttributeError)
    else if MatchesAt(file, prefix, i) then
      var n := DigitRun(file[i + 1..]);
      MatchesAtIsPattern(file, prefix, i, n);
      assert GroupFrom(file, prefix, i, i, file[i + 1..i + 1 + n]);
      Ok(file[i + 1..i + 1 + n])
    else
      var r := CompoundIdFrom(file, prefix, i + 1);
      assert forall k: nat :: !PatternAt(file, prefix, i, k) by {
        forall k: nat ensures !PatternAt(file, prefix, i, k) {
          MatchesAtIsPattern(file, prefix, i, k);
        }
      }
      NoneBetweenStep(file, prefix, i, |file|);
      assert r.Ok? ==> exists j: nat :: GroupFrom(file, prefix, i, j, r.value) by {
        if r.Ok? {
          var j: nat :| GroupFrom(file, prefix, i + 1, j, r.value);
          NoneBetweenStep(file, prefix, i, j);
          assert GroupFrom(file, prefix, i, j, r.value);
        }
      }
      r
  }

  /**
   * Line 85: the digits between `_` and `_` + prefix at the leftmost place
   * they occur in the file name; `AttributeError` (`None.group`) when the
   * pattern occurs nowhere.
   */
  function CompoundId(file: string, prefix: string): (r: Result<string>)
    ensures r.Err? <==> NoneBetween(file, prefix, 0, |file|)
    ensures r.Err? ==> r == Err(AttributeError)
    ensures r.Ok? ==> exists i: nat :: GroupFrom(file, prefix, 0, i, r.value)
    ensures r.Ok? ==> |r.value| > 0 && AllDigits(r.value)
  {
    CompoundIdFrom(file, prefix, 0)
  }

  /** Two leftmost matches are the same match, with the same group. */
  lemma LeftmostUnique(file: string, prefix: string, i: nat, n: nat, i': nat, g: string)
    requires PatternAt(file, prefix, i, n) && NoneBetween(file, prefix, 0, i)
    requires GroupFrom(file, prefix, 0, i', g)
    ensures i' == i && i + 1 + n <= |file| && g == file[i + 1..i + 1 + n]
  {
    NotBefore(file, prefix, 0, i, i', |g|);
    NotBefore(file, prefix, 0, i', i, n);
    PatternMaximal(file, prefix, i, n);
    PatternMaximal(file, prefix, i, |g|);
  }

  /** A match at `i` with none before it determines the id. */
  lemma LeftmostMatchIsId(file: string, prefix: string, i: nat, n: nat)
    requires PatternAt(file, prefix, i, n)
    requires NoneBetween(file, prefix, 0, i)
    ensures CompoundId(file, prefix) == Ok(file[i + 1..i + 1 + n])
  {
    var r := CompoundId(file, prefix);
    NotBefore(file, prefix, 0, i, i, n);
    assert r.Ok?;
    var i': nat :| GroupFrom(file, prefix, 0, i', r.value);
    LeftmostUnique(file, prefix, i, n, i', r.value);
  }

  /** Where the parts of `base_id_prefix...` sit. */
  lemma NameLayout(base: string, id: string, prefix: string, rest: string)
    ensures var file := base + "_" + id + "_" + prefix + rest;
      && |file| == |base| + 1 + |id| + 1 + |prefix| + |rest|
      && (forall j :: 0 <= j < |base| ==> file[j] == base[j])
      && file[|base|] == '_'
      && file[|base| + 1..|base| + 1 + |id|] == id
      && OccursAt(file, "_" + prefix, |base| + 1 + |id|)
  {
    var file := base + "_" + id + "_" + prefix + rest;
    var tail := "_" + prefix + rest;
    assert file == base + "_" + id + tail;
    assert file[|base| + 1 + |id|..] == tail;
    assert tail[..|"_" + prefix|] == "_" + prefix;
  }

  /**
   * The names the tree step writes, `{common}_{prefix}.json` with the
   * common part ending in `_` and the compound's digits, give back those
   * digits when nothing before them holds `_`.
   */
  lemma {:induction false} CompoundIdOfName(base: string, id: string, prefix: string, rest: string)
    requires '_' !in base
    requires |id| > 0 && AllDigits(id)
    ensures CompoundId(base + "_" + id + "_" + prefix + rest, prefix) == Ok(id)
  {
    var file := base + "_" + id + "_" + prefix + rest;
    var i := |base|;
    NameLayout(base, id, prefix, rest);
    assert PatternAt(file, prefix, i, |id|);
    forall j: nat, k: nat | j < i
      ensures !PatternAt(file, prefix, j, k)
    {
      assert file[j] == base[j];
    }
    assert NoneBetween(file, prefix, 0, i);
    LeftmostMatchIsId(file, prefix, i, |id|);
  }

  /**
   * A name in which no `_` is followed by a digit, such as
   * `out_microbe.json`, which the glob on line 84 also finds, has no id.
   */
  lemma NoDigitAfterUnderscore(file: string, prefix: string)
    requires forall i :: 0 <= i < |file| - 1 && file[i] == '_' ==> !IsDigit(file[i + 1])
    ensures CompoundId(file, prefix) == Err(AttributeError)
  {
    forall i: nat, k: nat | i < |file|
      ensures !PatternAt(file, prefix, i, k)
    {
      if 0 < k && i + 1 + k <= |file| && file[i] == '_' {
        assert !IsDigit(file[i + 1]);
        assert file[i + 1..i + 1 + k][0] == file[i + 1];
      }
    }
  }

  /** Each file of the glob with its compound id, or the first file's `AttributeError`. */
  function WithIds(files: seq<(string, Option<seq<Row>>)>, prefix: string): (r: Result<seq<(string, Option<seq<Row>>)>>)
    ensures r.Err? <==> exists i :: 0 <= i < |files| && CompoundId(files[i].0, prefix).Err?
    ensures r.Err? ==> r == Err(AttributeError)
    ensures r.Ok? ==> |r.value| == |files| &&
                      forall i :: 0 <= i < |files| ==> r.value[i] == (CompoundId(files[i].0, prefix).value, files[i].1)
  {
    if |files| == 0 then Ok([])
    else
      match CompoundId(files[0].0, prefix)
      case Err(e) => Err(e)
      case Ok(id) =>
        match WithIds(files[1..], prefix)
        case Err(e) =>
          Err(e)
        case Ok(rest) =>
          assert forall i :: 1 <= i < |files| ==> files[i] == files[1..][i - 1];
          Ok([(id, files[0].1)] + rest)
  }

  /** What the summary of files with known compound ids is. */
  ghost predicate SummaryOf(named: seq<(string, Option<seq<Row>>)>, nodeKey: string, binary: bool,
                            out: Option<seq<(string, seq<Row>)>>) {
    && (out.None? <==> forall i :: 0 <= i < |named| ==> FileFrame(named[i], nodeKey, binary).None?)
    && (out.Some? ==> |out.value| > 0 && forall k :: 0 <= k < |out.value| ==> |out.value[k].1| > 0)
    && (out.Some? ==> forall x :: x in out.value ==> exists i :: 0 <= i < |named| && FileFrame(named[i], nodeKey, binary) == Some(x))
    && (forall i :: 0 <= i < |named| && FileFrame(named[i], nodeKey, binary).Some? ==>
          out.Some? && FileFrame(named[i], nodeKey, binary).value in out.value)
    && (out.Some? ==> out.value == Frames(named, nodeKey, binary))
  }

  /**
   * `create_summary_file` over the files the glob found, each given by its
   * path and `json_to_dataframe`'s result: `AttributeError` when a path
   * lacks the compound id; otherwise the frames of the files that gave
   * rows, in file order, or nothing when there are none.
   */
  function CreateSummaryFile(files: seq<(string, Option<seq<Row>>)>, prefix: string, nodeKey: string, binary: bool)
    : (r: Result<Option<seq<(string, seq<Row>)>>>)
    ensures r.Err? <==> exists i :: 0 <= i < |files| && CompoundId(files[i].0, prefix).Err?
    ensures r.Err? ==> r == Err(AttributeError)
    ensures r.Ok? ==> WithIds(files, prefix).Ok? && SummaryOf(WithIds(files, prefix).value, nodeKey, binary, r.value)
  {
    match WithIds(files, prefix)
    case Err(e) => Err(e)
    case Ok(named) =>
      var frames := Frames(named, nodeKey, binary);
      FramesEmpty(named, nodeKey, binary);
      FramesFromFiles(named, nodeKey, binary);
      FramesComplete(named, nodeKey, binary);
      Ok(if |frames| == 0 then None else Some(frames))
  }

  function Frames(files: seq<(string, Option<seq<Row>>)>, nodeKey: string, binary: bool): (r: seq<(string, seq<Row>)>)
    ensures forall k :: 0 <= k < |r| ==> |r[k].1| > 0
    ensures |files| == 1 ==>
              r == if FileFrame(files[0], nodeKey, binary).Some? then [FileFrame(files[0], nodeKey, binary).value] else []
  {
    if |files| == 0 then []
    else
      match FileFrame(files[0], nodeKey, binary)
      case Some(f) => [f] + Frames(files[1..], nodeKey, binary)
      case None => Frames(files[1..], nodeKey, binary)
  }

  /** There are no frames exactly when no file gave one. */
  lemma {:induction false} FramesEmpty(files: seq<(string, Option<seq<Row>>)>, nodeKey: string, binary: bool)
    ensures |Frames(files, nodeKey, binary)| == 0 <==>
              forall i :: 0 <= i < |files| ==> FileFrame(files[i], nodeKey, binary).None?
  {
    if |files| > 0 {
      var tail := files[1..];
      FramesEmpty(tail, nodeKey, binary);
      FramesCons(files[0], tail, nodeKey, binary);
      assert files == [files[0]] + tail;
      assert forall i :: 1 <= i < |files| ==> files[i] == tail[i - 1];
    }
  }

  /** Every frame is the frame of some file. */
  lemma {:induction false} FramesFromFiles(files: seq<(string, Option<seq<Row>>)>, nodeKey: string, binary: bool)
    ensures forall x :: x in Frames(files, nodeKey, binary) ==>
              exists i :: 0 <= i < |files| && FileFrame(files[i], nodeKey, binary) == Some(x)
  {
    if |files| > 0 {
      var tail := files[1..];
      var rest := Frames(tail, nodeKey, binary);
      FramesFromFiles(tail, nodeKey, binary);
      FramesCons(files[0], tail, nodeKey, binary);
      assert files == [files[0]] + tail;
      forall x | x in rest
        ensures exists i :: 0 <= i < |files| && FileFrame(files[i], nodeKey, binary) == Some(x)
      {
        var i :| 0 <= i < |tail| && FileFrame(tail[i], nodeKey, binary) == Some(x);
        assert files[i + 1] == tail[i];
      }
    }
  }

  /** Every file that gave a frame has it among the frames. */
  lemma {:induction false} FramesComplete(files: seq<(string, Option<seq<Row>>)>, nodeKey: string, binary: bool)
    ensures forall i :: 0 <= i < |files| && FileFrame(files[i], nodeKey, binary).Some? ==>
              FileFrame(files[i], nodeKey, binary).value in Frames(files, nodeKey, binary)
  {
    if |files| > 0 {
      var tail := files[1..];
      FramesComplete(tail, nodeKey, binary);
      FramesCons(files[0], tail, nodeKey, binary);
      assert files == [files[0]] + tail;
      assert forall i :: 1 <= i < |files| ==> files[i] == tail[i - 1];
    }
  }

  /** The frames of two runs of files, one after the other, are the frames of the joined run: file order is kept. */
  lemma {:induction false} FramesAppend(a: seq<(string, Option<seq<Row>>)>, b: seq<(string, Option<seq<Row>>)>,
                                        nodeKey: string, binary: bool)
    ensures Frames(a + b, nodeKey, binary) == Frames(a, nodeKey, binary) + Frames(b, nodeKey, binary)
  {
    if |a| == 0 {
      assert a + b == b;
    } else {
      var t := a[1..];
      var head := FileFrame(a[0], nodeKey, binary);
      var h := if head.Some? then [head.value] else [];
      calc {
        Frames(a + b, nodeKey, binary);
        == { assert a + b == [a[0]] + (t + b); FramesCons(a[0], t + b, nodeKey, binary); }
        h + Frames(t + b, nodeKey, binary);
        == { FramesAppend(t, b, nodeKey, binary); }
        h + (Frames(t, nodeKey, binary) + Frames(b, nodeKey, binary));
        == { ConcatAssoc(h, Frames(t, nodeKey, binary), Frames(b, nodeKey, binary)); }
        (h + Frames(t, nodeKey, binary)) + Frames(b, nodeKey, binary);
        == { assert a == [a[0]] + t; FramesCons(a[0], t, nodeKey, binary); }
        Frames(a, nodeKey, binary) + Frames(b, nodeKey, binary);
      }
    }
  }

  lemma FramesCons(f: (string, Option<seq<Row>>), rest: seq<(string, Option<seq<Row>>)>, nodeKey: string, binary: bool)
    ensures var head := FileFrame(f, nodeKey, binary);
      Frames([f] + rest, nodeKey, binary) == (if head.Some? then [head.value] else []) + Frames(rest, nodeKey, binary)
  {
    assert ([f] + rest)[1..] == rest;
  }

  lemma {:induction false} KeptNoLonger(s: seq<Row>, col: string, seen: set<Value>)
    ensures |CheckMetadata.DropDuplicates(s, col, seen)| <= |s|
  {
    if |s| > 0 {
      KeptNoLonger(s[1..], col, seen);
      KeptNoLonger(s[1..], col, seen + {Cell(s[0], col)});
    }
  }
}

=== FILE: json.dfy ===
/**
 * JSON documents as the modelled Python code sees them after `json.load`:
 * dynamically typed values, and ontology nodes that are objects holding a
 * `children` list.  A node keeps its `children` apart from its other
 * fields so that recursion over the tree is structural.
 */
module Json {
  import opened Results
  import Strs

  datatype Value =
    | Null
    | Bool(b: bool)
    | Int(i: int)
    | Real(r: real)
    | Str(s: string)
    | List(items: seq<Value>)
    | Obj(members: map<string, Value>)

  type Fields = map<string, Value>

  /** A JSON object with a `children` list; `fields` holds every other member. */
  datatype Node = Node(fields: Fields, children: seq<Node>)

  /** A record of a table (a `pandas` row): column name to cell. */
  type Row = map<string, Value>

  /** A row's cell in `col`, null when the row has none. */
  function Cell(r: Row, col: string): Value {
    GetOr(r, col, Null)
  }

  /** No value occurs twice. */
  predicate Distinct(ks: seq<Value>) {
    forall i, j :: 0 <= i < j < |ks| ==> ks[i] != ks[j]
  }

  /** Python's `d[k]`, which raises `KeyError` for an absent key. */
  function Lookup(fs: Fields, k: string): (r: Result<Value>)
    ensures r.Ok? <==> k in fs
    ensures r.Ok? ==> r.value == fs[k]
    ensures r.Err? ==> r.error == KeyError(k)
  {
    if k in fs then Ok(fs[k]) else Err(KeyError(k))
  }

  /** Python's `d.get(k)`. */
  function Get(fs: Fields, k: string): Option<Value> {
    if k in fs then Some(fs[k]) else None
  }

  /** Python's `d.get(k, default)`. */
  function GetOr(fs: Fields, k: string, default: Value): Value {
    if k in fs then fs[k] else default
  }

  /** Python's `d.get(k, None) is None`: the member is absent or JSON null. */
  predicate Missing(fs: Fields, k: string) {
    k !in fs || fs[k] == Null
  }

  /** The number a value stands for in Python arithmetic (`True` is 1). */
  function Numeric(v: Value): Option<real> {
    match v
    case Bool(b) => Some(if b then 1.0 else 0.0)
    case Int(i) => Some(i as real)
    case Real(r) => Some(r)
    case _ => None
  }

  predicate IntLike(v: Value) {
    v.Bool? || v.Int?
  }

  function IntOf(v: Value): int
    requires IntLike(v)
  {
    match v
    case Bool(b) => if b then 1 else 0
    case Int(i) => i
  }

  /** Python's `a + b` on numbers: integers stay integers, a float makes a float. */
  function Add(a: Value, b: Value): (r: Result<Value>)
    ensures r.Ok? <==> Numeric(a).Some? && Numeric(b).Some?
    ensures r.Ok? ==> Numeric(r.value) == Some(Numeric(a).value + Numeric(b).value)
    ensures r.Ok? ==> (r.value.Int? <==> IntLike(a) && IntLike(b))
  {
    if IntLike(a) && IntLike(b) then Ok(Int(IntOf(a) + IntOf(b)))
    else if Numeric(a).Some? && Numeric(b).Some? then Ok(Real(Numeric(a).value + Numeric(b).value))
    else Err(TypeError)
  }

  /** Python's `v == 0`. */
  predicate IsZero(v: Value) {
    Numeric(v) == Some(0.0)
  }

  /** Python's true division `a / b` for a divisor other than zero. */
  function Divide(a: Value, b: Value): (r: Result<Value>)
    requires !IsZero(b)
    ensures r.Ok? <==> Numeric(a).Some? && Numeric(b).Some?
    ensures r.Ok? ==> r.value.Real? && r.value.r * Numeric(b).value == Numeric(a).value
  {
    if Numeric(a).Some? && Numeric(b).Some? then Ok(Real(Numeric(a).value / Numeric(b).value))
    else Err(TypeError)
  }

  /** Python's `1.0 - v`. */
  function OneMinus(v: Value): (r: Result<Value>)
    ensures r.Ok? <==> Numeric(v).Some?
    ensures r.Ok? ==> r.value.Real? && r.value.r + Numeric(v).value == 1.0
  {
    if Numeric(v).Some? then Ok(Real(1.0 - Numeric(v).value)) else Err(TypeError)
  }

  /**
   * Python's `str(v)` for the values whose text form the model fixes: a
   * float only when it is a whole number below 10^16 in size, which Python
   * writes with a trailing `.0`; other floats, lists and objects are not
   * given a text form (`None`).
   */
  function PyStr(v: Value): Option<string> {
    match v
    case Null => Some("None")
    case Bool(b) => Some(if b then "True" else "False")
    case Int(i) => Some(Strs.IntToString(i))
    case Real(x) => FloatText(x)
    case Str(s) => Some(s)
    case _ => None
  }

  /** Below this size a whole float is written in positional notation. */
  const FloatPositionalLimit: real := 10000000000000000.0

  /** `str(x)` for a whole float below 10^16 in size: its integer digits and `.0`. */
  function FloatText(x: real): (r: Option<string>)
    ensures r.Some? <==> x.Floor as real == x && -FloatPositionalLimit < x < FloatPositionalLimit
  {
    if x.Floor as real == x && -FloatPositionalLimit < x < FloatPositionalLimit then
      Some(Strs.IntToString(x.Floor) + ".0")
    else None
  }

  /**
   * A whole float's text is its integer's text with `.0` appended, so the
   * two never compare equal as text.
   */
  lemma FloatTextOfInt(n: int)
    requires -10000000000000000 < n < 10000000000000000
    ensures PyStr(Real(n as real)) == Some(PyStr(Int(n)).value + ".0")
    ensures PyStr(Real(n as real)) != PyStr(Int(n))
  {
    assert (n as real).Floor == n;
  }

  /** The number stored under `k`, with 0 for an absent or non-numeric member. */
  function NumField(fs: Fields, k: string): real {
    if k in fs && Numeric(fs[k]).Some? then Numeric(fs[k]).value else 0.0
  }

  /** The sum of `NumField(_, k)` over a sequence of nodes. */
  function SumField(ns: seq<Node>, k: string): real {
    if |ns| == 0 then 0.0 else NumField(ns[0].fields, k) + SumField(ns[1..], k)
  }

  /** The nodes of a tree in pre-order, root first. */
  function Flatten(n: Node): (r: seq<Node>)
    ensures |r| > 0 && r[0] == n
    decreases n, 1
  {
    [n] + FlattenAll(n.children)
  }

  /** The pre-order node lists of a sequence of sibling trees, concatenated. */
  function FlattenAll(ns: seq<Node>): seq<Node>
    decreases ns, 0
  {
    if |ns| == 0 then [] else Flatten(ns[0]) + FlattenAll(ns[1..])
  }

  /** Number of nodes in a tree. */
  function Count(n: Node): nat {
    |Flatten(n)|
  }

  lemma FlattenAllAppend(a: seq<Node>, b: seq<Node>)
    ensures FlattenAll(a + b) == FlattenAll(a) + FlattenAll(b)
    decreases |a|
  {
    if |a| == 0 {
      assert a + b == b;
    } else {
      assert (a + b)[1..] == a[1..] + b;
      FlattenAllAppend(a[1..], b);
    }
  }

  lemma FlattenAllSingle(n: Node)
    ensures FlattenAll([n]) == Flatten(n)
  {
    assert [n][1..] == [];
  }

  /** A child's subtree appears in its parent's pre-order listing. */
  lemma ChildInFlatten(n: Node, k: int)
    requires 0 <= k < |n.children|
    ensures forall x :: x in Flatten(n.children[k]) ==> x in Flatten(n)
  {
    var cs := n.children;
    assert cs == cs[..k] + [cs[k]] + cs[k + 1..];
    FlattenAllAppend(cs[..k] + [cs[k]], cs[k + 1..]);
    FlattenAllAppend(cs[..k], [cs[k]]);
    FlattenAllSingle(cs[k]);
  }
}

=== FILE: make_table.dfy ===
/**
 * code/lib/makeTable.js: the data side of the match tables — which columns
 * are shown, how a sort column is turned into an index, and how a cell's
 * text is rendered as a link.  The d3, jQuery and DataTables wiring is not
 * modelled; a cell is its `String(data)` text.
 */
module MakeTable {
  import opened Results
  import opened Strs

  // ---------------------------------------------------------------------
  // Lines 19-27: the column names
  // ---------------------------------------------------------------------

  /** `colnames.filter(e => filter_cols.indexOf(e) < 0)`. */
  function WithoutFiltered(keys: seq<string>, filterCols: seq<string>): (r: seq<string>)
    ensures |r| <= |keys|
    ensures forall c :: c in r <==> c in keys && c !in filterCols
    decreases |keys|
  {
    if |keys| == 0 then []
    else
      var rest := WithoutFiltered(keys[1..], filterCols);
      assert forall c :: c in keys <==> c == keys[0] || c in keys[1..];
      if keys[0] in filterCols then rest else [keys[0]] + rest
  }

  /**
   * The keys of the first record, without the filtered columns when
   * `filter_cols` is set.  With no records `data[0]` is `undefined` and
   * `Object.keys` throws a `TypeError`.
   */
  function ColumnNames(recordKeys: seq<seq<string>>, filterCols: Option<seq<string>>): (r: Result<seq<string>>)
    ensures r.Err? <==> |recordKeys| == 0
    ensures r.Ok? && filterCols.None? ==> r.value == recordKeys[0]
    ensures r.Ok? && filterCols.Some? ==>
              forall c :: c in r.value <==> c in recordKeys[0] && c !in filterCols.value
  {
    if |recordKeys| == 0 then Err(TypeError)
    else if filterCols.None? then Ok(recordKeys[0])
    else Ok(WithoutFiltered(recordKeys[0], filterCols.value))
  }

  /** `sub` is `s` with some entries left out, the rest in their order. */
  predicate Subsequence(sub: seq<string>, s: seq<string>)
    decreases |s|
  {
    if |sub| == 0 then true
    else if |s| == 0 then false
    else if sub[0] == s[0] then Subsequence(sub[1..], s[1..])
    else Subsequence(sub, s[1..])
  }

  /** Filtering keeps the order of the remaining columns. */
  lemma {:induction false} FilterKeepsOrder(keys: seq<string>, filterCols: seq<string>)
    ensures Subsequence(WithoutFiltered(keys, filterCols), keys)
    decreases |keys|
  {
    if |keys| > 0 {
      FilterKeepsOrder(keys[1..], filterCols);
      var rest := WithoutFiltered(keys[1..], filterCols);
      if keys[0] !in filterCols {
        assert ([keys[0]] + rest)[1..] == rest;
      } else {
        SubsequenceSkip(rest, keys);
      }
    }
  }

  lemma SubsequenceSkip(sub: seq<string>, s: seq<string>)
    requires |s| > 0 && Subsequence(sub, s[1..])
    requires |sub| > 0 ==> sub[0] != s[0]
    ensures Subsequence(sub, s)
  {
  }

  /** Columns the filter does not name are all kept, in order. */
  lemma {:induction false} FilterNothing(keys: seq<string>, filterCols: seq<string>)
    requires forall k :: 0 <= k < |keys| ==> keys[k] !in filterCols
    ensures WithoutFiltered(keys, filterCols) == keys
    decreases |keys|
  {
    if |keys| > 0 {
      FilterNothing(keys[1..], filterCols);
    }
  }

  /** Filtering with the same list twice removes nothing more. */
  lemma FilterIdempotent(keys: seq<string>, filterCols: seq<string>)
    ensures WithoutFiltered(WithoutFiltered(keys, filterCols), filterCols) == WithoutFiltered(keys, filterCols)
  {
    var once := WithoutFiltered(keys, filterCols);
    assert forall k :: 0 <= k < |once| ==> once[k] in once;
    FilterNothing(once, filterCols);
  }

  // ---------------------------------------------------------------------
  // Lines 40-44 and 151-160: the sort order
  // ---------------------------------------------------------------------

  /** What `sortBy(colname, ascending)` stores: `[colname, 'asc' | 'desc']`. */
  datatype SortBy = SortBy(column: string, direction: string)

  function MakeSortBy(colname: string, ascending: bool): (s: SortBy)
    ensures s.column == colname
    ensures s.direction == "asc" <==> ascending
    ensures s.direction == "desc" <==> !ascending
  {
    SortBy(colname, if ascending then "asc" else "desc")
  }

  /** `Array.prototype.indexOf`: the first position of `x`, or -1. */
  function IndexOf(xs: seq<string>, x: string): (r: int)
    ensures -1 <= r < |xs|
    ensures r == -1 <==> x !in xs
    ensures r >= 0 ==> xs[r] == x && forall k :: 0 <= k < r ==> xs[k] != x
    decreases |xs|
  {
    if |xs| == 0 then -1
    else if xs[0] == x then 0
    else
      var r := IndexOf(xs[1..], x);
      if r == -1 then -1 else r + 1
  }

  /** The DataTables `order` option: `[[column index, direction]]`, or none. */
  datatype Order = Order(index: int, direction: string)

  function SortOrder(sortBy: Option<SortBy>, colnames: seq<string>): (r: seq<Order>)
    ensures sortBy.None? ==> r == []
    ensures sortBy.Some? ==> |r| == 1 && r[0].direction == sortBy.value.direction && -1 <= r[0].index < |colnames|
    ensures sortBy.Some? && r[0].index >= 0 ==> colnames[r[0].index] == sortBy.value.column
    ensures sortBy.Some? ==> (r[0].index == -1 <==> sortBy.value.column !in colnames)
  {
    match sortBy
    case None => []
    case Some(s) => [Order(IndexOf(colnames, s.column), s.direction)]
  }

  /** Sorting by a column the filter removed asks DataTables for column -1. */
  lemma SortByFilteredColumn(recordKeys: seq<seq<string>>, filterCols: seq<string>, colname: string, ascending: bool)
    requires |recordKeys| > 0 && colname in filterCols
    ensures var cols := ColumnNames(recordKeys, Some(filterCols)).value;
            SortOrder(Some(MakeSortBy(colname, ascending)), cols)[0].index == -1
  {
  }

  // ---------------------------------------------------------------------
  // Lines 58-83: rendering a cell
  // ---------------------------------------------------------------------

  const LibraryPrefix := "CCMSLIB"
  const UsiPrefix := "mzspec:"
  const DatasetPrefix := "MSV0"
  const Blank := "\" target=\"_blank\">"
  const LibraryUrl := "https://gnps.ucsd.edu/ProteoSAFe/gnpslibraryspectrum.jsp?SpectrumID="
  const MirrorUrl := "https://metabolomics-usi.gnps2.org/dashinterface/?usi1="
  const DashboardUrl := "https://dashboard.gnps2.org/?usi="
  const DatasetUrl := "https://massive.ucsd.edu/ProteoSAFe/dataset.jsp?accession="

  /** Which link a cell becomes. */
  datatype LinkKind = Plain | Library | Mirror | OpenFile | Dataset

  /** A USI of one spectrum: a scan, or a library accession. */
  predicate SpectrumUsi(s: string) {
    Contains(s, ":scan:") || Contains(s, "accession:CCMSLIB")
  }

  function Kind(s: string): (k: LinkKind)
    ensures k == Library <==> StartsWith(s, LibraryPrefix)
    ensures k == Mirror <==> !StartsWith(s, LibraryPrefix) && StartsWith(s, UsiPrefix) && SpectrumUsi(s)
    ensures k == OpenFile <==> !StartsWith(s, LibraryPrefix) && StartsWith(s, UsiPrefix) && !SpectrumUsi(s)
    ensures k == Dataset <==> !StartsWith(s, LibraryPrefix) && !StartsWith(s, UsiPrefix) && StartsWith(s, DatasetPrefix)
  {
    if StartsWith(s, LibraryPrefix) then Library
    else if StartsWith(s, UsiPrefix) then (if SpectrumUsi(s) then Mirror else OpenFile)
    else if StartsWith(s, DatasetPrefix) then Dataset
    else Plain
  }

  /** `<a href="url">text</a>`, opening in a new tab. */
  function Anchor(url: string, text: string): string {
    "<a href=\"" + url + Blank + text + "</a>"
  }

  /**
   * The `render` callback: `None` when the cell is returned unchanged
   * (another render type, or a value no link applies to), else the link.
   * `inputUsi` is the page's input USI, `None` for `null`.
   */
  function Render(data: string, renderType: string, inputUsi: Option<string>): (r: Option<string>)
    ensures r.None? <==> renderType != "display" || Kind(data) == Plain
    ensures r.Some? && Kind(data) == Library ==> r.value == Anchor(LibraryUrl + data, data)
    ensures r.Some? && Kind(data) == Mirror && inputUsi.Some? && |inputUsi.value| > 0 ==>
              r.value == Anchor(MirrorUrl + inputUsi.value + "&usi2=" + data, data)
    ensures r.Some? && Kind(data) == Mirror && (inputUsi.None? || |inputUsi.value| == 0) ==>
              r.value == Anchor(MirrorUrl + data, data)
    ensures r.Some? && Kind(data) == OpenFile ==> r.value == Anchor(DashboardUrl + data, "Open file")
    ensures r.Some? && Kind(data) == Dataset ==> r.value == Anchor(DatasetUrl + data, data)
  {
    if renderType != "display" then None
    else
      match Kind(data)
      case Plain => None
      case Library => Some(Anchor(LibraryUrl + data, data))
      case Mirror =>
        if inputUsi.Some? && |inputUsi.value| > 0 then
          Some(Anchor(MirrorUrl + inputUsi.value + "&usi2=" + data, data))
        else Some(Anchor(MirrorUrl + data, data))
      case OpenFile => Some(Anchor(DashboardUrl + data, "Open file"))
      case Dataset => Some(Anchor(DatasetUrl + data, data))
  }

  /** The text of an anchor is its last part before `</a>`, so it can be read back. */
  lemma AnchorText(url: string, text: string)
    ensures var a := Anchor(url, text);
            |a| >= |text| + 4 && a[|a| - 4 - |text|..|a| - 4] == text && EndsWith(a, "</a>")
  {
    var a := Anchor(url, text);
    assert a == ("<a href=\"" + url + Blank) + text + "</a>";
  }

  /** The URL of an anchor is readable from its front. */
  lemma AnchorUrl(url: string, text: string)
    ensures var a := Anchor(url, text);
            |a| >= 9 + |url| && a[9..9 + |url|] == url && StartsWith(a, "<a href=\"")
  {
    var a := Anchor(url, text);
    assert a == "<a href=\"" + url + (Blank + text + "</a>");
  }

  /** Every link except "Open file" shows the cell's value as its text. */
  lemma LinkShowsValue(data: string, inputUsi: Option<string>)
    requires Kind(data) in {Library, Mirror, Dataset}
    ensures var r := Render(data, "display", inputUsi);
            r.Some? && |r.value| >= |data| + 4 && r.value[|r.value| - 4 - |data|..|r.value| - 4] == data
  {
    var url := RenderedAnchor(data, inputUsi);
    AnchorText(url, data);
  }

  /** Those links are anchors around the value itself. */
  lemma RenderedAnchor(data: string, inputUsi: Option<string>) returns (url: string)
    requires Kind(data) in {Library, Mirror, Dataset}
    ensures Render(data, "display", inputUsi) == Some(Anchor(url, data))
  {
    match Kind(data)
    case Library => url := LibraryUrl + data;
    case Dataset => url := DatasetUrl + data;
    case Mirror =>
      if inputUsi.Some? && |inputUsi.value| > 0 {
        url := MirrorUrl + inputUsi.value + "&usi2=" + data;
      } else {
        url := MirrorUrl + data;
      }
  }

  /** A library ID wins over the other prefixes, whatever else it contains. */
  lemma LibraryFirst(data: string, inputUsi: Option<string>)
    requires StartsWith(data, LibraryPrefix)
    ensures Render(data, "display", inputUsi) == Some(Anchor(LibraryUrl + data, data))
  {
  }

  /** The kinds are exclusive: a value starting with `mzspec:` never becomes a dataset link. */
  lemma UsiNeverDataset(data: string)
    requires StartsWith(data, UsiPrefix)
    ensures Kind(data) in {Mirror, OpenFile}
  {
    assert data[0] == 'm';
  }
}

=== FILE: masst_client.dfy ===
/**
 * code/masst_client.py: the pure parts of the fastMASST client — file-name
 * sanitising, the base name of a query's output files, the label of the
 * search parameters, and how `query_usi_or_id` turns a fastMASST response
 * into its boolean outcome.  The HTTP calls themselves are parameters: the
 * response (or the exception raised fetching it) and whether processing
 * the matches succeeded.
 */
module MasstClient {
  import opened Results
  import opened Strs
  import opened Json

  // ---------------------------------------------------------------------
  // path_safe, lines 503-504
  // ---------------------------------------------------------------------

  /** The characters of the class `[-a-zA-Z0-9_.() ]`. */
  predicate Allowed(c: char) {
    || c == '-' || ('a' <= c <= 'z') || ('A' <= c <= 'Z') || ('0' <= c <= '9')
    || c == '_' || c == '.' || c == '(' || c == ')' || c == ' '
  }

  predicate AllAllowed(s: string) {
    forall k :: 0 <= k < |s| ==> Allowed(s[k])
  }

  /**
   * The substitution scanning left to right; `inRun` says the previous
   * character was already part of a replaced run.  Each maximal run of
   * other characters gives one `_`, at its first character.
   */
  function Sanitize(s: string, inRun: bool): (r: string)
    ensures |r| <= |s|
    ensures !inRun ==> (|r| == 0 <==> |s| == 0)
    decreases |s|
  {
    if |s| == 0 then ""
    else if Allowed(s[0]) then [s[0]] + Sanitize(s[1..], false)
    else if inRun then Sanitize(s[1..], true)
    else "_" + Sanitize(s[1..], true)
  }

  /** `re.sub("[^-a-zA-Z0-9_.() ]+", "_", file)`. */
  function PathSafe(s: string): (r: string)
    ensures |r| <= |s|
    ensures |r| == 0 <==> |s| == 0
  {
    Sanitize(s, false)
  }

  /** Only allowed characters come out. */
  lemma {:induction false} SanitizeAllowed(s: string, inRun: bool)
    ensures AllAllowed(Sanitize(s, inRun))
    decreases |s|
  {
    if |s| > 0 {
      SanitizeAllowed(s[1..], !Allowed(s[0]));
    }
  }

  lemma PathSafeAllowed(s: string)
    ensures AllAllowed(PathSafe(s))
  {
    SanitizeAllowed(s, false);
  }

  /** A name made of allowed characters only is left as it is. */
  lemma {:induction false} SanitizeKeepsSafe(s: string, inRun: bool)
    requires AllAllowed(s)
    ensures Sanitize(s, inRun) == s
    decreases |s|
  {
    if |s| > 0 {
      SanitizeKeepsSafe(s[1..], false);
    }
  }

  lemma PathSafeKeepsSafe(s: string)
    requires AllAllowed(s)
    ensures PathSafe(s) == s
  {
    SanitizeKeepsSafe(s, false);
  }

  /** Sanitising twice is sanitising once. */
  lemma PathSafeIdempotent(s: string)
    ensures PathSafe(PathSafe(s)) == PathSafe(s)
  {
    PathSafeAllowed(s);
    PathSafeKeepsSafe(PathSafe(s));
  }

  /** A run ends where an allowed character stands, so sanitising splits there. */
  lemma {:induction false} SanitizeAppend(a: string, b: string, inRun: bool)
    requires |a| > 0 && Allowed(a[|a| - 1])
    ensures Sanitize(a + b, inRun) == Sanitize(a, inRun) + Sanitize(b, false)
    decreases |a|
  {
    var s := a + b;
    assert s[0] == a[0];
    if |a| == 1 {
      assert s[1..] == b;
      assert a[1..] == [];
    } else {
      assert s[1..] == a[1..] + b;
      SanitizeAppend(a[1..], b, !Allowed(a[0]));
    }
  }

  lemma PathSafeAppend(a: string, b: string)
    requires |a| > 0 && Allowed(a[|a| - 1])
    ensures PathSafe(a + b) == PathSafe(a) + PathSafe(b)
  {
    SanitizeAppend(a, b, false);
  }

  /** Inside a run, the rest of the run is dropped. */
  lemma {:induction false} RunDropped(run: string, rest: string)
    requires forall k :: 0 <= k < |run| ==> !Allowed(run[k])
    ensures Sanitize(run + rest, true) == Sanitize(rest, true)
    decreases |run|
  {
    if |run| > 0 {
      assert (run + rest)[0] == run[0];
      assert (run + rest)[1..] == run[1..] + rest;
      RunDropped(run[1..], rest);
    } else {
      assert run + rest == rest;
    }
  }

  /** Each maximal run, however long, leaves a single `_`. */
  lemma RunBecomesOne(run: string, rest: string)
    requires |run| > 0 && forall k :: 0 <= k < |run| ==> !Allowed(run[k])
    requires |rest| == 0 || Allowed(rest[0])
    ensures PathSafe(run + rest) == "_" + PathSafe(rest)
  {
    var s := run + rest;
    assert s[0] == run[0];
    assert s[1..] == run[1..] + rest;
    RunDropped(run[1..], rest);
  }

  // ---------------------------------------------------------------------
  // common_base_file_name, lines 298-302
  // ---------------------------------------------------------------------

  /**
   * The file name, followed by `_` and the compound name with its spaces
   * as `_` when there is a compound name (`None` and `""` are false).
   */
  function CommonBaseFileName(compound: Option<string>, fileName: string): (r: string)
    ensures compound.None? || compound == Some("") ==> r == fileName
    ensures compound.Some? && compound.value != "" ==> r == fileName + "_" + ReplaceAll(compound.value, " ", "_")
    ensures StartsWith(r, fileName)
  {
    if compound.Some? && compound.value != "" then
      var r := fileName + "_" + ReplaceAll(compound.value, " ", "_");
      assert r[..|fileName|] == fileName;
      r
    else fileName
  }

  /** The part after the file name has no spaces left. */
  lemma {:induction false} NoSpacesLeft(s: string)
    ensures ' ' !in ReplaceAll(s, " ", "_")
    decreases |s|
  {
    match Find(s, " ")
    case None =>
      forall k | 0 <= k < |s| ensures s[k] != ' ' {
        OccursChar(s, ' ', k);
      }
    case Some(i) =>
      forall k | 0 <= k < i ensures s[k] != ' ' {
        OccursChar(s, ' ', k);
      }
      NoSpacesLeft(s[i + 1..]);
  }

  /** The same compound name keeps its length; nothing but spaces changes. */
  lemma {:induction false} SpacesReplacedInPlace(s: string)
    ensures |ReplaceAll(s, " ", "_")| == |s|
    ensures forall k :: 0 <= k < |s| && s[k] != ' ' ==> ReplaceAll(s, " ", "_")[k] == s[k]
    decreases |s|
  {
    match Find(s, " ")
    case None =>
    case Some(i) =>
      SpacesReplacedInPlace(s[i + 1..]);
      var r := ReplaceAll(s, " ", "_");
      assert r == s[..i] + "_" + ReplaceAll(s[i + 1..], " ", "_");
      forall k | 0 <= k < |s| && s[k] != ' ' ensures r[k] == s[k] {
        if k > i {
          assert r[k] == ReplaceAll(s[i + 1..], " ", "_")[k - i - 1];
        } else if k == i {
          OccursChar(s, ' ', i);
        }
      }
  }

  // ---------------------------------------------------------------------
  // create_params_label, lines 507-525
  // ---------------------------------------------------------------------

  /** The search parameters, each already in its `str()` text form. */
  datatype Params = Params(minMatchedSignals: string, minCos: string, precursorMzTol: string, mzTol: string,
                           analog: bool, analogMassBelow: string, analogMassAbove: string)

  function PyBool(b: bool): string {
    if b then "True" else "False"
  }

  /** The part every label has. */
  function BaseLabel(p: Params): string {
    "min matched signals: " + p.minMatchedSignals + ";  min cosine: " + p.minCos +
    ";  precursor m/z tolerance: " + p.precursorMzTol + ";  m/z tolerance: " + p.mzTol +
    ";  analog: " + PyBool(p.analog)
  }

  /** The analog window, appended only for an analog search. */
  function AnalogSuffix(p: Params): string {
    ";  analogs below m/z:" + p.analogMassBelow + ";  analogs above m/z:" + p.analogMassAbove
  }

  function CreateParamsLabel(p: Params): (r: string)
    ensures StartsWith(r, BaseLabel(p))
    ensures |r| > |BaseLabel(p)| <==> p.analog
    ensures p.analog ==> r[|BaseLabel(p)|..] == AnalogSuffix(p)
    ensures !p.analog ==> r == BaseLabel(p)
  {
    var base := BaseLabel(p);
    if p.analog then
      var r := base + AnalogSuffix(p);
      assert r[..|base|] == base;
      r
    else base
  }

  /** Two labels are equal only for the same analog flag. */
  lemma LabelsTellAnalog(p: Params, q: Params)
    requires p.(analog := q.analog) == q
    requires CreateParamsLabel(p) == CreateParamsLabel(q)
    ensures p.analog == q.analog
  {
  }

  // ---------------------------------------------------------------------
  // query_usi_or_id, lines 305-394: the outcome of a query
  // ---------------------------------------------------------------------

  /** Python truthiness of a JSON value. */
  predicate Truthy(v: Value) {
    match v
    case Null => false
    case Bool(b) => b
    case Int(i) => i != 0
    case Real(x) => x != 0.0
    case Str(s) => |s| > 0
    case List(xs) => |xs| > 0
    case Obj(m) => |m| > 0
  }

  /**
   * `"results" in matches` followed by `matches["results"]`: the member of
   * an object, `None` when there is none; a list, a string or a number
   * raises `TypeError` somewhere along the way unless the test says no.
   */
  function ResultsOf(v: Value): (r: Result<Option<Value>>)
    ensures v.Obj? ==> r.Ok? && (r.value.Some? <==> "results" in v.members)
    ensures v.Obj? && "results" in v.members ==> r == Ok(Some(v.members["results"]))
  {
    match v
    case Obj(m) => Ok(if "results" in m then Some(m["results"]) else None)
    case List(xs) => if Str("results") in xs then Err(TypeError) else Ok(None)
    case Str(s) => if Contains(s, "results") then Err(TypeError) else Ok(None)
    case _ => Err(TypeError)
  }

  /** `len(v)`, which only sized values have. */
  function Len(v: Value): (r: Result<nat>)
    ensures v.List? ==> r == Ok(|v.items|)
    ensures (v.Null? || v.Bool? || v.Int? || v.Real?) ==> r == Err(TypeError)
  {
    match v
    case List(xs) => Ok(|xs|)
    case Obj(m) => Ok(|m|)
    case Str(s) => Ok(|s|)
    case _ => Err(TypeError)
  }

  /** What a query did: found nothing usable, wrote the empty-results file, or processed matches. */
  datatype QueryOutcome = NoResponse | Failed | WroteEmptyResults | Processed

  /** The boolean `query_usi_or_id` returns. */
  predicate Succeeded(o: QueryOutcome) {
    o == WroteEmptyResults || o == Processed
  }

  /**
   * `response` is what the fastMASST call returned, or the exception it
   * raised; `processing` is whether the library query and the processing
   * of the matches went through.
   */
  function QueryUsiOrId(response: Result<Value>, processing: Result<()>): (o: QueryOutcome)
    ensures response.Err? ==> o == Failed
    ensures response.Ok? && !Truthy(response.value) ==> o == NoResponse
    ensures response.Ok? && response.value.Obj? && Truthy(response.value) && "results" !in response.value.members ==>
              o == NoResponse
    ensures o == WroteEmptyResults ==>
              response.Ok? && ResultsOf(response.value).Ok? && ResultsOf(response.value).value.Some? &&
              Len(ResultsOf(response.value).value.value) == Ok(0)
    ensures o == Processed ==> processing.Ok?
    ensures processing.Err? ==> o != Processed
  {
    match response
    case Err(_) => Failed
    case Ok(matches) =>
      if !Truthy(matches) then NoResponse
      else
        match ResultsOf(matches)
        case Err(_) => Failed
        case Ok(None) => NoResponse
        case Ok(Some(results)) =>
          match Len(results)
          case Err(_) => Failed
          case Ok(n) =>
            if n == 0 then WroteEmptyResults
            else if processing.Ok? then Processed else Failed
  }

  /** A non-empty result list is a success exactly when the processing goes through. */
  lemma ResultsProcessed(fields: map<string, Value>, items: seq<Value>, processing: Result<()>)
    requires "results" in fields && fields["results"] == List(items) && |items| > 0
    ensures Succeeded(QueryUsiOrId(Ok(Obj(fields)), processing)) <==> processing.Ok?
  {
  }

  /** An empty result list is a success whatever the processing would have done. */
  lemma EmptyResultsSucceed(fields: map<string, Value>, processing: Result<()>)
    requires "results" in fields && fields["results"] == List([])
    ensures QueryUsiOrId(Ok(Obj(fields)), processing) == WroteEmptyResults
  {
  }
}

=== FILE: masst_tree.dfy ===
/**
 * code/masst_tree.py: turning the matches of one search into an enriched
 * ontology tree, and merging the trees of several ontologies under one
 * synthetic root.
 *
 * A table is a sequence of rows; a cell that a row lacks stands for a
 * null (`NaN`) cell of the data frame.
 */
module MasstTree {
  import opened Results
  import opened Json
  import opened Trees
  import opened OntologyExtender

  const FileUsi := "file_usi"

  // ---------------------------------------------------------------------
  // export_metadata_matches: pd.merge(matches, metadata, on="file_usi", how="inner")
  // ---------------------------------------------------------------------

  /** One joined row: the match's columns and the metadata row's columns. */
  function Merge(m: Row, d: Row): (r: Row)
    ensures r.Keys == m.Keys + d.Keys
    ensures forall c :: c in m ==> r[c] == m[c]
    ensures forall c :: c in d && c !in m ==> r[c] == d[c]
  {
    d + m
  }

  /** The number of metadata rows whose `file_usi` is `key`. */
  function CountKey(ds: seq<Row>, key: Value): nat {
    if |ds| == 0 then 0 else (if Cell(ds[0], FileUsi) == key then 1 else 0) + CountKey(ds[1..], key)
  }

  /** The joined rows of one match, in metadata order. */
  function JoinOne(m: Row, ds: seq<Row>): (r: seq<Row>)
    ensures |r| == CountKey(ds, Cell(m, FileUsi))
    ensures forall x :: x in r <==> exists j :: 0 <= j < |ds| && Cell(ds[j], FileUsi) == Cell(m, FileUsi) && x == Merge(m, ds[j])
  {
    if |ds| == 0 then []
    else
      var rest := JoinOne(m, ds[1..]);
      assert forall j :: 0 < j < |ds| ==> ds[j] == ds[1..][j - 1];
      if Cell(ds[0], FileUsi) == Cell(m, FileUsi) then [Merge(m, ds[0])] + rest else rest
  }

  /** The sum of the pair counts of the matches. */
  function PairCount(ms: seq<Row>, ds: seq<Row>): nat {
    if |ms| == 0 then 0 else CountKey(ds, Cell(ms[0], FileUsi)) + PairCount(ms[1..], ds)
  }

  /** The inner join, in the order of the matches and, per match, of the metadata rows. */
  function Join(ms: seq<Row>, ds: seq<Row>): (r: seq<Row>)
    ensures |r| == PairCount(ms, ds)
  {
    if |ms| == 0 then [] else JoinOne(ms[0], ds) + Join(ms[1..], ds)
  }

  /**
   * A row is in the join exactly when it merges a match with a metadata
   * row of the same `file_usi`; a match with no such row leaves no trace.
   */
  lemma {:induction false} JoinMembers(ms: seq<Row>, ds: seq<Row>, x: Row)
    ensures x in Join(ms, ds) <==>
              exists i, j :: 0 <= i < |ms| && 0 <= j < |ds| && Cell(ds[j], FileUsi) == Cell(ms[i], FileUsi)
                             && x == Merge(ms[i], ds[j])
  {
    if |ms| > 0 {
      JoinMembers(ms[1..], ds, x);
      assert forall i :: 0 < i < |ms| ==> ms[i] == ms[1..][i - 1];
      if x in Join(ms[1..], ds) {
        var i, j :| 0 <= i < |ms[1..]| && 0 <= j < |ds| && Cell(ds[j], FileUsi) == Cell(ms[1..][i], FileUsi)
                    && x == Merge(ms[1..][i], ds[j]);
        assert ms[1..][i] == ms[i + 1];
      }
    }
  }

  /** The join is empty exactly when no match shares its `file_usi` with a metadata row. */
  lemma JoinEmpty(ms: seq<Row>, ds: seq<Row>)
    ensures |Join(ms, ds)| == 0 <==>
              forall i, j :: 0 <= i < |ms| && 0 <= j < |ds| ==> Cell(ds[j], FileUsi) != Cell(ms[i], FileUsi)
  {
    if |Join(ms, ds)| == 0 {
      forall i, j | 0 <= i < |ms| && 0 <= j < |ds|
        ensures Cell(ds[j], FileUsi) != Cell(ms[i], FileUsi)
      {
        JoinMembers(ms, ds, Merge(ms[i], ds[j]));
      }
    } else {
      var x := Join(ms, ds)[0];
      JoinMembers(ms, ds, x);
    }
  }

  // ---------------------------------------------------------------------
  // group_matches
  // ---------------------------------------------------------------------

  /** The row's group key; rows with a null key are not grouped (`groupby` drops them). */
  function GroupKey(r: Row, col: string): Option<Value> {
    if Missing(r, col) then None else Some(r[col])
  }

  /** 1 when the row belongs to the group of `k`. */
  function Hit(r: Row, col: string, k: Value): nat {
    if GroupKey(r, col) == Some(k) then 1 else 0
  }

  /** The rows of the group of `k`, in table order. */
  function RowsWithKey(rows: seq<Row>, col: string, k: Value): (r: seq<Row>)
    ensures forall x :: x in r ==> x in rows && GroupKey(x, col) == Some(k)
    ensures forall i :: 0 <= i < |rows| && GroupKey(rows[i], col) == Some(k) ==> rows[i] in r
    ensures |rows| == 1 ==> r == if GroupKey(rows[0], col) == Some(k) then rows else []
  {
    if |rows| == 0 then []
    else
      var last := rows[|rows| - 1];
      var init := rows[..|rows| - 1];
      assert forall i :: 0 <= i < |rows| - 1 ==> rows[i] == init[i];
      RowsWithKey(init, col, k) + (if GroupKey(last, col) == Some(k) then [last] else [])
  }

  /**
   * The group keeps the table's order and the multiplicity of its rows:
   * the rows of `a + b` are those of `a` followed by those of `b`.
   */
  lemma {:induction false} RowsWithKeyAppend(a: seq<Row>, b: seq<Row>, col: string, k: Value)
    ensures RowsWithKey(a + b, col, k) == RowsWithKey(a, col, k) + RowsWithKey(b, col, k)
    decreases |b|
  {
    if |b| == 0 {
      assert a + b == a;
    } else {
      var init := b[..|b| - 1];
      assert a + b == (a + init) + [b[|b| - 1]];
      assert (a + b)[..|a + b| - 1] == a + init;
      RowsWithKeyAppend(a, init, col, k);
    }
  }

  /** The group keys of the table, each once, in order of first occurrence. */
  function GroupKeys(rows: seq<Row>, col: string): (ks: seq<Value>)
    ensures Distinct(ks)
    ensures forall k :: k in ks ==> exists i :: 0 <= i < |rows| && GroupKey(rows[i], col) == Some(k)
    ensures forall i :: 0 <= i < |rows| && GroupKey(rows[i], col).Some? ==> GroupKey(rows[i], col).value in ks
  {
    if |rows| == 0 then []
    else
      var last := rows[|rows| - 1];
      var init := rows[..|rows| - 1];
      var ks := GroupKeys(init, col);
      assert forall i :: 0 <= i < |rows| - 1 ==> rows[i] == init[i];
      match GroupKey(last, col)
      case None => ks
      case Some(k) => if k in ks then ks else ks + [k]
  }

  /** The columns `group_matches` writes into `matches_json`. */
  const MatchColumns: seq<string> := ["USI", "Cosine", "Matching Peaks"]

  /** One entry of `matches_json`: the USI, cosine and matching-peak count of a joined row. */
  function MatchRecord(r: Row): Value {
    Obj(map["USI" := Cell(r, "USI"), "Cosine" := Cell(r, "Cosine"), "Matching Peaks" := Cell(r, "Matching Peaks")])
  }

  /**
   * `to_json(orient="records")` on the three match columns: one object
   * per row, in row order, holding exactly those columns with the row's
   * cells (null where the row has none).
   */
  function MatchRecords(rows: seq<Row>): (r: seq<Value>)
    ensures |r| == |rows|
    ensures forall i :: 0 <= i < |rows| ==> r[i].Obj? && r[i].members.Keys == {"USI", "Cosine", "Matching Peaks"}
    ensures forall i, c :: 0 <= i < |rows| && c in MatchColumns ==> r[i].members[c] == Cell(rows[i], c)
  {
    seq(|rows|, i requires 0 <= i < |rows| => MatchRecord(rows[i]))
  }

  /** The output row of one group. */
  function GroupRow(rows: seq<Row>, col: string, k: Value): Row {
    var members := RowsWithKey(rows, col, k);
    map[col := k, "matched_size" := Int(|members|), "matches_json" := List(MatchRecords(members))]
  }

  /** The two columns `group_matches` adds; a key column of either name cannot be put back by `reset_index`. */
  const AddedColumns: set<string> := {"matched_size", "matches_json"}

  /** The first of `wanted` that `columns` lacks. */
  function FirstAbsent(columns: seq<string>, wanted: seq<string>): (r: Option<string>)
    ensures r.None? <==> forall c :: c in wanted ==> c in columns
    ensures r.Some? ==> r.value in wanted && r.value !in columns
  {
    if |wanted| == 0 then None
    else if wanted[0] !in columns then Some(wanted[0])
    else
      assert forall c :: c in wanted ==> c == wanted[0] || c in wanted[1..];
      FirstAbsent(columns, wanted[1..])
  }

  /**
   * `group_matches` on a frame with the given columns: `KeyError` when the
   * key column or one of the match columns is missing, `ValueError` when
   * `reset_index` cannot put the key back, and otherwise one row per
   * distinct non-null key, holding the key, the group's size and the match
   * records of its rows.
   */
  function GroupMatches(columns: seq<string>, rows: seq<Row>, col: string): (r: Result<seq<Row>>)
    ensures r.Ok? <==> col in columns && (forall c :: c in MatchColumns ==> c in columns) && col !in AddedColumns
    ensures col !in columns ==> r == Err(KeyError(col))
    ensures col in columns && (exists c :: c in MatchColumns && c !in columns) ==>
              r.Err? && r.error.KeyError? && r.error.key in MatchColumns && r.error.key !in columns
    ensures r.Ok? ==> |r.value| == |GroupKeys(rows, col)|
    ensures r.Ok? ==> forall i :: 0 <= i < |r.value| ==>
              && r.value[i].Keys == {col} + AddedColumns
              && r.value[i][col] == GroupKeys(rows, col)[i]
              && r.value[i]["matched_size"] == Int(|RowsWithKey(rows, col, r.value[i][col])|)
              && r.value[i]["matches_json"] == List(MatchRecords(RowsWithKey(rows, col, r.value[i][col])))
    ensures r.Ok? ==> forall i, j :: 0 <= i < j < |r.value| ==> r.value[i][col] != r.value[j][col]
  {
    if col !in columns then Err(KeyError(col))
    else if FirstAbsent(columns, MatchColumns).Some? then Err(KeyError(FirstAbsent(columns, MatchColumns).value))
    else if col in AddedColumns then Err(ValueError("cannot insert " + col + ", already exists"))
    else
      var ks := GroupKeys(rows, col);
      Ok(seq(|ks|, i requires 0 <= i < |ks| => GroupRow(rows, col, ks[i])))
  }

  /** Every group has at least one row. */
  lemma GroupSizePositive(rows: seq<Row>, col: string, k: Value)
    requires k in GroupKeys(rows, col)
    ensures |RowsWithKey(rows, col, k)| >= 1
  {
    var i :| 0 <= i < |rows| && GroupKey(rows[i], col) == Some(k);
    assert rows[i] in RowsWithKey(rows, col, k);
  }

  /** The number of rows with a non-null key. */
  function KeyedCount(rows: seq<Row>, col: string): nat {
    if |rows| == 0 then 0
    else KeyedCount(rows[..|rows| - 1], col) + (if GroupKey(rows[|rows| - 1], col).Some? then 1 else 0)
  }

  /** The sum of the group sizes of a list of keys. */
  function SizeSum(rows: seq<Row>, col: string, ks: seq<Value>): nat {
    if |ks| == 0 then 0 else |RowsWithKey(rows, col, ks[0])| + SizeSum(rows, col, ks[1..])
  }

  /** The sum of `Hit(x, col, _)` over a list of keys. */
  function HitSum(x: Row, col: string, ks: seq<Value>): nat {
    if |ks| == 0 then 0 else Hit(x, col, ks[0]) + HitSum(x, col, ks[1..])
  }

  lemma {:induction false} HitSumDistinct(x: Row, col: string, ks: seq<Value>)
    requires Distinct(ks)
    ensures HitSum(x, col, ks) == if GroupKey(x, col).Some? && GroupKey(x, col).value in ks then 1 else 0
  {
    if |ks| > 0 {
      HitSumDistinct(x, col, ks[1..]);
      if GroupKey(x, col) == Some(ks[0]) {
        assert ks[0] !in ks[1..];
      } else if GroupKey(x, col).Some? && GroupKey(x, col).value in ks {
        assert GroupKey(x, col).value in ks[1..];
      }
    }
  }

  lemma {:induction false} SizeSumSnoc(rows: seq<Row>, x: Row, col: string, ks: seq<Value>)
    ensures SizeSum(rows + [x], col, ks) == SizeSum(rows, col, ks) + HitSum(x, col, ks)
  {
    if |ks| > 0 {
      SizeSumSnoc(rows, x, col, ks[1..]);
      assert (rows + [x])[..|rows + [x]| - 1] == rows;
    }
  }

  lemma {:induction false} SizeSumAppend(rows: seq<Row>, col: string, ks: seq<Value>, k: Value)
    ensures SizeSum(rows, col, ks + [k]) == SizeSum(rows, col, ks) + |RowsWithKey(rows, col, k)|
  {
    if |ks| == 0 {
      assert (ks + [k])[1..] == [];
    } else {
      assert (ks + [k])[1..] == ks[1..] + [k];
      SizeSumAppend(rows, col, ks[1..], k);
    }
  }

  lemma {:induction false} NoRowsWithoutKey(rows: seq<Row>, col: string, k: Value)
    requires forall i :: 0 <= i < |rows| ==> GroupKey(rows[i], col) != Some(k)
    ensures RowsWithKey(rows, col, k) == []
  {
    if |rows| > 0 {
      var init := rows[..|rows| - 1];
      assert forall i :: 0 <= i < |init| ==> init[i] == rows[i];
      NoRowsWithoutKey(init, col, k);
    }
  }

  /** The group sizes add up to the number of rows with a non-null key. */
  lemma {:induction false} GroupSizesSum(rows: seq<Row>, col: string)
    ensures SizeSum(rows, col, GroupKeys(rows, col)) == KeyedCount(rows, col)
  {
    if |rows| > 0 {
      var init := rows[..|rows| - 1];
      var x := rows[|rows| - 1];
      assert rows == init + [x];
      var ks := GroupKeys(init, col);
      GroupSizesSum(init, col);
      SizeSumSnoc(init, x, col, ks);
      HitSumDistinct(x, col, ks);
      match GroupKey(x, col)
      case None =>
      case Some(k) =>
        if k !in ks {
          SizeSumAppend(rows, col, ks, k);
          NoRowsWithoutKey(init, col, k);
        }
    }
  }

  /** The same sum read off the output rows of `group_matches`. */
  function MatchedSizeSum(groups: seq<Row>): int {
    if |groups| == 0 then 0
    else (if "matched_size" in groups[0] && groups[0]["matched_size"].Int? then groups[0]["matched_size"].i else 0)
         + MatchedSizeSum(groups[1..])
  }

  lemma {:induction false} MatchedSizeSumIsSizeSum(rows: seq<Row>, col: string, ks: seq<Value>, groups: seq<Row>)
    requires |groups| == |ks|
    requires forall i :: 0 <= i < |ks| ==> groups[i] == GroupRow(rows, col, ks[i])
    ensures MatchedSizeSum(groups) == SizeSum(rows, col, ks)
  {
    if |ks| > 0 {
      MatchedSizeSumIsSizeSum(rows, col, ks[1..], groups[1..]);
    }
  }

  /**
   * Every row of `group_matches` has `matched_size >= 1`, and the sizes sum
   * to the number of joined rows with a non-null key.
   */
  lemma GroupMatchesSizes(columns: seq<string>, rows: seq<Row>, col: string)
    requires GroupMatches(columns, rows, col).Ok?
    ensures var g := GroupMatches(columns, rows, col).value;
      && (forall i :: 0 <= i < |g| ==> g[i]["matched_size"].Int? && g[i]["matched_size"].i >= 1)
      && MatchedSizeSum(g) == KeyedCount(rows, col)
  {
    var ks := GroupKeys(rows, col);
    var g: seq<Row> := GroupMatches(columns, rows, col).value;
    forall i | 0 <= i < |g|
      ensures g[i]["matched_size"].Int? && g[i]["matched_size"].i >= 1
    {
      GroupSizePositive(rows, col, ks[i]);
    }
    MatchedSizeSumIsSizeSum(rows, col, ks, g);
    GroupSizesSum(rows, col);
  }

  // ---------------------------------------------------------------------
  // create_enriched_masst_tree
  // ---------------------------------------------------------------------

  /**
   * What `create_enriched_masst_tree` returns: `False` when there are no
   * matches, `None` when no match has metadata or when a step raised, and
   * otherwise the bundle built from the enriched tree.
   */
  datatype EnrichOutcome =
    | NoMatches              // False
    | NoMetadataMatch        // None, lines 47-48
    | Failed(error: Error)   // None, lines 62-66
    | Enriched(tree: Node)

  /** `pd.merge(..., on="file_usi")` needs the column in both frames, and there are matches to join. */
  predicate Joinable(matches: Option<seq<Row>>, matchColumns: seq<string>, metadataColumns: seq<string>) {
    matches.Some? && |matches.value| > 0 && FileUsi in matchColumns && FileUsi in metadataColumns
  }

  /** The columns of the frame `group_matches` returns: the key put back by `reset_index`, then the two it adds. */
  function GroupColumns(metadataKey: string): seq<string> {
    [metadataKey, "matched_size", "matches_json"]
  }

  /**
   * The enriched tree of one ontology: join the matches with the metadata,
   * group them by the metadata key and feed the groups to the enrichment
   * pipeline, aligning `nodeKey` on the nodes with `metadataKey` in the
   * groups.  The joined frame has the columns of both inputs.
   */
  function CreateEnriched(matches: Option<seq<Row>>, matchColumns: seq<string>, metadata: seq<Row>,
                          metadataColumns: seq<string>, metadataKey: string, tree: Node, nodeKey: string): (r: EnrichOutcome)
    ensures (matches.None? || |matches.value| == 0) <==> r == NoMatches
    ensures matches.Some? && |matches.value| > 0 && !Joinable(matches, matchColumns, metadataColumns) ==>
              r == Failed(KeyError(FileUsi))
    ensures r == NoMetadataMatch <==>
              Joinable(matches, matchColumns, metadataColumns) && PairCount(matches.value, metadata) == 0
    ensures Joinable(matches, matchColumns, metadataColumns) && PairCount(matches.value, metadata) > 0 ==>
              var grouped := GroupMatches(matchColumns + metadataColumns, Join(matches.value, metadata), metadataKey);
              && (grouped.Err? ==> r == Failed(grouped.error))
              && (grouped.Ok? ==>
                    var enriched := AddDataToOntology(tree, GroupColumns(metadataKey), grouped.value, nodeKey, metadataKey);
                    && (enriched.Ok? <==> r.Enriched?)
                    && (enriched.Ok? ==> r.tree == enriched.value)
                    && (enriched.Err? ==> r == Failed(enriched.error)))
  {
    if matches.None? || |matches.value| == 0 then NoMatches
    else if FileUsi !in matchColumns || FileUsi !in metadataColumns then Failed(KeyError(FileUsi))
    else
      var joined := Join(matches.value, metadata);
      if |joined| == 0 then NoMetadataMatch
      else
        match GroupMatches(matchColumns + metadataColumns, joined, metadataKey)
        case Err(e) => Failed(e)
        case Ok(groups) =>
          match AddDataToOntology(tree, GroupColumns(metadataKey), groups, nodeKey, metadataKey)
          case Err(e) => Failed(e)
          case Ok(t) => Enriched(t)
  }

  // ---------------------------------------------------------------------
  // create_combined_masst_tree
  // ---------------------------------------------------------------------

  /** One ontology's entry in the list of special searches: its root label and its tree, if it could be loaded. */
  datatype Loaded = Loaded(rootLabel: string, tree: Option<Node>)

  /** Every node of the tree tagged with `masst_type`. */
  function StampType(n: Node, rootLabel: string): (r: Node)
    ensures Count(r) == Count(n)
  {
    var r := MapFields(n, fs => fs["masst_type" := Str(rootLabel)]);
    MapFieldsPointwise(n, fs => fs["masst_type" := Str(rootLabel)]);
    r
  }

  /** Every node of a stamped tree carries the label and keeps its other members. */
  lemma StampTypeAll(n: Node, rootLabel: string)
    ensures var a := Flatten(n); var b := Flatten(StampType(n, rootLabel));
      && |b| == |a|
      && (forall i :: 0 <= i < |b| ==> "masst_type" in b[i].fields && b[i].fields["masst_type"] == Str(rootLabel))
      && (forall i, k :: 0 <= i < |a| && k in a[i].fields && k != "masst_type" ==>
            k in b[i].fields && b[i].fields[k] == a[i].fields[k])
  {
    MapFieldsPointwise(n, fs => fs["masst_type" := Str(rootLabel)]);
  }

  /** A loaded tree as it joins the combined tree: stamped, and its root renamed to the label. */
  function Prepare(rootLabel: string, t: Node): (r: Node)
    ensures r.fields.Keys == t.fields.Keys + {"name", "masst_type"}
    ensures r.fields["name"] == Str(rootLabel) && r.fields["masst_type"] == Str(rootLabel)
    ensures forall k :: k in t.fields && k !in {"name", "masst_type"} ==> r.fields[k] == t.fields[k]
    ensures r.children == StampType(t, rootLabel).children
    ensures Count(r) == Count(t)
  {
    var s := StampType(t, rootLabel);
    Node(s.fields["name" := Str(rootLabel)], s.children)
  }

  /**
   * Every node of a prepared tree, not only its root, carries the label;
   * the root is also renamed, and no other member of any node changes.
   */
  lemma PreparedStamped(rootLabel: string, t: Node)
    ensures var a := Flatten(t); var b := Flatten(Prepare(rootLabel, t));
      && |b| == |a|
      && b[0].fields == a[0].fields["masst_type" := Str(rootLabel)]["name" := Str(rootLabel)]
      && (forall j :: 0 < j < |b| ==> b[j].fields == a[j].fields["masst_type" := Str(rootLabel)])
      && (forall j :: 0 <= j < |b| ==> "masst_type" in b[j].fields && b[j].fields["masst_type"] == Str(rootLabel))
  {
    var f := (fs: Fields) => fs["masst_type" := Str(rootLabel)];
    MapFieldsPointwise(t, f);
    SameDescendants(Prepare(rootLabel, t), StampType(t, rootLabel));
  }

  /** The pie pass accepts a prepared tree exactly when it accepts the tree as loaded. */
  lemma PreparedPieReady(rootLabel: string, t: Node)
    ensures AllOk(Flatten(Prepare(rootLabel, t)), PieFields) <==> AllOk(Flatten(t), PieFields)
  {
    PreparedStamped(rootLabel, t);
    var a, b := Flatten(t), Flatten(Prepare(rootLabel, t));
    forall j | 0 <= j < |a| ensures PieFields(b[j].fields).Ok? <==> PieFields(a[j].fields).Ok? {
    }
  }

  /** The entries whose tree loaded, in the order of the ontology list (a failed load is skipped). */
  function Present(loaded: seq<Loaded>): (r: seq<Loaded>)
    ensures |r| <= |loaded|
    ensures forall i :: 0 <= i < |r| ==> r[i].tree.Some?
    ensures forall x :: x in r <==> x in loaded && x.tree.Some?
    ensures |loaded| == 1 ==> r == if loaded[0].tree.Some? then loaded else []
  {
    if |loaded| == 0 then []
    else
      var rest := Present(loaded[1..]);
      assert forall x :: x in loaded <==> x == loaded[0] || x in loaded[1..];
      if loaded[0].tree.Some? then [loaded[0]] + rest else rest
  }

  /** Loading keeps the order of the ontology list: the entries of `a + b` that loaded are those of `a`, then those of `b`. */
  lemma {:induction false} PresentAppend(a: seq<Loaded>, b: seq<Loaded>)
    ensures Present(a + b) == Present(a) + Present(b)
  {
    if |a| == 0 {
      assert a + b == b;
    } else {
      assert (a + b)[0] == a[0];
      assert (a + b)[1..] == a[1..] + b;
      PresentAppend(a[1..], b);
    }
  }

  /** The trees that loaded, as loaded. */
  function LoadedTrees(loaded: seq<Loaded>): (r: seq<Node>)
    ensures |r| == |Present(loaded)|
  {
    var p := Present(loaded);
    seq(|p|, i requires 0 <= i < |p| => p[i].tree.value)
  }

  /** The trees that loaded, each stamped and renamed to its ontology's root label. */
  function Roots(loaded: seq<Loaded>): (r: seq<Node>)
    ensures |r| == |Present(loaded)|
  {
    var p := Present(loaded);
    seq(|p|, i requires 0 <= i < |p| => Prepare(p[i].rootLabel, p[i].tree.value))
  }

  /**
   * What `create_combined_masst_tree` returns: `False` when there are no
   * matches or fewer than two trees loaded, the exception that
   * `calc_root_stats` or the pie pass raised (they sit outside the `try`),
   * or the combined tree.
   */
  datatype CombineOutcome =
    | NotCombined            // False
    | Raised(error: Error)
    | Combined(root: Node)

  /**
   * `create_combined_masst_tree`: the combined root is named `root`, its
   * children are the loaded trees in list order, each labelled with its
   * ontology, and its sizes are the sums over the loaded roots.
   */
  function CreateCombined(matches: Option<seq<Row>>, loaded: seq<Loaded>): (r: CombineOutcome)
    ensures (matches.None? || |matches.value| == 0 || |Present(loaded)| <= 1) <==> r == NotCombined
    ensures r.Raised? <==> matches.Some? && |matches.value| > 0 && |Present(loaded)| > 1 && CombineFails(loaded)
    ensures r.Combined? ==> CombinedShape(loaded, r.root)
  {
    if matches.None? || |matches.value| == 0 then NotCombined
    else
      var roots := Roots(loaded);
      if |roots| <= 1 then NotCombined
      else
        var combined := Node(map["name" := Str("root")], roots);
        CombineSucceeds(loaded);
        match CalcRootStats(combined)
        case Err(e) => Raised(e)
        case Ok(rooted) =>
          match AddPie(rooted)
          case Err(e) => Raised(e)
          case Ok(t) =>
            CombinedFacts(loaded, combined, rooted, t);
            Combined(t)
  }

  /** `calc_root_stats` can add up a root's sizes: both are numbers. */
  predicate Sized(fs: Fields) {
    && "group_size" in fs && Numeric(fs["group_size"]).Some?
    && "matched_size" in fs && Numeric(fs["matched_size"]).Some?
  }

  /**
   * Some loaded tree makes the combination raise: its root lacks a numeric
   * size, or one of its nodes lacks what the pie pass reads.
   */
  ghost predicate CombineFails(loaded: seq<Loaded>) {
    !RootsAllSized(Present(loaded)) || !TreesPieReady(Present(loaded))
  }

  /** Every present tree's root is sized. */
  predicate RootsAllSized(p: seq<Loaded>)
    requires forall i :: 0 <= i < |p| ==> p[i].tree.Some?
  {
    forall i :: 0 <= i < |p| ==> Sized(p[i].tree.value.fields)
  }

  /** The pie pass accepts every node of every present tree. */
  ghost predicate TreesPieReady(p: seq<Loaded>)
    requires forall i :: 0 <= i < |p| ==> p[i].tree.Some?
  {
    forall i :: 0 <= i < |p| ==> AllOk(Flatten(p[i].tree.value), PieFields)
  }

  /** Preparing a tree leaves its root's sizes alone. */
  lemma PreparedSized(rootLabel: string, t: Node)
    ensures Sized(Prepare(rootLabel, t).fields) <==> Sized(t.fields)
  {
    PreparedStamped(rootLabel, t);
    assert Flatten(t)[0] == t && Flatten(Prepare(rootLabel, t))[0] == Prepare(rootLabel, t);
  }

  /** The combined root's statistics succeed exactly when every loaded root is sized. */
  lemma RootsSized(loaded: seq<Loaded>)
    ensures var p := Present(loaded);
      CalcRootStats(Node(map["name" := Str("root")], Roots(loaded))).Ok? <==> RootsAllSized(p)
  {
    var p := Present(loaded);
    var roots := Roots(loaded);
    forall i | 0 <= i < |p| ensures Sized(roots[i].fields) <==> Sized(p[i].tree.value.fields) {
      assert roots[i] == Prepare(p[i].rootLabel, p[i].tree.value);
      PreparedSized(p[i].rootLabel, p[i].tree.value);
    }
  }

  /** The pie pass accepts every node under the combined root exactly when it accepts every loaded tree. */
  lemma RootsPieReady(loaded: seq<Loaded>)
    ensures var p := Present(loaded);
      AllOk(FlattenAll(Roots(loaded)), PieFields) <==> TreesPieReady(p)
  {
    var p := Present(loaded);
    var roots := Roots(loaded);
    AllOkFlattenAll(roots, PieFields);
    forall i | 0 <= i < |p|
      ensures AllOk(Flatten(roots[i]), PieFields) <==> AllOk(Flatten(p[i].tree.value), PieFields)
    {
      assert roots[i] == Prepare(p[i].rootLabel, p[i].tree.value);
      PreparedPieReady(p[i].rootLabel, p[i].tree.value);
    }
    if TreesPieReady(p) {
      assert forall i :: 0 <= i < |roots| ==> AllOk(Flatten(roots[i]), PieFields);
    }
    if AllOk(FlattenAll(roots), PieFields) {
      assert forall i :: 0 <= i < |p| ==> AllOk(Flatten(p[i].tree.value), PieFields);
    }
  }

  /** The root statistics and the pie pass over the combined root both succeed exactly when no loaded tree stops them. */
  lemma CombineSucceeds(loaded: seq<Loaded>)
    ensures var combined := Node(map["name" := Str("root")], Roots(loaded));
      (CalcRootStats(combined).Ok? && AddPie(CalcRootStats(combined).value).Ok?) <==> !CombineFails(loaded)
  {
    var combined := Node(map["name" := Str("root")], Roots(loaded));
    RootsSized(loaded);
    RootsPieReady(loaded);
    if CalcRootStats(combined).Ok? {
      PieAfterRootStats(combined);
    }
  }

  /** Once the root statistics are in, the pie pass stops only at a node below the root. */
  lemma PieAfterRootStats(root: Node)
    requires CalcRootStats(root).Ok?
    ensures AddPie(CalcRootStats(root).value).Ok? <==> AllOk(FlattenAll(root.children), PieFields)
  {
    var rooted := CalcRootStats(root).value;
    TryMapPrePointwise(rooted, PieFields);
    AllOkAppend([rooted], FlattenAll(root.children), PieFields);
    assert PieFields(rooted.fields).Ok?;
    assert Flatten(rooted) == [rooted] + FlattenAll(root.children);
  }

  /** Every node under a child of the combined root carries the label of the ontology that child came from. */
  lemma CombinedTreesStamped(matches: Option<seq<Row>>, loaded: seq<Loaded>)
    requires CreateCombined(matches, loaded).Combined?
    ensures var t := CreateCombined(matches, loaded).root; var p := Present(loaded);
      && |t.children| == |p|
      && forall i, j :: 0 <= i < |p| && 0 <= j < |Flatten(t.children[i])| ==>
           && "masst_type" in Flatten(t.children[i])[j].fields
           && Flatten(t.children[i])[j].fields["masst_type"] == Str(p[i].rootLabel)
  {
    var p := Present(loaded);
    var roots := Roots(loaded);
    var rooted := CalcRootStats(Node(map["name" := Str("root")], roots)).value;
    var t := AddPie(rooted).value;
    assert t.children == TryMapAllPre(roots, PieFields).value;
    TryMapAllPreEach(roots, PieFields);
    forall i, j | 0 <= i < |p| && 0 <= j < |Flatten(t.children[i])|
      ensures "masst_type" in Flatten(t.children[i])[j].fields
      ensures Flatten(t.children[i])[j].fields["masst_type"] == Str(p[i].rootLabel)
    {
      TryMapPrePointwise(roots[i], PieFields);
      PreparedStamped(p[i].rootLabel, p[i].tree.value);
      assert PieFields(Flatten(roots[i])[j].fields) == Ok(Flatten(t.children[i])[j].fields);
    }
  }

  /** What a combined tree looks like. */
  ghost predicate CombinedShape(loaded: seq<Loaded>, t: Node) {
    var p := Present(loaded);
    && HasPie(t.fields) && "name" in t.fields
    && t.fields["name"] == Str("root")
    && Numeric(t.fields["group_size"]) == Some(SumField(LoadedTrees(loaded), "group_size"))
    && Numeric(t.fields["matched_size"]) == Some(SumField(LoadedTrees(loaded), "matched_size"))
    && |t.children| == |p|
    && forall i :: 0 <= i < |p| ==>
         && "name" in t.children[i].fields && "masst_type" in t.children[i].fields
         && t.children[i].fields["name"] == Str(p[i].rootLabel)
         && t.children[i].fields["masst_type"] == Str(p[i].rootLabel)
         && |t.children[i].children| == |p[i].tree.value.children|
         && TryMapPre(Prepare(p[i].rootLabel, p[i].tree.value), PieFields) == Ok(t.children[i])
  }

  /** Two node lists whose nodes agree on `k` have the same sum of `k`. */
  lemma {:induction false} SumFieldAgree(a: seq<Node>, b: seq<Node>, k: string)
    requires |a| == |b|
    requires forall i :: 0 <= i < |a| ==> NumField(a[i].fields, k) == NumField(b[i].fields, k)
    ensures SumField(a, k) == SumField(b, k)
  {
    if |a| > 0 {
      SumFieldAgree(a[1..], b[1..], k);
    }
  }

  lemma CombinedFacts(loaded: seq<Loaded>, combined: Node, rooted: Node, t: Node)
    requires combined == Node(map["name" := Str("root")], Roots(loaded))
    requires CalcRootStats(combined) == Ok(rooted) && AddPie(rooted) == Ok(t)
    ensures CombinedShape(loaded, t)
  {
    assert "name" in rooted.fields && rooted.fields["name"] == Str("root");
    CombinedRootFacts(loaded, rooted, t);
    CombinedChildFacts(loaded, rooted, t);
  }

  /** The combined root: named `root`, with pie data, its sizes the sums over the loaded trees. */
  lemma CombinedRootFacts(loaded: seq<Loaded>, rooted: Node, t: Node)
    requires "name" in rooted.fields && rooted.fields["name"] == Str("root")
    requires "group_size" in rooted.fields && "matched_size" in rooted.fields
    requires Numeric(rooted.fields["group_size"]) == Some(SumField(Roots(loaded), "group_size"))
    requires Numeric(rooted.fields["matched_size"]) == Some(SumField(Roots(loaded), "matched_size"))
    requires AddPie(rooted) == Ok(t)
    ensures HasPie(t.fields) && "name" in t.fields && t.fields["name"] == Str("root")
    ensures Numeric(t.fields["group_size"]) == Some(SumField(LoadedTrees(loaded), "group_size"))
    ensures Numeric(t.fields["matched_size"]) == Some(SumField(LoadedTrees(loaded), "matched_size"))
  {
    var roots := Roots(loaded);
    SumFieldAgree(roots, LoadedTrees(loaded), "group_size");
    SumFieldAgree(roots, LoadedTrees(loaded), "matched_size");
    PieRoot(rooted, t);
    AddPiePointwise(rooted);
    assert Flatten(t)[0] == t && Flatten(rooted)[0] == rooted;
  }

  /**
   * The combined root's children: one per loaded tree, in order, labelled
   * with its ontology, each the pie pass applied to that prepared tree.
   */
  lemma CombinedChildFacts(loaded: seq<Loaded>, rooted: Node, t: Node)
    requires rooted.children == Roots(loaded) && AddPie(rooted) == Ok(t)
    ensures var p := Present(loaded);
      && |t.children| == |p|
      && forall i :: 0 <= i < |p| ==>
           && "name" in t.children[i].fields && "masst_type" in t.children[i].fields
           && t.children[i].fields["name"] == Str(p[i].rootLabel)
           && t.children[i].fields["masst_type"] == Str(p[i].rootLabel)
           && |t.children[i].children| == |p[i].tree.value.children|
           && TryMapPre(Prepare(p[i].rootLabel, p[i].tree.value), PieFields) == Ok(t.children[i])
  {
    var p := Present(loaded);
    var roots := Roots(loaded);
    assert t.children == TryMapAllPre(roots, PieFields).value;
    ChildrenPie(roots, t.children);
    TryMapAllPreEach(roots, PieFields);
    forall i | 0 <= i < |p|
      ensures "name" in t.children[i].fields && "masst_type" in t.children[i].fields
      ensures t.children[i].fields["name"] == Str(p[i].rootLabel)
      ensures t.children[i].fields["masst_type"] == Str(p[i].rootLabel)
      ensures |t.children[i].children| == |p[i].tree.value.children|
      ensures TryMapPre(Prepare(p[i].rootLabel, p[i].tree.value), PieFields) == Ok(t.children[i])
    {
      assert TryMapPre(roots[i], PieFields) == Ok(t.children[i]);
      PreparedChild(p[i].rootLabel, p[i].tree.value, roots[i], t.children[i]);
    }
  }

  /** One prepared tree after the pie pass keeps its labels and its number of children. */
  lemma PreparedChild(rootLabel: string, tree: Node, root: Node, child: Node)
    requires root == Prepare(rootLabel, tree)
    requires PieFields(root.fields) == Ok(child.fields) && |child.children| == |root.children|
    ensures "name" in child.fields && "masst_type" in child.fields
    ensures child.fields["name"] == Str(rootLabel) && child.fields["masst_type"] == Str(rootLabel)
    ensures |child.children| == |tree.children|
  {
  }

  lemma {:induction false} ChildrenPie(cs: seq<Node>, ps: seq<Node>)
    requires TryMapAllPre(cs, PieFields) == Ok(ps)
    ensures |ps| == |cs|
    ensures forall i :: 0 <= i < |cs| ==>
              PieFields(cs[i].fields) == Ok(ps[i].fields) && |ps[i].children| == |cs[i].children|
  {
    if |cs| > 0 {
      var c := TryMapPre(cs[0], PieFields).value;
      var rest := TryMapAllPre(cs[1..], PieFields).value;
      assert ps == [c] + rest;
      ChildrenPie(cs[1..], rest);
      TryMapAllPrePointwise(cs[0].children, PieFields);
    }
  }
}

=== FILE: microbe_results.dfy ===
/**
 * code/microbe_masst_results.py: counting, per `Taxa_NCBI` value, the
 * metadata rows that a MASST result matches, either by cleaned file path
 * (`create_counts_file`) or by the MassIVE id and file name of matching
 * USIs (`create_counts_file_from_usi`), and the two-column export.
 */
module MicrobeResults {
  import opened Results
  import opened Json
  import opened Strs
  import UsiUtils

  // ---------------------------------------------------------------------
  // Names and identifiers, lines 12-34
  // ---------------------------------------------------------------------

  /**
   * `clean_filename`: `/peak/` becomes `/ccms_peak/`, `.mzML` and `.mzXML`
   * are removed, and `f.MSV` becomes `MSV`, in that order.
   */
  function CleanFilename(name: string): (r: string)
    ensures (!Contains(name, "/peak/") && !Contains(name, ".mzML") && !Contains(name, ".mzXML") &&
             !Contains(name, "f.MSV")) ==> r == name
  {
    var a := ReplaceAll(name, "/peak/", "/ccms_peak/");
    var b := ReplaceAll(a, ".mzML", "");
    var c := ReplaceAll(b, ".mzXML", "");
    ReplaceAll(c, "f.MSV", "MSV")
  }

  /** Each pass is the split-on-pattern, join-with-replacement of the previous result. */
  lemma CleanFilenamePasses(name: string)
    ensures var a := Join(Split(name, "/peak/"), "/ccms_peak/");
            var b := Join(Split(a, ".mzML"), "");
            var c := Join(Split(b, ".mzXML"), "");
            CleanFilename(name) == Join(Split(c, "f.MSV"), "MSV")
  {
    var a := ReplaceAll(name, "/peak/", "/ccms_peak/");
    var b := ReplaceAll(a, ".mzML", "");
    var c := ReplaceAll(b, ".mzXML", "");
    ReplaceAllIsSplitJoin(name, "/peak/", "/ccms_peak/");
    ReplaceAllIsSplitJoin(a, ".mzML", "");
    ReplaceAllIsSplitJoin(b, ".mzXML", "");
    ReplaceAllIsSplitJoin(c, "f.MSV", "MSV");
  }

  /** `Path(p).parts` without the root part, which never starts with `MSV`. */
  function PathParts(p: string): seq<string> {
    UsiUtils.Components(Split(p, "/"))
  }

  /** `r` is the first part that starts with `MSV`, or nothing when no part does. */
  predicate IsFirstMsv(parts: seq<string>, r: Option<string>) {
    && (r.None? <==> forall k :: 0 <= k < |parts| ==> !StartsWith(parts[k], "MSV"))
    && (r.Some? ==> exists k :: 0 <= k < |parts| && parts[k] == r.value && StartsWith(r.value, "MSV") &&
                      forall j :: 0 <= j < k ==> !StartsWith(parts[j], "MSV"))
  }

  function FirstMsv(parts: seq<string>): (r: Option<string>)
    ensures IsFirstMsv(parts, r)
    ensures r.Some? ==> r.value in parts
  {
    if |parts| == 0 then None
    else if StartsWith(parts[0], "MSV") then Some(parts[0])
    else
      var rest := FirstMsv(parts[1..]);
      FirstMsvSkip(parts, rest);
      rest
  }

  /** A first part without `MSV` passes the search on to the rest. */
  lemma FirstMsvSkip(parts: seq<string>, r: Option<string>)
    requires |parts| > 0 && !StartsWith(parts[0], "MSV") && IsFirstMsv(parts[1..], r)
    ensures IsFirstMsv(parts, r)
  {
    assert forall k :: 1 <= k < |parts| ==> parts[k] == parts[1..][k - 1];
    if r.Some? {
      var k :| 0 <= k < |parts[1..]| && parts[1..][k] == r.value && StartsWith(r.value, "MSV") &&
               forall j :: 0 <= j < k ==> !StartsWith(parts[1..][j], "MSV");
      assert parts[k + 1] == r.value;
    }
  }

  /**
   * `massive_id_from_path`: after `f.MSV` becomes `MSV`, the first path
   * part starting with `MSV`, or nothing (the function falls off its loop
   * and returns None).
   */
  function MassiveIdFromPath(p: string): (r: Option<string>)
    ensures IsFirstMsv(PathParts(ReplaceAll(p, "f.MSV", "MSV")), r)
    ensures r.Some? ==> StartsWith(r.value, "MSV") && '/' !in r.value
  {
    PathPartsNoSlash(ReplaceAll(p, "f.MSV", "MSV"));
    FirstMsv(PathParts(ReplaceAll(p, "f.MSV", "MSV")))
  }

  /** No path part holds a `/`. */
  lemma PathPartsNoSlash(p: string)
    ensures forall x :: x in PathParts(p) ==> '/' !in x
  {
    var pieces := Split(p, "/");
    SplitPartsFree(p, "/");
    forall x | x in PathParts(p) ensures '/' !in x {
      var piece := x;
      assert piece in pieces;
      forall j | 0 <= j < |piece| ensures piece[j] != '/' {
        OccursChar(piece, '/', j);
      }
    }
  }

  /**
   * `usi_massiveid_filename`: the second and third `:`-separated parts;
   * fewer than three parts raise `IndexError`.
   */
  function UsiMassiveIdFilename(usi: string): (r: Result<(string, string)>)
    ensures r.Ok? <==> |Split(usi, ":")| >= 3
    ensures r.Err? ==> r.error == IndexError
    ensures r.Ok? ==> ':' !in r.value.0 && ':' !in r.value.1
  {
    var parts := Split(usi, ":");
    SplitPartsFree(usi, ":");
    if |parts| < 3 then Err(IndexError)
    else
      forall k, j | 0 <= k < |parts| && 0 <= j < |parts[k]| ensures parts[k][j] != ':' {
        OccursChar(parts[k], ':', j);
      }
      Ok((parts[1], parts[2]))
  }

  /** A file USI gives back the dataset and file it was built from. */
  lemma UsiMassiveIdFilenameRoundTrip(d: string, f: string)
    requires ':' !in d && ':' !in f
    ensures UsiMassiveIdFilename(UsiUtils.Prefix + d + ":" + f) == Ok((d, f))
  {
    UsiUtils.UsiSplit(d, f);
  }

  /** In particular for a USI made by `create_simple_file_usi`. */
  lemma CreatedUsiIds(filename: string, dataset: string)
    requires UsiUtils.CreateSimpleFileUsi(filename, dataset).Ok?
    requires ':' !in dataset && ':' !in UsiUtils.Stem(filename)
    ensures UsiMassiveIdFilename(UsiUtils.CreateSimpleFileUsi(filename, dataset).value) ==
            Ok((dataset, UsiUtils.Stem(filename)))
  {
    UsiMassiveIdFilenameRoundTrip(dataset, UsiUtils.Stem(filename));
  }

  // ---------------------------------------------------------------------
  // The counting dictionary, `d[k] = d.get(k, 0) + 1`
  // ---------------------------------------------------------------------

  /** A Python dict of counts: its keys in insertion order and their values. */
  datatype Counter = Counter(order: seq<Value>, counts: map<Value, nat>)

  /** The keys listed once each, every count at least 1. */
  predicate ValidCounter(c: Counter) {
    && (forall k :: k in c.order ==> k in c.counts)
    && (forall k :: k in c.counts ==> k in c.order)
    && Distinct(c.order)
    && (forall k :: k in c.counts ==> c.counts[k] >= 1)
  }

  /** `d.get(k, 0)`. */
  function CountOf(c: Counter, k: Value): nat {
    if k in c.counts then c.counts[k] else 0
  }

  const NoCounts := Counter([], map[])

  function Increment(c: Counter, k: Value): (r: Counter)
    requires ValidCounter(c)
    ensures ValidCounter(r)
    ensures CountOf(r, k) == CountOf(c, k) + 1
    ensures forall j :: j != k ==> CountOf(r, j) == CountOf(c, j)
    ensures forall j :: j in r.counts <==> j in c.counts || j == k
    ensures |c.order| <= |r.order| && r.order[..|c.order|] == c.order
  {
    if k in c.counts then
      BumpKey(c, k);
      Counter(c.order, c.counts[k := c.counts[k] + 1])
    else
      AppendKey(c, k);
      Counter(c.order + [k], c.counts[k := 1])
  }

  /** A key already present keeps its place and counts one more. */
  lemma BumpKey(c: Counter, k: Value)
    requires ValidCounter(c) && k in c.counts
    ensures ValidCounter(Counter(c.order, c.counts[k := c.counts[k] + 1]))
  {
  }

  /** A new key goes at the end of the order with count 1. */
  lemma AppendKey(c: Counter, k: Value)
    requires ValidCounter(c) && k !in c.counts
    ensures ValidCounter(Counter(c.order + [k], c.counts[k := 1]))
    ensures (c.order + [k])[..|c.order|] == c.order
  {
    assert k !in c.order;
    AppendDistinctValue(c.order, k);
  }

  lemma AppendDistinctValue(ks: seq<Value>, k: Value)
    requires Distinct(ks) && k !in ks
    ensures Distinct(ks + [k])
  {
  }

  /** `d[k] = d.get(k, 0) + 1` when `hit` holds, nothing otherwise. */
  function IncrementIf(c: Counter, hit: bool, key: Value): (r: Counter)
    requires ValidCounter(c)
    ensures ValidCounter(r)
    ensures forall k :: CountOf(r, k) == CountOf(c, k) + (if hit && key == k then 1 else 0)
    ensures forall k :: k in r.counts ==> k in c.counts || k == key
  {
    if hit then Increment(c, key) else c
  }

  // ---------------------------------------------------------------------
  // create_counts_file, lines 41-52
  // ---------------------------------------------------------------------

  /** Metadata rows below position `n` whose path is `name` and whose key is `k`. */
  function PathHits(paths: seq<string>, ncbis: seq<Value>, name: string, k: Value, n: nat): nat
    requires n <= |paths| == |ncbis|
  {
    if n == 0 then 0
    else PathHits(paths, ncbis, name, k, n - 1) + (if paths[n - 1] == name && ncbis[n - 1] == k then 1 else 0)
  }

  /** Over the first `m` match rows, the metadata rows with key `k` each one names, counted again per match. */
  function FileCount(paths: seq<string>, ncbis: seq<Value>, names: seq<string>, k: Value, m: nat): nat
    requires |paths| == |ncbis| && m <= |names|
  {
    if m == 0 then 0
    else FileCount(paths, ncbis, names, k, m - 1) + PathHits(paths, ncbis, names[m - 1], k, |paths|)
  }

  /** A key that no metadata row holds is never counted. */
  lemma {:induction false} PathHitsOtherKey(paths: seq<string>, ncbis: seq<Value>, name: string, k: Value, n: nat)
    requires n <= |paths| == |ncbis|
    requires forall i :: 0 <= i < n ==> ncbis[i] != k
    ensures PathHits(paths, ncbis, name, k, n) == 0
  {
    if n > 0 {
      PathHitsOtherKey(paths, ncbis, name, k, n - 1);
    }
  }

  /** The two nested loops: every match row adds one per metadata row with its path. */
  method CountByFilename(paths: seq<string>, ncbis: seq<Value>, names: seq<string>) returns (c: Counter)
    requires |paths| == |ncbis|
    ensures ValidCounter(c)
    ensures forall k :: CountOf(c, k) == FileCount(paths, ncbis, names, k, |names|)
    ensures forall k :: k in c.counts ==> k in ncbis
  {
    c := NoCounts;
    var m := 0;
    while m < |names|
      invariant 0 <= m <= |names|
      invariant ValidCounter(c)
      invariant forall k :: CountOf(c, k) == FileCount(paths, ncbis, names, k, m)
      invariant forall k :: k in c.counts ==> k in ncbis
    {
      c := CountPathHits(c, paths, ncbis, names[m]);
      m := m + 1;
    }
  }

  /** The inner loop: one per metadata row whose path is `name`, under that row's key. */
  method CountPathHits(c0: Counter, paths: seq<string>, ncbis: seq<Value>, name: string) returns (c: Counter)
    requires |paths| == |ncbis| && ValidCounter(c0)
    ensures ValidCounter(c)
    ensures forall k :: CountOf(c, k) == CountOf(c0, k) + PathHits(paths, ncbis, name, k, |paths|)
    ensures forall k :: k in c.counts ==> k in c0.counts || k in ncbis
  {
    c := c0;
    var i := 0;
    while i < |paths|
      invariant 0 <= i <= |paths|
      invariant ValidCounter(c)
      invariant forall k :: CountOf(c, k) == CountOf(c0, k) + PathHits(paths, ncbis, name, k, i)
      invariant forall k :: k in c.counts ==> k in c0.counts || k in ncbis
    {
      c := IncrementIf(c, paths[i] == name, ncbis[i]);
      i := i + 1;
    }
  }

  /** Counting two batches of matches adds their counts, so a repeated match counts twice. */
  lemma {:induction false} FileCountAppend(paths: seq<string>, ncbis: seq<Value>, a: seq<string>, b: seq<string>, k: Value, m: nat)
    requires |paths| == |ncbis| && m <= |b|
    ensures FileCount(paths, ncbis, a + b, k, |a| + m) == FileCount(paths, ncbis, a, k, |a|) + FileCount(paths, ncbis, b, k, m)
  {
    if m == 0 {
      FileCountPrefix(paths, ncbis, a + b, a, k, |a|);
    } else {
      FileCountAppend(paths, ncbis, a, b, k, m - 1);
      assert (a + b)[|a| + m - 1] == b[m - 1];
    }
  }

  /** The count over a prefix depends only on that prefix. */
  lemma {:induction false} FileCountPrefix(paths: seq<string>, ncbis: seq<Value>, s: seq<string>, t: seq<string>, k: Value, m: nat)
    requires |paths| == |ncbis| && m <= |s| && m <= |t| && s[..m] == t[..m]
    ensures FileCount(paths, ncbis, s, k, m) == FileCount(paths, ncbis, t, k, m)
  {
    if m > 0 {
      assert s[m - 1] == s[..m][m - 1] == t[..m][m - 1] == t[m - 1];
      assert s[..m - 1] == s[..m][..m - 1];
      assert t[..m - 1] == t[..m][..m - 1];
      FileCountPrefix(paths, ncbis, s, t, k, m - 1);
    }
  }

  /**
   * A column of text cells, transformed: an absent column raises
   * `KeyError`, a non-text cell raises `notText`.
   */
  function TextColumn(columns: seq<string>, rows: seq<Row>, col: string, notText: Error): (r: Result<seq<string>>)
    ensures col !in columns ==> r == Err(KeyError(col))
    ensures r.Ok? <==> col in columns && forall i :: 0 <= i < |rows| ==> Cell(rows[i], col).Str?
    ensures r.Err? && col in columns ==> r.error == notText
    ensures r.Ok? ==> |r.value| == |rows| && forall i :: 0 <= i < |rows| ==> r.value[i] == Cell(rows[i], col).s
  {
    if col !in columns then Err(KeyError(col))
    else if forall i :: 0 <= i < |rows| ==> Cell(rows[i], col).Str? then
      Ok(seq(|rows|, i requires 0 <= i < |rows| => Cell(rows[i], col).s))
    else Err(notText)
  }

  function CleanAll(names: seq<string>): (r: seq<string>)
    ensures |r| == |names| && forall i :: 0 <= i < |names| ==> r[i] == CleanFilename(names[i])
  {
    seq(|names|, i requires 0 <= i < |names| => CleanFilename(names[i]))
  }

  function Column(rows: seq<Row>, col: string): (r: seq<Value>)
    ensures |r| == |rows| && forall i :: 0 <= i < |rows| ==> r[i] == Cell(rows[i], col)
  {
    seq(|rows|, i requires 0 <= i < |rows| => Cell(rows[i], col))
  }

  /**
   * `create_counts_file` without its file I/O: `Filepath` (metadata) and
   * `filename` (matches) are cleaned, in that order, and every match row
   * adds one to the `Taxa_NCBI` count of every metadata row with the same
   * cleaned path; reading `Taxa_NCBI` of a matched row raises `KeyError`
   * when the column is absent.
   */
  method CreateCounts(metaColumns: seq<string>, metadata: seq<Row>, matchColumns: seq<string>, matches: seq<Row>)
    returns (r: Result<Counter>)
    ensures TextColumn(metaColumns, metadata, "Filepath", AttributeError).Err? ==>
              r == Err(TextColumn(metaColumns, metadata, "Filepath", AttributeError).error)
    ensures r.Ok? ==> TextColumn(metaColumns, metadata, "Filepath", AttributeError).Ok? &&
                      TextColumn(matchColumns, matches, "filename", AttributeError).Ok?
    ensures r.Ok? ==> ValidCounter(r.value)
    ensures r.Ok? ==> forall k :: k in r.value.counts ==> "Taxa_NCBI" in metaColumns && exists i :: 0 <= i < |metadata| && Cell(metadata[i], "Taxa_NCBI") == k
    ensures r.Ok? ==> forall k :: (CountOf(r.value, k) ==
              FileCount(CleanAll(TextColumn(metaColumns, metadata, "Filepath", AttributeError).value),
                        Column(metadata, "Taxa_NCBI"),
                        CleanAll(TextColumn(matchColumns, matches, "filename", AttributeError).value), k, |matches|))
  {
    var paths := TextColumn(metaColumns, metadata, "Filepath", AttributeError);
    if paths.Err? {
      return Err(paths.error);
    }
    var names := TextColumn(matchColumns, matches, "filename", AttributeError);
    if names.Err? {
      return Err(names.error);
    }
    var ncbis := Column(metadata, "Taxa_NCBI");
    var c := CountByFilename(CleanAll(paths.value), ncbis, CleanAll(names.value));
    if "Taxa_NCBI" !in metaColumns && |c.order| > 0 {
      return Err(KeyError("Taxa_NCBI"));
    }
    forall k | k in c.counts
      ensures exists i :: 0 <= i < |metadata| && Cell(metadata[i], "Taxa_NCBI") == k
    {
      var i :| 0 <= i < |ncbis| && ncbis[i] == k;
    }
    r := Ok(c);
  }

  // ---------------------------------------------------------------------
  // create_counts_file_from_usi, lines 60-80
  // ---------------------------------------------------------------------

  /** Line 61: the MassIVE id and file name of every matching USI. */
  function UsiPairs(usis: seq<string>): (r: Result<seq<(string, string)>>)
    ensures r.Ok? <==> forall i :: 0 <= i < |usis| ==> UsiMassiveIdFilename(usis[i]).Ok?
    ensures r.Err? ==> r.error == IndexError
    ensures r.Ok? ==> |r.value| == |usis| && forall i :: 0 <= i < |usis| ==> UsiMassiveIdFilename(usis[i]) == Ok(r.value[i])
  {
    if |usis| == 0 then Ok([])
    else
      var first :- UsiMassiveIdFilename(usis[0]);
      var rest :- UsiPairs(usis[1..]);
      assert forall i :: 1 <= i < |usis| ==> usis[i] == usis[1..][i - 1];
      Ok([first] + rest)
  }

  /** A MassIVE id and the file names listed under it. */
  type Group = (string, seq<string>)

  predicate DistinctIds(groups: seq<Group>) {
    forall i, j :: 0 <= i < j < |groups| ==> groups[i].0 != groups[j].0
  }

  /** The position of `id` among the groups. */
  function IndexOfId(groups: seq<Group>, id: string): (r: Option<nat>)
    ensures r.Some? ==> r.value < |groups| && groups[r.value].0 == id
    ensures r.None? ==> forall j :: 0 <= j < |groups| ==> groups[j].0 != id
  {
    if |groups| == 0 then None
    else if groups[|groups| - 1].0 == id then Some(|groups| - 1)
    else IndexOfId(groups[..|groups| - 1], id)
  }

  /** Lines 65-69: append the file name to its id's list, or open a new list. */
  function AddPair(groups: seq<Group>, p: (string, string)): (r: seq<Group>)
    requires DistinctIds(groups)
    ensures DistinctIds(r)
    ensures |groups| <= |r| && forall j :: 0 <= j < |r| ==> r[j].0 == p.0 || (j < |groups| && r[j] == groups[j])
    ensures forall j :: 0 <= j < |groups| ==> r[j].0 == groups[j].0
    ensures exists j :: 0 <= j < |r| && r[j].0 == p.0 && p.1 in r[j].1
    ensures forall j, f :: 0 <= j < |r| && f in r[j].1 ==> (r[j].0 == p.0 && f == p.1) || (j < |groups| && f in groups[j].1)
    ensures forall j, f :: 0 <= j < |groups| && f in groups[j].1 ==> f in r[j].1
  {
    match IndexOfId(groups, p.0)
    case Some(j) =>
      var r := groups[j := (p.0, groups[j].1 + [p.1])];
      assert r[j].0 == p.0 && p.1 in r[j].1;
      r
    case None =>
      var r := groups + [(p.0, [p.1])];
      assert r[|groups|].0 == p.0 && p.1 in r[|groups|].1;
      r
  }

  /** `massive_to_fnames_dict`: the file names grouped by MassIVE id, ids in first-seen order. */
  function GroupByMassive(pairs: seq<(string, string)>): (r: seq<Group>)
    ensures DistinctIds(r)
    ensures forall p :: p in pairs ==> exists j :: 0 <= j < |r| && r[j].0 == p.0 && p.1 in r[j].1
    ensures forall j, f :: 0 <= j < |r| && f in r[j].1 ==> (r[j].0, f) in pairs
  {
    if |pairs| == 0 then []
    else
      var init := pairs[..|pairs| - 1];
      var last := pairs[|pairs| - 1];
      var g := GroupByMassive(init);
      var r := AddPair(g, last);
      forall p | p in pairs
        ensures exists j :: 0 <= j < |r| && r[j].0 == p.0 && p.1 in r[j].1
      {
        if p != last {
          assert p in init;
          var j :| 0 <= j < |g| && g[j].0 == p.0 && p.1 in g[j].1;
          assert r[j].0 == p.0 && p.1 in r[j].1;
        }
      }
      r
  }

  /** A metadata row with file name `fname` and MassIVE cell `massive` is listed in group `g`. */
  predicate InGroup(g: Group, fname: string, massive: Value) {
    fname in g.1 && massive == Str(g.0)
  }

  /** Some matching USI names this row's MassIVE id and file name. */
  predicate NamedByUsi(pairs: seq<(string, string)>, fname: string, massive: Value) {
    exists p :: p in pairs && fname == p.1 && massive == Str(p.0)
  }

  /** Rows below `n` in group `g` with key `k`. */
  function GroupHits(g: Group, fnames: seq<string>, massives: seq<Value>, ncbis: seq<Value>, k: Value, n: nat): nat
    requires n <= |fnames| == |massives| == |ncbis|
  {
    if n == 0 then 0
    else GroupHits(g, fnames, massives, ncbis, k, n - 1) +
         (if InGroup(g, fnames[n - 1], massives[n - 1]) && ncbis[n - 1] == k then 1 else 0)
  }

  /** What the two loops add up: group by group, the rows of that group with key `k`. */
  function GroupsTotal(groups: seq<Group>, fnames: seq<string>, massives: seq<Value>, ncbis: seq<Value>, k: Value, a: nat): nat
    requires |fnames| == |massives| == |ncbis| && a <= |groups|
  {
    if a == 0 then 0
    else GroupsTotal(groups, fnames, massives, ncbis, k, a - 1) + GroupHits(groups[a - 1], fnames, massives, ncbis, k, |fnames|)
  }

  predicate InFirstGroups(groups: seq<Group>, a: nat, fname: string, massive: Value)
    requires a <= |groups|
  {
    exists j :: 0 <= j < a && InGroup(groups[j], fname, massive)
  }

  /** Rows below `n` in one of the first `a` groups with key `k`, each counted once. */
  function FirstGroupsHits(groups: seq<Group>, a: nat, fnames: seq<string>, massives: seq<Value>, ncbis: seq<Value>, k: Value, n: nat): nat
    requires |fnames| == |massives| == |ncbis| && a <= |groups| && n <= |fnames|
  {
    if n == 0 then 0
    else FirstGroupsHits(groups, a, fnames, massives, ncbis, k, n - 1) +
         (if InFirstGroups(groups, a, fnames[n - 1], massives[n - 1]) && ncbis[n - 1] == k then 1 else 0)
  }

  /** Rows below `n` that some matching USI names, with key `k`, each counted once. */
  function UsiHits(pairs: seq<(string, string)>, fnames: seq<string>, massives: seq<Value>, ncbis: seq<Value>, k: Value, n: nat): nat
    requires n <= |fnames| == |massives| == |ncbis|
  {
    if n == 0 then 0
    else UsiHits(pairs, fnames, massives, ncbis, k, n - 1) +
         (if NamedByUsi(pairs, fnames[n - 1], massives[n - 1]) && ncbis[n - 1] == k then 1 else 0)
  }

  /** With distinct ids a row lies in at most one group, so adding a group adds its rows. */
  lemma {:induction false} AddGroupHits(groups: seq<Group>, a: nat, fnames: seq<string>, massives: seq<Value>, ncbis: seq<Value>, k: Value, n: nat)
    requires |fnames| == |massives| == |ncbis| && a < |groups| && n <= |fnames|
    requires DistinctIds(groups)
    ensures FirstGroupsHits(groups, a + 1, fnames, massives, ncbis, k, n) ==
            FirstGroupsHits(groups, a, fnames, massives, ncbis, k, n) + GroupHits(groups[a], fnames, massives, ncbis, k, n)
  {
    if n > 0 {
      AddGroupHits(groups, a, fnames, massives, ncbis, k, n - 1);
      var f, m := fnames[n - 1], massives[n - 1];
      if InGroup(groups[a], f, m) {
        assert InFirstGroups(groups, a + 1, f, m);
        assert !InFirstGroups(groups, a, f, m);
      } else if InFirstGroups(groups, a + 1, f, m) {
        var j :| 0 <= j < a + 1 && InGroup(groups[j], f, m);
        assert InFirstGroups(groups, a, f, m);
      } else {
        assert !InFirstGroups(groups, a, f, m);
      }
    }
  }

  lemma {:induction false} GroupsTotalOnce(groups: seq<Group>, fnames: seq<string>, massives: seq<Value>, ncbis: seq<Value>, k: Value, a: nat)
    requires |fnames| == |massives| == |ncbis| && a <= |groups|
    requires DistinctIds(groups)
    ensures GroupsTotal(groups, fnames, massives, ncbis, k, a) == FirstGroupsHits(groups, a, fnames, massives, ncbis, k, |fnames|)
  {
    if a == 0 {
      NoGroupNoHits(groups, fnames, massives, ncbis, k, |fnames|);
    } else {
      GroupsTotalOnce(groups, fnames, massives, ncbis, k, a - 1);
      AddGroupHits(groups, a - 1, fnames, massives, ncbis, k, |fnames|);
    }
  }

  lemma {:induction false} NoGroupNoHits(groups: seq<Group>, fnames: seq<string>, massives: seq<Value>, ncbis: seq<Value>, k: Value, n: nat)
    requires |fnames| == |massives| == |ncbis| && n <= |fnames|
    ensures FirstGroupsHits(groups, 0, fnames, massives, ncbis, k, n) == 0
  {
    if n > 0 {
      NoGroupNoHits(groups, fnames, massives, ncbis, k, n - 1);
    }
  }

  /** A row is in some group of `GroupByMassive(pairs)` exactly when some USI names it. */
  lemma InGroupsIffNamed(pairs: seq<(string, string)>, f: string, m: Value)
    ensures var groups := GroupByMassive(pairs);
      InFirstGroups(groups, |groups|, f, m) <==> NamedByUsi(pairs, f, m)
  {
    var groups := GroupByMassive(pairs);
    if InFirstGroups(groups, |groups|, f, m) {
      var j :| 0 <= j < |groups| && InGroup(groups[j], f, m);
      assert (groups[j].0, f) in pairs;
    }
    if NamedByUsi(pairs, f, m) {
      var p :| p in pairs && f == p.1 && m == Str(p.0);
      var j :| 0 <= j < |groups| && groups[j].0 == p.0 && p.1 in groups[j].1;
      assert InGroup(groups[j], f, m);
    }
  }

  /** Counting the rows in some group is counting the rows some USI names. */
  lemma GroupsAreUsis(pairs: seq<(string, string)>, fnames: seq<string>, massives: seq<Value>, ncbis: seq<Value>, k: Value, n: nat)
    requires n <= |fnames| == |massives| == |ncbis|
    ensures var groups := GroupByMassive(pairs);
      FirstGroupsHits(groups, |groups|, fnames, massives, ncbis, k, n) == UsiHits(pairs, fnames, massives, ncbis, k, n)
  {
    var groups := GroupByMassive(pairs);
    forall i | 0 <= i < n
      ensures InFirstGroups(groups, |groups|, fnames[i], massives[i]) <==> NamedByUsi(pairs, fnames[i], massives[i])
    {
      InGroupsIffNamed(pairs, fnames[i], massives[i]);
    }
    SameRowsSameHits(groups, pairs, fnames, massives, ncbis, k, n);
  }

  /** The two counts agree on every prefix where the two row tests agree. */
  lemma {:induction false} SameRowsSameHits(groups: seq<Group>, pairs: seq<(string, string)>, fnames: seq<string>, massives: seq<Value>,
                                            ncbis: seq<Value>, k: Value, n: nat)
    requires n <= |fnames| == |massives| == |ncbis|
    requires forall i :: 0 <= i < n ==>
               (InFirstGroups(groups, |groups|, fnames[i], massives[i]) <==> NamedByUsi(pairs, fnames[i], massives[i]))
    ensures FirstGroupsHits(groups, |groups|, fnames, massives, ncbis, k, n) == UsiHits(pairs, fnames, massives, ncbis, k, n)
  {
    if n > 0 {
      SameRowsSameHits(groups, pairs, fnames, massives, ncbis, k, n - 1);
    }
  }

  /** The loops over the groups and the metadata rows, lines 74-80. */
  method CountByGroups(groups: seq<Group>, fnames: seq<string>, massives: seq<Value>, ncbis: seq<Value>) returns (c: Counter)
    requires |fnames| == |massives| == |ncbis|
    ensures ValidCounter(c)
    ensures forall k :: CountOf(c, k) == GroupsTotal(groups, fnames, massives, ncbis, k, |groups|)
    ensures forall k :: k in c.counts ==> k in ncbis
  {
    c := NoCounts;
    var a := 0;
    while a < |groups|
      invariant 0 <= a <= |groups|
      invariant ValidCounter(c)
      invariant forall k :: CountOf(c, k) == GroupsTotal(groups, fnames, massives, ncbis, k, a)
      invariant forall k :: k in c.counts ==> k in ncbis
    {
      c := CountGroupHits(c, groups[a], fnames, massives, ncbis);
      a := a + 1;
    }
  }

  /** The inner loop: one per metadata row of the group, under that row's key. */
  method CountGroupHits(c0: Counter, g: Group, fnames: seq<string>, massives: seq<Value>, ncbis: seq<Value>) returns (c: Counter)
    requires |fnames| == |massives| == |ncbis| && ValidCounter(c0)
    ensures ValidCounter(c)
    ensures forall k :: CountOf(c, k) == CountOf(c0, k) + GroupHits(g, fnames, massives, ncbis, k, |fnames|)
    ensures forall k :: k in c.counts ==> k in c0.counts || k in ncbis
  {
    c := c0;
    var i := 0;
    while i < |fnames|
      invariant 0 <= i <= |fnames|
      invariant ValidCounter(c)
      invariant forall k :: CountOf(c, k) == CountOf(c0, k) + GroupHits(g, fnames, massives, ncbis, k, i)
      invariant forall k :: k in c.counts ==> k in c0.counts || k in ncbis
    {
      c := IncrementIf(c, InGroup(g, fnames[i], massives[i]), ncbis[i]);
      i := i + 1;
    }
  }

  function StemAll(paths: seq<string>): (r: seq<string>)
    ensures |r| == |paths| && forall i :: 0 <= i < |paths| ==> r[i] == UsiUtils.Stem(paths[i])
  {
    seq(|paths|, i requires 0 <= i < |paths| => UsiUtils.Stem(paths[i]))
  }

  /**
   * `create_counts_file_from_usi` without its file I/O: each metadata row
   * adds one to its `Taxa_NCBI` count when some matching USI names its
   * MassIVE id and file stem, however many do.  A non-text `Filepath`
   * raises `TypeError` in `Path`, a malformed USI `IndexError`, and reading
   * an absent `MassIVE` or `Taxa_NCBI` column `KeyError` once it is used.
   */
  method CreateCountsFromUsi(columns: seq<string>, metadata: seq<Row>, usis: seq<string>) returns (r: Result<Counter>)
    ensures TextColumn(columns, metadata, "Filepath", TypeError).Err? ==>
              r == Err(TextColumn(columns, metadata, "Filepath", TypeError).error)
    ensures TextColumn(columns, metadata, "Filepath", TypeError).Ok? && UsiPairs(usis).Err? ==> r == Err(IndexError)
    ensures r.Ok? ==> TextColumn(columns, metadata, "Filepath", TypeError).Ok? && UsiPairs(usis).Ok?
    ensures r.Ok? ==> ValidCounter(r.value)
    ensures r.Ok? ==> forall k :: (CountOf(r.value, k) ==
              UsiHits(UsiPairs(usis).value, StemAll(TextColumn(columns, metadata, "Filepath", TypeError).value),
                      Column(metadata, "MassIVE"), Column(metadata, "Taxa_NCBI"), k, |metadata|))
    ensures r.Ok? ==> forall k :: k in r.value.counts ==> exists i :: 0 <= i < |metadata| && Cell(metadata[i], "Taxa_NCBI") == k
  {
    var paths := TextColumn(columns, metadata, "Filepath", TypeError);
    if paths.Err? {
      return Err(paths.error);
    }
    var fnames := StemAll(paths.value);
    var pairs := UsiPairs(usis);
    if pairs.Err? {
      return Err(pairs.error);
    }
    var groups := GroupByMassive(pairs.value);
    if "MassIVE" !in columns && |groups| > 0 {
      return Err(KeyError("MassIVE"));
    }
    var massives := Column(metadata, "MassIVE");
    var ncbis := Column(metadata, "Taxa_NCBI");
    var c := CountByGroups(groups, fnames, massives, ncbis);
    if "Taxa_NCBI" !in columns && |c.order| > 0 {
      return Err(KeyError("Taxa_NCBI"));
    }
    forall k
      ensures CountOf(c, k) == UsiHits(pairs.value, fnames, massives, ncbis, k, |metadata|)
    {
      GroupsTotalOnce(groups, fnames, massives, ncbis, k, |groups|);
      GroupsAreUsis(pairs.value, fnames, massives, ncbis, k, |metadata|);
    }
    forall k | k in c.counts
      ensures exists i :: 0 <= i < |metadata| && Cell(metadata[i], "Taxa_NCBI") == k
    {
      var i :| 0 <= i < |ncbis| && ncbis[i] == k;
    }
    r := Ok(c);
  }

  /** However many USIs name a row, it adds at most one: the counts never exceed the rows holding the key. */
  lemma {:induction false} UsiHitsAtMostRows(pairs: seq<(string, string)>, fnames: seq<string>, massives: seq<Value>, ncbis: seq<Value>, k: Value, n: nat)
    requires n <= |fnames| == |massives| == |ncbis|
    ensures UsiHits(pairs, fnames, massives, ncbis, k, n) <= |set i | 0 <= i < n && ncbis[i] == k|
  {
    if n > 0 {
      UsiHitsAtMostRows(pairs, fnames, massives, ncbis, k, n - 1);
      KeyRowsStep(ncbis, k, n);
    }
  }

  /** One more row adds itself to the rows holding `k` exactly when it holds `k`. */
  lemma KeyRowsStep(ncbis: seq<Value>, k: Value, n: nat)
    requires 0 < n <= |ncbis|
    ensures |set i | 0 <= i < n && ncbis[i] == k| ==
            |set i | 0 <= i < n - 1 && ncbis[i] == k| + (if ncbis[n - 1] == k then 1 else 0)
  {
    var below := set i | 0 <= i < n - 1 && ncbis[i] == k;
    var upto := set i | 0 <= i < n && ncbis[i] == k;
    if ncbis[n - 1] == k {
      assert n - 1 !in below;
      assert upto == below + {n - 1};
    } else {
      assert upto == below;
    }
  }

  // ---------------------------------------------------------------------
  // export_ncbi_counts, lines 85-89
  // ---------------------------------------------------------------------

  /** One row per counted key, in insertion order, with columns `ncbi` and `matched_size`. */
  function ExportNcbiCounts(c: Counter): (rows: seq<Row>)
    requires ValidCounter(c)
    ensures |rows| == |c.order|
    ensures forall i :: 0 <= i < |rows| ==> rows[i].Keys == {"ncbi", "matched_size"} && rows[i]["ncbi"] == c.order[i]
    ensures forall i :: 0 <= i < |rows| ==>
              rows[i]["ncbi"] in c.counts && rows[i]["matched_size"] == Int(c.counts[rows[i]["ncbi"]])
    ensures forall k :: k in c.counts ==> exists i :: 0 <= i < |rows| && rows[i]["ncbi"] == k
    ensures forall i, j :: 0 <= i < j < |rows| ==> rows[i]["ncbi"] != rows[j]["ncbi"]
  {
    var rows := seq(|c.order|, i requires 0 <= i < |c.order| => map["ncbi" := c.order[i], "matched_size" := Int(c.counts[c.order[i]])]);
    forall k | k in c.counts
      ensures exists i :: 0 <= i < |rows| && rows[i]["ncbi"] == k
    {
      var i :| 0 <= i < |c.order| && c.order[i] == k;
      assert rows[i]["ncbi"] == k;
    }
    rows
  }
}

=== FILE: microbiome_metadata.dfy ===
/**
 * trees/microbiome_masst_tree/microbiomeMASST_metadata_table.py: the file
 * table of microbiomeMASST.  Each file row with an ontology ID gets a
 * file USI and the display name of its ontology node; files attached to
 * an ID that is some node's parent are dropped, since files belong to the
 * lowest nodes only.
 */
module MicrobiomeMetadata {
  import opened Results
  import opened Strs
  import UsiUtils

  /** A row of `file_info.tsv`; a null cell is `None`. */
  datatype FileInfo = FileInfo(id: Option<int>, filename: Option<string>, massive: Option<string>)

  /** A row of `tree_df.tsv`; a null cell is `None`. */
  datatype TreeEntry = TreeEntry(id: Option<int>, parentId: Option<int>, sampleType: Option<string>, interventions: Option<string>)

  /** A row of the output table; a null `MassIVE` stays null and a missing node name is `None`. */
  datatype TableRow = TableRow(id: int, filename: string, massive: Option<string>, fileUsi: string, nodeId: Option<string>)

  const Mzml := ".mzML"

  // ---------------------------------------------------------------------
  // Lines 10-11: the file name and the file USI
  // ---------------------------------------------------------------------

  /** `x.split('.mzML')[0]`: the file name up to the first `.mzML`. */
  function BeforeMzml(filename: string): (r: string)
    ensures StartsWith(filename, r)
    ensures !Contains(r, Mzml)
    ensures !Contains(filename, Mzml) ==> r == filename
    ensures Contains(filename, Mzml) ==> OccursAt(filename, Mzml, |r|)
  {
    match Find(filename, Mzml)
    case None => filename
    case Some(i) =>
      PrefixBeforeFirst(filename, Mzml, i);
      filename[..i]
  }

  /** It is the first piece of Python's `split`. */
  lemma BeforeMzmlIsSplit(filename: string)
    ensures BeforeMzml(filename) == Split(filename, Mzml)[0]
  {
  }

  /** Cutting twice cuts nothing more. */
  lemma BeforeMzmlIdempotent(filename: string)
    ensures BeforeMzml(BeforeMzml(filename)) == BeforeMzml(filename)
  {
  }

  /** A null `MassIVE` cell is formatted as `nan` by the f-string. */
  function MassiveText(massive: Option<string>): (r: string)
    ensures massive.Some? ==> r == massive.value
    ensures massive.None? ==> r == "nan"
  {
    massive.GetOr("nan")
  }

  /** `f"mzspec:{MassIVE}:{Filename}"`. */
  function FileUsi(massive: string, filename: string): (r: string)
    ensures StartsWith(r, UsiUtils.Prefix)
    ensures ':' !in massive && ':' !in filename ==> Split(r, ":") == ["mzspec", massive, filename]
  {
    var u := UsiUtils.Prefix + massive + ":" + filename;
    assert u[..|UsiUtils.Prefix|] == UsiUtils.Prefix;
    UsiUtils.UsiSplit(massive, filename);
    u
  }

  // ---------------------------------------------------------------------
  // Line 16: the node name
  // ---------------------------------------------------------------------

  /** Line 16 cannot add a null sample type (a float NaN) to text: a row with interventions needs a sample type. */
  predicate NameFails(e: TreeEntry) {
    e.interventions.Some? && e.sampleType.None?
  }

  /**
   * `SampleType [Interventions]`, or the sample type alone (null when it
   * is null) when there are no interventions; `TypeError` when only the
   * sample type is null.
   */
  function NodeName(e: TreeEntry): (r: Result<Option<string>>)
    ensures r.Err? <==> NameFails(e)
    ensures r.Err? ==> r.error == TypeError
    ensures e.interventions.None? ==> r == Ok(e.sampleType)
    ensures e.interventions.Some? && e.sampleType.Some? ==>
              var t := e.sampleType.value;
              && r.Ok? && r.value.Some?
              && |r.value.value| == |t| + |e.interventions.value| + 3
              && r.value.value[..|t|] == t
              && r.value.value[|t|..|t| + 2] == " ["
              && r.value.value[|t| + 2..|r.value.value| - 1] == e.interventions.value
              && r.value.value[|r.value.value| - 1] == ']'
  {
    match e.interventions
    case None => Ok(e.sampleType)
    case Some(iv) =>
      match e.sampleType
      case None => Err(TypeError)
      case Some(t) => Ok(Some(t + " [" + iv + "]"))
  }

  /** Two rows with the same sample type and the same name have the same interventions. */
  lemma NodeNameParts(a: TreeEntry, b: TreeEntry)
    requires a.sampleType == b.sampleType && a.sampleType.Some? && a.interventions.Some? && b.interventions.Some?
    requires NodeName(a) == NodeName(b)
    ensures a.interventions == b.interventions
  {
    var name := NodeName(a).value.value;
    var n := |a.sampleType.value|;
    assert a.interventions.value == name[n + 2..|name| - 1];
  }

  /** Every tree row has a node name, so line 16 goes through. */
  predicate Named(tree: seq<TreeEntry>) {
    forall i :: 0 <= i < |tree| ==> !NameFails(tree[i])
  }

  // ---------------------------------------------------------------------
  // Lines 20-27: leaf files and their node names
  // ---------------------------------------------------------------------

  /** Lines 20-21: the non-null `Parent_ID`s. */
  function ParentIds(tree: seq<TreeEntry>): (r: set<int>)
    ensures forall x :: x in r <==> exists e :: e in tree && e.parentId == Some(x)
  {
    set e | e in tree && e.parentId.Some? :: e.parentId.value
  }

  /** The position of the last tree row with this ID, or `None`. */
  function LastIndexOf(tree: seq<TreeEntry>, id: int): (r: Option<nat>)
    ensures r.None? <==> forall i :: 0 <= i < |tree| ==> tree[i].id != Some(id)
    ensures r.Some? ==> r.value < |tree| && tree[r.value].id == Some(id)
    ensures r.Some? ==> forall j :: r.value < j < |tree| ==> tree[j].id != Some(id)
  {
    if |tree| == 0 then None
    else if tree[|tree| - 1].id == Some(id) then Some(|tree| - 1)
    else LastIndexOf(tree[..|tree| - 1], id)
  }

  /** No tree row after position `i` has the ID. */
  predicate LastWithId(tree: seq<TreeEntry>, i: nat, id: int) {
    forall j :: i < j < |tree| ==> tree[j].id != Some(id)
  }

  /**
   * Lines 25 and 27: the name of the last tree row with this ID (a later
   * key overwrites an earlier one in `dict(zip(...))`), or `None` when no
   * row has the ID; a null name maps to `None` as well.
   */
  function NodeIdOf(tree: seq<TreeEntry>, id: int): (r: Option<string>)
    requires Named(tree)
    ensures (forall i :: 0 <= i < |tree| ==> tree[i].id != Some(id)) ==> r.None?
    ensures forall i :: 0 <= i < |tree| && tree[i].id == Some(id) && LastWithId(tree, i, id) ==> r == NodeName(tree[i]).value
  {
    match LastIndexOf(tree, id)
    case None => None
    case Some(i) => NodeName(tree[i]).value
  }

  /** Line 10 needs a file name on every row with an ID: `.split` on a null cell (a float) is an `AttributeError`. */
  predicate FileOk(f: FileInfo) {
    f.id.Some? ==> f.filename.Some?
  }

  /** The output row for a file with an ID and a file name. */
  function TableRowOf(f: FileInfo, tree: seq<TreeEntry>): (t: TableRow)
    requires f.id.Some? && f.filename.Some? && Named(tree)
    ensures t.id == f.id.value && t.massive == f.massive
    ensures t.filename == BeforeMzml(f.filename.value)
    ensures t.fileUsi == FileUsi(MassiveText(f.massive), BeforeMzml(f.filename.value))
    ensures t.nodeId == NodeIdOf(tree, f.id.value)
  {
    var name := BeforeMzml(f.filename.value);
    TableRow(f.id.value, name, f.massive, FileUsi(MassiveText(f.massive), name), NodeIdOf(tree, f.id.value))
  }

  /**
   * A file that stays in the table: it has an ID and that ID is no node's
   * parent.  Once line 10 has gone through, such a file has a file name.
   */
  predicate LeafFile(f: FileInfo, parents: set<int>) {
    f.id.Some? && f.filename.Some? && f.id.value !in parents
  }

  /** The rows of the leaf files, in file order. */
  function LeafRows(files: seq<FileInfo>, tree: seq<TreeEntry>, parents: set<int>): (r: seq<TableRow>)
    requires Named(tree)
    ensures |r| <= |files|
    ensures forall t :: t in r <==> exists f :: f in files && LeafFile(f, parents) && t == TableRowOf(f, tree)
    ensures |files| == 1 ==> r == if LeafFile(files[0], parents) then [TableRowOf(files[0], tree)] else []
  {
    if |files| == 0 then []
    else
      var rest := LeafRows(files[1..], tree, parents);
      assert forall f :: f in files <==> f == files[0] || f in files[1..];
      if LeafFile(files[0], parents) then [TableRowOf(files[0], tree)] + rest else rest
  }

  /** Every file row with an ID has a file name. */
  predicate FilesOk(files: seq<FileInfo>) {
    forall i :: 0 <= i < |files| ==> FileOk(files[i])
  }

  /** Every tree row has an ID, so line 15's cast to `int` goes through. */
  predicate TreeIds(tree: seq<TreeEntry>) {
    forall i :: 0 <= i < |tree| ==> tree[i].id.Some?
  }

  /**
   * `main` without its file I/O: the rows of the output table.  The
   * failures come in the order of the source's lines: a file name that is
   * null on a row with an ID (`AttributeError`, line 10), then a null tree
   * ID (`ValueError` from the cast at line 15), then a null sample type on
   * a row with interventions (`TypeError`, line 16).
   */
  function MetadataTable(files: seq<FileInfo>, tree: seq<TreeEntry>): (r: Result<seq<TableRow>>)
    ensures r.Ok? <==> FilesOk(files) && TreeIds(tree) && Named(tree)
    ensures !FilesOk(files) ==> r == Err(AttributeError)
    ensures FilesOk(files) && !TreeIds(tree) ==> r.Err? && r.error.ValueError?
    ensures FilesOk(files) && TreeIds(tree) && !Named(tree) ==> r == Err(TypeError)
    ensures r.Ok? ==> forall t :: t in r.value <==>
              exists f :: f in files && LeafFile(f, ParentIds(tree)) && t == TableRowOf(f, tree)
    ensures r.Ok? && |files| == 1 ==>
              r.value == if LeafFile(files[0], ParentIds(tree)) then [TableRowOf(files[0], tree)] else []
  {
    if !FilesOk(files) then Err(AttributeError)
    else if !TreeIds(tree) then Err(ValueError("null ID"))
    else if !Named(tree) then Err(TypeError)
    else Ok(LeafRows(files, tree, ParentIds(tree)))
  }

  /** Filtering keeps file order: the rows of two runs of files are the rows of each run, one after the other. */
  lemma {:induction false} LeafRowsAppend(a: seq<FileInfo>, b: seq<FileInfo>, tree: seq<TreeEntry>, parents: set<int>)
    requires Named(tree)
    ensures LeafRows(a + b, tree, parents) == LeafRows(a, tree, parents) + LeafRows(b, tree, parents)
  {
    if |a| == 0 {
      assert a + b == b;
    } else {
      LeafRowsAppend(a[1..], b, tree, parents);
      LeafRowsCons(a[0], a[1..] + b, tree, parents);
      LeafRowsCons(a[0], a[1..], tree, parents);
      assert a + b == [a[0]] + (a[1..] + b);
      assert a == [a[0]] + a[1..];
      var head := if LeafFile(a[0], parents) then [TableRowOf(a[0], tree)] else [];
      ConcatAssoc(head, LeafRows(a[1..], tree, parents), LeafRows(b, tree, parents));
    }
  }

  lemma LeafRowsCons(f: FileInfo, rest: seq<FileInfo>, tree: seq<TreeEntry>, parents: set<int>)
    requires Named(tree)
    ensures LeafRows([f] + rest, tree, parents)
              == (if LeafFile(f, parents) then [TableRowOf(f, tree)] else []) + LeafRows(rest, tree, parents)
  {
    assert ([f] + rest)[1..] == rest;
  }

  /** The table of two runs of files is the two runs' tables, one after the other. */
  lemma MetadataTableAppend(a: seq<FileInfo>, b: seq<FileInfo>, tree: seq<TreeEntry>)
    ensures MetadataTable(a + b, tree).Ok? <==> MetadataTable(a, tree).Ok? && MetadataTable(b, tree).Ok?
    ensures MetadataTable(a + b, tree).Ok? ==>
              MetadataTable(a + b, tree).value == MetadataTable(a, tree).value + MetadataTable(b, tree).value
  {
    assert FilesOk(a + b) <==> FilesOk(a) && FilesOk(b) by {
      if FilesOk(a + b) {
        assert forall i :: 0 <= i < |a| ==> (a + b)[i] == a[i];
        assert forall i :: 0 <= i < |b| ==> (a + b)[|a| + i] == b[i];
      }
    }
    if MetadataTable(a + b, tree).Ok? {
      LeafRowsAppend(a, b, tree, ParentIds(tree));
    }
  }

  /** No row of the table is attached to an ID that has children in the tree. */
  lemma TableHasOnlyLeaves(files: seq<FileInfo>, tree: seq<TreeEntry>, t: TableRow)
    requires MetadataTable(files, tree).Ok? && t in MetadataTable(files, tree).value
    ensures forall e :: e in tree ==> e.parentId != Some(t.id)
    ensures exists f :: f in files && f.id == Some(t.id)
  {
  }

  /** Every file with a leaf ID is in the table, with the leaf's name when the tree has it. */
  lemma LeafFilesKept(files: seq<FileInfo>, tree: seq<TreeEntry>, f: FileInfo)
    requires MetadataTable(files, tree).Ok? && f in files && f.id.Some?
    requires forall e :: e in tree ==> e.parentId != f.id
    ensures TableRowOf(f, tree) in MetadataTable(files, tree).value
  {
  }
}

=== FILE: microbiome_tree.dfy ===
/**
 * trees/microbiome_masst_tree/microbiomeMASST_tree_generation.py: the
 * microbiomeMASST ontology built from a parent-pointer table.  Every row
 * is a node with an `ID` and a `Parent_ID` (`-1` at the top level); a
 * leaf's group size is the number of files attached to its ID, an inner
 * node's the sum over its child rows; the tree is then read back out of
 * the table, parent by parent.
 *
 * The Python recursion ends only on an acyclic table.  The model asks for
 * a rank on IDs that falls from parent to child; it is a proof device and
 * plays no part in any result.
 */
module MicrobiomeTree {
  import opened Results
  import opened Json

  // ---------------------------------------------------------------------
  // TreeNode, lines 5-25
  // ---------------------------------------------------------------------

  datatype TreeNode = TreeNode(id: string, name: string, groupSize: int, duplication: string,
                               nodeType: string, children: seq<TreeNode>)

  /** `TreeNode(id, name, group_size)` with the constructor's defaults. */
  function NewTreeNode(id: string, name: string, groupSize: int): (t: TreeNode)
    ensures t.duplication == "Y" && t.nodeType == "node" && t.children == []
  {
    TreeNode(id, name, groupSize, "Y", "node", [])
  }

  /** `add_child`: the child goes last. */
  function AddChild(t: TreeNode, child: TreeNode): (r: TreeNode)
    ensures r.children == t.children + [child]
    ensures r.(children := t.children) == t
  {
    t.(children := t.children + [child])
  }

  /** `to_dict`: the five attributes as JSON members and the children serialised in order. */
  function ToDict(t: TreeNode): (n: Node)
    ensures |n.children| == |t.children|
    ensures n.fields.Keys == {"ID", "duplication", "type", "name", "group_size"}
    ensures n.fields["group_size"] == Int(t.groupSize) && n.fields["name"] == Str(t.name) && n.fields["ID"] == Str(t.id)
    decreases t
  {
    Node(map["ID" := Str(t.id), "duplication" := Str(t.duplication), "type" := Str(t.nodeType),
             "name" := Str(t.name), "group_size" := Int(t.groupSize)],
         seq(|t.children|, i requires 0 <= i < |t.children| => ToDict(t.children[i])))
  }

  /** Reading a serialised node back: the inverse of `to_dict`. */
  function FromDict(n: Node): Option<TreeNode>
    decreases n, 1
  {
    var fs := n.fields;
    if "ID" in fs && "duplication" in fs && "type" in fs && "name" in fs && "group_size" in fs &&
       fs["ID"].Str? && fs["duplication"].Str? && fs["type"].Str? && fs["name"].Str? && fs["group_size"].Int?
    then
      match FromDictAll(n.children)
      case Some(cs) => Some(TreeNode(fs["ID"].s, fs["name"].s, fs["group_size"].i, fs["duplication"].s, fs["type"].s, cs))
      case None => None
    else None
  }

  function FromDictAll(ns: seq<Node>): Option<seq<TreeNode>>
    decreases ns, 0
  {
    if |ns| == 0 then Some([])
    else
      match FromDict(ns[0])
      case None => None
      case Some(t) =>
        match FromDictAll(ns[1..])
        case None => None
        case Some(ts) => Some([t] + ts)
  }

  /** `to_dict` loses nothing: the node can be read back from its dict. */
  lemma {:induction false} ToDictRoundTrip(t: TreeNode)
    ensures FromDict(ToDict(t)) == Some(t)
    decreases t, 1
  {
    var n := ToDict(t);
    ToDictAllRoundTrip(t.children, n.children);
  }

  lemma {:induction false} ToDictAllRoundTrip(ts: seq<TreeNode>, ns: seq<Node>)
    requires |ns| == |ts| && forall i :: 0 <= i < |ts| ==> ns[i] == ToDict(ts[i])
    ensures FromDictAll(ns) == Some(ts)
    decreases ts, 0
  {
    if |ts| > 0 {
      ToDictRoundTrip(ts[0]);
      ToDictAllRoundTrip(ts[1..], ns[1..]);
      assert ts == [ts[0]] + ts[1..];
    }
  }

  // ---------------------------------------------------------------------
  // prepare_tree_df, lines 28-64
  // ---------------------------------------------------------------------

  /** A row of the ontology table; a null `ID` or `Parent_ID` is `None`. */
  datatype TreeRow = TreeRow(id: Option<string>, parentId: Option<string>, sampleType: string,
                             ncbi: Option<string>, community: Option<string>,
                             interventions: Option<string>, groupSize: int)

  /** A row of the file table: the ontology ID a file belongs to and its intervention. */
  datatype FileRow = FileRow(id: Option<string>, intervention: Option<string>)

  const TopLevel := "-1"

  /** Line 31: `fillna('-1')` on `Parent_ID`. */
  function DefaultParents(rows: seq<TreeRow>): (r: seq<TreeRow>)
    ensures |r| == |rows|
    ensures forall i :: 0 <= i < |rows| ==> r[i].parentId.Some?
    ensures forall i :: 0 <= i < |rows| ==> r[i].parentId == (if rows[i].parentId.None? then Some(TopLevel) else rows[i].parentId)
    ensures forall i :: 0 <= i < |rows| ==> r[i].(parentId := rows[i].parentId) == rows[i]
  {
    seq(|rows|, i requires 0 <= i < |rows| =>
      if rows[i].parentId.None? then rows[i].(parentId := Some(TopLevel)) else rows[i])
  }

  /** Line 37: `value_counts()[id]`, the files attached to `id`. */
  function IdCount(files: seq<FileRow>, id: string): nat {
    if |files| == 0 then 0
    else IdCount(files[..|files| - 1], id) + (if files[|files| - 1].id == Some(id) then 1 else 0)
  }

  /** Lines 40-42: the intervention of the first file row with this ID, if there is one. */
  function FirstIntervention(files: seq<FileRow>, id: string): (r: Option<string>)
    ensures (forall i :: 0 <= i < |files| ==> files[i].id != Some(id)) ==> r.None?
    ensures forall i :: 0 <= i < |files| && files[i].id == Some(id) && (forall j :: 0 <= j < i ==> files[j].id != Some(id)) ==>
              r == files[i].intervention
  {
    if |files| == 0 then None
    else if files[0].id == Some(id) then files[0].intervention
    else
      assert forall i :: 1 <= i < |files| ==> files[i] == files[1..][i - 1];
      FirstIntervention(files[1..], id)
  }

  /** `tree_df[tree_df['Parent_ID'] == p]`: the child rows of `p`, in table order. */
  function ChildRows(rows: seq<TreeRow>, p: string): (r: seq<TreeRow>)
    ensures forall x :: x in r <==> x in rows && x.parentId == Some(p)
    ensures |r| <= |rows|
  {
    if |rows| == 0 then []
    else
      assert forall x :: x in rows <==> x == rows[0] || x in rows[1..];
      (if rows[0].parentId == Some(p) then [rows[0]] else []) + ChildRows(rows[1..], p)
  }

  /** A rank on IDs that falls from every parent to its children: the table has no cycle. */
  ghost predicate Ranked(rows: seq<TreeRow>, rank: map<string, nat>) {
    forall r :: r in rows && r.parentId.Some? && r.id.Some? ==>
      r.parentId.value in rank && r.id.value in rank && rank[r.id.value] < rank[r.parentId.value]
  }

  /** A sequence of child rows of `p`. */
  ghost predicate ChildrenOf(rows: seq<TreeRow>, cs: seq<TreeRow>, p: string) {
    forall c :: c in cs ==> c in rows && c.parentId == Some(p)
  }

  /**
   * `calculate_group_size`: the file count of an ID without child rows, and
   * otherwise the sum over its child rows (the files attached to it are
   * not counted).
   */
  function GroupSize(rows: seq<TreeRow>, files: seq<FileRow>, id: string, ghost rank: map<string, nat>): (r: nat)
    requires Ranked(rows, rank) && id in rank
    ensures |ChildRows(rows, id)| == 0 ==> r == IdCount(files, id)
    decreases rank[id], 1
  {
    var cs := ChildRows(rows, id);
    if |cs| == 0 then IdCount(files, id) else SumSizes(rows, files, cs, id, rank)
  }

  /**
   * Line 54, the sum over the child rows `cs` of `p`.  A child without an
   * ID has no child rows (a null never equals a `Parent_ID`) and no files,
   * so it adds 0.
   */
  function SumSizes(rows: seq<TreeRow>, files: seq<FileRow>, cs: seq<TreeRow>, p: string, ghost rank: map<string, nat>): nat
    requires Ranked(rows, rank) && p in rank && ChildrenOf(rows, cs, p)
    decreases rank[p], 0, |cs|
  {
    if |cs| == 0 then 0
    else
      assert cs[0] in cs;
      var first := if cs[0].id.Some? then GroupSize(rows, files, cs[0].id.value, rank) else 0;
      first + SumSizes(rows, files, cs[1..], p, rank)
  }

  /** A parent's group size is at least that of each child. */
  lemma {:induction false} SumSizesAtLeast(rows: seq<TreeRow>, files: seq<FileRow>, cs: seq<TreeRow>, p: string, rank: map<string, nat>, k: nat)
    requires Ranked(rows, rank) && p in rank && ChildrenOf(rows, cs, p)
    requires k < |cs| && cs[k].id.Some?
    ensures cs[k].id.value in rank
    ensures SumSizes(rows, files, cs, p, rank) >= GroupSize(rows, files, cs[k].id.value, rank)
    decreases |cs|
  {
    assert cs[k] in cs;
    if k > 0 {
      assert cs[1..][k - 1] == cs[k];
      SumSizesAtLeast(rows, files, cs[1..], p, rank, k - 1);
    }
  }

  lemma ParentAtLeastChild(rows: seq<TreeRow>, files: seq<FileRow>, rank: map<string, nat>, child: TreeRow)
    requires Ranked(rows, rank) && child in rows && child.parentId.Some? && child.id.Some?
    ensures child.parentId.value in rank && child.id.value in rank
    ensures GroupSize(rows, files, child.parentId.value, rank) >= GroupSize(rows, files, child.id.value, rank)
  {
    var p := child.parentId.value;
    var cs := ChildRows(rows, p);
    assert child in cs;
    var k :| 0 <= k < |cs| && cs[k] == child;
    SumSizesAtLeast(rows, files, cs, p, rank, k);
  }

  /** One more file attached to an ID that has child rows changes no group size. */
  lemma {:induction false} InnerFilesIgnored(rows: seq<TreeRow>, files: seq<FileRow>, x: string, rank: map<string, nat>, id: string)
    requires Ranked(rows, rank) && id in rank && |ChildRows(rows, x)| > 0
    ensures GroupSize(rows, files + [FileRow(Some(x), None)], id, rank) == GroupSize(rows, files, id, rank)
    decreases rank[id], 1
  {
    var cs := ChildRows(rows, id);
    if |cs| == 0 {
      assert id != x;
      assert (files + [FileRow(Some(x), None)])[..|files|] == files;
    } else {
      InnerFilesIgnoredSum(rows, files, x, rank, cs, id);
    }
  }

  lemma {:induction false} InnerFilesIgnoredSum(rows: seq<TreeRow>, files: seq<FileRow>, x: string, rank: map<string, nat>, cs: seq<TreeRow>, p: string)
    requires Ranked(rows, rank) && p in rank && ChildrenOf(rows, cs, p) && |ChildRows(rows, x)| > 0
    ensures SumSizes(rows, files + [FileRow(Some(x), None)], cs, p, rank) == SumSizes(rows, files, cs, p, rank)
    decreases rank[p], 0, |cs|
  {
    if |cs| > 0 {
      assert cs[0] in cs;
      if cs[0].id.Some? {
        InnerFilesIgnored(rows, files, x, rank, cs[0].id.value);
      }
      InnerFilesIgnoredSum(rows, files, x, rank, cs[1..], p);
    }
  }

  /**
   * The two derived columns of a row: its interventions (line 44) and
   * its group size (lines 58-64), which is 0 for a row without an ID.
   */
  function FillRow(rows: seq<TreeRow>, files: seq<FileRow>, rank: map<string, nat>, r: TreeRow): (o: TreeRow)
    requires Ranked(rows, rank) && (r.id.Some? ==> r.id.value in rank)
    ensures o.(groupSize := r.groupSize, interventions := r.interventions) == r
  {
    if r.id.Some? then
      r.(interventions := FirstIntervention(files, r.id.value), groupSize := GroupSize(rows, files, r.id.value, rank))
    else r.(interventions := None, groupSize := 0)
  }

  /** Every ID that occurs in the table has a rank. */
  ghost predicate IdsRanked(rows: seq<TreeRow>, rank: map<string, nat>) {
    forall r :: r in rows && r.id.Some? ==> r.id.value in rank
  }

  function FillAll(rows: seq<TreeRow>, files: seq<FileRow>, rank: map<string, nat>, rs: seq<TreeRow>): (o: seq<TreeRow>)
    requires Ranked(rows, rank) && forall r :: r in rs && r.id.Some? ==> r.id.value in rank
    ensures |o| == |rs| && forall i :: 0 <= i < |rs| ==> o[i] == FillRow(rows, files, rank, rs[i])
  {
    if |rs| == 0 then []
    else
      assert rs[0] in rs;
      var rest := FillAll(rows, files, rank, rs[1..]);
      assert forall i :: 1 <= i < |rs| ==> rs[i] == rs[1..][i - 1];
      [FillRow(rows, files, rank, rs[0])] + rest
  }

  /**
   * `prepare_tree_df` without its file I/O: default the parents, attach
   * the interventions, and fill in the group sizes.
   */
  function PrepareTreeDf(rows: seq<TreeRow>, files: seq<FileRow>, rank: map<string, nat>): (r: seq<TreeRow>)
    requires Ranked(DefaultParents(rows), rank) && IdsRanked(rows, rank)
    ensures |r| == |rows|
    ensures forall i :: 0 <= i < |rows| ==> r[i].id == rows[i].id && r[i].parentId.Some?
    ensures forall i :: 0 <= i < |rows| && rows[i].id.None? ==> r[i].groupSize == 0 && r[i].interventions.None?
    ensures forall i :: 0 <= i < |rows| && rows[i].id.Some? ==>
              && r[i].groupSize == GroupSize(DefaultParents(rows), files, rows[i].id.value, rank)
              && r[i].interventions == FirstIntervention(files, rows[i].id.value)
  {
    var withParents := DefaultParents(rows);
    DefaultParentsRanked(rows, rank);
    FillAll(withParents, files, rank, withParents)
  }

  lemma DefaultParentsRanked(rows: seq<TreeRow>, rank: map<string, nat>)
    requires IdsRanked(rows, rank)
    ensures IdsRanked(DefaultParents(rows), rank)
  {
    var d := DefaultParents(rows);
    forall r | r in d && r.id.Some? ensures r.id.value in rank {
      var i :| 0 <= i < |d| && d[i] == r;
      assert rows[i] in rows;
    }
  }

  // ---------------------------------------------------------------------
  // build_tree, lines 77-99
  // ---------------------------------------------------------------------

  /** `str(x) if pd.notnull(x) else None`. */
  function TextOrNull(v: Option<string>): Value {
    match v
    case Some(s) => Str(s)
    case None => Null
  }

  /** The members of the dict built for a row, lines 84-93. */
  function RowFields(r: TreeRow): (fs: Fields)
    ensures "group_size" in fs && "name" in fs && "ID" in fs
    ensures fs["group_size"] == Int(r.groupSize) && fs["name"] == Str(r.sampleType)
    ensures fs["ID"] == Str(if r.id.Some? then r.id.value else "nan")
  {
    map["ID" := Str(if r.id.Some? then r.id.value else "nan"),
        "NCBI" := TextOrNull(r.ncbi),
        "Interventions" := TextOrNull(r.interventions),
        "Community_composition" := TextOrNull(r.community),
        "duplication" := Str("Y"),
        "type" := Str("node"),
        "name" := Str(r.sampleType),
        "group_size" := Int(r.groupSize)]
  }

  /** `build_tree(df, p)`: one node per child row of `p`, in table order, each with its own subtree. */
  function BuildTree(rows: seq<TreeRow>, p: string, ghost rank: map<string, nat>): (r: seq<Node>)
    requires Ranked(rows, rank) && p in rank
    ensures |r| == |ChildRows(rows, p)|
    decreases rank[p], 1
  {
    BuildNodes(rows, ChildRows(rows, p), p, rank)
  }

  /** The nodes for the child rows `cs` of `p`: a row without an ID has no children. */
  function BuildNodes(rows: seq<TreeRow>, cs: seq<TreeRow>, p: string, ghost rank: map<string, nat>): (r: seq<Node>)
    requires Ranked(rows, rank) && p in rank && ChildrenOf(rows, cs, p)
    ensures |r| == |cs|
    decreases rank[p], 0, |cs|
  {
    if |cs| == 0 then []
    else
      assert cs[0] in cs;
      var kids := if cs[0].id.Some? then BuildTree(rows, cs[0].id.value, rank) else [];
      [Node(RowFields(cs[0]), kids)] + BuildNodes(rows, cs[1..], p, rank)
  }

  /** The `k`-th node for `cs` holds the `k`-th row's columns. */
  lemma {:induction false} BuildNodesFields(rows: seq<TreeRow>, cs: seq<TreeRow>, p: string, rank: map<string, nat>, k: nat)
    requires Ranked(rows, rank) && p in rank && ChildrenOf(rows, cs, p) && k < |cs|
    ensures BuildNodes(rows, cs, p, rank)[k].fields == RowFields(cs[k])
    decreases |cs|
  {
    if k > 0 {
      assert ChildrenOf(rows, cs[1..], p) by {
        assert forall c :: c in cs[1..] ==> c in cs;
      }
      BuildNodesFields(rows, cs[1..], p, rank, k - 1);
      BuildNodesTail(rows, cs, p, rank);
      assert cs[1..][k - 1] == cs[k];
    }
  }

  /** The `k`-th node for `cs` carries the subtree of the `k`-th row's ID. */
  lemma {:induction false} BuildNodesChildren(rows: seq<TreeRow>, cs: seq<TreeRow>, p: string, rank: map<string, nat>, k: nat)
    requires Ranked(rows, rank) && p in rank && ChildrenOf(rows, cs, p) && k < |cs|
    ensures cs[k].id.Some? ==> cs[k].id.value in rank
    ensures BuildNodes(rows, cs, p, rank)[k].children ==
              (if cs[k].id.Some? then BuildTree(rows, cs[k].id.value, rank) else [])
    decreases |cs|
  {
    assert cs[k] in cs;
    if k > 0 {
      assert ChildrenOf(rows, cs[1..], p) by {
        assert forall c :: c in cs[1..] ==> c in cs;
      }
      BuildNodesChildren(rows, cs[1..], p, rank, k - 1);
      BuildNodesTail(rows, cs, p, rank);
      assert cs[1..][k - 1] == cs[k];
    }
  }

  /** `build_tree(df)[0]`: the first top-level node; a table without one raises `IndexError`. */
  function BuildTreeJson(rows: seq<TreeRow>, rank: map<string, nat>): (r: Result<Node>)
    requires Ranked(rows, rank) && TopLevel in rank
    ensures r.Err? <==> forall x :: x in rows ==> x.parentId != Some(TopLevel)
    ensures r.Err? ==> r.error == IndexError
    ensures r.Ok? ==> r.value.fields == RowFields(ChildRows(rows, TopLevel)[0])
  {
    var top := BuildTree(rows, TopLevel, rank);
    if |top| == 0 then
      assert ChildRows(rows, TopLevel) == [];
      Err(IndexError)
    else
      assert ChildRows(rows, TopLevel)[0] in ChildRows(rows, TopLevel);
      BuildNodesFields(rows, ChildRows(rows, TopLevel), TopLevel, rank, 0);
      Ok(top[0])
  }

  // ---------------------------------------------------------------------
  // The built tree rolls up
  // ---------------------------------------------------------------------

  /** Every inner node's `group_size` is the sum of its children's. */
  ghost predicate SumsUp(n: Node)
    decreases n
  {
    && (|n.children| > 0 ==> NumField(n.fields, "group_size") == SumField(n.children, "group_size"))
    && forall k :: 0 <= k < |n.children| ==> SumsUp(n.children[k])
  }

  /** The group sizes of the built child nodes are the rows' own. */
  lemma {:induction false} BuiltSizes(rows: seq<TreeRow>, cs: seq<TreeRow>, p: string, rank: map<string, nat>)
    requires Ranked(rows, rank) && p in rank && ChildrenOf(rows, cs, p)
    ensures SumField(BuildNodes(rows, cs, p, rank), "group_size") == RowSizes(cs)
    decreases |cs|
  {
    if |cs| > 0 {
      ChildrenOfTail(rows, cs, p);
      BuiltSizes(rows, cs[1..], p, rank);
      BuildNodesTail(rows, cs, p, rank);
      BuildNodesFields(rows, cs, p, rank, 0);
      RowSize(cs[0]);
    }
  }

  lemma ChildrenOfTail(rows: seq<TreeRow>, cs: seq<TreeRow>, p: string)
    requires ChildrenOf(rows, cs, p) && |cs| > 0
    ensures ChildrenOf(rows, cs[1..], p)
  {
    assert forall c :: c in cs[1..] ==> c in cs;
  }

  /** A built node's `group_size` reads back as its row's. */
  lemma RowSize(c: TreeRow)
    ensures NumField(RowFields(c), "group_size") == c.groupSize as real
  {
  }

  lemma BuildNodesTail(rows: seq<TreeRow>, cs: seq<TreeRow>, p: string, rank: map<string, nat>)
    requires Ranked(rows, rank) && p in rank && ChildrenOf(rows, cs, p) && |cs| > 0
    ensures BuildNodes(rows, cs, p, rank)[1..] == BuildNodes(rows, cs[1..], p, rank)
  {
  }

  /** The sum of the rows' `Group_Size` column. */
  function RowSizes(cs: seq<TreeRow>): real {
    if |cs| == 0 then 0.0 else cs[0].groupSize as real + RowSizes(cs[1..])
  }

  /** The filled child rows of `p` are the child rows of `p`, filled. */
  lemma {:induction false} ChildRowsFill(rows: seq<TreeRow>, files: seq<FileRow>, rank: map<string, nat>, rs: seq<TreeRow>, p: string)
    requires Ranked(rows, rank) && forall r :: r in rs && r.id.Some? ==> r.id.value in rank
    ensures forall r :: r in ChildRows(rs, p) && r.id.Some? ==> r.id.value in rank
    ensures ChildRows(FillAll(rows, files, rank, rs), p) == FillAll(rows, files, rank, ChildRows(rs, p))
  {
    if |rs| > 0 {
      assert rs[0] in rs;
      ChildRowsFill(rows, files, rank, rs[1..], p);
      var filled := FillAll(rows, files, rank, rs);
      assert filled[1..] == FillAll(rows, files, rank, rs[1..]);
      assert filled == [filled[0]] + filled[1..];
      if rs[0].parentId == Some(p) {
        assert ChildRows(rs, p) == [rs[0]] + ChildRows(rs[1..], p);
        FillAllCons(rows, files, rank, rs[0], ChildRows(rs[1..], p));
      }
    }
  }

  lemma FillAllCons(rows: seq<TreeRow>, files: seq<FileRow>, rank: map<string, nat>, r: TreeRow, rs: seq<TreeRow>)
    requires Ranked(rows, rank) && (r.id.Some? ==> r.id.value in rank) && forall x :: x in rs && x.id.Some? ==> x.id.value in rank
    ensures forall x :: x in [r] + rs && x.id.Some? ==> x.id.value in rank
    ensures FillAll(rows, files, rank, [r] + rs) == [FillRow(rows, files, rank, r)] + FillAll(rows, files, rank, rs)
  {
    assert ([r] + rs)[1..] == rs;
  }

  /** Filling a sequence of child rows sums to `SumSizes`. */
  lemma {:induction false} FilledSizes(rows: seq<TreeRow>, files: seq<FileRow>, rank: map<string, nat>, cs: seq<TreeRow>, p: string)
    requires Ranked(rows, rank) && p in rank && ChildrenOf(rows, cs, p)
    ensures forall r :: r in cs && r.id.Some? ==> r.id.value in rank
    ensures RowSizes(FillAll(rows, files, rank, cs)) == SumSizes(rows, files, cs, p, rank) as real
    decreases |cs|
  {
    if |cs| > 0 {
      assert cs[0] in cs;
      FilledSizes(rows, files, rank, cs[1..], p);
      var filled := FillAll(rows, files, rank, cs);
      assert filled[1..] == FillAll(rows, files, rank, cs[1..]);
    }
  }

  /** Filling in the group sizes moves no row in the hierarchy. */
  lemma FillKeepsRank(rows: seq<TreeRow>, files: seq<FileRow>, rank: map<string, nat>)
    requires Ranked(rows, rank) && IdsRanked(rows, rank)
    ensures Ranked(FillAll(rows, files, rank, rows), rank)
  {
    var filled := FillAll(rows, files, rank, rows);
    forall r | r in filled && r.parentId.Some? && r.id.Some?
      ensures r.parentId.value in rank && r.id.value in rank && rank[r.id.value] < rank[r.parentId.value]
    {
      var i :| 0 <= i < |filled| && filled[i] == r;
      assert rows[i] in rows;
    }
  }

  /**
   * The tree `build_tree` reads back from `prepare_tree_df`'s table rolls
   * up: below every top-level parent, each node with children has the sum
   * of their group sizes as its own.
   */
  lemma {:induction false} TreeSumsUp(rows: seq<TreeRow>, files: seq<FileRow>, rank: map<string, nat>, p: string)
    requires Ranked(rows, rank) && IdsRanked(rows, rank) && p in rank
    ensures Ranked(FillAll(rows, files, rank, rows), rank)
    ensures forall n :: n in BuildTree(FillAll(rows, files, rank, rows), p, rank) ==> SumsUp(n)
    decreases rank[p], 1
  {
    var filled := FillAll(rows, files, rank, rows);
    FillKeepsRank(rows, files, rank);
    var ns := BuildTree(filled, p, rank);
    ChildRowsFill(rows, files, rank, rows, p);
    forall n | n in ns ensures SumsUp(n) {
      var k :| 0 <= k < |ns| && ns[k] == n;
      NodeSumsUp(rows, files, rank, p, k);
    }
  }

  /** An ID with child rows: its subtree's top-level sizes add up to its group size. */
  lemma InnerSize(rows: seq<TreeRow>, files: seq<FileRow>, rank: map<string, nat>, x: string)
    requires Ranked(rows, rank) && IdsRanked(rows, rank) && x in rank && |ChildRows(rows, x)| > 0
    ensures Ranked(FillAll(rows, files, rank, rows), rank)
    ensures SumField(BuildTree(FillAll(rows, files, rank, rows), x, rank), "group_size") == GroupSize(rows, files, x, rank) as real
  {
    var filled := FillAll(rows, files, rank, rows);
    FillKeepsRank(rows, files, rank);
    var ccs := ChildRows(rows, x);
    ChildRowsFill(rows, files, rank, rows, x);
    BuiltSizes(filled, ChildRows(filled, x), x, rank);
    FilledSizes(rows, files, rank, ccs, x);
  }

  /** The `k`-th node below `p` in the filled table: the `k`-th child row, filled, and its subtree. */
  lemma NodeShape(rows: seq<TreeRow>, files: seq<FileRow>, rank: map<string, nat>, p: string, k: nat)
    requires Ranked(rows, rank) && IdsRanked(rows, rank) && p in rank && k < |ChildRows(rows, p)|
    ensures Ranked(FillAll(rows, files, rank, rows), rank)
    ensures k < |BuildTree(FillAll(rows, files, rank, rows), p, rank)|
    ensures var c := ChildRows(rows, p)[k];
            var n := BuildTree(FillAll(rows, files, rank, rows), p, rank)[k];
            && c in rows && c.parentId == Some(p)
            && (c.id.Some? ==> c.id.value in rank && rank[c.id.value] < rank[p])
            && n.fields == RowFields(FillRow(rows, files, rank, c))
            && n.children == (if c.id.Some? then BuildTree(FillAll(rows, files, rank, rows), c.id.value, rank) else [])
  {
    var filled := FillAll(rows, files, rank, rows);
    FillKeepsRank(rows, files, rank);
    ChildRowsFill(rows, files, rank, rows, p);
    var cs := ChildRows(rows, p);
    var fcs := ChildRows(filled, p);
    assert fcs[k] == FillRow(rows, files, rank, cs[k]);
    assert cs[k] in cs;
    BuildNodesChildren(filled, fcs, p, rank, k);
    BuildNodesFields(filled, fcs, p, rank, k);
  }

  lemma RowFieldsSize(r: TreeRow)
    ensures NumField(RowFields(r), "group_size") == r.groupSize as real
  {
  }

  lemma SumsUpIntro(n: Node)
    requires |n.children| > 0 ==> NumField(n.fields, "group_size") == SumField(n.children, "group_size")
    requires forall c :: c in n.children ==> SumsUp(c)
    ensures SumsUp(n)
  {
    assert forall j :: 0 <= j < |n.children| ==> n.children[j] in n.children;
  }

  lemma {:induction false} NodeSumsUp(rows: seq<TreeRow>, files: seq<FileRow>, rank: map<string, nat>, p: string, k: nat)
    requires Ranked(rows, rank) && IdsRanked(rows, rank) && p in rank && k < |ChildRows(rows, p)|
    ensures Ranked(FillAll(rows, files, rank, rows), rank)
    ensures k < |BuildTree(FillAll(rows, files, rank, rows), p, rank)|
    ensures SumsUp(BuildTree(FillAll(rows, files, rank, rows), p, rank)[k])
    decreases rank[p], 0
  {
    NodeShape(rows, files, rank, p, k);
    var filled := FillAll(rows, files, rank, rows);
    var c := ChildRows(rows, p)[k];
    var n := BuildTree(filled, p, rank)[k];
    if c.id.Some? {
      var x := c.id.value;
      TreeSumsUp(rows, files, rank, x);
      if |n.children| > 0 {
        ChildRowsFill(rows, files, rank, rows, x);
        InnerSize(rows, files, rank, x);
        var f := FillRow(rows, files, rank, c);
        assert f.groupSize == GroupSize(rows, files, x, rank);
        RowFieldsSize(f);
      }
      SumsUpIntro(n);
    } else {
      SumsUpIntro(n);
    }
  }

  /** The tree made from `prepare_tree_df`'s table rolls up from the leaves to the root. */
  lemma PreparedTreeRollsUp(rows: seq<TreeRow>, files: seq<FileRow>, rank: map<string, nat>)
    requires Ranked(DefaultParents(rows), rank) && IdsRanked(rows, rank) && TopLevel in rank
    ensures Ranked(PrepareTreeDf(rows, files, rank), rank)
    ensures var t := BuildTreeJson(PrepareTreeDf(rows, files, rank), rank); t.Ok? ==> SumsUp(t.value)
  {
    var d := DefaultParents(rows);
    DefaultParentsRanked(rows, rank);
    TreeSumsUp(d, files, rank, TopLevel);
    var top := BuildTree(PrepareTreeDf(rows, files, rank), TopLevel, rank);
    if |top| > 0 {
      assert top[0] in top;
    }
  }
}

=== FILE: ontology_extender.dfy ===
/**
 * The tree-enrichment engine of code/json_ontology_extender.py: attach a
 * table of per-key data to the nodes of an ontology, roll `group_size` and
 * `matched_size` up the tree, derive `occurrence_fraction` and `pie_data`
 * at every node, and recompute the root from its direct children.
 *
 * Every pass returns a new tree instead of changing the Python dictionaries
 * in place.  An exception the Python code would raise is an `Err`.
 */
module OntologyExtender {
  import opened Results
  import opened Json
  import opened Trees

  // ---------------------------------------------------------------------
  // add_data_to_node
  // ---------------------------------------------------------------------

  /** The row's data-key cell holds the string `key`. */
  predicate RowHasKey(row: Row, dataField: string, key: string) {
    dataField in row && row[dataField] == Str(key)
  }

  function FirstMatchFrom(table: seq<Row>, dataField: string, key: string, i: nat): (r: Option<nat>)
    requires i <= |table|
    ensures r.Some? ==> i <= r.value < |table| && RowHasKey(table[r.value], dataField, key)
    ensures r.Some? ==> forall j :: i <= j < r.value ==> !RowHasKey(table[j], dataField, key)
    ensures r.None? ==> forall j :: i <= j < |table| ==> !RowHasKey(table[j], dataField, key)
    decreases |table| - i
  {
    if i == |table| then None
    else if RowHasKey(table[i], dataField, key) then Some(i)
    else FirstMatchFrom(table, dataField, key, i + 1)
  }

  /** The index of the first row whose data key is `key` (`filtered.index[0]`). */
  function FirstMatch(table: seq<Row>, dataField: string, key: string): (r: Option<nat>)
    ensures r.Some? ==> r.value < |table| && RowHasKey(table[r.value], dataField, key)
    ensures r.Some? ==> forall j :: 0 <= j < r.value ==> !RowHasKey(table[j], dataField, key)
    ensures r.None? <==> forall j :: 0 <= j < |table| ==> !RowHasKey(table[j], dataField, key)
  {
    FirstMatchFrom(table, dataField, key, 0)
  }

  /**
   * The node's key as the string it is compared by: `str(node.get(field))`,
   * or nothing when the member is absent or null.
   */
  function NodeKey(fs: Fields, nodeField: string): Option<string> {
    if Missing(fs, nodeField) then None else PyStr(fs[nodeField])
  }

  /** What `add_data_to_node` does to one node's own members. */
  function EnrichFields(fs: Fields, table: seq<Row>, nodeField: string, dataField: string): (r: Fields)
    ensures NodeKey(fs, nodeField).None? ==> r == fs
    ensures NodeKey(fs, nodeField).Some? && FirstMatch(table, dataField, NodeKey(fs, nodeField).value).None?
            ==> r == fs
    ensures NodeKey(fs, nodeField).Some? && FirstMatch(table, dataField, NodeKey(fs, nodeField).value).Some? ==>
              var row := table[FirstMatch(table, dataField, NodeKey(fs, nodeField).value).value];
              && r.Keys == fs.Keys + (row.Keys - {dataField})
              && (forall c :: c in row && c != dataField ==> r[c] == row[c])
              && (forall c :: c in fs && (c !in row || c == dataField) ==> r[c] == fs[c])
  {
    match NodeKey(fs, nodeField)
    case None => fs
    case Some(key) =>
      match FirstMatch(table, dataField, key)
      case None => fs
      case Some(i) => fs + (table[i] - {dataField})
  }

  /** `add_data_to_node`: every node of the tree, children included, is enriched on its own. */
  function AddData(n: Node, table: seq<Row>, nodeField: string, dataField: string): Node {
    MapFields(n, fs => EnrichFields(fs, table, nodeField, dataField))
  }

  /**
   * The enriched tree lists, in pre-order, exactly the nodes of the input
   * with `EnrichFields` applied to each and the same number of children, so
   * nodes without a key or without a matching row are left as they were
   * and their children are still enriched.
   */
  lemma AddDataPointwise(n: Node, table: seq<Row>, nodeField: string, dataField: string)
    ensures var a := Flatten(n); var b := Flatten(AddData(n, table, nodeField, dataField));
      && |b| == |a|
      && (forall i :: 0 <= i < |a| ==> b[i].fields == EnrichFields(a[i].fields, table, nodeField, dataField))
      && (forall i :: 0 <= i < |a| ==> |b[i].children| == |a[i].children|)
  {
    MapFieldsPointwise(n, fs => EnrichFields(fs, table, nodeField, dataField));
  }

  // ---------------------------------------------------------------------
  // accumulate_field_in_parents
  // ---------------------------------------------------------------------

  /** The member is absent or holds a number. */
  predicate NumOrAbsent(fs: Fields, field: string) {
    field !in fs || Numeric(fs[field]).Some?
  }

  /** Every node of the tree has a numeric or absent `field`. */
  predicate AllNumOrAbsent(n: Node, field: string)
    decreases n
  {
    NumOrAbsent(n.fields, field) && forall i :: 0 <= i < |n.children| ==> AllNumOrAbsent(n.children[i], field)
  }

  /**
   * `acc` is `orig` after accumulation of `field`: at every node the field
   * is the node's own value (0 if absent) plus the sum of its children's new
   * values, a childless node keeps `node.get(field, 0)`, and nothing else
   * changes.
   */
  ghost predicate RolledUp(orig: Node, acc: Node, field: string)
    decreases orig
  {
    && |acc.children| == |orig.children|
    && field in acc.fields
    && acc.fields == orig.fields[field := acc.fields[field]]
    && (|orig.children| == 0 ==> acc.fields[field] == GetOr(orig.fields, field, Int(0)))
    && (|orig.children| > 0 ==>
          Numeric(acc.fields[field]) == Some(NumField(orig.fields, field) + SumField(acc.children, field)))
    && forall i :: 0 <= i < |orig.children| ==> RolledUp(orig.children[i], acc.children[i], field)
  }

  /**
   * `accumulate_field_in_parents`: returns the new tree and the root's new
   * value.  It fails with a type error exactly when some addition meets a
   * non-number, which cannot happen in a childless tree.
   */
  function Accumulate(n: Node, field: string): (r: Result<(Node, Value)>)
    ensures r.Ok? <==> |n.children| == 0 || AllNumOrAbsent(n, field)
    ensures r.Ok? ==> RolledUp(n, r.value.0, field) && r.value.1 == r.value.0.fields[field]
    ensures r.Ok? ==> (Numeric(r.value.1).Some? <==> AllNumOrAbsent(n, field))
    decreases n, 1
  {
    var p :- AccumulateAll(n.children, field, GetOr(n.fields, field, Int(0)));
    Ok((Node(n.fields[field := p.1], p.0), p.1))
  }

  /** The loop over the children of a node, adding each child's new value to `acc`. */
  function AccumulateAll(ns: seq<Node>, field: string, acc: Value): (r: Result<(seq<Node>, Value)>)
    ensures r.Ok? <==> |ns| == 0 || (Numeric(acc).Some? && forall i :: 0 <= i < |ns| ==> AllNumOrAbsent(ns[i], field))
    ensures r.Ok? ==> |r.value.0| == |ns|
    ensures r.Ok? ==> forall i :: 0 <= i < |ns| ==> RolledUp(ns[i], r.value.0[i], field)
    ensures r.Ok? && |ns| == 0 ==> r.value.1 == acc
    ensures r.Ok? && |ns| > 0 ==> Numeric(r.value.1) == Some(Numeric(acc).value + SumField(r.value.0, field))
    decreases ns, 0
  {
    if |ns| == 0 then Ok(([], acc))
    else
      var c :- Accumulate(ns[0], field);
      var acc' :- Add(acc, c.1);
      var rest :- AccumulateAll(ns[1..], field, acc');
      var cs := [c.0] + rest.0;
      assert cs[1..] == rest.0;
      Ok((cs, rest.1))
  }

  // ---------------------------------------------------------------------
  // field_missing
  // ---------------------------------------------------------------------

  /** The number of nodes of a node list whose `field` is absent or null. */
  function CountMissing(ns: seq<Node>, field: string): nat {
    if |ns| == 0 then 0 else (if Missing(ns[0].fields, field) then 1 else 0) + CountMissing(ns[1..], field)
  }

  lemma CountMissingAppend(a: seq<Node>, b: seq<Node>, field: string)
    ensures CountMissing(a + b, field) == CountMissing(a, field) + CountMissing(b, field)
  {
    if |a| == 0 {
      assert a + b == b;
    } else {
      assert (a + b)[0] == a[0];
      assert (a + b)[1..] == a[1..] + b;
      CountMissingAppend(a[1..], b, field);
    }
  }

  /** The counting half of `field_missing`. */
  function MissingCount(n: Node, field: string): (c: nat)
    ensures c == CountMissing(Flatten(n), field)
    decreases n, 1
  {
    (if Missing(n.fields, field) then 1 else 0) + MissingCountAll(n.children, field)
  }

  function MissingCountAll(ns: seq<Node>, field: string): (c: nat)
    ensures c == CountMissing(FlattenAll(ns), field)
    decreases ns, 0
  {
    if |ns| == 0 then 0
    else
      CountMissingAppend(Flatten(ns[0]), FlattenAll(ns[1..]), field);
      MissingCount(ns[0], field) + MissingCountAll(ns[1..], field)
  }

  /**
   * `field_missing`: the number of nodes lacking `field`, and the tree in
   * which only the root, when it lacks the field, receives the value of
   * `replaceWith` (or the empty string); the recursion passes no
   * replacement down, so no other node changes.
   */
  function FieldMissing(n: Node, field: string, replaceWith: Option<string>): (r: (Node, nat))
    ensures r.1 == CountMissing(Flatten(n), field)
    ensures r.0.children == n.children
    ensures Missing(n.fields, field) && replaceWith.Some? ==>
              r.0.fields == n.fields[field := GetOr(n.fields, replaceWith.value, Str(""))]
    ensures !(Missing(n.fields, field) && replaceWith.Some?) ==> r.0 == n
  {
    var fs := if Missing(n.fields, field) && replaceWith.Some?
              then n.fields[field := GetOr(n.fields, replaceWith.value, Str(""))]
              else n.fields;
    (Node(fs, n.children), MissingCount(n, field))
  }

  // ---------------------------------------------------------------------
  // calc_stats
  // ---------------------------------------------------------------------

  /**
   * The node's `occurrence_fraction` agrees with its sizes: 0 when
   * `group_size == 0`, otherwise `matched_size / group_size`.
   */
  predicate FractionConsistent(fs: Fields) {
    && "occurrence_fraction" in fs && "group_size" in fs
    && (IsZero(fs["group_size"]) ==> fs["occurrence_fraction"] == Int(0))
    && (!IsZero(fs["group_size"]) ==>
          && "matched_size" in fs
          && Numeric(fs["group_size"]).Some? && Numeric(fs["matched_size"]).Some?
          && fs["occurrence_fraction"].Real?
          && fs["occurrence_fraction"].r * Numeric(fs["group_size"]).value == Numeric(fs["matched_size"]).value)
  }

  /** What `calc_stats` does to one node. */
  function StatsFields(fs: Fields): (r: Result<Fields>)
    ensures r.Ok? <==> ("group_size" in fs && (IsZero(fs["group_size"]) ||
              ("matched_size" in fs && Numeric(fs["matched_size"]).Some? && Numeric(fs["group_size"]).Some?)))
    ensures r.Ok? ==> FractionConsistent(r.value)
    ensures r.Ok? ==> r.value.Keys == fs.Keys + {"occurrence_fraction"}
    ensures r.Ok? ==> forall k :: k in fs && k != "occurrence_fraction" ==> r.value[k] == fs[k]
  {
    var g :- Lookup(fs, "group_size");
    if IsZero(g) then Ok(fs["occurrence_fraction" := Int(0)])
    else
      var m :- Lookup(fs, "matched_size");
      var f :- Divide(m, g);
      Ok(fs["occurrence_fraction" := f])
  }

  /** `calc_stats`: children first, then the node itself. */
  function CalcStats(n: Node): Result<Node> {
    TryMapPost(n, StatsFields)
  }

  /**
   * `calc_stats` succeeds exactly when every node passes `StatsFields`, and
   * then every node has a consistent fraction and keeps every other member.
   */
  lemma CalcStatsPointwise(n: Node)
    ensures CalcStats(n).Ok? <==> forall i :: 0 <= i < |Flatten(n)| ==> StatsFields(Flatten(n)[i].fields).Ok?
    ensures CalcStats(n).Ok? ==>
              var a := Flatten(n); var b := Flatten(CalcStats(n).value);
              && |b| == |a|
              && (forall i :: 0 <= i < |a| ==> StatsFields(a[i].fields) == Ok(b[i].fields))
              && (forall i :: 0 <= i < |a| ==> |b[i].children| == |a[i].children|)
              && (forall i :: 0 <= i < |b| ==> FractionConsistent(b[i].fields))
  {
    TryMapPostPointwise(n, StatsFields);
  }

  /** With `0 <= matched_size <= group_size` the fraction lies in [0, 1]; nothing bounds it otherwise. */
  lemma FractionBounded(fs: Fields)
    requires FractionConsistent(fs)
    requires Numeric(fs["group_size"]).Some? && 0.0 <= Numeric(fs["group_size"]).value
    requires !IsZero(fs["group_size"]) ==>
               0.0 <= Numeric(fs["matched_size"]).value <= Numeric(fs["group_size"]).value
    ensures Numeric(fs["occurrence_fraction"]).Some?
    ensures 0.0 <= Numeric(fs["occurrence_fraction"]).value <= 1.0
  {
    if !IsZero(fs["group_size"]) {
      var f := fs["occurrence_fraction"].r;
      var g := Numeric(fs["group_size"]).value;
      var m := Numeric(fs["matched_size"]).value;
      assert f * g == m && 0.0 <= m <= g && g > 0.0;
      if f > 1.0 {
        ProductAbove(f, g);
      }
      assert Numeric(fs["occurrence_fraction"]) == Some(f);
    }
  }

  lemma ProductAbove(f: real, g: real)
    requires f > 1.0 && g > 0.0
    ensures f * g > g
  {
    var d := f - 1.0;
    assert d * g > 0.0;
    assert f * g == d * g + g;
  }

  /** A matched size above the group size gives a fraction above 1: the bound needs its precondition. */
  lemma FractionUnboundedWithoutPrecondition()
    ensures var fs := map["group_size" := Int(2), "matched_size" := Int(3)];
      StatsFields(fs).Ok? && StatsFields(fs).value["occurrence_fraction"] == Real(1.5)
  {
  }

  // ---------------------------------------------------------------------
  // calc_root_stats
  // ---------------------------------------------------------------------

  /** The loop of `calc_root_stats`: add each child's `group_size`, then its `matched_size`. */
  function SumSizes(cs: seq<Node>, g: Value, m: Value): (r: Result<(Value, Value)>)
    requires Numeric(g).Some? && Numeric(m).Some?
    ensures r.Ok? <==> forall i :: 0 <= i < |cs| ==>
              && "group_size" in cs[i].fields && Numeric(cs[i].fields["group_size"]).Some?
              && "matched_size" in cs[i].fields && Numeric(cs[i].fields["matched_size"]).Some?
    ensures r.Ok? ==> Numeric(r.value.0) == Some(Numeric(g).value + SumField(cs, "group_size"))
    ensures r.Ok? ==> Numeric(r.value.1) == Some(Numeric(m).value + SumField(cs, "matched_size"))
  {
    if |cs| == 0 then Ok((g, m))
    else
      var cg :- Lookup(cs[0].fields, "group_size");
      var g' :- Add(g, cg);
      var cm :- Lookup(cs[0].fields, "matched_size");
      var m' :- Add(m, cm);
      SumSizes(cs[1..], g', m')
  }

  /** Python's `0 if group == 0 else matched / group`. */
  function Fraction(m: Value, g: Value): (r: Result<Value>)
    ensures IsZero(g) ==> r == Ok(Int(0))
    ensures !IsZero(g) && Numeric(g).Some? && Numeric(m).Some? ==>
              r.Ok? && r.value.Real? && r.value.r * Numeric(g).value == Numeric(m).value
  {
    if IsZero(g) then Ok(Int(0)) else Divide(m, g)
  }

  /**
   * `calc_root_stats`: the root's sizes become the sums over its direct
   * children, whatever it held before, and its fraction is recomputed;
   * the children are not touched.
   */
  function CalcRootStats(root: Node): (r: Result<Node>)
    ensures r.Ok? <==> forall i :: 0 <= i < |root.children| ==>
              && "group_size" in root.children[i].fields && Numeric(root.children[i].fields["group_size"]).Some?
              && "matched_size" in root.children[i].fields && Numeric(root.children[i].fields["matched_size"]).Some?
    ensures r.Ok? ==> r.value.children == root.children
    ensures r.Ok? ==> r.value.fields.Keys == root.fields.Keys + {"group_size", "matched_size", "occurrence_fraction"}
    ensures r.Ok? ==>
              forall k :: k in root.fields && k !in {"group_size", "matched_size", "occurrence_fraction"} ==>
                r.value.fields[k] == root.fields[k]
    ensures r.Ok? ==> Numeric(r.value.fields["group_size"]) == Some(SumField(root.children, "group_size"))
    ensures r.Ok? ==> Numeric(r.value.fields["matched_size"]) == Some(SumField(root.children, "matched_size"))
    ensures r.Ok? ==> FractionConsistent(r.value.fields)
  {
    match SumSizes(root.children, Int(0), Int(0))
    case Err(e) => Err(e)
    case Ok(sums) =>
      match Fraction(sums.1, sums.0)
      case Err(e) => Err(e)
      case Ok(f) =>
        Ok(Node(root.fields["group_size" := sums.0]["matched_size" := sums.1]["occurrence_fraction" := f], root.children))
  }

  /** The root's previous sizes and fraction play no part in the result. */
  lemma RootStatsIgnoreOwnValues(root: Node, other: Fields)
    requires other.Keys == root.fields.Keys
    requires forall k :: k in other && k !in {"group_size", "matched_size", "occurrence_fraction"}
               ==> other[k] == root.fields[k]
    ensures CalcRootStats(Node(other, root.children)) == CalcRootStats(root)
  {
    var r1 := CalcRootStats(root);
    var r2 := CalcRootStats(Node(other, root.children));
    if r1.Ok? {
      var sums := SumSizes(root.children, Int(0), Int(0)).value;
      var f := Fraction(sums.1, sums.0).value;
      var upd := (fs: Fields) => fs["group_size" := sums.0]["matched_size" := sums.1]["occurrence_fraction" := f];
      assert upd(other) == upd(root.fields);
    }
  }

  // ---------------------------------------------------------------------
  // add_pie_data_to_node_and_children
  // ---------------------------------------------------------------------

  /** One slice of a node's pie chart. */
  function PieEntry(fraction: Value, index: int, g: Value, m: Value): Value {
    Obj(map["occurrence_fraction" := fraction, "index" := Int(index), "group_size" := g, "matched_size" := m])
  }

  /**
   * `pie_data` holds exactly two slices, with indices 0 and 1, whose
   * fractions are `f` and `1 - f` (so they sum to 1), and both copy the
   * node's sizes.
   */
  predicate HasPie(fs: Fields) {
    && "pie_data" in fs && "occurrence_fraction" in fs && "group_size" in fs && "matched_size" in fs
    && fs["pie_data"].List? && |fs["pie_data"].items| == 2
    && Numeric(fs["occurrence_fraction"]).Some?
    && (forall j :: 0 <= j < 2 ==>
          && fs["pie_data"].items[j].Obj?
          && var e := fs["pie_data"].items[j].members;
          && e.Keys == {"occurrence_fraction", "index", "group_size", "matched_size"}
          && e["index"] == Int(j)
          && e["group_size"] == fs["group_size"] && e["matched_size"] == fs["matched_size"]
          && Numeric(e["occurrence_fraction"]).Some?)
    && fs["pie_data"].items[0].members["occurrence_fraction"] == fs["occurrence_fraction"]
    && Numeric(fs["pie_data"].items[0].members["occurrence_fraction"]).value
       + Numeric(fs["pie_data"].items[1].members["occurrence_fraction"]).value == 1.0
  }

  /** What `add_pie_data_to_node_and_children` does to one node. */
  function PieFields(fs: Fields): (r: Result<Fields>)
    ensures r.Ok? <==> ("occurrence_fraction" in fs && "group_size" in fs && "matched_size" in fs
                        && Numeric(fs["occurrence_fraction"]).Some?)
    ensures r.Ok? ==> HasPie(r.value)
    ensures r.Ok? ==> r.value.Keys == fs.Keys + {"pie_data"}
    ensures r.Ok? ==> forall k :: k in fs && k != "pie_data" ==> r.value[k] == fs[k]
  {
    var f :- Lookup(fs, "occurrence_fraction");
    var g :- Lookup(fs, "group_size");
    var m :- Lookup(fs, "matched_size");
    var rest :- OneMinus(f);
    Ok(fs["pie_data" := List([PieEntry(f, 0, g, m), PieEntry(rest, 1, g, m)])])
  }

  /** `add_pie_data_to_node_and_children`: the node, then its children. */
  function AddPie(n: Node): Result<Node> {
    TryMapPre(n, PieFields)
  }

  lemma AddPiePointwise(n: Node)
    ensures AddPie(n).Ok? <==> forall i :: 0 <= i < |Flatten(n)| ==> PieFields(Flatten(n)[i].fields).Ok?
    ensures AddPie(n).Ok? ==>
              var a := Flatten(n); var b := Flatten(AddPie(n).value);
              && |b| == |a|
              && (forall i :: 0 <= i < |a| ==> PieFields(a[i].fields) == Ok(b[i].fields))
              && (forall i :: 0 <= i < |a| ==> |b[i].children| == |a[i].children|)
              && (forall i :: 0 <= i < |b| ==> HasPie(b[i].fields))
  {
    TryMapPrePointwise(n, PieFields);
  }

  // ---------------------------------------------------------------------
  // add_data_to_ontology_file, lines 120-135
  // ---------------------------------------------------------------------

  /** Lines 125-128: accumulate `field` only when some node lacks it. */
  function AccumulateIfMissing(n: Node, field: string): (r: Result<Node>)
    ensures CountMissing(Flatten(n), field) == 0 ==> r == Ok(n)
    ensures CountMissing(Flatten(n), field) > 0 ==>
              (r.Ok? <==> |n.children| == 0 || AllNumOrAbsent(n, field))
    ensures CountMissing(Flatten(n), field) > 0 && r.Ok? ==> RolledUp(n, r.value, field)
  {
    if FieldMissing(n, field, None).1 > 0 then
      var p :- Accumulate(n, field);
      Ok(p.0)
    else Ok(n)
  }

  /** The text `astype(str)` gives a cell: a null (`NaN`) cell becomes `"nan"`. */
  function CellText(v: Value): (r: Option<string>)
    ensures v == Null ==> r == Some("nan")
    ensures v != Null ==> r == PyStr(v)
  {
    if v == Null then Some("nan") else PyStr(v)
  }

  /**
   * `df[data_key] = df[data_key].astype(str)`: the data-key column is
   * compared as text.  A frame without that column raises `KeyError`; a
   * null or absent cell becomes `"nan"`, and a cell without a text form in
   * the model (a fractional or very large float, a list or an object) is
   * left as it is and so matches no node.
   */
  function StringKeys(columns: seq<string>, table: seq<Row>, dataKey: string): (r: Result<seq<Row>>)
    ensures r.Err? <==> dataKey !in columns
    ensures r.Err? ==> r.error == KeyError(dataKey)
    ensures r.Ok? ==> |r.value| == |table|
    ensures r.Ok? ==> forall i :: 0 <= i < |table| ==> r.value[i].Keys == table[i].Keys + {dataKey}
    ensures r.Ok? ==> forall i, c :: 0 <= i < |table| && c in table[i] && c != dataKey ==> r.value[i][c] == table[i][c]
    ensures r.Ok? ==> forall i :: 0 <= i < |table| && CellText(Cell(table[i], dataKey)).Some? ==>
              r.value[i][dataKey] == Str(CellText(Cell(table[i], dataKey)).value)
    ensures r.Ok? ==> forall i :: 0 <= i < |table| && CellText(Cell(table[i], dataKey)).None? ==>
              dataKey in table[i] && r.value[i][dataKey] == table[i][dataKey]
  {
    if dataKey !in columns then Err(KeyError(dataKey))
    else
      Ok(seq(|table|, i requires 0 <= i < |table| =>
        match CellText(Cell(table[i], dataKey))
        case Some(t) => table[i][dataKey := Str(t)]
        case None => table[i]))
  }

  /** The steps of `add_data_to_ontology_file` between loading the inputs and writing the output. */
  function AddDataToOntology(tree: Node, columns: seq<string>, table: seq<Row>, nodeKey: string, dataKey: string): Result<Node> {
    var keyed :- StringKeys(columns, table, dataKey);
    var withData := AddData(tree, keyed, nodeKey, dataKey);
    var named := FieldMissing(withData, "NCBI", Some("name")).0;
    var grouped :- AccumulateIfMissing(named, "group_size");
    var matched :- AccumulateIfMissing(grouped, "matched_size");
    var stats :- CalcStats(matched);
    var rooted :- CalcRootStats(stats);
    AddPie(rooted)
  }

  /**
   * A table without the data-key column is a `KeyError`.  A successful
   * run keeps the tree's shape, gives every node a fraction
   * consistent with its sizes and a two-slice pie, and sets the root's
   * sizes to the sums over its direct children.
   */
  lemma AddDataToOntologyResult(tree: Node, columns: seq<string>, table: seq<Row>, nodeKey: string, dataKey: string)
    ensures var r := AddDataToOntology(tree, columns, table, nodeKey, dataKey);
      && (dataKey !in columns ==> r == Err(KeyError(dataKey)))
      && (r.Ok? ==>
        && Count(r.value) == Count(tree)
        && |r.value.children| == |tree.children|
        && (forall i :: 0 <= i < |Flatten(r.value)| ==> FractionConsistent(Flatten(r.value)[i].fields))
        && (forall i :: 0 <= i < |Flatten(r.value)| ==> HasPie(Flatten(r.value)[i].fields))
        && Numeric(r.value.fields["group_size"]) == Some(SumField(r.value.children, "group_size"))
        && Numeric(r.value.fields["matched_size"]) == Some(SumField(r.value.children, "matched_size")))
  {
    var r := AddDataToOntology(tree, columns, table, nodeKey, dataKey);
    if r.Ok? {
      var keyed := StringKeys(columns, table, dataKey).value;
      var withData := AddData(tree, keyed, nodeKey, dataKey);
      var named := FieldMissing(withData, "NCBI", Some("name")).0;
      var grouped := AccumulateIfMissing(named, "group_size").value;
      var matched := AccumulateIfMissing(grouped, "matched_size").value;
      var stats := CalcStats(matched).value;
      var rooted := CalcRootStats(stats).value;
      AddDataPointwise(tree, keyed, nodeKey, dataKey);
      RolledUpKeepsCount(named, grouped, "group_size", CountMissing(Flatten(named), "group_size") > 0);
      RolledUpKeepsCount(grouped, matched, "matched_size", CountMissing(Flatten(grouped), "matched_size") > 0);
      CalcStatsPointwise(matched);
      RootStatsKeepConsistency(stats, rooted);
      PieKeepsConsistency(rooted, r.value);
    }
  }

  /** Two nodes with the same children list the same descendants after their roots. */
  lemma SameDescendants(a: Node, b: Node)
    requires a.children == b.children
    ensures |Flatten(a)| == |Flatten(b)|
    ensures forall i :: 0 < i < |Flatten(a)| ==> Flatten(a)[i] == Flatten(b)[i]
  {
    assert Flatten(a)[1..] == FlattenAll(a.children) == Flatten(b)[1..];
  }

  /** After `calc_root_stats` every node of the tree, the root included, still has a consistent fraction. */
  lemma RootStatsKeepConsistency(stats: Node, rooted: Node)
    requires CalcRootStats(stats) == Ok(rooted)
    requires forall i :: 0 <= i < |Flatten(stats)| ==> FractionConsistent(Flatten(stats)[i].fields)
    ensures Count(rooted) == Count(stats) && |rooted.children| == |stats.children|
    ensures forall i :: 0 <= i < |Flatten(rooted)| ==> FractionConsistent(Flatten(rooted)[i].fields)
    ensures Numeric(rooted.fields["group_size"]) == Some(SumField(rooted.children, "group_size"))
    ensures Numeric(rooted.fields["matched_size"]) == Some(SumField(rooted.children, "matched_size"))
  {
    SameDescendants(rooted, stats);
    var fr := Flatten(rooted);
    var fs := Flatten(stats);
    forall i | 0 <= i < |fr|
      ensures FractionConsistent(fr[i].fields)
    {
      if i > 0 {
        assert fr[i] == fs[i];
      }
    }
  }

  /** `pie_data` is the only member the pie pass adds, so a consistent fraction stays consistent. */
  lemma PieKeepsFraction(fs: Fields)
    requires FractionConsistent(fs) && PieFields(fs).Ok?
    ensures FractionConsistent(PieFields(fs).value)
  {
    var r := PieFields(fs).value;
    SameSizesSameFraction(fs, r);
  }

  /** Consistency reads only the three size members. */
  lemma SameSizesSameFraction(a: Fields, b: Fields)
    requires FractionConsistent(a)
    requires forall k :: k in {"occurrence_fraction", "group_size", "matched_size"} && k in a ==> k in b && b[k] == a[k]
    ensures FractionConsistent(b)
  {
  }

  /** Adding the pie charts keeps every fraction consistent and gives every node its pie. */
  lemma PieKeepsConsistency(rooted: Node, r: Node)
    requires AddPie(rooted) == Ok(r)
    requires forall i :: 0 <= i < |Flatten(rooted)| ==> FractionConsistent(Flatten(rooted)[i].fields)
    requires Numeric(rooted.fields["group_size"]) == Some(SumField(rooted.children, "group_size"))
    requires Numeric(rooted.fields["matched_size"]) == Some(SumField(rooted.children, "matched_size"))
    ensures Count(r) == Count(rooted) && |r.children| == |rooted.children|
    ensures forall i :: 0 <= i < |Flatten(r)| ==> FractionConsistent(Flatten(r)[i].fields)
    ensures forall i :: 0 <= i < |Flatten(r)| ==> HasPie(Flatten(r)[i].fields)
    ensures Numeric(r.fields["group_size"]) == Some(SumField(r.children, "group_size"))
    ensures Numeric(r.fields["matched_size"]) == Some(SumField(r.children, "matched_size"))
  {
    AddPiePointwise(rooted);
    var a := Flatten(rooted);
    var b := Flatten(r);
    forall i | 0 <= i < |b|
      ensures FractionConsistent(b[i].fields)
    {
      assert PieFields(a[i].fields) == Ok(b[i].fields);
      PieKeepsFraction(a[i].fields);
    }
    PieRoot(rooted, r);
  }

  /** The pie pass keeps the root's sizes and the sums of its children's sizes. */
  lemma PieRoot(rooted: Node, r: Node)
    requires AddPie(rooted) == Ok(r)
    ensures r.fields["group_size"] == rooted.fields["group_size"]
    ensures r.fields["matched_size"] == rooted.fields["matched_size"]
    ensures SumField(r.children, "group_size") == SumField(rooted.children, "group_size")
    ensures SumField(r.children, "matched_size") == SumField(rooted.children, "matched_size")
  {
    assert PieFields(rooted.fields) == Ok(r.fields);
    assert r.children == TryMapAllPre(rooted.children, PieFields).value;
    PieChildrenSums(rooted.children, r.children);
  }

  /** Adding pie data to a list of siblings leaves the sums of their sizes alone. */
  lemma PieChildrenSums(cs: seq<Node>, ps: seq<Node>)
    requires TryMapAllPre(cs, PieFields) == Ok(ps)
    ensures SumField(ps, "group_size") == SumField(cs, "group_size")
    ensures SumField(ps, "matched_size") == SumField(cs, "matched_size")
  {
    if |cs| > 0 {
      var c := TryMapPre(cs[0], PieFields).value;
      var rest := TryMapAllPre(cs[1..], PieFields).value;
      assert ps == [c] + rest;
      assert ps[1..] == rest;
      PieChildrenSums(cs[1..], rest);
    }
  }

  /** An accumulation pass, when it runs, keeps the node count. */
  lemma RolledUpKeepsCount(orig: Node, acc: Node, field: string, ran: bool)
    requires ran ==> RolledUp(orig, acc, field)
    requires !ran ==> acc == orig
    ensures Count(acc) == Count(orig) && |acc.children| == |orig.children|
  {
    if ran {
      RolledUpFlatten(orig, acc, field);
    }
  }

  lemma {:induction false} RolledUpFlatten(orig: Node, acc: Node, field: string)
    requires RolledUp(orig, acc, field)
    ensures |Flatten(acc)| == |Flatten(orig)|
    decreases orig, 1
  {
    RolledUpFlattenAll(orig.children, acc.children, field);
  }

  lemma {:induction false} RolledUpFlattenAll(os: seq<Node>, as_: seq<Node>, field: string)
    requires |os| == |as_|
    requires forall i :: 0 <= i < |os| ==> RolledUp(os[i], as_[i], field)
    ensures |FlattenAll(as_)| == |FlattenAll(os)|
    decreases os, 0
  {
    if |os| > 0 {
      RolledUpFlatten(os[0], as_[0], field);
      RolledUpFlattenAll(os[1..], as_[1..], field);
    }
  }
}

=== FILE: personal_care_tree.dfy ===
/**
 * trees/personalCareProduct_masst_tree/personalCareProduct_tree_generator.py,
 * lines 36-131: the personal care product table and tree.  Peak-file USIs
 * of two MassIVE datasets are filtered, joined with a file-to-category
 * table on the file name, and rewritten to file USIs; every category is a
 * path `A > B > C`, each name on a path is counted, consecutive names are
 * edges, and the tree is built from the first counted name downwards.
 *
 * Category paths that loop back on themselves would make the Python
 * recursion run forever; the model asks for a rank on names that falls
 * along every edge, used only as the termination measure.
 */
module PersonalCareTree {
  import opened Results
  import opened Strs
  import opened Json

  // ---------------------------------------------------------------------
  // Lines 36-47: the USI table
  // ---------------------------------------------------------------------

  /** A row of the unique-MRI listing: the `usi` and `dataset` columns. */
  datatype Mri = Mri(usi: string, dataset: string)

  /** Lines 38-42: peak files only, and no mixes, low-nitrogen runs, tests or washes. */
  predicate KeptUsi(usi: string) {
    && Contains(usi, ":peak/")
    && !Contains(usi, "six_mix")
    && !Contains(usi, "low_nitrogen")
    && !Contains(usi, "test")
    && !Contains(usi, "wash")
  }

  /** The kept rows, in table order. */
  function FilterMris(ms: seq<Mri>): (r: seq<Mri>)
    ensures |r| <= |ms|
    ensures forall m :: m in r <==> m in ms && KeptUsi(m.usi)
    ensures |ms| == 1 ==> r == if KeptUsi(ms[0].usi) then ms else []
  {
    if |ms| == 0 then []
    else
      assert forall m :: m in ms <==> m == ms[0] || m in ms[1..];
      (if KeptUsi(ms[0].usi) then [ms[0]] else []) + FilterMris(ms[1..])
  }

  /** Filtering keeps table order: two runs of rows are filtered one after the other. */
  lemma {:induction false} FilterMrisAppend(a: seq<Mri>, b: seq<Mri>)
    ensures FilterMris(a + b) == FilterMris(a) + FilterMris(b)
  {
    if |a| == 0 {
      assert a + b == b;
    } else {
      FilterMrisAppend(a[1..], b);
      FilterMrisCons(a[0], a[1..] + b);
      FilterMrisCons(a[0], a[1..]);
      assert a + b == [a[0]] + (a[1..] + b);
      assert a == [a[0]] + a[1..];
      ConcatAssoc(if KeptUsi(a[0].usi) then [a[0]] else [], FilterMris(a[1..]), FilterMris(b));
    }
  }

  lemma FilterMrisCons(m: Mri, rest: seq<Mri>)
    ensures FilterMris([m] + rest) == (if KeptUsi(m.usi) then [m] else []) + FilterMris(rest)
  {
    assert ([m] + rest)[1..] == rest;
  }

  function Last(parts: seq<string>): string
    requires |parts| > 0
  {
    parts[|parts| - 1]
  }

  /** Line 46: the last `/` piece of the USI. */
  function MriFilename(usi: string): (r: string)
    ensures '/' !in r
  {
    SplitPartsFree(usi, "/");
    var name := Last(Split(usi, "/"));
    forall k | 0 <= k < |name| ensures name[k] != '/' {
      OccursChar(name, '/', k);
    }
    name
  }

  /** Line 47: the file name up to its first `.`. */
  function MriId(usi: string): (r: string)
    ensures '.' !in r && StartsWith(MriFilename(usi), r)
  {
    var f := MriFilename(usi);
    SplitPartsFree(f, ".");
    var id := Split(f, ".")[0];
    forall k | 0 <= k < |id| ensures id[k] != '.' {
      OccursChar(id, '.', k);
    }
    SplitFirstPiece(f, ".");
    id
  }

  /** The first piece of a split is a prefix of the text. */
  lemma SplitFirstPiece(s: string, sep: string)
    requires |sep| > 0
    ensures StartsWith(s, Split(s, sep)[0])
  {
  }

  // ---------------------------------------------------------------------
  // Lines 50-65: the file associations, the join and the USI rewrite
  // ---------------------------------------------------------------------

  /** A row of the file-to-category table. */
  datatype Assoc = Assoc(filename: string, category: string)

  const PathSep := " > "

  /** Line 54: the last name on the category path. */
  function NodeId(category: string): (r: string)
    ensures !Contains(r, PathSep)
    ensures !Contains(category, PathSep) ==> r == category
  {
    var parts := Split(category, PathSep);
    SplitPartsFree(category, PathSep);
    SplitOnePart(category, PathSep);
    Last(parts)
  }

  /** Line 65: the first two `:` fields, then `:`, then the last `/` piece without `.mzML`. */
  function RewriteUsi(usi: string): (r: string)
    ensures StartsWith(r, Join(Front(Split(usi, ":")), ":") + ":")
  {
    Join(Front(Split(usi, ":")), ":") + ":" + ReplaceAll(MriFilename(usi), ".mzML", "")
  }

  /** Python's `parts[:2]`. */
  function Front(parts: seq<string>): (r: seq<string>)
    ensures |r| == if |parts| < 2 then |parts| else 2
    ensures r == parts[..|r|]
  {
    if |parts| < 2 then parts else parts[..2]
  }

  /** A peak-file USI `mzspec:D:DIR/NAME` becomes the file USI `mzspec:D:NAME` without `.mzML`. */
  lemma RewritePeakUsi(d: string, dir: string, name: string)
    requires ':' !in d && ':' !in dir && ':' !in name && '/' !in name
    ensures RewriteUsi("mzspec:" + d + ":" + dir + "/" + name) == "mzspec:" + d + ":" + ReplaceAll(name, ".mzML", "")
  {
    var front := "mzspec:" + d + ":";
    Regroup(front + dir, "/", name);
    Regroup(front, dir, "/" + name);
    Regroup(dir, "/", name);
    assert ':' !in dir + "/" + name;
    PeakUsiFront(d, dir + "/" + name);
    PeakUsiFilename(d, dir, name);
  }

  lemma Regroup(x: string, y: string, z: string)
    ensures x + y + z == x + (y + z)
  {
  }

  lemma PeakUsiFront(d: string, rest: string)
    requires ':' !in d && ':' !in rest
    ensures Join(Front(Split("mzspec:" + d + ":" + rest, ":")), ":") == "mzspec:" + d
  {
    var x := "mzspec";
    assert "mzspec:" == x + ":";
    assert ':' !in x;
    FirstTwoOfThree(x, d, rest, ':');
  }

  /** The first two of three `c`-separated fields, joined again. */
  lemma FirstTwoOfThree(x: string, y: string, z: string, c: char)
    requires c !in x && c !in y && c !in z
    ensures Join(Front(Split(x + [c] + y + [c] + z, [c])), [c]) == x + [c] + y
  {
    var parts := [x, y, z];
    JoinThree(x, y, z, c);
    JoinSplitRoundTrip(parts, c);
    assert Front(parts) == [x, y];
    JoinTwo(x, y, c);
  }

  lemma JoinTwo(x: string, y: string, c: char)
    ensures Join([x, y], [c]) == x + [c] + y
  {
    assert [x, y][1..] == [y];
  }

  lemma JoinThree(x: string, y: string, z: string, c: char)
    ensures Join([x, y, z], [c]) == x + [c] + y + [c] + z
  {
    assert [x, y, z][1..] == [y, z];
    JoinTwo(y, z, c);
    assert x + [c] + (y + [c] + z) == x + [c] + y + [c] + z;
  }

  lemma PeakUsiFilename(d: string, dir: string, name: string)
    requires '/' !in name
    ensures MriFilename("mzspec:" + d + ":" + dir + "/" + name) == name
  {
    var usi := "mzspec:" + d + ":" + dir + "/" + name;
    assert usi == ("mzspec:" + d + ":" + dir) + ['/'] + name;
    SplitSnoc("mzspec:" + d + ":" + dir, '/', name);
  }

  /** A row of the product table: `file_usi`, `MassIVE`, `Filename`, `Category`, `node_id`. */
  datatype ProductRow = ProductRow(fileUsi: string, massive: string, filename: string, category: string, nodeId: string)

  function JoinRow(m: Mri, a: Assoc): (o: ProductRow)
    ensures o.massive == m.dataset && o.category == a.category && o.filename == MriFilename(m.usi)
    ensures o.fileUsi == RewriteUsi(m.usi) && o.nodeId == NodeId(a.category)
  {
    ProductRow(RewriteUsi(m.usi), m.dataset, MriFilename(m.usi), a.category, NodeId(a.category))
  }

  /** The rows for one MRI: one per association with its id, in association order. */
  function MatchesFor(m: Mri, as_: seq<Assoc>): (r: seq<ProductRow>)
    ensures forall o :: o in r <==> exists a :: a in as_ && a.filename == MriId(m.usi) && o == JoinRow(m, a)
    ensures |as_| == 1 ==> r == if as_[0].filename == MriId(m.usi) then [JoinRow(m, as_[0])] else []
  {
    if |as_| == 0 then []
    else
      assert forall a :: a in as_ <==> a == as_[0] || a in as_[1..];
      (if as_[0].filename == MriId(m.usi) then [JoinRow(m, as_[0])] else []) + MatchesFor(m, as_[1..])
  }

  /** The matches of one MRI against two runs of associations are those of each run, one after the other. */
  lemma {:induction false} MatchesForAppend(m: Mri, a: seq<Assoc>, b: seq<Assoc>)
    ensures MatchesFor(m, a + b) == MatchesFor(m, a) + MatchesFor(m, b)
  {
    if |a| == 0 {
      assert a + b == b;
    } else {
      MatchesForAppend(m, a[1..], b);
      MatchesForCons(m, a[0], a[1..] + b);
      MatchesForCons(m, a[0], a[1..]);
      assert a + b == [a[0]] + (a[1..] + b);
      assert a == [a[0]] + a[1..];
      ConcatAssoc(if a[0].filename == MriId(m.usi) then [JoinRow(m, a[0])] else [], MatchesFor(m, a[1..]), MatchesFor(m, b));
    }
  }

  lemma MatchesForCons(m: Mri, x: Assoc, rest: seq<Assoc>)
    ensures MatchesFor(m, [x] + rest) == (if x.filename == MriId(m.usi) then [JoinRow(m, x)] else []) + MatchesFor(m, rest)
  {
    assert ([x] + rest)[1..] == rest;
  }

  /**
   * Line 59: the inner join on the id, in the order of the MRI rows and,
   * for one MRI row, in the order of the associations.
   */
  function Merge(ms: seq<Mri>, as_: seq<Assoc>): (r: seq<ProductRow>)
    ensures forall o :: o in r <==> exists m, a :: m in ms && a in as_ && a.filename == MriId(m.usi) && o == JoinRow(m, a)
    ensures |ms| == 1 ==> r == MatchesFor(ms[0], as_)
  {
    if |ms| == 0 then []
    else
      assert forall m :: m in ms <==> m == ms[0] || m in ms[1..];
      MatchesFor(ms[0], as_) + Merge(ms[1..], as_)
  }

  /** The join of two runs of MRI rows is the two runs' joins, one after the other. */
  lemma {:induction false} MergeAppend(a: seq<Mri>, b: seq<Mri>, as_: seq<Assoc>)
    ensures Merge(a + b, as_) == Merge(a, as_) + Merge(b, as_)
  {
    if |a| == 0 {
      assert a + b == b;
    } else {
      MergeAppend(a[1..], b, as_);
      MergeCons(a[0], a[1..] + b, as_);
      MergeCons(a[0], a[1..], as_);
      assert a + b == [a[0]] + (a[1..] + b);
      assert a == [a[0]] + a[1..];
      ConcatAssoc(MatchesFor(a[0], as_), Merge(a[1..], as_), Merge(b, as_));
    }
  }

  lemma MergeCons(m: Mri, rest: seq<Mri>, as_: seq<Assoc>)
    ensures Merge([m] + rest, as_) == MatchesFor(m, as_) + Merge(rest, as_)
  {
    assert ([m] + rest)[1..] == rest;
  }

  /** Lines 36-65: the product table. */
  function ProductTable(ms: seq<Mri>, as_: seq<Assoc>): (r: seq<ProductRow>)
    ensures forall o :: o in r <==>
              exists m, a :: m in ms && KeptUsi(m.usi) && a in as_ && a.filename == MriId(m.usi) && o == JoinRow(m, a)
    ensures |ms| == 1 ==> r == if KeptUsi(ms[0].usi) then MatchesFor(ms[0], as_) else []
  {
    Merge(FilterMris(ms), as_)
  }

  /** The product table of two runs of MRI rows is the two runs' tables, one after the other. */
  lemma ProductTableAppend(a: seq<Mri>, b: seq<Mri>, as_: seq<Assoc>)
    ensures ProductTable(a + b, as_) == ProductTable(a, as_) + ProductTable(b, as_)
  {
    FilterMrisAppend(a, b);
    MergeAppend(FilterMris(a), FilterMris(b), as_);
  }

  function Categories(rows: seq<ProductRow>): (r: seq<string>)
    ensures |r| == |rows| && forall i :: 0 <= i < |rows| ==> r[i] == rows[i].category
  {
    seq(|rows|, i requires 0 <= i < |rows| => rows[i].category)
  }

  // ---------------------------------------------------------------------
  // Lines 77-89: the name counts
  // ---------------------------------------------------------------------

  /** The pieces of a category path. */
  function Path(category: string): (r: seq<string>)
    ensures |r| > 0
  {
    Split(category, PathSep)
  }

  /** The times `x` occurs in `parts`. */
  function Occ(parts: seq<string>, x: string): nat {
    if |parts| == 0 then 0 else (if parts[0] == x then 1 else 0) + Occ(parts[1..], x)
  }

  /** The times `x` occurs on all the category paths together. */
  function Total(cats: seq<string>, x: string): nat {
    if |cats| == 0 then 0 else Occ(Path(cats[0]), x) + Total(cats[1..], x)
  }

  predicate DistinctNames(s: seq<string>) {
    forall i, j :: 0 <= i < j < |s| ==> s[i] != s[j]
  }

  /** The `defaultdict(int)`: counts by name, with the names in insertion order. */
  datatype NameCounter = NameCounter(order: seq<string>, counts: map<string, nat>)

  ghost predicate ValidCounter(c: NameCounter) {
    && DistinctNames(c.order)
    && (forall x :: x in c.counts ==> x in c.order)
    && (forall k :: 0 <= k < |c.order| ==> c.order[k] in c.counts && c.counts[c.order[k]] >= 1)
  }

  function Get(c: NameCounter, x: string): nat {
    if x in c.counts then c.counts[x] else 0
  }

  /** Line 84: `node_counts[x] += 1`. */
  function Bump(c: NameCounter, x: string): (r: NameCounter)
    requires ValidCounter(c)
    ensures ValidCounter(r)
    ensures Get(r, x) == Get(c, x) + 1
    ensures forall y :: y != x ==> Get(r, y) == Get(c, y)
    ensures r.order == if x in c.counts then c.order else c.order + [x]
  {
    if x in c.counts then NameCounter(c.order, c.counts[x := c.counts[x] + 1])
    else
      AppendDistinct(c.order, x);
      NameCounter(c.order + [x], c.counts[x := 1])
  }

  lemma AppendDistinct(order: seq<string>, x: string)
    requires DistinctNames(order) && x !in order
    ensures DistinctNames(order + [x])
  {
  }

  /** Lines 82-84 for one path. */
  function CountParts(c: NameCounter, parts: seq<string>): (r: NameCounter)
    requires ValidCounter(c)
    ensures ValidCounter(r)
    ensures |c.order| <= |r.order| && (|c.order| > 0 ==> r.order[0] == c.order[0])
    ensures |c.order| == 0 && |parts| > 0 ==> |r.order| > 0 && r.order[0] == parts[0]
    decreases |parts|
  {
    if |parts| == 0 then c
    else CountParts(Bump(c, parts[0]), parts[1..])
  }

  /** Each name gains its number of occurrences on the path. */
  lemma {:induction false} CountPartsGet(c: NameCounter, parts: seq<string>, x: string)
    requires ValidCounter(c)
    ensures Get(CountParts(c, parts), x) == Get(c, x) + Occ(parts, x)
    decreases |parts|
  {
    if |parts| > 0 {
      CountPartsGet(Bump(c, parts[0]), parts[1..], x);
    }
  }

  /** Lines 81-84: every path in turn. */
  function CountCategories(c: NameCounter, cats: seq<string>): (r: NameCounter)
    requires ValidCounter(c)
    ensures ValidCounter(r)
    ensures |c.order| <= |r.order| && (|c.order| > 0 ==> r.order[0] == c.order[0])
    ensures |c.order| == 0 && |cats| > 0 ==> |r.order| > 0 && r.order[0] == Path(cats[0])[0]
    decreases |cats|
  {
    if |cats| == 0 then c
    else CountCategories(CountParts(c, Path(cats[0])), cats[1..])
  }

  /** Each name gains its number of occurrences on all the paths. */
  lemma {:induction false} CountCategoriesGet(c: NameCounter, cats: seq<string>, x: string)
    requires ValidCounter(c)
    ensures Get(CountCategories(c, cats), x) == Get(c, x) + Total(cats, x)
    decreases |cats|
  {
    if |cats| > 0 {
      CountPartsGet(c, Path(cats[0]), x);
      CountCategoriesGet(CountParts(c, Path(cats[0])), cats[1..], x);
    }
  }

  /** `node_counts` after the loop: each name counted once per occurrence on any path. */
  function NodeCounts(cats: seq<string>): (r: NameCounter)
    ensures ValidCounter(r)
    ensures forall x :: Get(r, x) == Total(cats, x)
    ensures |r.order| == 0 <==> |cats| == 0
    ensures |cats| > 0 ==> r.order[0] == Path(cats[0])[0]
  {
    var r := CountCategories(NameCounter([], map[]), cats);
    assert forall x :: Get(r, x) == Total(cats, x) by {
      forall x ensures Get(r, x) == Total(cats, x) {
        CountCategoriesGet(NameCounter([], map[]), cats, x);
      }
    }
    TotalAtLeastFirst(cats);
    assert |r.order| == 0 ==> forall x :: Get(r, x) == 0;
    r
  }

  /** The first name of the first path is counted. */
  lemma TotalAtLeastFirst(cats: seq<string>)
    ensures |cats| > 0 ==> Total(cats, Path(cats[0])[0]) >= 1
  {
  }

  // ---------------------------------------------------------------------
  // Lines 92-98: the edge table
  // ---------------------------------------------------------------------

  type Edge = (string, string)

  /** The consecutive pairs of a path. */
  function PathEdges(parts: seq<string>): (r: seq<Edge>)
    ensures forall e :: e in r <==> exists i :: 0 <= i < |parts| - 1 && e == (parts[i], parts[i + 1])
  {
    if |parts| < 2 then []
    else
      var r := seq(|parts| - 1, i requires 0 <= i < |parts| - 1 => (parts[i], parts[i + 1]));
      assert forall i :: 0 <= i < |parts| - 1 ==> r[i] == (parts[i], parts[i + 1]);
      r
  }

  /** An edge of some path. */
  ghost predicate OnSomePath(cats: seq<string>, e: Edge) {
    exists k :: 0 <= k < |cats| && e in PathEdges(Path(cats[k]))
  }

  /** Lines 93-96: the edges of every path, in order, duplicates included. */
  function AllEdges(cats: seq<string>): (r: seq<Edge>)
    ensures forall e :: e in r <==> OnSomePath(cats, e)
  {
    if |cats| == 0 then []
    else
      var rest := AllEdges(cats[1..]);
      assert forall e :: OnSomePath(cats[1..], e) ==> OnSomePath(cats, e) by {
        forall e | OnSomePath(cats[1..], e) ensures OnSomePath(cats, e) {
          var k :| 0 <= k < |cats| - 1 && e in PathEdges(Path(cats[1..][k]));
          assert cats[1..][k] == cats[k + 1];
        }
      }
      assert forall e :: OnSomePath(cats, e) ==> e in PathEdges(Path(cats[0])) || OnSomePath(cats[1..], e) by {
        forall e | OnSomePath(cats, e) ensures e in PathEdges(Path(cats[0])) || OnSomePath(cats[1..], e) {
          var k :| 0 <= k < |cats| && e in PathEdges(Path(cats[k]));
          if k > 0 {
            assert cats[1..][k - 1] == cats[k];
          }
        }
      }
      PathEdges(Path(cats[0])) + rest
  }

  /** `drop_duplicates()`: the first of equal edges stays, later ones and those in `seen` go. */
  function Dedup(es: seq<Edge>, seen: set<Edge>): (r: seq<Edge>)
    ensures forall e :: e in r <==> e in es && e !in seen
    ensures forall i, j :: 0 <= i < j < |r| ==> r[i] != r[j]
  {
    if |es| == 0 then []
    else if es[0] in seen then Dedup(es[1..], seen)
    else
      var rest := Dedup(es[1..], seen + {es[0]});
      assert forall e :: e in es <==> e == es[0] || e in es[1..];
      [es[0]] + rest
  }

  /** Line 98: each edge of a path once. */
  function EdgeTable(cats: seq<string>): (r: seq<Edge>)
    ensures forall e :: e in r <==> OnSomePath(cats, e)
    ensures forall i, j :: 0 <= i < j < |r| ==> r[i] != r[j]
  {
    Dedup(AllEdges(cats), {})
  }

  /** Both ends of every edge are counted names, so the lookup on line 121 finds a row. */
  lemma EdgeEndsCounted(cats: seq<string>, e: Edge)
    requires e in EdgeTable(cats)
    ensures Get(NodeCounts(cats), e.0) >= 1 && Get(NodeCounts(cats), e.1) >= 1
  {
    var k, i := EdgePosition(cats, e);
    OccOnPath(Path(cats[k]), i);
    OccOnPath(Path(cats[k]), i + 1);
    TotalAtLeastOcc(cats, k, e.0);
    TotalAtLeastOcc(cats, k, e.1);
    NodeCountsTotal(cats, e.0);
    NodeCountsTotal(cats, e.1);
  }

  /** Where an edge of the table comes from: path `k`, between its parts `i` and `i + 1`. */
  lemma EdgePosition(cats: seq<string>, e: Edge) returns (k: nat, i: nat)
    requires e in EdgeTable(cats)
    ensures k < |cats| && i + 1 < |Path(cats[k])|
    ensures e == (Path(cats[k])[i], Path(cats[k])[i + 1])
  {
    assert OnSomePath(cats, e);
    k :| 0 <= k < |cats| && e in PathEdges(Path(cats[k]));
    var parts := Path(cats[k]);
    i :| 0 <= i < |parts| - 1 && e == (parts[i], parts[i + 1]);
  }

  lemma NodeCountsTotal(cats: seq<string>, x: string)
    ensures Get(NodeCounts(cats), x) == Total(cats, x)
  {
  }

  lemma {:induction false} OccOnPath(parts: seq<string>, i: nat)
    requires i < |parts|
    ensures Occ(parts, parts[i]) >= 1
  {
    if i > 0 {
      OccOnPath(parts[1..], i - 1);
      assert parts[1..][i - 1] == parts[i];
    }
  }

  lemma {:induction false} TotalAtLeastOcc(cats: seq<string>, k: nat, x: string)
    requires k < |cats|
    ensures Total(cats, x) >= Occ(Path(cats[k]), x)
  {
    if k > 0 {
      TotalAtLeastOcc(cats[1..], k - 1, x);
      assert cats[1..][k - 1] == cats[k];
    }
  }

  // ---------------------------------------------------------------------
  // Lines 101-134: build_tree
  // ---------------------------------------------------------------------

  /** Line 115: the targets of the edges out of `name`, in edge order. */
  function Targets(edges: seq<Edge>, name: string): (r: seq<string>)
    ensures forall t :: t in r <==> (name, t) in edges
    ensures |r| <= |edges|
  {
    if |edges| == 0 then []
    else
      assert forall e :: e in edges <==> e == edges[0] || e in edges[1..];
      (if edges[0].0 == name then [edges[0].1] else []) + Targets(edges[1..], name)
  }

  /** A rank on names that falls along every edge: no path loops back. */
  ghost predicate EdgesRanked(edges: seq<Edge>, rank: map<string, nat>) {
    forall e :: e in edges ==> e.0 in rank && e.1 in rank && rank[e.1] < rank[e.0]
  }

  ghost function Height(name: string, rank: map<string, nat>): nat {
    if name in rank then rank[name] else 0
  }

  /** The members of a node's dict. */
  function NodeFields(id: string, name: string, size: int): (fs: Fields)
    ensures "ID" in fs && "name" in fs && "group_size" in fs
    ensures fs["ID"] == Str(id) && fs["name"] == Str(name) && fs["group_size"] == Int(size)
  {
    map["ID" := Str(id), "duplication" := Str("Y"), "type" := Str("node"), "name" := Str(name), "group_size" := Int(size)]
  }

  /** Lines 115-131: the children of the node for `name` whose ID is `id`. */
  function Children(c: NameCounter, edges: seq<Edge>, name: string, id: string, ghost rank: map<string, nat>): (r: seq<Node>)
    requires EdgesRanked(edges, rank)
    ensures |r| == |Targets(edges, name)|
    decreases Height(name, rank), 1
  {
    ChildNodes(c, edges, Targets(edges, name), name, id, rank)
  }

  /** The nodes for the targets `ts` of `name`: a child's ID is the parent's, `_`, and its name. */
  function ChildNodes(c: NameCounter, edges: seq<Edge>, ts: seq<string>, name: string, id: string,
                      ghost rank: map<string, nat>): (r: seq<Node>)
    requires EdgesRanked(edges, rank) && forall t :: t in ts ==> (name, t) in edges
    ensures |r| == |ts|
    decreases Height(name, rank), 0, |ts|
  {
    if |ts| == 0 then []
    else
      var t := ts[0];
      assert (name, t) in edges;
      var childId := id + "_" + t;
      [Node(NodeFields(childId, t, Get(c, t)), Children(c, edges, t, childId, rank))] +
      ChildNodes(c, edges, ts[1..], name, id, rank)
  }

  /** The `k`-th child node is named after the `k`-th target, with that name's count. */
  lemma {:induction false} ChildNodesFields(c: NameCounter, edges: seq<Edge>, ts: seq<string>, name: string, id: string,
                                            rank: map<string, nat>, k: nat)
    requires EdgesRanked(edges, rank) && (forall t :: t in ts ==> (name, t) in edges) && k < |ts|
    ensures ChildNodes(c, edges, ts, name, id, rank)[k].fields == NodeFields(id + "_" + ts[k], ts[k], Get(c, ts[k]))
    decreases |ts|
  {
    if k > 0 {
      ChildNodesFields(c, edges, ts[1..], name, id, rank, k - 1);
      assert ts[1..][k - 1] == ts[k];
    }
  }

  /** The `k`-th child node carries the subtree of the `k`-th target. */
  lemma {:induction false} ChildNodesChildren(c: NameCounter, edges: seq<Edge>, ts: seq<string>, name: string, id: string,
                                              rank: map<string, nat>, k: nat)
    requires EdgesRanked(edges, rank) && (forall t :: t in ts ==> (name, t) in edges) && k < |ts|
    ensures ChildNodes(c, edges, ts, name, id, rank)[k].children == Children(c, edges, ts[k], id + "_" + ts[k], rank)
    decreases |ts|
  {
    if k > 0 {
      ChildNodesChildren(c, edges, ts[1..], name, id, rank, k - 1);
      assert ts[1..][k - 1] == ts[k];
    }
  }

  /**
   * Lines 98-134: the tree of the category paths.  The root is the first
   * counted name, its ID is its name; with no paths at all `iloc[0]`
   * raises `IndexError`.
   */
  function BuildTree(cats: seq<string>, rank: map<string, nat>): (r: Result<Node>)
    requires EdgesRanked(EdgeTable(cats), rank)
    ensures r.Err? <==> |cats| == 0
    ensures r.Err? ==> r.error == IndexError
    ensures r.Ok? ==>
              var root := Path(cats[0])[0];
              r.value.fields == NodeFields(root, root, Total(cats, root)) &&
              r.value.children == Children(NodeCounts(cats), EdgeTable(cats), root, root, rank)
  {
    var c := NodeCounts(cats);
    if |c.order| == 0 then Err(IndexError)
    else
      var root := c.order[0];
      Ok(Node(NodeFields(root, root, Get(c, root)), Children(c, EdgeTable(cats), root, root, rank)))
  }

  /** Every child node of `name` is an edge target, with its name's count as its size. */
  lemma ChildNodeFacts(cats: seq<string>, rank: map<string, nat>, name: string, id: string, k: nat)
    requires EdgesRanked(EdgeTable(cats), rank)
    requires k < |Children(NodeCounts(cats), EdgeTable(cats), name, id, rank)|
    ensures var n := Children(NodeCounts(cats), EdgeTable(cats), name, id, rank)[k];
            var t := Targets(EdgeTable(cats), name)[k];
            && OnSomePath(cats, (name, t))
            && n.fields == NodeFields(id + "_" + t, t, Total(cats, t))
            && Total(cats, t) >= 1
            && n.children == Children(NodeCounts(cats), EdgeTable(cats), t, id + "_" + t, rank)
  {
    var edges := EdgeTable(cats);
    var ts := Targets(edges, name);
    assert ts[k] in ts;
    ChildNodesChildren(NodeCounts(cats), edges, ts, name, id, rank, k);
    ChildNodesFields(NodeCounts(cats), edges, ts, name, id, rank, k);
    EdgeEndsCounted(cats, (name, ts[k]));
  }

  /** Lines 36-134 end to end: the tree of the joined table's categories. */
  function ProductTree(ms: seq<Mri>, as_: seq<Assoc>, rank: map<string, nat>): (r: Result<Node>)
    requires EdgesRanked(EdgeTable(Categories(ProductTable(ms, as_))), rank)
    ensures r.Err? <==> ProductTable(ms, as_) == []
    ensures r.Ok? ==> "name" in r.value.fields && r.value.fields["name"] == Str(Path(ProductTable(ms, as_)[0].category)[0])
  {
    BuildTree(Categories(ProductTable(ms, as_)), rank)
  }
}

=== FILE: results.dfy ===
/**
 * Failure-carrying wrappers shared by every module of the model.
 *
 * Python code in the modelled repository signals failure in three ways:
 * returning `None`, returning `False`, or raising an exception.  `Option`
 * stands for the first, the modules' own outcome datatypes for the second,
 * and `Result` with an `Error` for the third.
 */
module Results {

  datatype Option<+T> = None | Some(value: T) {
    function GetOr(default: T): T {
      match this
      case Some(v) => v
      case None => default
    }
  }

  /** The Python exception classes the modelled code can raise. */
  datatype Error =
    | KeyError(key: string)
    | TypeError
    | IndexError
    | AttributeError
    | ValueError(message: string)

  datatype Result<+T> = Ok(value: T) | Err(error: Error) {
    predicate IsFailure() {
      Err?
    }

    function PropagateFailure<U>(): Result<U>
      requires Err?
    {
      Err(error)
    }

    function Extract(): T
      requires Ok?
    {
      value
    }
  }
}

=== FILE: sample_counts.dfy ===
/**
 * code/prepare_sample_counts_tree.py: recompute every node's `group_size`
 * from a metadata table, list the tree's ids, and find the metadata rows
 * that no node of the tree names.
 */
module SampleCounts {
  import opened Results
  import opened Json
  import OntologyExtender

  // ---------------------------------------------------------------------
  // Counting rows
  // ---------------------------------------------------------------------

  /** `(metadata_df[data_key].values == id).sum()`: the rows whose key cell equals `id`. */
  function Direct(rows: seq<Row>, dataKey: string, id: Value): nat {
    if |rows| == 0 then 0
    else Direct(rows[..|rows| - 1], dataKey, id) + (if Cell(rows[|rows| - 1], dataKey) == id then 1 else 0)
  }

  /** The sum of the direct counts of a list of ids. */
  function SumDirect(rows: seq<Row>, dataKey: string, ids: seq<Value>): nat {
    if |ids| == 0 then 0 else Direct(rows, dataKey, ids[0]) + SumDirect(rows, dataKey, ids[1..])
  }

  lemma {:induction false} SumDirectAppend(rows: seq<Row>, dataKey: string, a: seq<Value>, b: seq<Value>)
    ensures SumDirect(rows, dataKey, a + b) == SumDirect(rows, dataKey, a) + SumDirect(rows, dataKey, b)
  {
    if |a| == 0 {
      assert a + b == b;
    } else {
      assert (a + b)[1..] == a[1..] + b;
      SumDirectAppend(rows, dataKey, a[1..], b);
    }
  }

  // ---------------------------------------------------------------------
  // get_all_ids
  // ---------------------------------------------------------------------

  /** Every node of the tree has the member `nodeKey`. */
  predicate AllHaveKey(n: Node, nodeKey: string)
    decreases n
  {
    nodeKey in n.fields && forall i :: 0 <= i < |n.children| ==> AllHaveKey(n.children[i], nodeKey)
  }

  predicate AllHaveKeyAll(ns: seq<Node>, nodeKey: string) {
    forall i :: 0 <= i < |ns| ==> AllHaveKey(ns[i], nodeKey)
  }

  /**
   * `get_all_ids`: the ids of all nodes in pre-order, root first.  It raises
   * `KeyError` at the first node, in pre-order, without the key.
   */
  function GetAllIds(n: Node, nodeKey: string): (r: Result<seq<Value>>)
    ensures r.Ok? <==> AllHaveKey(n, nodeKey)
    ensures r.Err? ==> r.error == KeyError(nodeKey)
    ensures r.Ok? ==> |r.value| == Count(n)
    ensures r.Ok? ==> forall i :: 0 <= i < |r.value| ==>
              nodeKey in Flatten(n)[i].fields && r.value[i] == Flatten(n)[i].fields[nodeKey]
    decreases n, 1
  {
    var id :- Lookup(n.fields, nodeKey);
    var rest :- GetAllIdsAll(n.children, nodeKey);
    Ok([id] + rest)
  }

  function GetAllIdsAll(ns: seq<Node>, nodeKey: string): (r: Result<seq<Value>>)
    ensures r.Ok? <==> AllHaveKeyAll(ns, nodeKey)
    ensures r.Err? ==> r.error == KeyError(nodeKey)
    ensures r.Ok? ==> |r.value| == |FlattenAll(ns)|
    ensures r.Ok? ==> forall i :: 0 <= i < |r.value| ==>
              nodeKey in FlattenAll(ns)[i].fields && r.value[i] == FlattenAll(ns)[i].fields[nodeKey]
    decreases ns, 0
  {
    if |ns| == 0 then Ok([])
    else
      var first :- GetAllIds(ns[0], nodeKey);
      var rest :- GetAllIdsAll(ns[1..], nodeKey);
      assert forall i :: 1 <= i < |ns| ==> ns[i] == ns[1..][i - 1];
      Ok(first + rest)
  }

  // ---------------------------------------------------------------------
  // update_group_size
  // ---------------------------------------------------------------------

  /** A node's `group_size` as an integer (0 when it has none). */
  function GroupSize(n: Node): int {
    if "group_size" in n.fields && n.fields["group_size"].Int? then n.fields["group_size"].i else 0
  }

  function SumGroupSizes(ns: seq<Node>): int {
    if |ns| == 0 then 0 else GroupSize(ns[0]) + SumGroupSizes(ns[1..])
  }

  /**
   * `upd` is `orig` after `update_group_size`: every node's `group_size`
   * is its own row count plus its children's new sizes, and nothing else
   * changes.
   */
  ghost predicate Counted(orig: Node, upd: Node, rows: seq<Row>, nodeKey: string, dataKey: string)
    decreases orig
  {
    && nodeKey in orig.fields
    && |upd.children| == |orig.children|
    && upd.fields == orig.fields["group_size" := Int(GroupSize(upd))]
    && GroupSize(upd) == Direct(rows, dataKey, orig.fields[nodeKey]) + SumGroupSizes(upd.children)
    && forall i :: 0 <= i < |orig.children| ==> Counted(orig.children[i], upd.children[i], rows, nodeKey, dataKey)
  }

  /**
   * `update_group_size`: returns the new tree and the value stored at its
   * root, which counts every (row, node) pair whose keys agree.
   */
  function UpdateGroupSize(n: Node, rows: seq<Row>, nodeKey: string, dataKey: string): (r: Result<(Node, nat)>)
    ensures r.Ok? <==> AllHaveKey(n, nodeKey)
    ensures r.Ok? ==> Counted(n, r.value.0, rows, nodeKey, dataKey)
    ensures r.Ok? ==> GroupSize(r.value.0) == r.value.1
    decreases n, 1
  {
    var id :- Lookup(n.fields, nodeKey);
    var p :- UpdateAll(n.children, rows, nodeKey, dataKey);
    var total := Direct(rows, dataKey, id) + p.1;
    Ok((Node(n.fields["group_size" := Int(total)], p.0), total))
  }

  function UpdateAll(ns: seq<Node>, rows: seq<Row>, nodeKey: string, dataKey: string): (r: Result<(seq<Node>, nat)>)
    ensures r.Ok? <==> AllHaveKeyAll(ns, nodeKey)
    ensures r.Ok? ==> |r.value.0| == |ns|
    ensures r.Ok? ==> forall i :: 0 <= i < |ns| ==> Counted(ns[i], r.value.0[i], rows, nodeKey, dataKey)
    ensures r.Ok? ==> r.value.1 == SumGroupSizes(r.value.0)
    decreases ns, 0
  {
    if |ns| == 0 then Ok(([], 0))
    else
      AllHaveKeyAllCons(ns, nodeKey);
      var c :- UpdateGroupSize(ns[0], rows, nodeKey, dataKey);
      var rest :- UpdateAll(ns[1..], rows, nodeKey, dataKey);
      CountedCons(ns, c.0, rest.0, rows, nodeKey, dataKey);
      Ok(([c.0] + rest.0, c.1 + rest.1))
  }

  /** The size stored at the root counts the rows of every id in the tree. */
  lemma {:induction false} GroupSizeIsSumDirect(n: Node, rows: seq<Row>, nodeKey: string, dataKey: string)
    requires UpdateGroupSize(n, rows, nodeKey, dataKey).Ok?
    ensures UpdateGroupSize(n, rows, nodeKey, dataKey).value.1 == SumDirect(rows, dataKey, GetAllIds(n, nodeKey).value)
    decreases n, 1
  {
    var id := n.fields[nodeKey];
    var ids := GetAllIdsAll(n.children, nodeKey).value;
    AllSizesAreSumDirect(n.children, rows, nodeKey, dataKey);
    SumDirectAppend(rows, dataKey, [id], ids);
    assert [id] + ids == GetAllIds(n, nodeKey).value;
  }

  lemma {:induction false} AllSizesAreSumDirect(ns: seq<Node>, rows: seq<Row>, nodeKey: string, dataKey: string)
    requires UpdateAll(ns, rows, nodeKey, dataKey).Ok?
    ensures UpdateAll(ns, rows, nodeKey, dataKey).value.1 == SumDirect(rows, dataKey, GetAllIdsAll(ns, nodeKey).value)
    decreases ns, 0
  {
    if |ns| > 0 {
      AllHaveKeyAllCons(ns, nodeKey);
      GroupSizeIsSumDirect(ns[0], rows, nodeKey, dataKey);
      AllSizesAreSumDirect(ns[1..], rows, nodeKey, dataKey);
      SumDirectAppend(rows, dataKey, GetAllIds(ns[0], nodeKey).value, GetAllIdsAll(ns[1..], nodeKey).value);
    }
  }

  lemma AllHaveKeyAllCons(ns: seq<Node>, nodeKey: string)
    requires |ns| > 0
    ensures AllHaveKeyAll(ns, nodeKey) <==> AllHaveKey(ns[0], nodeKey) && AllHaveKeyAll(ns[1..], nodeKey)
  {
    assert forall i :: 1 <= i < |ns| ==> ns[i] == ns[1..][i - 1];
  }

  /** The counted first node before the counted rest: a counted list, with the sizes added. */
  lemma CountedCons(ns: seq<Node>, c: Node, rest: seq<Node>, rows: seq<Row>, nodeKey: string, dataKey: string)
    requires |ns| > 0 && |rest| == |ns| - 1
    requires Counted(ns[0], c, rows, nodeKey, dataKey)
    requires forall i :: 0 <= i < |rest| ==> Counted(ns[1..][i], rest[i], rows, nodeKey, dataKey)
    ensures forall i :: 0 <= i < |ns| ==> Counted(ns[i], ([c] + rest)[i], rows, nodeKey, dataKey)
    ensures SumGroupSizes([c] + rest) == GroupSize(c) + SumGroupSizes(rest)
  {
    assert ([c] + rest)[1..] == rest;
    forall i | 1 <= i < |ns| ensures Counted(ns[i], ([c] + rest)[i], rows, nodeKey, dataKey) {
      assert ns[i] == ns[1..][i - 1] && ([c] + rest)[i] == rest[i - 1];
    }
  }

  /** A childless node's size is its own row count. */
  lemma LeafCount(n: Node, rows: seq<Row>, nodeKey: string, dataKey: string)
    requires |n.children| == 0 && nodeKey in n.fields
    ensures UpdateGroupSize(n, rows, nodeKey, dataKey).Ok?
    ensures UpdateGroupSize(n, rows, nodeKey, dataKey).value.1 == Direct(rows, dataKey, n.fields[nodeKey])
  {
    assert UpdateAll(n.children, rows, nodeKey, dataKey) == Ok(([], 0));
  }

  lemma {:induction false} SumGroupSizesBounds(ns: seq<Node>, k: int)
    requires 0 <= k < |ns|
    requires forall i :: 0 <= i < |ns| ==> GroupSize(ns[i]) >= 0
    ensures GroupSize(ns[k]) <= SumGroupSizes(ns)
  {
    if k > 0 {
      SumGroupSizesBounds(ns[1..], k - 1);
      assert SumGroupSizes(ns[1..]) >= 0 by {
        SumGroupSizesNonNeg(ns[1..]);
      }
    } else {
      SumGroupSizesNonNeg(ns[1..]);
    }
  }

  lemma {:induction false} SumGroupSizesNonNeg(ns: seq<Node>)
    requires forall i :: 0 <= i < |ns| ==> GroupSize(ns[i]) >= 0
    ensures SumGroupSizes(ns) >= 0
  {
    if |ns| > 0 {
      SumGroupSizesNonNeg(ns[1..]);
    }
  }

  lemma {:induction false} CountedNonNeg(orig: Node, upd: Node, rows: seq<Row>, nodeKey: string, dataKey: string)
    requires Counted(orig, upd, rows, nodeKey, dataKey)
    ensures GroupSize(upd) >= 0
    decreases orig
  {
    forall i | 0 <= i < |upd.children|
      ensures GroupSize(upd.children[i]) >= 0
    {
      CountedNonNeg(orig.children[i], upd.children[i], rows, nodeKey, dataKey);
    }
    SumGroupSizesNonNeg(upd.children);
  }

  /** A parent's new `group_size` is at least each child's. */
  lemma ParentAtLeastChild(orig: Node, upd: Node, rows: seq<Row>, nodeKey: string, dataKey: string, k: int)
    requires Counted(orig, upd, rows, nodeKey, dataKey)
    requires 0 <= k < |upd.children|
    ensures GroupSize(upd.children[k]) <= GroupSize(upd)
  {
    forall i | 0 <= i < |upd.children|
      ensures GroupSize(upd.children[i]) >= 0
    {
      CountedNonNeg(orig.children[i], upd.children[i], rows, nodeKey, dataKey);
    }
    SumGroupSizesBounds(upd.children, k);
  }

  // ---------------------------------------------------------------------
  // update_metadata_on_tree, lines 54-58
  // ---------------------------------------------------------------------

  /** `df[~df[data_key].isin(ids)]`: the rows whose key is not an id of the tree, in table order. */
  function NotInTree(rows: seq<Row>, dataKey: string, ids: seq<Value>): (r: seq<Row>)
    ensures forall x :: x in r <==> x in rows && Cell(x, dataKey) !in ids
  {
    if |rows| == 0 then []
    else
      var init := rows[..|rows| - 1];
      var last := rows[|rows| - 1];
      assert rows == init + [last];
      NotInTree(init, dataKey, ids) + (if Cell(last, dataKey) !in ids then [last] else [])
  }

  /** The number of rows whose key is an id of the tree. */
  function InTreeCount(rows: seq<Row>, dataKey: string, ids: seq<Value>): nat {
    if |rows| == 0 then 0
    else InTreeCount(rows[..|rows| - 1], dataKey, ids) + (if Cell(rows[|rows| - 1], dataKey) in ids then 1 else 0)
  }

  lemma {:induction false} NotInTreeSize(rows: seq<Row>, dataKey: string, ids: seq<Value>)
    ensures |NotInTree(rows, dataKey, ids)| + InTreeCount(rows, dataKey, ids) == |rows|
  {
    if |rows| > 0 {
      NotInTreeSize(rows[..|rows| - 1], dataKey, ids);
    }
  }

  /** How many of the ids a single row's key equals. */
  function HitCount(x: Row, dataKey: string, ids: seq<Value>): nat {
    if |ids| == 0 then 0 else (if Cell(x, dataKey) == ids[0] then 1 else 0) + HitCount(x, dataKey, ids[1..])
  }

  lemma {:induction false} HitCountDistinct(x: Row, dataKey: string, ids: seq<Value>)
    requires Distinct(ids)
    ensures HitCount(x, dataKey, ids) == if Cell(x, dataKey) in ids then 1 else 0
  {
    if |ids| > 0 {
      HitCountDistinct(x, dataKey, ids[1..]);
      if Cell(x, dataKey) == ids[0] {
        assert ids[0] !in ids[1..];
      } else if Cell(x, dataKey) in ids {
        assert Cell(x, dataKey) in ids[1..];
      }
    }
  }

  lemma {:induction false} SumDirectSnoc(rows: seq<Row>, x: Row, dataKey: string, ids: seq<Value>)
    ensures SumDirect(rows + [x], dataKey, ids) == SumDirect(rows, dataKey, ids) + HitCount(x, dataKey, ids)
  {
    if |ids| > 0 {
      SumDirectSnoc(rows, x, dataKey, ids[1..]);
      assert (rows + [x])[..|rows + [x]| - 1] == rows;
    }
  }

  lemma {:induction false} SumDirectNoRows(dataKey: string, ids: seq<Value>)
    ensures SumDirect([], dataKey, ids) == 0
  {
    if |ids| > 0 {
      SumDirectNoRows(dataKey, ids[1..]);
    }
  }

  /** With pairwise distinct ids, no row is counted twice. */
  lemma {:induction false} SumDirectDistinct(rows: seq<Row>, dataKey: string, ids: seq<Value>)
    requires Distinct(ids)
    ensures SumDirect(rows, dataKey, ids) == InTreeCount(rows, dataKey, ids)
  {
    if |rows| == 0 {
      SumDirectNoRows(dataKey, ids);
    } else {
      var init := rows[..|rows| - 1];
      var x := rows[|rows| - 1];
      assert rows == init + [x];
      SumDirectDistinct(init, dataKey, ids);
      SumDirectSnoc(init, x, dataKey, ids);
      HitCountDistinct(x, dataKey, ids);
    }
  }

  /**
   * When the tree's ids are pairwise distinct, the root's `group_size` and
   * the not-in-tree rows together account for every metadata row exactly once.
   */
  lemma RowsAccountedFor(n: Node, rows: seq<Row>, nodeKey: string, dataKey: string)
    requires AllHaveKey(n, nodeKey)
    requires Distinct(GetAllIds(n, nodeKey).value)
    ensures UpdateGroupSize(n, rows, nodeKey, dataKey).value.1
            + |NotInTree(rows, dataKey, GetAllIds(n, nodeKey).value)| == |rows|
  {
    var ids := GetAllIds(n, nodeKey).value;
    GroupSizeIsSumDirect(n, rows, nodeKey, dataKey);
    SumDirectDistinct(rows, dataKey, ids);
    NotInTreeSize(rows, dataKey, ids);
  }

  /**
   * `update_metadata_on_tree` without its file I/O: the updated tree and
   * the not-in-tree rows, or `None` (the function's `False`) when the
   * metadata table has no data-key column or a node lacks the key.
   */
  function UpdateMetadataOnTree(tree: Node, columns: seq<string>, table: seq<Row>, nodeKey: string, dataKey: string)
    : (r: Option<(Node, seq<Row>)>)
    ensures r.Some? <==> dataKey in columns && AllHaveKey(tree, nodeKey)
    ensures r.Some? ==>
              var rows := OntologyExtender.StringKeys(columns, table, dataKey).value;
              && Counted(tree, r.value.0, rows, nodeKey, dataKey)
              && AllHaveKey(r.value.0, nodeKey)
              && forall x :: x in r.value.1 <==> x in rows && Cell(x, dataKey) !in GetAllIds(r.value.0, nodeKey).value
  {
    match OntologyExtender.StringKeys(columns, table, dataKey)
    case Err(_) => None
    case Ok(rows) =>
      match UpdateGroupSize(tree, rows, nodeKey, dataKey)
      case Err(_) => None
      case Ok(p) =>
        CountedKeepsKeys(tree, p.0, rows, nodeKey, dataKey);
        Some((p.0, NotInTree(rows, dataKey, GetAllIds(p.0, nodeKey).value)))
  }

  lemma {:induction false} CountedKeepsKeys(orig: Node, upd: Node, rows: seq<Row>, nodeKey: string, dataKey: string)
    requires Counted(orig, upd, rows, nodeKey, dataKey)
    ensures AllHaveKey(upd, nodeKey)
    decreases orig
  {
    forall i | 0 <= i < |upd.children|
      ensures AllHaveKey(upd.children[i], nodeKey)
    {
      CountedKeepsKeys(orig.children[i], upd.children[i], rows, nodeKey, dataKey);
    }
  }
}

=== FILE: strs.dfy ===
/**
 * The Python `str` methods the modelled code relies on: `startswith`,
 * `endswith`, `in`, `find`, `rfind`, `split` with a separator, `join`,
 * `replace` (all occurrences and first occurrence only) and `strip`,
 * together with `str()` of an integer.  Each is stated over `seq<char>`.
 */
module Strs {
  import opened Results

  /** Concatenation of any sequences is associative. */
  lemma ConcatAssoc<T>(a: seq<T>, b: seq<T>, c: seq<T>)
    ensures a + (b + c) == (a + b) + c
  {
  }

  predicate StartsWith(s: string, p: string) {
    |p| <= |s| && s[..|p|] == p
  }

  predicate EndsWith(s: string, p: string) {
    |p| <= |s| && s[|s| - |p|..] == p
  }

  /** `p` occurs in `s` starting at index `i`. */
  predicate OccursAt(s: string, p: string, i: nat) {
    i + |p| <= |s| && s[i..i + |p|] == p
  }

  /** Python's `p in s`. */
  predicate Contains(s: string, p: string) {
    exists i: nat | i <= |s| :: OccursAt(s, p, i)
  }

  function FindFrom(s: string, p: string, i: nat): (r: Option<nat>)
    ensures r.Some? ==> i <= r.value && OccursAt(s, p, r.value)
    ensures r.Some? ==> forall j: nat :: i <= j < r.value ==> !OccursAt(s, p, j)
    ensures r.None? ==> forall j: nat :: i <= j ==> !OccursAt(s, p, j)
    decreases |s| - i
  {
    if i + |p| > |s| then None
    else if s[i..i + |p|] == p then Some(i)
    else FindFrom(s, p, i + 1)
  }

  /** Python's `s.find(p)`: the first index where `p` occurs, `None` for -1. */
  function Find(s: string, p: string): (r: Option<nat>)
    ensures r.Some? <==> Contains(s, p)
    ensures r.Some? ==> OccursAt(s, p, r.value)
    ensures r.Some? ==> forall j: nat :: j < r.value ==> !OccursAt(s, p, j)
  {
    FindFrom(s, p, 0)
  }

  function RFindAtOrBelow(s: string, p: string, i: nat): (r: Option<nat>)
    ensures r.Some? ==> r.value <= i && OccursAt(s, p, r.value)
    ensures r.Some? ==> forall j: nat :: r.value < j <= i ==> !OccursAt(s, p, j)
    ensures r.None? ==> forall j: nat :: j <= i ==> !OccursAt(s, p, j)
  {
    if OccursAt(s, p, i) then Some(i)
    else if i == 0 then None
    else RFindAtOrBelow(s, p, i - 1)
  }

  /** Python's `s.rfind(p)`: the last index where `p` occurs, `None` for -1. */
  function RFind(s: string, p: string): (r: Option<nat>)
    ensures r.Some? <==> Contains(s, p)
    ensures r.Some? ==> OccursAt(s, p, r.value)
    ensures r.Some? ==> forall j: nat :: r.value < j ==> !OccursAt(s, p, j)
  {
    if |p| > |s| then None else RFindAtOrBelow(s, p, |s| - |p|)
  }

  /** Python's `s.split(sep)` for a non-empty separator. */
  function Split(s: string, sep: string): (parts: seq<string>)
    requires |sep| > 0
    ensures |parts| > 0
    decreases |s|
  {
    match Find(s, sep)
    case None => [s]
    case Some(i) => [s[..i]] + Split(s[i + |sep|..], sep)
  }

  /** No piece of a split contains the separator. */
  lemma {:induction false} SplitPartsFree(s: string, sep: string)
    requires |sep| > 0
    ensures forall k :: 0 <= k < |Split(s, sep)| ==> !Contains(Split(s, sep)[k], sep)
    decreases |s|
  {
    match Find(s, sep)
    case None =>
    case Some(i) =>
      SplitAt(s, sep, i);
      PrefixBeforeFirst(s, sep, i);
      SplitPartsFree(s[i + |sep|..], sep);
  }

  /** The text before the first occurrence of `p` does not contain `p`. */
  lemma PrefixBeforeFirst(s: string, p: string, i: nat)
    requires |p| > 0 && i <= |s|
    requires forall j: nat :: j < i ==> !OccursAt(s, p, j)
    ensures !Contains(s[..i], p)
  {
    forall j: nat | j <= i && OccursAt(s[..i], p, j)
      ensures false
    {
      assert s[..i][j..j + |p|] == s[j..j + |p|];
      assert OccursAt(s, p, j);
    }
  }

  /** Python's `sep.join(parts)`. */
  function Join(parts: seq<string>, sep: string): string {
    if |parts| == 0 then ""
    else if |parts| == 1 then parts[0]
    else parts[0] + sep + Join(parts[1..], sep)
  }

  /** Python's `s.replace(old, new)` for a non-empty `old`: left to right, non-overlapping. */
  function ReplaceAll(s: string, pat: string, rep: string): (r: string)
    requires |pat| > 0
    ensures !Contains(s, pat) ==> r == s
    decreases |s|
  {
    match Find(s, pat)
    case None => s
    case Some(i) => s[..i] + rep + ReplaceAll(s[i + |pat|..], pat, rep)
  }

  /** Python's `s.replace(old, new, 1)`; an empty `old` matches at index 0. */
  function ReplaceFirst(s: string, pat: string, rep: string): (r: string)
    ensures !Contains(s, pat) ==> r == s
  {
    match Find(s, pat)
    case None => s
    case Some(i) => s[..i] + rep + s[i + |pat|..]
  }

  lemma {:induction false} SplitJoinRoundTrip(s: string, sep: string)
    requires |sep| > 0
    ensures Join(Split(s, sep), sep) == s
    decreases |s|
  {
    match Find(s, sep)
    case None =>
    case Some(i) =>
      var rest := s[i + |sep|..];
      SplitJoinRoundTrip(rest, sep);
      assert Split(s, sep) == [s[..i]] + Split(rest, sep);
      assert s == s[..i] + sep + rest by {
        assert s[i..i + |sep|] == sep;
      }
  }

  /** Replacing every occurrence of `pat` is splitting on it and joining with `rep`. */
  lemma {:induction false} ReplaceAllIsSplitJoin(s: string, pat: string, rep: string)
    requires |pat| > 0
    ensures ReplaceAll(s, pat, rep) == Join(Split(s, pat), rep)
    decreases |s|
  {
    match Find(s, pat)
    case None =>
    case Some(i) =>
      var rest := s[i + |pat|..];
      ReplaceAllIsSplitJoin(rest, pat, rep);
      assert Split(s, pat) == [s[..i]] + Split(rest, pat);
  }

  /** `split` yields a single part exactly when the separator does not occur. */
  lemma SplitOnePart(s: string, sep: string)
    requires |sep| > 0
    ensures |Split(s, sep)| == 1 <==> !Contains(s, sep)
    ensures !Contains(s, sep) ==> Split(s, sep) == [s]
  {
  }

  /** A one-character separator occurs exactly where that character is. */
  lemma OccursChar(s: string, c: char, j: nat)
    ensures OccursAt(s, [c], j) <==> j < |s| && s[j] == c
  {
    if j < |s| && s[j] == c {
      assert s[j..j + 1] == [c];
    }
  }

  /** The first occurrence of `c` in `p + [c] + t`, when `p` has none, is at `|p|`. */
  lemma FindAfterPrefix(p: string, c: char, t: string)
    requires c !in p
    ensures Find(p + [c] + t, [c]) == Some(|p|)
  {
    var s := p + [c] + t;
    OccursChar(s, c, |p|);
    forall j: nat | j < |p|
      ensures !OccursAt(s, [c], j)
    {
      OccursChar(s, c, j);
      assert s[j] == p[j];
    }
  }

  /**
   * Splitting on a one-character separator undoes joining with it, when no
   * part contains the separator.
   */
  lemma {:induction false} JoinSplitRoundTrip(parts: seq<string>, c: char)
    requires |parts| > 0
    requires forall k :: 0 <= k < |parts| ==> c !in parts[k]
    ensures Split(Join(parts, [c]), [c]) == parts
    decreases |parts|
  {
    if |parts| == 1 {
      NoCharSplit(parts[0], c);
    } else {
      JoinSplitRoundTrip(parts[1..], c);
      JoinCons(parts, [c]);
      ConsSplit(parts[0], c, Join(parts[1..], [c]));
      assert parts == [parts[0]] + parts[1..];
    }
  }

  /** Joining a longer list: the first part, the separator, the rest joined. */
  lemma JoinCons(parts: seq<string>, sep: string)
    requires |parts| > 1
    ensures Join(parts, sep) == parts[0] + sep + Join(parts[1..], sep)
  {
  }

  /** A first piece without the separator comes off first. */
  lemma ConsSplit(p: string, c: char, t: string)
    requires c !in p
    ensures Split(p + [c] + t, [c]) == [p] + Split(t, [c])
  {
    FindAfterPrefix(p, c, t);
    SplitAt(p + [c] + t, [c], |p|);
    PrefixSlices(p, c, t);
  }

  lemma PrefixSlices(p: string, c: char, t: string)
    ensures (p + [c] + t)[..|p|] == p
    ensures (p + [c] + t)[|p| + 1..] == t
  {
  }

  /** The first occurrence in `x` stays the first when text is appended. */
  lemma FindInPrefix(x: string, t: string, p: string)
    requires Find(x, p).Some?
    ensures Find(x + t, p) == Find(x, p)
  {
    var i := Find(x, p).value;
    var s := x + t;
    assert s[i..i + |p|] == x[i..i + |p|];
    assert OccursAt(s, p, i);
    forall j: nat | j < i ensures !OccursAt(s, p, j) {
      assert !OccursAt(x, p, j);
      assert s[j..j + |p|] == x[j..j + |p|];
    }
    var v := Find(s, p).value;
    assert !(v > i);
  }

  /**
   * Splitting `x + [c] + y` on `c`, when `y` has no `c`, gives the pieces of
   * `x` and then `y`: the last piece is `y`.
   */
  lemma {:induction false} SplitSnoc(x: string, c: char, y: string)
    requires c !in y
    ensures Split(x + [c] + y, [c]) == Split(x, [c]) + [y]
    decreases |x|
  {
    match Find(x, [c])
    case None =>
      SplitSnocNoSep(x, c, y);
    case Some(i) =>
      SplitSnoc(x[i + 1..], c, y);
      SplitSnocStep(x, c, y, i);
  }

  /** `x` has no separator: the pieces are `x` and `y`. */
  lemma SplitSnocNoSep(x: string, c: char, y: string)
    requires c !in y && Find(x, [c]).None?
    ensures Split(x + [c] + y, [c]) == Split(x, [c]) + [y]
  {
    var s := x + [c] + y;
    NoCharSplit(y, c);
    NoCharFind(x, c);
    NoCharSplit(x, c);
    FindAfterPrefix(x, c, y);
    assert s[..|x|] == x && s[|x| + 1..] == y;
  }

  /** The first separator of `x` is the first of `x + [c] + y`, so the split goes on after it. */
  lemma SplitSnocStep(x: string, c: char, y: string, i: nat)
    requires Find(x, [c]) == Some(i)
    requires Split(x[i + 1..] + [c] + y, [c]) == Split(x[i + 1..], [c]) + [y]
    ensures Split(x + [c] + y, [c]) == Split(x, [c]) + [y]
  {
    SnocFind(x, c, y, i);
    SplitAt(x + [c] + y, [c], i);
    SplitAt(x, [c], i);
    SnocSlices(x, c, y, i);
    ConsSnoc(x[..i], Split(x[i + 1..], [c]), y);
  }

  lemma SnocFind(x: string, c: char, y: string, i: nat)
    requires Find(x, [c]) == Some(i)
    ensures Find(x + [c] + y, [c]) == Some(i)
  {
    assert x + [c] + y == x + ([c] + y);
    FindInPrefix(x, [c] + y, [c]);
  }

  /** Splitting at the first separator. */
  lemma {:induction false} SplitAt(s: string, sep: string, i: nat)
    requires |sep| > 0 && Find(s, sep) == Some(i)
    ensures Split(s, sep) == [s[..i]] + Split(s[i + |sep|..], sep)
  {
  }

  lemma SnocSlices(x: string, c: char, y: string, i: nat)
    requires i < |x|
    ensures (x + [c] + y)[..i] == x[..i]
    ensures (x + [c] + y)[i + 1..] == x[i + 1..] + [c] + y
  {
  }

  lemma ConsSnoc(a: string, b: seq<string>, y: string)
    ensures [a] + (b + [y]) == ([a] + b) + [y]
  {
  }

  lemma NoCharSplit(y: string, c: char)
    requires c !in y
    ensures Split(y, [c]) == [y]
  {
    forall j: nat | j <= |y| ensures !OccursAt(y, [c], j) {
      OccursChar(y, c, j);
    }
    SplitOnePart(y, [c]);
  }

  lemma NoCharFind(x: string, c: char)
    requires Find(x, [c]).None?
    ensures c !in x
  {
    forall j | 0 <= j < |x| ensures x[j] != c {
      OccursChar(x, c, j);
    }
  }

  /** Characters for which Python's `str.isspace()` holds; `str.strip()` removes them. */
  predicate IsSpace(c: char) {
    ('\U{9}' <= c <= '\U{D}') || ('\U{1C}' <= c <= '\U{20}')
    || c == '\U{85}' || c == '\U{A0}' || c == '\U{1680}'
    || ('\U{2000}' <= c <= '\U{200A}')
    || c == '\U{2028}' || c == '\U{2029}' || c == '\U{202F}' || c == '\U{205F}' || c == '\U{3000}'
  }

  function StripLeft(s: string): (r: string)
    ensures |r| <= |s| && r == s[|s| - |r|..]
    ensures |r| > 0 ==> !IsSpace(r[0])
    ensures forall k :: 0 <= k < |s| - |r| ==> IsSpace(s[k])
  {
    if |s| > 0 && IsSpace(s[0]) then StripLeft(s[1..]) else s
  }

  function StripRight(s: string): (r: string)
    ensures |r| <= |s| && r == s[..|r|]
    ensures |r| > 0 ==> !IsSpace(r[|r| - 1])
    ensures forall k :: |r| <= k < |s| ==> IsSpace(s[k])
  {
    if |s| > 0 && IsSpace(s[|s| - 1]) then StripRight(s[..|s| - 1]) else s
  }

  /** Python's `s.strip()`. */
  function Strip(s: string): (r: string)
  {
    StripRight(StripLeft(s))
  }

  /**
   * `strip` removes exactly a run of whitespace at each end: the input is
   * the result with whitespace before and after, and the result neither
   * begins nor ends with whitespace.
   */
  lemma StripShape(s: string)
    ensures exists a: nat, b: nat ::
              && a <= b <= |s| && Strip(s) == s[a..b]
              && (forall k :: 0 <= k < a ==> IsSpace(s[k]))
              && (forall k :: b <= k < |s| ==> IsSpace(s[k]))
    ensures |Strip(s)| > 0 ==> !IsSpace(Strip(s)[0]) && !IsSpace(Strip(s)[|Strip(s)| - 1])
  {
    var l := StripLeft(s);
    var r := StripRight(l);
    var a := |s| - |l|;
    var b := a + |r|;
    assert r == s[a..b];
    if |r| > 0 {
      assert r[0] == l[0];
    }
  }

  /** Stripping twice is stripping once. */
  lemma StripIdempotent(s: string)
    ensures Strip(Strip(s)) == Strip(s)
  {
    StripShape(s);
    var t := Strip(s);
    if |t| > 0 {
      assert StripLeft(t) == t;
      assert StripRight(t) == t;
    }
  }

  function DigitChar(d: nat): char
    requires d < 10
  {
    "0123456789"[d]
  }

  function NatToString(n: nat): (r: string)
    ensures |r| > 0
    ensures forall k :: 0 <= k < |r| ==> '0' <= r[k] <= '9'
  {
    if n < 10 then [DigitChar(n)] else NatToString(n / 10) + [DigitChar(n % 10)]
  }

  /** Python's `str(i)` for an integer. */
  function IntToString(i: int): string {
    if i < 0 then "-" + NatToString(-i) else NatToString(i)
  }
}

=== FILE: trees.dfy ===
/**
 * Traversals shared by the passes of the enrichment engine that change
 * every node of a tree on its own: a pure pass, and passes that can fail
 * and stop at the first failing node in pre-order or in post-order
 * (the order in which the Python recursion visits the nodes).
 */
module Trees {
  import opened Results
  import opened Json

  /**
   * `b` is `a` with `f` applied to the fields of every node, node by node in
   * pre-order, and with every node keeping its number of children.
   */
  ghost predicate Pointwise(a: seq<Node>, b: seq<Node>, f: Fields -> Fields) {
    && |a| == |b|
    && (forall i :: 0 <= i < |a| ==> b[i].fields == f(a[i].fields))
    && (forall i :: 0 <= i < |a| ==> |b[i].children| == |a[i].children|)
  }

  ghost predicate PointwiseOk(a: seq<Node>, b: seq<Node>, f: Fields -> Result<Fields>) {
    && |a| == |b|
    && (forall i :: 0 <= i < |a| ==> f(a[i].fields) == Ok(b[i].fields))
    && (forall i :: 0 <= i < |a| ==> |b[i].children| == |a[i].children|)
  }

  /** Every node's fields are accepted by `f`. */
  ghost predicate AllOk(a: seq<Node>, f: Fields -> Result<Fields>) {
    forall i :: 0 <= i < |a| ==> f(a[i].fields).Ok?
  }

  /** `f` applied to the fields of every node. */
  function MapFields(n: Node, f: Fields -> Fields): (r: Node)
    ensures r.fields == f(n.fields)
    decreases n, 1
  {
    Node(f(n.fields), MapAll(n.children, f))
  }

  function MapAll(ns: seq<Node>, f: Fields -> Fields): (r: seq<Node>)
    ensures |r| == |ns|
    ensures forall i :: 0 <= i < |ns| ==> r[i] == MapFields(ns[i], f)
    decreases ns, 0
  {
    if |ns| == 0 then [] else [MapFields(ns[0], f)] + MapAll(ns[1..], f)
  }

  /** `f` applied node by node, stopping at the first failure in pre-order (parent before children). */
  function TryMapPre(n: Node, f: Fields -> Result<Fields>): (r: Result<Node>)
    decreases n, 1
  {
    var fs :- f(n.fields);
    var cs :- TryMapAllPre(n.children, f);
    Ok(Node(fs, cs))
  }

  function TryMapAllPre(ns: seq<Node>, f: Fields -> Result<Fields>): (r: Result<seq<Node>>)
    decreases ns, 0
  {
    if |ns| == 0 then Ok([])
    else
      var c :- TryMapPre(ns[0], f);
      var cs :- TryMapAllPre(ns[1..], f);
      Ok([c] + cs)
  }

  /** `f` applied node by node, stopping at the first failure in post-order (children before parent). */
  function TryMapPost(n: Node, f: Fields -> Result<Fields>): (r: Result<Node>)
    decreases n, 1
  {
    var cs :- TryMapAllPost(n.children, f);
    var fs :- f(n.fields);
    Ok(Node(fs, cs))
  }

  function TryMapAllPost(ns: seq<Node>, f: Fields -> Result<Fields>): (r: Result<seq<Node>>)
    decreases ns, 0
  {
    if |ns| == 0 then Ok([])
    else
      var c :- TryMapPost(ns[0], f);
      var cs :- TryMapAllPost(ns[1..], f);
      Ok([c] + cs)
  }

  lemma PointwiseAppend(a1: seq<Node>, b1: seq<Node>, a2: seq<Node>, b2: seq<Node>, f: Fields -> Fields)
    requires Pointwise(a1, b1, f) && Pointwise(a2, b2, f)
    ensures Pointwise(a1 + a2, b1 + b2, f)
  {
  }

  lemma PointwiseOkAppend(a1: seq<Node>, b1: seq<Node>, a2: seq<Node>, b2: seq<Node>, f: Fields -> Result<Fields>)
    requires PointwiseOk(a1, b1, f) && PointwiseOk(a2, b2, f)
    ensures PointwiseOk(a1 + a2, b1 + b2, f)
  {
  }

  lemma AllOkAppend(a1: seq<Node>, a2: seq<Node>, f: Fields -> Result<Fields>)
    ensures AllOk(a1 + a2, f) <==> AllOk(a1, f) && AllOk(a2, f)
  {
    if AllOk(a1, f) && AllOk(a2, f) {
      forall i | 0 <= i < |a1 + a2|
        ensures f((a1 + a2)[i].fields).Ok?
      {
        if i >= |a1| {
          assert (a1 + a2)[i] == a2[i - |a1|];
        }
      }
    }
    if AllOk(a1 + a2, f) {
      forall i | 0 <= i < |a1|
        ensures f(a1[i].fields).Ok?
      {
        assert (a1 + a2)[i] == a1[i];
      }
      forall i | 0 <= i < |a2|
        ensures f(a2[i].fields).Ok?
      {
        assert (a1 + a2)[|a1| + i] == a2[i];
      }
    }
  }

  /** The pure pass changes every node's fields by `f` and nothing else. */
  lemma {:induction false} MapFieldsPointwise(n: Node, f: Fields -> Fields)
    ensures Pointwise(Flatten(n), Flatten(MapFields(n, f)), f)
    decreases n, 1
  {
    MapAllPointwise(n.children, f);
    PointwiseAppend([n], [MapFields(n, f)], FlattenAll(n.children), FlattenAll(MapAll(n.children, f)), f);
  }

  lemma {:induction false} MapAllPointwise(ns: seq<Node>, f: Fields -> Fields)
    ensures Pointwise(FlattenAll(ns), FlattenAll(MapAll(ns, f)), f)
    decreases ns, 0
  {
    if |ns| > 0 {
      var m := MapAll(ns, f);
      assert m[1..] == MapAll(ns[1..], f);
      MapFieldsPointwise(ns[0], f);
      MapAllPointwise(ns[1..], f);
      PointwiseAppend(Flatten(ns[0]), Flatten(m[0]), FlattenAll(ns[1..]), FlattenAll(m[1..]), f);
    }
  }

  /**
   * The pre-order pass succeeds exactly when `f` accepts every node, and
   * then changes every node's fields by `f` and nothing else.
   */
  lemma {:induction false} TryMapPrePointwise(n: Node, f: Fields -> Result<Fields>)
    ensures TryMapPre(n, f).Ok? <==> AllOk(Flatten(n), f)
    ensures TryMapPre(n, f).Ok? ==> PointwiseOk(Flatten(n), Flatten(TryMapPre(n, f).value), f)
    decreases n, 1
  {
    TryMapAllPrePointwise(n.children, f);
    AllOkAppend([n], FlattenAll(n.children), f);
    if TryMapPre(n, f).Ok? {
      var r := TryMapPre(n, f).value;
      PointwiseOkAppend([n], [r], FlattenAll(n.children), FlattenAll(r.children), f);
    }
  }

  lemma {:induction false} TryMapAllPrePointwise(ns: seq<Node>, f: Fields -> Result<Fields>)
    ensures TryMapAllPre(ns, f).Ok? <==> AllOk(FlattenAll(ns), f)
    ensures TryMapAllPre(ns, f).Ok? ==> |TryMapAllPre(ns, f).value| == |ns|
    ensures TryMapAllPre(ns, f).Ok? ==> PointwiseOk(FlattenAll(ns), FlattenAll(TryMapAllPre(ns, f).value), f)
    decreases ns, 0
  {
    if |ns| > 0 {
      TryMapPrePointwise(ns[0], f);
      TryMapAllPrePointwise(ns[1..], f);
      AllOkAppend(Flatten(ns[0]), FlattenAll(ns[1..]), f);
      if TryMapAllPre(ns, f).Ok? {
        var m := TryMapAllPre(ns, f).value;
        assert m[0] == TryMapPre(ns[0], f).value;
        assert m[1..] == TryMapAllPre(ns[1..], f).value;
        PointwiseOkAppend(Flatten(ns[0]), Flatten(m[0]), FlattenAll(ns[1..]), FlattenAll(m[1..]), f);
      }
    }
  }

  /** A successful pass over siblings is the pass over each sibling on its own. */
  lemma {:induction false} TryMapAllPreEach(ns: seq<Node>, f: Fields -> Result<Fields>)
    requires TryMapAllPre(ns, f).Ok?
    ensures |TryMapAllPre(ns, f).value| == |ns|
    ensures forall i :: 0 <= i < |ns| ==> TryMapPre(ns[i], f) == Ok(TryMapAllPre(ns, f).value[i])
    decreases |ns|
  {
    if |ns| > 0 {
      TryMapAllPreEach(ns[1..], f);
      var m := TryMapAllPre(ns, f).value;
      assert m[1..] == TryMapAllPre(ns[1..], f).value;
      forall i | 0 < i < |ns| ensures TryMapPre(ns[i], f) == Ok(m[i]) {
        assert ns[i] == ns[1..][i - 1] && m[i] == m[1..][i - 1];
      }
    }
  }

  /** `f` accepts every node under a list of siblings exactly when it accepts every node of each sibling's tree. */
  lemma {:induction false} AllOkFlattenAll(ns: seq<Node>, f: Fields -> Result<Fields>)
    ensures AllOk(FlattenAll(ns), f) <==> forall i :: 0 <= i < |ns| ==> AllOk(Flatten(ns[i]), f)
    decreases |ns|
  {
    if |ns| > 0 {
      AllOkFlattenAll(ns[1..], f);
      AllOkAppend(Flatten(ns[0]), FlattenAll(ns[1..]), f);
      assert forall i :: 0 < i < |ns| ==> ns[i] == ns[1..][i - 1];
    }
  }

  /** The same two facts for the post-order pass. */
  lemma {:induction false} TryMapPostPointwise(n: Node, f: Fields -> Result<Fields>)
    ensures TryMapPost(n, f).Ok? <==> AllOk(Flatten(n), f)
    ensures TryMapPost(n, f).Ok? ==> PointwiseOk(Flatten(n), Flatten(TryMapPost(n, f).value), f)
    decreases n, 1
  {
    TryMapAllPostPointwise(n.children, f);
    AllOkAppend([n], FlattenAll(n.children), f);
    if TryMapPost(n, f).Ok? {
      var r := TryMapPost(n, f).value;
      PointwiseOkAppend([n], [r], FlattenAll(n.children), FlattenAll(r.children), f);
    }
  }

  lemma {:induction false} TryMapAllPostPointwise(ns: seq<Node>, f: Fields -> Result<Fields>)
    ensures TryMapAllPost(ns, f).Ok? <==> AllOk(FlattenAll(ns), f)
    ensures TryMapAllPost(ns, f).Ok? ==> |TryMapAllPost(ns, f).value| == |ns|
    ensures TryMapAllPost(ns, f).Ok? ==> PointwiseOk(FlattenAll(ns), FlattenAll(TryMapAllPost(ns, f).value), f)
    decreases ns, 0
  {
    if |ns| > 0 {
      TryMapPostPointwise(ns[0], f);
      TryMapAllPostPointwise(ns[1..], f);
      AllOkAppend(Flatten(ns[0]), FlattenAll(ns[1..]), f);
      if TryMapAllPost(ns, f).Ok? {
        var m := TryMapAllPost(ns, f).value;
        assert m[0] == TryMapPost(ns[0], f).value;
        assert m[1..] == TryMapAllPost(ns[1..], f).value;
        PointwiseOkAppend(Flatten(ns[0]), Flatten(m[0]), FlattenAll(ns[1..]), FlattenAll(m[1..]), f);
      }
    }
  }
}

=== FILE: usi_utils.dfy ===
/**
 * code/usi_utils.py: file-scoped USIs of the form `mzspec:<dataset>:<file>`,
 * built from a file name and a dataset id, or cut down from a full USI.
 */
module UsiUtils {
  import opened Results
  import opened Json
  import opened Strs

  // ---------------------------------------------------------------------
  // Path(filename).stem on a POSIX path
  // ---------------------------------------------------------------------

  /** The path's components: the `/`-separated pieces other than empty ones and `.`. */
  function Components(pieces: seq<string>): (r: seq<string>)
    ensures forall k :: 0 <= k < |r| ==> r[k] in pieces && r[k] != "" && r[k] != "."
  {
    if |pieces| == 0 then []
    else
      var rest := Components(pieces[1..]);
      if pieces[0] == "" || pieces[0] == "." then rest else [pieces[0]] + rest
  }

  /** `Path(s).name`: the last component, or the empty string when there is none. */
  function Name(s: string): (r: string)
    ensures '/' !in r
  {
    SplitPartsFree(s, "/");
    var cs := Components(Split(s, "/"));
    if |cs| == 0 then ""
    else
      var last := cs[|cs| - 1];
      forall k | 0 <= k < |last| ensures last[k] != '/' {
        OccursChar(last, '/', k);
      }
      last
  }

  /** `Path(s).stem`: the name without its last suffix, a suffix being a final `.x` that does not start the name. */
  function Stem(s: string): (r: string)
    ensures '/' !in r
    ensures StartsWith(Name(s), r)
    ensures r != Name(s) ==> |r| > 0 && Name(s)[|r|] == '.' && |r| + 1 < |Name(s)|
  {
    var name := Name(s);
    match RFind(name, ".")
    case Some(i) =>
      if 0 < i < |name| - 1 then
        assert name[i..i + 1] == ".";
        name[..i]
      else name
    case None => name
  }

  /** A name without a dot or with only a leading dot has no suffix. */
  lemma StemWithoutSuffix(s: string)
    requires forall k :: 0 < k < |Name(s)| - 1 ==> Name(s)[k] != '.'
    ensures Stem(s) == Name(s)
  {
    var name := Name(s);
    match RFind(name, ".")
    case Some(i) =>
      OccursChar(name, '.', i);
    case None =>
  }

  const Prefix := "mzspec:"

  /** A file USI with colon-free parts splits back into them. */
  lemma UsiSplit(d: string, f: string)
    ensures ':' !in d && ':' !in f ==> Split(Prefix + d + ":" + f, ":") == ["mzspec", d, f]
  {
    if ':' !in d && ':' !in f {
      assert ["mzspec", d, f][1..] == [d, f];
      assert [d, f][1..] == [f];
      assert Join([d, f], ":") == d + ":" + f;
      assert Prefix == "mzspec" + ":";
      assert Prefix + d + ":" + f == "mzspec" + ":" + (d + ":" + f);
      JoinSplitRoundTrip(["mzspec", d, f], ':');
    }
  }

  // ---------------------------------------------------------------------
  // create_simple_file_usi
  // ---------------------------------------------------------------------

  /**
   * `create_simple_file_usi`: the file's stem must not be empty (checked
   * first), nor the dataset.
   */
  function CreateSimpleFileUsi(filename: string, dataset: string): (r: Result<string>)
    ensures Stem(filename) == "" ==> r == Err(ValueError("Filename is empty"))
    ensures Stem(filename) != "" && dataset == "" ==> r == Err(ValueError("Dataset is empty"))
    ensures r.Ok? <==> Stem(filename) != "" && dataset != ""
    ensures r.Ok? ==> StartsWith(r.value, Prefix)
    ensures r.Ok? && ':' !in dataset && ':' !in Stem(filename) ==>
              Split(r.value, ":") == ["mzspec", dataset, Stem(filename)]
  {
    var stem := Stem(filename);
    if stem == "" then Err(ValueError("Filename is empty"))
    else if dataset == "" then Err(ValueError("Dataset is empty"))
    else
      var u := Prefix + dataset + ":" + stem;
      assert u[..|Prefix|] == Prefix;
      UsiSplit(dataset, stem);
      Ok(u)
  }

  // ---------------------------------------------------------------------
  // ensure_simple_file_usi
  // ---------------------------------------------------------------------

  /** The part of a USI before the last `:scan`, or all of it. */
  function BeforeScan(usi: string): (r: string)
    ensures StartsWith(usi, r)
    ensures !Contains(usi, ":scan") ==> r == usi
  {
    match RFind(usi, ":scan")
    case Some(i) => usi[..i]
    case None => usi
  }

  /** The `:`-separated elements that `ensure_simple_file_usi` keeps its parts from. */
  function Elements(usi: string): (r: seq<string>)
    ensures |r| > 0
    ensures forall k :: 0 <= k < |r| ==> ':' !in r[k]
  {
    var es := Split(BeforeScan(usi), ":");
    SplitPartsFree(BeforeScan(usi), ":");
    forall k, j | 0 <= k < |es| && 0 <= j < |es[k]|
      ensures es[k][j] != ':'
    {
      OccursChar(es[k], ':', j);
    }
    es
  }

  /**
   * `ensure_simple_file_usi`: the dataset (second element) and the file
   * (last element) of the USI with any scan part removed; fewer than two
   * elements raise `IndexError`.
   */
  function EnsureSimpleFileUsi(usi: string): (r: Result<string>)
    ensures r.Ok? <==> Contains(BeforeScan(usi), ":")
    ensures r.Err? ==> r.error == IndexError
    ensures r.Ok? ==> StartsWith(r.value, Prefix)
    ensures r.Ok? ==> Split(r.value, ":") == ["mzspec", Elements(usi)[1], Elements(usi)[|Elements(usi)| - 1]]
  {
    var es := Elements(usi);
    SplitOnePart(BeforeScan(usi), ":");
    if |es| < 2 then Err(IndexError)
    else
      var u := Prefix + es[1] + ":" + es[|es| - 1];
      assert u[..|Prefix|] == Prefix;
      UsiSplit(es[1], es[|es| - 1]);
      Ok(u)
  }

  /** Any result of `ensure_simple_file_usi` is a three-element USI, which is the value's only reading. */
  lemma EnsureResultShape(usi: string)
    requires EnsureSimpleFileUsi(usi).Ok?
    ensures var es := Elements(usi);
      EnsureSimpleFileUsi(usi).value == Prefix + es[1] + ":" + es[|es| - 1]
  {
    var es := Elements(usi);
    var u := EnsureSimpleFileUsi(usi).value;
    SplitJoinRoundTrip(u, ":");
    assert Join(["mzspec", es[1], es[|es| - 1]], ":") == Prefix + es[1] + ":" + es[|es| - 1];
  }

  /** `mzspec:D:F` with colon-free D and F and no `:scan` maps to itself. */
  lemma EnsureFixpoint(d: string, f: string)
    requires ':' !in d && ':' !in f
    requires !Contains(Prefix + d + ":" + f, ":scan")
    ensures EnsureSimpleFileUsi(Prefix + d + ":" + f) == Ok(Prefix + d + ":" + f)
  {
    var u := Prefix + d + ":" + f;
    UsiSplit(d, f);
    assert Elements(u) == ["mzspec", d, f];
    SplitOnePart(u, ":");
  }

  /** Cutting down a result again changes nothing, unless the result itself holds `:scan`. */
  lemma EnsureIdempotent(usi: string)
    requires EnsureSimpleFileUsi(usi).Ok?
    requires !Contains(EnsureSimpleFileUsi(usi).value, ":scan")
    ensures EnsureSimpleFileUsi(EnsureSimpleFileUsi(usi).value) == EnsureSimpleFileUsi(usi)
  {
    var es := Elements(usi);
    EnsureResultShape(usi);
    EnsureFixpoint(es[1], es[|es| - 1]);
  }

  /** A USI built by `create_simple_file_usi` passes `ensure_simple_file_usi` unchanged. */
  lemma CreateThenEnsure(filename: string, dataset: string)
    requires CreateSimpleFileUsi(filename, dataset).Ok?
    requires ':' !in dataset && ':' !in Stem(filename)
    requires !Contains(CreateSimpleFileUsi(filename, dataset).value, ":scan")
    ensures EnsureSimpleFileUsi(CreateSimpleFileUsi(filename, dataset).value) == CreateSimpleFileUsi(filename, dataset)
  {
    EnsureFixpoint(dataset, Stem(filename));
  }

  // ---------------------------------------------------------------------
  // create_file_usi_column
  // ---------------------------------------------------------------------

  /** A USI cell: only text has the `split` the function calls. */
  function UsiCell(v: Value): (r: Result<string>)
    ensures v.Str? ==> r == EnsureSimpleFileUsi(v.s)
    ensures !v.Str? ==> r == Err(AttributeError)
  {
    if v.Str? then EnsureSimpleFileUsi(v.s) else Err(AttributeError)
  }

  /**
   * A dataset cell as `create_simple_file_usi` sees it: the empty string
   * stands for a false value (`""`, `0`, `False`), a null cell is the
   * truthy `nan`, and a float, list or object is not given a text form.
   */
  function DatasetText(v: Value): (r: Result<string>)
    ensures r.Ok? <==> !(v.Real? || v.List? || v.Obj?)
    ensures v.Str? ==> r == Ok(v.s)
    ensures v == Null ==> r == Ok("nan")
  {
    match v
    case Str(s) => Ok(s)
    case Null => Ok("nan")
    case Int(i) => Ok(if i == 0 then "" else IntToString(i))
    case Bool(b) => Ok(if b then "True" else "")
    case _ => Err(TypeError)
  }

  /** A filename/dataset pair; `Path()` of a non-text filename raises `TypeError`. */
  function FileCells(f: Value, d: Value): (r: Result<string>)
    ensures !f.Str? ==> r == Err(TypeError)
    ensures f.Str? && d.Str? ==> r == CreateSimpleFileUsi(f.s, d.s)
  {
    if !f.Str? then Err(TypeError)
    else
      var ds :- DatasetText(d);
      CreateSimpleFileUsi(f.s, ds)
  }

  /** `f` applied to every row in order, stopping at the first failure. */
  function MapRows(rows: seq<Row>, f: Row -> Result<string>): (r: Result<seq<string>>)
    ensures r.Ok? <==> forall i :: 0 <= i < |rows| ==> f(rows[i]).Ok?
    ensures r.Ok? ==> |r.value| == |rows| && forall i :: 0 <= i < |rows| ==> f(rows[i]) == Ok(r.value[i])
  {
    if |rows| == 0 then Ok([])
    else
      var first :- f(rows[0]);
      var rest :- MapRows(rows[1..], f);
      assert forall i :: 1 <= i < |rows| ==> rows[i] == rows[1..][i - 1];
      Ok([first] + rest)
  }

  /**
   * `create_file_usi_column`: the new `file_usi` column, one value per row
   * in row order, taken from the USI column when the table has one and
   * otherwise from the filename and dataset columns, whose absence is
   * reported in that order.
   */
  function CreateFileUsiColumn(columns: seq<string>, rows: seq<Row>,
                               usiCol: string, datasetCol: string, filenameCol: string): (r: Result<seq<string>>)
    ensures usiCol in columns ==> r == MapRows(rows, row => UsiCell(Cell(row, usiCol)))
    ensures usiCol !in columns && filenameCol !in columns ==> r == Err(ValueError("Missing Filename column"))
    ensures usiCol !in columns && filenameCol in columns && datasetCol !in columns ==>
              r == Err(ValueError("Missing MassIVE column for datasets"))
    ensures usiCol !in columns && filenameCol in columns && datasetCol in columns ==>
              r == MapRows(rows, row => FileCells(Cell(row, filenameCol), Cell(row, datasetCol)))
    ensures r.Ok? ==> |r.value| == |rows| && forall k :: 0 <= k < |r.value| ==> StartsWith(r.value[k], Prefix)
  {
    if usiCol in columns then
      var out := MapRows(rows, row => UsiCell(Cell(row, usiCol)));
      out
    else if filenameCol !in columns then Err(ValueError("Missing Filename column"))
    else if datasetCol !in columns then Err(ValueError("Missing MassIVE column for datasets"))
    else
      MapRows(rows, row => FileCells(Cell(row, filenameCol), Cell(row, datasetCol)))
  }
}
